=== FILE: README.md ===
# brandscene core in Dafny

brandscene turns a brand brief (brand name, product, description, brand values, image
dimensions) into four AI-generated product scenes. It shows them in a 3D carousel, in a
flat fallback carousel or as cards, and exports them as downloads or a ZIP. This project
models the logic that runs between the network and the screen. Each part is written as
immutable datatypes and pure functions, and each carries contracts proved about it.

- **3D carousel.** The motion state machine (`CarouselMechanics`) covers ring layout,
  next/previous with wrap-around, the clamped per-frame animation step, touch
  drag-and-snap and keyboard dispatch. The Three.js carousel (`ThreeCarousel`) covers card
  assembly, the scene graph it rebuilds, click picking by walking up the parent links, and the
  indicators. The texture cache and mesh factory (`ThreeObjects`) are modelled, and so
  is the single card with its loading, error and textured materials (`SceneCard3D`).
- **DOM carousels and the keyboard wrapper.** `Simple3DCarousel`, `FallbackCarousel`,
  `SceneCarousel` and `KeyboardNavigation` are modelled, each with its index arithmetic
  and card roles.
- **Reducers and the hooks over them.** The application reducer (`AppContext`), the
  toast queue (`ToastContext`), the form hook (`UseForm`), the export hook (`UseExport`)
  and the performance hooks (`UsePerformance`).
- **Validators and string builders.** File and brand validation (`Validation`), prompt
  and identifier builders (`FormHelpers`), and filename generation with the download
  queue (`ExportUtils`).
- **Errors and retry.** The error handler (`ErrorHandling`) and the error monitor
  (`ErrorMonitoring`) each have a classifier and statistics. The two image services
  (`Replicate`, `OpenAi`) have status maps, prompt builders, answer extraction, retry with
  backoff and the four-scene batch. The remaining pieces are the error boundary
  (`ErrorBoundary`), the performance monitor (`Performance`), the metadata overlay
  (`SceneMetadataOverlay`) and the results page (`ResultsPage`).

Shared building blocks:
- `Wrappers` holds `Option` and `Result`.
- `Types` holds the records of `src/types/index.ts` and the constants of `src/utils/constants.ts`.
- `JsStrings` holds JavaScript's `trim`, `split`, `join`, `includes`, `toLowerCase` and number-to-string.
- `JsMath` holds `%`, `Math.round`, `floor`, `ceil`, `sign`, `min`, `max` and `pow`, plus `Math.PI` as the exact value of the double.
- `JsSort` is the stable `Array.prototype.sort`.
- `OrderedMap` is an insertion-ordered `Map`.
- `PropertyKeys` is the order in which `Object.keys`, `values` and `entries` list a plain object's keys: array indices first, ascending, then the other keys in creation order.
- `RingIndex` holds wrap-around index arithmetic.
- `Three` holds the small part of the Three.js object model that the code touches.

The model takes the following things as parameters:
- **Time and randomness.** Clock readings, random id parts and random seeds.
- **Loads and requests.** The outcome of every texture load and HTTP request.
- **Raycasting.** The list of objects a raycast hits.
- **Trigonometry.** Cosine and sine, as a `Trig` record of two functions.

Real numbers stand in for JavaScript doubles. A drag snap has no momentum or flick
bias. The animation steps by `sign(diff) * min(|diff|, speed)` and
snaps below 0.01, which is not proportional easing. Textures have no reference counting
and concurrent loads of one URL are not de-duplicated. A picked card is the first hit
whose ancestors carry a truthy `sceneIndex`. Failed texture loads fall back to a grey
material, except in the standalone card, which has a separate error material.

## Model

| member | source | states |
|---|---|---|
| AppContext.PatchProject | src/context/AppContext.tsx:75-81 | `{ ...project, ...payload }`: every field the patch carries wins, every other field keeps the project's value |
| AppContext.PatchBrand | src/context/AppContext.tsx:87-97 | `{ ...brandInfo, ...payload }`: each of the five brand fields is the patch's when present, else the old one |
| AppContext.BrandUpdatesCompose | src/context/AppContext.tsx:87-97 | two UPDATE_BRAND_INFO actions in a row equal one whose patch is the two spread together, later fields winning |
| AppContext.PatchScene | src/context/AppContext.tsx:207-215 | `{ ...scene, ...updates }` for a scene: patched fields replaced, the rest kept |
| AppContext.MapMatching | src/context/AppContext.tsx:207-225 | the `map` over scenes: same length, and exactly the scenes with the id are patched, in place |
| AppContext.Reduce | src/context/AppContext.tsx:65-240 | the reducer: only CREATE_PROJECT, SET_CURRENT_PAGE and RESET_STATE move the page; only the form actions and RESET_STATE touch the form; an unknown action returns the state unchanged |
| AppContext.FormActions | src/context/AppContext.tsx:68-142 | each project, page and form action changes its own field and leaves the rest of the state equal; UPDATE_PROJECT with no project keeps `null` |
| AppContext.SetFormErrorOneKey | src/context/AppContext.tsx:117-127 | SET_FORM_ERROR adds or overwrites exactly the one field's message; every other error and every other part of the state is kept |
| AppContext.PatchRequest | src/context/AppContext.tsx:155-201 | a request patch leaves a missing request missing and applies the update to a present one |
| AppContext.StartGenerationEffect | src/context/AppContext.tsx:145-153 | START_GENERATION stores the request, clears the scenes and the error, raises loading, and does not change the page |
| AppContext.RequestActions | src/context/AppContext.tsx:155-201 | progress, completion and failure patch the request only when one exists (a missing request stays missing); completion sets status, 100 and the time, failure sets status, message, time and the global error |
| AppContext.SceneAndGlobalActions | src/context/AppContext.tsx:167-235 | ADD appends one scene, SET replaces the list, UPDATE and DOWNLOAD map over the list, SET_LOADING and SET_ERROR set their flag, RESET_STATE returns the initial state |
| AppContext.RunAddsAppends | src/context/AppContext.tsx:167-171 | a run of ADD_GENERATED_SCENE actions appends exactly those scenes, in order |
| AppContext.StartThenAdds | src/context/AppContext.tsx:145-171 | after START_GENERATION, the added scenes are the whole list, and the page never moves |
| AppContext.SceneUpdatesKeepIds | src/context/AppContext.tsx:207-225 | UPDATE_SCENE without an id in its patch, and DOWNLOAD_SCENE, keep the number, order and ids of the scenes |
| AppContext.DownloadStampsExactly | src/context/AppContext.tsx:217-225 | DOWNLOAD_SCENE stamps `downloadedAt` on every scene with that id and changes no other scene |
| AppContext.ResetsAbsorb | src/context/AppContext.tsx:138-142 | RESET_STATE after anything gives the initial state, and RESET_FORM on the initial state changes nothing |
| CarouselMechanics.ResolveConfig | src/hooks/useCarouselMechanics.ts:25-32 | each option the caller leaves out takes its default (radius 8, height 0, speed 0.02, no auto-rotation, drift 0.005), and each given option is used as given |
| CarouselMechanics.AngleStep | src/hooks/useCarouselMechanics.ts:47 | the step between cards is positive and `total` steps make one full turn of 2π |
| CarouselMechanics.SceneAngle | src/hooks/useCarouselMechanics.ts:46-48 | card i sits at i times the step; a card on the ring lies within one turn, at least 0 and below 2π, and a negative index gives a negative angle; the even spacing is SceneAnglesEvenlySpaced |
| CarouselMechanics.SceneAnglesEvenlySpaced | src/hooks/useCarouselMechanics.ts:46-48 | neighbouring cards are one step apart, card 0 sits at angle 0 and card `total` would close the turn |
| CarouselMechanics.ScenePosition | src/hooks/useCarouselMechanics.ts:46-58 | a card sits at the configured height, at radius·cos and radius·sin of its angle, turned by its angle plus π to face the centre, at unit scale |
| CarouselMechanics.ScenePositionOnRing | src/hooks/useCarouselMechanics.ts:46-58 | whenever cos² + sin² = 1 at the card's angle, the card lies on the circle of the configured radius |
| CarouselMechanics.ScenePositions | src/hooks/useCarouselMechanics.ts:61-65 | one pose per card, the pose of card i at index i; no cards give no poses |
| CarouselMechanics.RotateToScene | src/hooks/useCarouselMechanics.ts:68-78 | the target card becomes current, the target rotation is minus the card's angle, the animation flag follows `animate`, and the current angle is left for the animation |
| CarouselMechanics.Next | src/hooks/useCarouselMechanics.ts:81-84 | on a valid card, the next card is the following one and the last wraps to 0; the rotation starts towards it |
| CarouselMechanics.Prev | src/hooks/useCarouselMechanics.ts:87-90 | on a valid card, the previous card is the one before and card 0 wraps to the last; the rotation starts towards it |
| CarouselMechanics.NextPrevInverse | src/hooks/useCarouselMechanics.ts:81-90 | next and previous stay on the ring and undo each other |
| CarouselMechanics.HandleKeyDown | src/hooks/useCarouselMechanics.ts:141-160 | the arrows step back and forward, Home and End jump to the first and last card, other keys change nothing, and a valid card stays valid |
| CarouselMechanics.WindowKeyDownAsWritten | src/hooks/useCarouselMechanics.ts:205-214 | the window listener as written, with the ring size fixed at 4: End selects card 3, Home card 0, ArrowRight card (i + 1) mod 4, ArrowLeft card (i + 3) mod 4, each aiming the target at that card, and any other key changes nothing |
| CarouselMechanics.WindowKeyDownLeavesRing | src/hooks/useCarouselMechanics.ts:205-214 | with two cards, End through the window listener selects card 3, which does not exist |
| CarouselMechanics.WindowKeyDown | src/hooks/useCarouselMechanics.ts:205-214 | the corrected listener, given the real number of cards n: a valid card stays valid, End selects card n − 1, ArrowRight card (i + 1) mod n and ArrowLeft card (i + n − 1) mod n |
| CarouselMechanics.TouchStart | src/hooks/useCarouselMechanics.ts:93-101 | a one-finger touch records its point and the current angle; any other touch changes nothing |
| CarouselMechanics.TouchMove | src/hooks/useCarouselMechanics.ts:104-124 | a touch move without a recorded start, or with other than one finger, changes nothing; a mostly vertical move changes nothing; any other move sets the angle to the start angle plus 0.01 times the horizontal drag and marks the ring rotating; the gesture, the card and the target are always kept |
| CarouselMechanics.SnapIndex | src/hooks/useCarouselMechanics.ts:131-134 | the normalised nearest index always names a card of the ring, even for negative angles |
| CarouselMechanics.SnapIndexAtRest | src/hooks/useCarouselMechanics.ts:131-134 | a ring resting exactly at card k's target angle snaps to card k |
| CarouselMechanics.TouchEnd | src/hooks/useCarouselMechanics.ts:127-138 | without a recorded start nothing happens; otherwise it rotates to the nearest card and forgets the start point |
| CarouselMechanics.TouchEndSelectsRestingCard | src/hooks/useCarouselMechanics.ts:127-138 | a drag released at card k's angle selects card k and aims exactly where the ring already is |
| CarouselMechanics.Animate | src/hooks/useCarouselMechanics.ts:163-189 | one frame keeps the card and target; at rest it drifts by the auto-rotate speed or stays; closer than 0.01 it lands on the target and stops; otherwise it keeps rotating |
| CarouselMechanics.AnimateApproaches | src/hooks/useCarouselMechanics.ts:165-180 | a moving frame closes the gap by exactly min(distance, speed) and never overshoots the target |
| CarouselMechanics.AnimateReducesFramesLeft | src/hooks/useCarouselMechanics.ts:163-189 | every rotating frame strictly lowers the bound ⌈distance/speed⌉ + 1 on the frames left |
| CarouselMechanics.SettleFrames | src/hooks/useCarouselMechanics.ts:163-189 | with a positive speed every rotation stops, on its target, within ⌈distance/speed⌉ + 1 frames, and the card and target never change meanwhile |
| ErrorBoundary.CategorizeError | src/components/ui/ErrorBoundary.tsx:29-40 | the type is network exactly when the class or a case-sensitive "network"/"fetch" says so; api exactly when not network and the class or "API"/"server" says so; validation likewise after both |
| ErrorBoundary.ClassesDecide | src/components/ui/ErrorBoundary.tsx:29-40 | a NetworkError is always a network error whatever its message, and an ApiError without network words is always an API error |
| ErrorBoundary.CategorisersDisagree | src/components/ui/ErrorBoundary.tsx:33-35 | an example: the boundary's case-sensitive "API" test calls the message "api" unknown while the error monitor, which lower-cases, calls it an API error |
| ErrorBoundary.GetDerivedStateFromError | src/components/ui/ErrorBoundary.tsx:24-27 | a caught error raises the flag, is stored, and gets its category; no component stack yet |
| ErrorBoundary.ComponentDidCatch | src/components/ui/ErrorBoundary.tsx:42-56 | the error and component stack are stored and the category recomputed, without touching the flag |
| ErrorBoundary.HandleRetry | src/components/ui/ErrorBoundary.tsx:58-60 | retry clears the flag, the error and the stack but keeps the last category |
| ErrorBoundary.Title | src/components/ui/ErrorBoundary.tsx:99-110 | the title of each category, with "Something went wrong" for unknown or none |
| ErrorBoundary.Render | src/components/ui/ErrorBoundary.tsx:202-212 | the children show exactly when there is no error; the given fallback exactly when there is an error and a fallback; otherwise the built-in page titled by the category |
| ErrorBoundary.RetryRestoresChildren | src/components/ui/ErrorBoundary.tsx:24-60 | a caught error hides the children, and retrying after the catch shows them again |
| ErrorBoundary.TitlesDistinct | src/components/ui/ErrorBoundary.tsx:99-110 | different categories get different titles |
| ErrorHandling.NewAppError | src/utils/errorHandling.ts:22-30 | an AppError keeps its message; a missing code is UNKNOWN_ERROR and a missing status 500, given ones are kept |
| ErrorHandling.IsAppError | src/utils/errorHandling.ts:73 | the `instanceof AppError` test: true for every error class but a plain `Error`; it has no contract of its own, and NewAppError states that every constructed AppError passes it |
| ErrorHandling.NewNetworkError | src/utils/errorHandling.ts:45-50 | a NetworkError is an AppError with code NETWORK_ERROR and status 0, and "Network error occurred" when no message is given |
| ErrorHandling.NewValidationError | src/utils/errorHandling.ts:52-60 | code VALIDATION_ERROR, status 400, and the message prefixed with "field: " exactly when a non-empty field is given |
| ErrorHandling.NewApiError | src/utils/errorHandling.ts:62-67 | an ApiError keeps its message, defaults its status to 500, and falls back to API_ERROR for a missing or empty code |
| ErrorHandling.HandleError | src/utils/errorHandling.ts:70-94 | the report carries the message with "[context] " in front when a context is given; a family error reports its own code and status and has the prefix written into its message; any other error reports UNKNOWN_ERROR/500 and is left as it was |
| ErrorHandling.ContextPrefixesStack | src/utils/errorHandling.ts:80-83 | handling the same family error twice with a context puts the prefix on twice |
| ErrorHandling.NetworkErrorsRecognised | src/utils/errorHandling.ts:149-157 | every NetworkError is recognised as a network error |
| ErrorHandling.IsNetworkError | src/utils/errorHandling.ts:148-157 | the network test: the NetworkError class, the NETWORK_ERROR code, or a message containing "network", "fetch" or "connection"; no contract of its own, NetworkErrorsRecognised and CaseMatters state what it accepts |
| ErrorHandling.CaseMatters | src/utils/errorHandling.ts:149-157 | an example: the words are case-sensitive: a plain error saying "Fetch" is not a network error |
| ErrorHandling.Retry | src/utils/errorHandling.ts:160-189 | with no attempts allowed it throws undefined after no call; otherwise it makes 1 to maxRetries calls, every call but the last failed with a network error, the waits double from `delay`, the answer is the last call's, and a failure stops the loop only when retries run out or the error is not a network error |
| ErrorHandling.TotalWaitClosedForm | src/utils/errorHandling.ts:182-184 | waits that double from `delay`, as `Retry` reports them, add up to delay·(2ⁿ − 1) over n waits |
| ErrorMonitoring.CategorizeError | src/utils/errorMonitoring.ts:159-179 | the category is network exactly when the lower-cased message holds a network word, api exactly when it holds no network word but an api word, and so on down validation, generation and ui; unknown otherwise |
| ErrorMonitoring.FailedCountsAsGeneration | src/utils/errorMonitoring.ts:172 | an example: the keyword "ai" matches inside "failed", so a plain "Failed" message is categorised as a generation error |
| ErrorMonitoring.KeepNewest | src/utils/errorMonitoring.ts:129-132 | the trimmed log is the last 100 entries (or all of them when there are fewer), as a suffix of the original |
| ErrorMonitoring.CaptureError | src/utils/errorMonitoring.ts:104-141 | a disabled monitor is unchanged; an enabled one appends the report as its newest entry and keeps the newest 100 |
| ErrorMonitoring.CaptureUncaught | src/utils/errorMonitoring.ts:50-65 | a window error or unhandled rejection is captured with context "global" or "promise", the default medium severity, its message and the category the classifier gives; a disabled monitor is unchanged |
| ErrorMonitoring.NewReport | src/utils/errorMonitoring.ts:112-125 | a new report carries the given message and severity and the category computed from the message |
| ErrorMonitoring.CaptureBounded | src/utils/errorMonitoring.ts:127-132 | the log never grows past 100; at capacity the oldest report is dropped and the new one appended, below capacity the report is simply appended |
| ErrorMonitoring.ClearErrors | src/utils/errorMonitoring.ts:255-257 | clearing empties the log and leaves the enabled flag alone |
| ErrorMonitoring.CapturePerformanceMetric | src/utils/errorMonitoring.ts:264-277 | nothing while disabled; otherwise a "performance" report whose severity is medium exactly when the duration exceeds 1000 ms and low otherwise |
| ErrorMonitoring.CaptureUserAction | src/utils/errorMonitoring.ts:280-289 | nothing while disabled; otherwise a low-severity "user-interaction" report reading "User Action: " followed by the action |
| ErrorMonitoring.CaptureGenerationError | src/utils/errorMonitoring.ts:292-301 | nothing while disabled; otherwise a high-severity report in context "generation", categorised from its message |
| ErrorMonitoring.CaptureNetworkError | src/utils/errorMonitoring.ts:304-315 | nothing while disabled; otherwise a medium-severity report in context "network", categorised from its message |
| ErrorMonitoring.CaptureReactError | src/utils/errorMonitoring.ts:143-153 | nothing while disabled; otherwise the report has the caller's severity, or high when none is given |
| ErrorMonitoring.CategoriesPartition | src/utils/errorMonitoring.ts:228-231 | the per-category counts of errorsByCategory add up to the number of reports |
| ErrorMonitoring.SeveritiesPartition | src/utils/errorMonitoring.ts:228-233 | the per-severity counts of errorsBySeverity add up to the number of reports |
| ErrorMonitoring.MessageCountPositive | src/utils/errorMonitoring.ts:235-237 | a message has a positive count exactly when some report carries it |
| ErrorMonitoring.Tally | src/utils/errorMonitoring.ts:226-238 | the message record has each message once, and maps a message to its number of reports when it occurs and to nothing otherwise; its entries stand in creation order, which `Object.entries` then lists as `PropertyKeys.PropertyOrder` says |
| ErrorMonitoring.Entries | src/utils/errorMonitoring.ts:240-241 | the entries list the record's pairs one for one, in the record's order |
| ErrorMonitoring.SortDesc | src/utils/errorMonitoring.ts:242 | the sorted entries have non-increasing counts and are a permutation of the input |
| ErrorMonitoring.Recent | src/utils/errorMonitoring.ts:220-222 | the recent reports are drawn from the log and are all stamped later than one hour before now, and every log report stamped that late is among them |
| ErrorMonitoring.RecentAppend | src/utils/errorMonitoring.ts:220-222 | the filter keeps log order: filtering a log made of two parts gives the filtered first part followed by the filtered second part |
| ErrorMonitoring.RecentCounts | src/utils/errorMonitoring.ts:220-222 | the filter keeps every copy of a recent report: a report appears as often among the recent ones as in the log when stamped within the hour, and not at all otherwise |
| ErrorMonitoring.MostCommon | src/utils/errorMonitoring.ts:240-243 | at most ten entries, in non-increasing order of count; MostCommonCountsAreTrue, TopTenAreMostCommon and IntegerMessageListedFirst state which entries and in which order |
| ErrorMonitoring.GetAnalytics | src/utils/errorMonitoring.ts:219-253 | the total is the log length; a category (severity) is a key of its table exactly when some report has it, with the number of such reports as value; the recent list is the last hour of reports, the rate is their number over 60, and the common list is `MostCommon` of the whole log: at most ten entries by decreasing count |
| ErrorMonitoring.TallyEntry | src/utils/errorMonitoring.ts:235-237 | every entry of the message record is the true, positive count of its message |
| ErrorMonitoring.MostCommonCountsAreTrue | src/utils/errorMonitoring.ts:240-243 | every listed message is shown with the number of reports carrying it |
| ErrorMonitoring.TopTenAreMostCommon | src/utils/errorMonitoring.ts:240-243 | a message that occurs but is not listed implies the list is full and the message is no more frequent than the tenth entry |
| ErrorMonitoring.TopTen | src/utils/errorMonitoring.ts:240-243 | at most ten entries, in non-increasing order of count |
| ErrorMonitoring.ListedEntries | src/utils/errorMonitoring.ts:233-240 | the entries `Object.entries` lists are exactly the messages of the log, each with its true, positive count |
| ErrorMonitoring.TopTenKeepsLargest | src/utils/errorMonitoring.ts:240-243 | a listed entry left out of the top ten implies the list is full and the entry is no larger than the tenth |
| ErrorMonitoring.TallyNewMessage | src/utils/errorMonitoring.ts:236-237 | a message not seen before is recorded last, with count one, and the rest of the record is unchanged |
| ErrorMonitoring.TallyOfTwo | src/utils/errorMonitoring.ts:233-238 | two reports with different messages give a record of both, count one each, in the order they were logged |
| ErrorMonitoring.IntegerMessageListedFirst | src/utils/errorMonitoring.ts:240-243 | an example: reports "b" then "404" give the list "404" then "b", because `Object.entries` lists the integer-like key first and the stable sort keeps equal counts in that order |
| ExportUtils.Describe | src/utils/exportUtils.ts:113 | a thrown Error is described by its message, any other thrown value by the fallback text |
| ExportUtils.EntryFor | src/utils/exportUtils.ts:94-98 | a scene already in the queue starts from its stored entry, any other scene from a fresh pending entry at 0 percent |
| ExportUtils.Begin | src/utils/exportUtils.ts:101-103 | the scene is marked downloading at a progress in [0, 100) and every other scene's entry is untouched |
| ExportUtils.FirstFailure | src/utils/exportUtils.ts:92-117 | the index where the loop stops: every outcome before it succeeded and the outcome at it, if any, failed |
| ExportUtils.Record | src/utils/exportUtils.ts:100-116 | a successful download leaves the scene completed at 100 percent, a failed one leaves it errored with the failure's description, and no other scene changes |
| ExportUtils.DownloadScenes | src/utils/exportUtils.ts:86-120 | the blobs are the outcomes before the first failure, in order; with no failure every scene is completed, otherwise that failure is thrown and recorded against its scene; scenes after it are never touched |
| ExportUtils.CreateSceneZip | src/utils/exportUtils.ts:123-131 | with no scenes the call fails; otherwise the result is the first scene's download |
| ExportUtils.GetDownloadProgress | src/utils/exportUtils.ts:163-165 | there is progress for a scene exactly when it is a key of the queue; the answer is an entry of the queue for that scene, and when keys are distinct it is that scene's one entry |
| ExportUtils.ClearDownloadQueue | src/utils/exportUtils.ts:173-175 | afterwards no scene has any progress |
| ExportUtils.PromptLine | src/utils/exportUtils.ts:154 | the prompt line is "Prompt: " plus the whole prompt when it fits in 50 characters, else its first 50 characters and "..."; it is never longer than 61 characters |
| ExportUtils.CaptionLines | src/utils/exportUtils.ts:151-155 | three lines: the scene number, the creation date, the prompt line |
| ExportUtils.NamePart | src/utils/exportUtils.ts:192 | the name part has the prompt's first 30 characters (fewer for a short prompt), keeps its letters and digits in place, and holds nothing but letters, digits and '_' |
| ExportUtils.GenerateFilename | src/utils/exportUtils.ts:190-194 | the file name is "brandscene_", the scene number, "_", the name part and "_", then the date, then "." and the format, and its length is the sum of those parts' lengths |
| ExportUtils.FilenameForgetsTail | src/utils/exportUtils.ts:192-193 | two prompts that agree on their first 30 characters give the same file name |
| ExportUtils.FilenameExample | src/utils/exportUtils.ts:190-194 | an example: scene 2 with prompt "a b!" in png on 2024-01-31 is named "brandscene_2_a_b__2024-01-31.png" |
| FallbackCarousel.NextScene | src/components/carousel/FallbackCarousel.tsx:14-16 | from a shown card the next button moves to the ring successor, wrapping from the last card to the first |
| FallbackCarousel.PrevScene | src/components/carousel/FallbackCarousel.tsx:18-20 | from a shown card the previous button moves to the ring predecessor, wrapping from the first card to the last |
| FallbackCarousel.Counter | src/components/carousel/FallbackCarousel.tsx:95-97 | the counter is the one-based position, " / ", and the number of scenes |
| FallbackCarousel.ReadCounter | src/components/carousel/FallbackCarousel.tsx:95-97 | split on spaces the counter gives back the position, "/" and the count, and both numbers parse back to their values |
| FallbackCarousel.CounterInjective | src/components/carousel/FallbackCarousel.tsx:95-97 | two positions with the same counter are the same position |
| FallbackCarousel.Render | src/components/carousel/FallbackCarousel.tsx:26-102 | an empty list shows the placeholder; otherwise the card at the index (none past the end of the list), the counter, and one indicator per scene with exactly the current one lit |
| FallbackCarousel.NextKeepsShowing | src/components/carousel/FallbackCarousel.tsx:14-20 | a step forward from a shown card shows a real card, and a step back returns to the starting card |
| FallbackCarousel.GoToSceneShows | src/components/carousel/FallbackCarousel.tsx:22-96 | clicking indicator k makes k current verbatim: scene k is shown, only indicator k is lit, and the counter opens with k + 1 |
| FallbackCarousel.GoToScene | src/components/carousel/FallbackCarousel.tsx:22-24 | an indicator click makes its index current as it is; no contract of its own, GoToSceneShows states what the carousel then shows |
| FormHelpers.HandleFileUpload | src/utils/formHelpers.ts:4-22 | an invalid file is rejected with its validation messages joined by ", "; an image whose size cannot be read is rejected; otherwise the upload carries the file, its name, size and type, the preview URL and the dimensions |
| FormHelpers.BothUploadMessages | src/utils/formHelpers.ts:7-9 | an oversized GIF is refused with the size message, ", ", then the type message |
| FormHelpers.CreateProject | src/utils/formHelpers.ts:24-32 | a new project is a draft created and updated at the `new Date()` reading, with an id starting "project_"; the id takes its own `Date.now()` reading |
| FormHelpers.ProjectIdParts | src/utils/formHelpers.ts:27 | split on '_' the id gives "project", its own `Date.now()` reading and the random part, the reading parses back, and the dates' reading plays no part in the id |
| FormHelpers.Subject | src/utils/formHelpers.ts:39-43 | the product name as typed, or "the product" when it is blank |
| FormHelpers.BrandClause | src/utils/formHelpers.ts:45-47 | " from " and the brand name, present exactly when the brand name is not blank |
| FormHelpers.ValuesSentence | src/utils/formHelpers.ts:51-54 | the brand-values sentence with the formatted values joined by ", ", present exactly when the values field is not blank |
| FormHelpers.BuildPrompt | src/utils/formHelpers.ts:34-59 | the prompt is the opening, the subject, the optional brand clause, ". ", the optional values sentence, and ends with the fixed style sentence; its length is those parts' lengths plus the style sentence's |
| FormHelpers.BuildPromptIgnoresOtherFields | src/utils/formHelpers.ts:35 | the prompt depends only on the brand name, product name and brand values |
| FormHelpers.GenerateScenePrompts | src/utils/formHelpers.ts:61-70 | four prompts, each the base prompt, " Scene variation: " and its own setting |
| FormHelpers.ScenePromptsDistinct | src/utils/formHelpers.ts:62-67 | the four scene prompts are pairwise different |
| FormHelpers.FormatBrandValues | src/utils/formHelpers.ts:84-89 | every value is non-empty, comma-free and trimmed at both ends |
| FormHelpers.FormatJoinRoundTrip | src/utils/formHelpers.ts:84-89 | joining trimmed, non-empty, comma-free values with commas and formatting the result gives back the same list |
| FormHelpers.IsValidEmailIff | src/utils/formHelpers.ts:91-94 | `isValidEmail` accepts exactly the addresses of the regular expression's shape: text, '@', text, '.', text, with no white space and no second '@' |
| FormHelpers.IsValidEmail | src/utils/formHelpers.ts:91-94 | the e-mail pattern test; no contract of its own, IsValidEmailIff states exactly which texts it accepts |
| FormHelpers.SanitizeInput | src/utils/formHelpers.ts:96-98 | the result has no '<' or '>' and is never longer than the input |
| FormHelpers.SanitizeKeepsCleanText | src/utils/formHelpers.ts:96-98 | trimmed text without angle brackets comes through unchanged |
| JsSort.SortStable | src/utils/errorMonitoring.ts:241 | the sort is stable: for every key value, the entries carrying it come out in the order they went in |
| JsSort.SortEqualKeys | src/utils/errorMonitoring.ts:241 | a list whose entries all carry one key comes out of the sort unchanged |
| KeyboardNavigation.Step | src/components/ui/KeyboardNavigation.tsx:37-40 | without a navigate callback an arrow calls setCurrentIndex exactly when it is given and there are items, with the previous or next index wrapping at the ends |
| KeyboardNavigation.Jump | src/components/ui/KeyboardNavigation.tsx:68-80 | Home and End call setCurrentIndex with their target exactly when it is given and there are items |
| KeyboardNavigation.Arrow | src/components/ui/KeyboardNavigation.tsx:33-51 | an arrow calls the navigate callback with its direction when one is given, and otherwise takes a wrapping step |
| KeyboardNavigation.HandleKeyDown | src/components/ui/KeyboardNavigation.tsx:27-82 | events from outside the container and unlisted keys are ignored; each listed key prevents the default and makes the call its case names, if the callback it needs is present |
| KeyboardNavigation.SetIndexInRange | src/components/ui/KeyboardNavigation.tsx:37-80 | from a valid index every index the handler asks for is a valid index |
| KeyboardNavigation.CallsByKey | src/components/ui/KeyboardNavigation.tsx:32-81 | with every callback present the arrows only navigate, Home and End only set the index, and Enter, space and Escape never touch it |
| KeyboardNavigation.ArrowsUndoEachOther | src/components/ui/KeyboardNavigation.tsx:38-48 | without a navigate callback, left then right returns to the starting item |
| SceneMetadataOverlay.TruncatePrompt | src/components/carousel/SceneMetadataOverlay.tsx:30-33 | a prompt within the limit is returned as is; a longer one keeps its first maxLength characters followed by "...", so the result never exceeds maxLength + 3 |
| SceneMetadataOverlay.TruncateIdempotent | src/components/carousel/SceneMetadataOverlay.tsx:30-33 | shortening an already shortened prompt changes nothing |
| SceneMetadataOverlay.TruncateForgetsTail | src/components/carousel/SceneMetadataOverlay.tsx:30-33 | two over-long prompts that agree on their first maxLength characters are shown the same |
| SceneMetadataOverlay.StatusDot | src/components/carousel/SceneMetadataOverlay.tsx:79-83 | the dot is green exactly for a completed scene; since a scene is never "generating", it is never yellow |
| SceneMetadataOverlay.Render | src/components/carousel/SceneMetadataOverlay.tsx:19-118 | nothing is shown exactly when hidden; otherwise the panel sits 20 pixels right of and above the click, numbers the scene from one, shows the shortened prompt, the status dot, and a download date exactly when the scene has one |
| OpenAi.Subject | src/services/openai.ts:54-58 | the product name in double quotes, or "the product" when the name is blank |
| OpenAi.BrandClause | src/services/openai.ts:60-62 | ` from "<brand>"`, present exactly when the brand name is not blank |
| OpenAi.Values | src/services/openai.ts:67-70 | the brand values are exactly the comma-separated parts of the field, each trimmed, with the empty ones dropped, in order; each is a non-empty, comma-free token |
| OpenAi.ValuesSentence | src/services/openai.ts:66-75 | the values sentence is present exactly when some comma-separated value is non-empty, and then lists the values joined by ", " |
| OpenAi.BuildBrandPrompt | src/services/openai.ts:49-80 | the prompt is exactly the opening, the subject, the brand clause, ". ", the values sentence and the fixed style sentence, in that order |
| OpenAi.BrandPromptIgnoresOtherFields | src/services/openai.ts:50 | the prompt depends only on the brand name, product name and brand values |
| OpenAi.GenerateSceneVariations | src/services/openai.ts:83-92 | four prompts, each the base prompt, " Scene variation: " and its own setting |
| OpenAi.VariationsDistinct | src/services/openai.ts:84-89 | the four variation prompts are pairwise different |
| OpenAi.OrElse | src/services/openai.ts:142-159 | a `\|\|` fallback on a string: the value when it is a non-empty string, else the default |
| OpenAi.TryOnce | src/services/openai.ts:99-118 | a request succeeds exactly when it answers with at least one image, and then gives the first; an empty answer throws "No image data received from OpenAI" with no response attached |
| OpenAi.StatusError | src/services/openai.ts:124-163 | 401, 429, 400 and 500/502/503/504 map to their codes and every other status to UNKNOWN_ERROR, each direction an iff; the status is kept and the 400 and unknown messages carry the server's message or the default |
| OpenAi.Recover | src/services/openai.ts:120-196 | an error status, a timeout and a network failure are final; any other failure is retried after the backoff delay exactly while fewer than three retries were made, and then gives up with MAX_RETRIES_EXCEEDED and the message as the source words it, naming 3 attempts |
| OpenAi.RecoverCorrected | src/services/openai.ts:120-196 | the corrected catch gives up after the last retried failure naming the four tries made, and otherwise answers as the catch as written |
| OpenAi.GenerateImage | src/services/openai.ts:95-197 | the call as written makes at most four requests from retry 0, with one backoff wait between consecutive ones growing with the retry number, and succeeds exactly when the last request gave an image, which is the result |
| OpenAi.GenerateImageCorrected | src/services/openai.ts:95-197 | the corrected call makes the same requests and waits as the call as written and succeeds exactly when it does, with the same image |
| OpenAi.HttpErrorsNotRetried | src/services/openai.ts:124-164 | an answer with an error status ends the call after one request with no wait |
| OpenAi.EmptyAnswersExhaust | src/services/openai.ts:184-195 | when every answer is empty the call as written makes four requests and gives up with MAX_RETRIES_EXCEEDED and the message naming 3 attempts and the missing image data |
| OpenAi.EmptyAnswersExhaustCorrected | src/services/openai.ts:184-195 | when every answer is empty the corrected call makes four requests and gives up with the message naming the four tries and the missing image data |
| OpenAi.GiveUpMessageMiscounts | src/services/openai.ts:191-195 | after four empty answers the call as written reports a message that does not name the four requests made; the corrected call's message names them |
| OpenAi.SceneFor | src/services/openai.ts:217-250 | a scene numbered from one that is completed exactly when its image was generated, with the image URL and the revised prompt (or the original one), and otherwise errored with no URL and the original prompt |
| OpenAi.Percent | src/services/openai.ts:213-229 | the progress lies in [0, 100] and is 100 exactly when every prompt is done |
| OpenAi.RunPrompts | src/services/openai.ts:208-257 | every prompt yields one scene, failed or not, and around scene i the progress reports are i/n and (i+1)/n of 100, the second carrying the scene |
| OpenAi.GenerateMultipleScenes | src/services/openai.ts:200-260 | four scenes from the four variations of the brand prompt and eight progress reports |
| OpenAi.ProgressOrdered | src/services/openai.ts:208-257 | the reports never go back and reach 100 only with the last one |
| OpenAi.ValidateApiKey | src/services/openai.ts:263-275 | the key is invalid exactly when the model list answers with status 401 |
| OpenAi.OtherFailuresKeepKey | src/services/openai.ts:267-274 | a timeout, a network failure or any other status leaves the key taken as valid |
| Performance.Newest | src/utils/performance.ts:104-107 | the kept metrics are the newest 1000 (all of them when there are fewer), as a suffix of the buffer |
| Performance.NewestOfSuffix | src/utils/performance.ts:104-107 | dropping old entries that trimming would drop anyway does not change the newest ones |
| Performance.NewestAppend | src/utils/performance.ts:102-107 | trimming, appending and trimming again keeps the newest entries of everything appended so far |
| Performance.Threshold | src/utils/performance.ts:110-118 | every category's reporting threshold is positive |
| Performance.RecordMetric | src/utils/performance.ts:86-121 | nothing happens while disabled; otherwise the metric is appended as the newest entry, at most 1000 are kept, and it is reported exactly when slower than its category's threshold |
| Performance.ThresholdPerCategory | src/utils/performance.ts:110-120 | an example: 150 ms is reported for a render but not for an interaction |
| Performance.RecordAllKeepsNewest | src/utils/performance.ts:102-107 | after any number of recordings the buffer holds exactly the newest 1000 metrics of all of them |
| Performance.DisabledRecordsNothing | src/utils/performance.ts:92 | a disabled monitor stays unchanged whatever is recorded |
| Performance.SetEnabled | src/utils/performance.ts:191-197 | enable and disable set the flag and keep the metrics |
| Performance.ClearMetrics | src/utils/performance.ts:187-189 | clearing empties the buffer and keeps the flag |
| Performance.Measure | src/utils/performance.ts:140-164 | the wrapped function's result is returned unchanged and, when enabled, one metric is recorded whose duration is the time between the readings around the call |
| Performance.Where | src/utils/performance.ts:168-174 | the filter keeps exactly the metrics that satisfy the test, never more than it was given |
| Performance.WhereAppend | src/utils/performance.ts:168-174 | filtering a concatenation filters each part and concatenates the results, so the kept metrics stay in their order |
| Performance.WherePartition | src/utils/performance.ts:168-174 | a test and its negation split the metrics between them, each metric as often as it was recorded |
| Performance.GetMetrics | src/utils/performance.ts:166-171 | without a category, all metrics in order; with one, exactly the metrics of that category, which with the other categories' metrics make up the buffer with its multiplicities |
| Performance.MeanDuration | src/utils/performance.ts:176-178 | the mean of no metrics is 0; otherwise the mean times the count is the total duration |
| Performance.TotalBounds | src/utils/performance.ts:177 | durations between two bounds sum to between the bounds times the count |
| Performance.MeanWithinBounds | src/utils/performance.ts:176-178 | a mean lies between any lower and upper bound of the durations |
| Performance.Named | src/utils/performance.ts:174 | exactly the metrics of that name, which with the other names' metrics make up the buffer with its multiplicities |
| Performance.GetAverageMetric | src/utils/performance.ts:173-179 | 0 when no metric has the name; otherwise the average times the number of such metrics is their total duration |
| Performance.Largest | src/utils/performance.ts:181-185 | the largest duration is at least every duration and is one of them |
| Performance.Fastest | src/utils/performance.ts:173-179 | the smallest duration is at most every duration and is the duration of some metric |
| Performance.AverageBetweenFastestAndSlowest | src/utils/performance.ts:173-179 | the average of one name's metrics lies between its fastest and its slowest |
| Performance.SortSlowest | src/utils/performance.ts:182-183 | the sorted copy is ordered by non-increasing duration and is a permutation of the metrics |
| Performance.SliceIndex | src/utils/performance.ts:184 | a slice index within the length is kept, one past it is clamped to the length, and a negative one counts from the end, not below 0 |
| Performance.JsSlice | src/utils/performance.ts:184 | a slice inside the list is the ordinary subsequence, and an empty or inverted range gives nothing |
| Performance.GetSlowestMetrics | src/utils/performance.ts:181-185 | a prefix of the sorted metrics, slowest first; for a non-negative limit its length is the smaller of the limit and the count, and it is a sub-multiset of the metrics |
| Performance.SlowestAreSlowest | src/utils/performance.ts:181-185 | a metric left out of the slowest list is no slower than any metric in it |
| Performance.MemoCall | src/utils/performance.ts:247-270 | a call keyed by the argument text: a hit returns the cached value and leaves the cache as it is; a miss returns the function's value, evicts the oldest key first when the cache is full, and appends the new entry last; no entry but the new one appears, keys stay distinct and the size stays within the limit (at least 1) |
| Performance.MemoTransparent | src/utils/performance.ts:247-270 | when equal argument texts always give equal values, a cache holding only the function's own values answers what the function would and stays that way |
| Performance.MemoCollision | src/utils/performance.ts:247-270 | two arguments with the same text but different values collide: after the first is cached, the second call answers the first's value |
| Performance.MemoRunBounded | src/utils/performance.ts:247-270 | when equal argument texts always give equal values, after any run of calls from a cache within the limit the cache stays within its size limit, with distinct keys and faithful values |
| Performance.CalculateDimensions | src/utils/performance.ts:362-374 | a size inside the box is kept; any result fits the box, and a larger size is scaled until one side meets its maximum |
| Performance.FitRatio | src/utils/performance.ts:369 | the ratio is positive, fits both sides inside the box, and makes one side meet its maximum exactly |
| Performance.DimensionsKeepAspect | src/utils/performance.ts:369-373 | the scaled size keeps the aspect ratio up to the rounding of the two sides |
| Performance.VisibleRange | src/utils/performance.ts:455-459 | the rendered range runs from overscan rows above the first visible row to overscan rows below the last, clamped to the list |
| Performance.VisibleRowsRendered | src/utils/performance.ts:455-461 | every row overlapping the viewport is in the rendered range for a non-negative overscan |
| Performance.UseVirtualScroll | src/utils/performance.ts:446-477 | the visible items are the list between the range's ends (none for an empty range), the total height is the item count times the item height, and the offset is the start row's top |
| PropertyKeys.PropertyOrder | src/utils/errorMonitoring.ts:240 | `Object.entries` lists the same entries as the record holds, the array-index keys first in ascending numeric order, then every other key in creation order |
| PropertyKeys.PropertyOrderMembers | src/utils/errorMonitoring.ts:240 | an entry is listed exactly when the record holds it |
| PropertyKeys.NoIndicesKeepOrder | src/utils/errorMonitoring.ts:240 | a record without array-index keys is listed in creation order |
| PropertyKeys.IndexBeforeName | src/services/replicate.ts:242 | an array-index key created after another key is listed before it |
| PropertyKeys.SoleIndexFirst | src/services/replicate.ts:242 | a record whose only array-index key is one entry's lists that entry first |
| Replicate.ExponentialBackoff | src/services/replicate.ts:44-45 | the wait lies between one and ten seconds, and below the cap it is one second doubled once per attempt |
| Replicate.BackoffMonotone | src/services/replicate.ts:44-45 | a later retry never waits less than an earlier one |
| Replicate.BackoffSchedule | src/services/replicate.ts:44-45 | the waits are 1, 2, 4 and 8 seconds for attempts 0 to 3, and the 10-second cap from attempt 4 on |
| Replicate.StyleValues | src/services/replicate.ts:115-120 | the style values are the first (at most three) of the brand values split on ',' or ';', trimmed and non-empty |
| Replicate.DescriptionSentence | src/services/replicate.ts:105-107 | "This is a " and the lower-cased description, present exactly when the description is not empty |
| Replicate.BrandSentence | src/services/replicate.ts:110-112 | "Brand: " and the brand name, present exactly when the brand name is not empty |
| Replicate.StyleSentence | src/services/replicate.ts:115-125 | when present, the sentence is "Design style: " and the style values joined by ", " |
| Replicate.StyleSentencePresent | src/services/replicate.ts:115-125 | the style sentence is present exactly when some style value survives the cleaning |
| Replicate.PromptHead | src/services/replicate.ts:102-125 | the brand-fixed part of the prompt opens with the product sentence |
| Replicate.PromptHeadParts | src/services/replicate.ts:102-125 | that part is exactly the product, description, brand and style sentences one after another, each at its own offset |
| Replicate.SceneSentence | src/services/replicate.ts:128 | the scene sentence is "Scene: ", the lower-cased scene type and ". ", and nothing else |
| Replicate.BuildReplicatePrompt | src/services/replicate.ts:100-134 | the prompt is the brand-fixed part followed by exactly the scene sentence and the quality sentence |
| Replicate.PromptIgnoresDimensions | src/services/replicate.ts:100-134 | the image dimensions play no part in the prompt |
| Replicate.EmptyProductNameKept | src/services/replicate.ts:102 | an empty product name is not replaced: the prompt opens "Create a professional product image of . " |
| Replicate.StyleKeepsFirstThree | src/services/replicate.ts:116-120 | ';' separates like ',', and only the first three values are used: "a,b;c,d" styles with a, b and c |
| Replicate.GenerateSceneVariations | src/services/replicate.ts:138-147 | four prompts, one per scene type in the fixed order |
| Replicate.SceneTypeLengths | src/services/replicate.ts:139-144 | the four scene types have four different lengths |
| Replicate.VariationLengths | src/services/replicate.ts:138-147 | whatever the brand, the four prompts have four different lengths, ordered as their scene types |
| Replicate.VariationsDistinct | src/services/replicate.ts:138-147 | the four prompts are pairwise different for every brand |
| Replicate.EnhancedPrompt | src/services/replicate.ts:157-164 | the text sent is the prompt, a space and the aspect-ratio sentence; a dimensions value outside the three known ones appends "undefined" |
| Replicate.Lookup | src/services/replicate.ts:236-238 | a property read gives the value written last under that name, as `JSON.parse` keeps the last duplicate, and undefined when there is none |
| Replicate.OwnProperties | src/services/replicate.ts:236 | the object that `JSON.parse` builds: one entry per name, holding the value the name was written with last |
| Replicate.ObjectValuesHeld | src/services/replicate.ts:242-244 | `Object.values` lists exactly the values that the object's names hold |
| Replicate.FirstHttpResult | src/services/replicate.ts:242-254 | the first http string of the list, and UNEXPECTED_OUTPUT_FORMAT exactly when the list has none |
| Replicate.FirstUrlValue | src/services/replicate.ts:242-254 | for an object, a failure with UNEXPECTED_OUTPUT_FORMAT exactly when no name holds an http string, and otherwise such a string; an empty array fails |
| Replicate.FirstHttp | src/services/replicate.ts:242-246 | the first value that is a string starting with "http", and none exactly when no value is |
| Replicate.ExtractImageUrl | src/services/replicate.ts:226-271 | a falsy output gives NO_OUTPUT; a non-empty array gives its first element, a string itself, an object its url, else its image; otherwise an object fails with UNEXPECTED_OUTPUT_FORMAT exactly when none of its properties holds an http string, and a success is such a string; an empty array gives UNEXPECTED_OUTPUT_FORMAT, a number or a boolean NO_OUTPUT; no other error can arise |
| Replicate.ExtractFindsUrlProperty | src/services/replicate.ts:242-246 | an example: `{id: "abc", out: "https://x/y.png"}` yields the http string, skipping the value "abc" listed before it |
| Replicate.SoleUrlValue | src/services/replicate.ts:242-246 | an object without url and image whose names hold just one http string yields that string |
| Replicate.FirstListedValue | src/services/replicate.ts:242-246 | an object without url and image yields the first value `Object.values` lists when that value is an http string |
| Replicate.IntegerKeyListedFirst | src/services/replicate.ts:242-246 | a named value and then an http string under an integer-like key yield the http string, because `Object.values` lists the index first |
| Replicate.OnlyIndexListedFirst | src/services/replicate.ts:242-246 | without url and image, when exactly one name is an array index and it holds an http string, that string is the answer, wherever the name was written and whatever the other names hold |
| Replicate.DuplicateUrlKeepsLast | src/services/replicate.ts:236-238 | an answer naming `url` twice yields the value written last, when that is truthy |
| Replicate.Poll | src/services/replicate.ts:175-195 | a settled prediction is returned as is; one still starting or processing after 60 polls gives TIMEOUT; any prediction returned is settled |
| Replicate.PollsMade | src/services/replicate.ts:176-194 | the loop makes at most 60 polls in all |
| Replicate.NeverSettlingTimesOut | src/services/replicate.ts:177-190 | a prediction that never settles costs exactly the remaining polls and then times out |
| Replicate.NumberText | src/services/replicate.ts:32 | a number's text as `String` gives it is never empty and starts with "-" exactly for a negative number |
| Replicate.NumberTextOfInt | src/services/replicate.ts:32 | a whole number's text is its decimal digits, with "-" before a negative one |
| Replicate.Text | src/services/replicate.ts:32 | `String(v)` as `super(message)` applies it: a string unchanged, "true"/"false", a number's decimal text, "[object Object]" for an object, "" for an empty array |
| Replicate.NumberTextOfNat | src/services/replicate.ts:32 | a whole number's text is all digits and parses back to the number |
| Replicate.NumberTextOfHalf | src/services/replicate.ts:32 | an example: 2.5 reads "2.5" |
| Replicate.FailureMessage | src/services/replicate.ts:198-200 | a string error is the message; otherwise a truthy `message` property, as `String` renders it, is the message; a falsy or missing one gives "Generation failed" |
| Replicate.NumericMessageText | src/services/replicate.ts:198-200 | a positive whole-number `message` becomes its decimal text, which parses back to the number |
| Replicate.OtherMessagesRendered | src/services/replicate.ts:198-200 | a `message` of true gives "true", an object message "[object Object]", and 0, false or null the default "Generation failed" |
| Replicate.FortyTwoMessage | src/services/replicate.ts:198-200 | an example: `{"message": 42}` fails with the text "42" |
| Replicate.Settle | src/services/replicate.ts:197-271 | a failed prediction throws GENERATION_FAILED with its message, a canceled or aborted one GENERATION_CANCELED, and a succeeded one gives what its output yields |
| Replicate.RunAttempt | src/services/replicate.ts:155-277 | a failed creation is rethrown, and success needs a created prediction that polled to a settled, not failed, not canceled state |
| Replicate.RetryOrGiveUp | src/services/replicate.ts:335-347 | retry after the backoff delay exactly while fewer than three retries were made, otherwise give up with MAX_RETRIES_EXCEEDED and the message as the source words it, naming 3 attempts and ending with the failure |
| Replicate.GiveUpMessage | src/services/replicate.ts:343-347 | the corrected give-up message names the four tries made and ends with the failure's text |
| Replicate.GiveUpMessageAsWritten | src/services/replicate.ts:343-347 | the message as the source words it names the retry limit, 3, as the attempt count and ends with the failure's text |
| Replicate.Recover | src/services/replicate.ts:279-348 | TIMEOUT is retried while retries are left and rethrown after; GENERATION_FAILED becomes SERVICE_UNAVAILABLE; other service errors are rethrown; messages with "fetch", "401"/"unauthorized" and "429"/"rate limit" become their errors in that order; any other failure goes to the retry-or-give-up step; a retry is asked for only below the limit and with the backoff delay |
| Replicate.RecoverCorrected | src/services/replicate.ts:335-347 | the corrected catch retries exactly when the catch as written does and with the same wait; it gives up after the last transient failure naming the four tries, and otherwise answers as the catch as written |
| Replicate.Retry | src/services/replicate.ts:150-349 | the retry loop makes at least one and at most four tries from retry 0, with one wait between consecutive tries |
| Replicate.RetryWaits | src/services/replicate.ts:286-340 | every try but the last failed, and the catch answered it with the wait that follows it |
| Replicate.RetryAnswer | src/services/replicate.ts:150-349 | the answer is the last try's value, or the error the catch gave up with after it |
| Replicate.GenerateImage | src/services/replicate.ts:150-349 | the call as written makes at least one and at most four tries from retry 0, with one wait between consecutive tries |
| Replicate.AnswerIsLastTry | src/services/replicate.ts:150-349 | the call succeeds exactly when its last try did, with that try's image |
| Replicate.WaitsFollowBackoff | src/services/replicate.ts:286-340 | every try but the last failed, and the waits follow the backoff schedule |
| Replicate.NeverReportsGenerationFailed | src/services/replicate.ts:283-302 | the call never fails with GENERATION_FAILED: the catch turns that code into SERVICE_UNAVAILABLE |
| Replicate.FirstSuccessIsFinal | src/services/replicate.ts:274-277 | a first try that succeeds is the answer, with no wait |
| Replicate.GenerationFailureNotRetried | src/services/replicate.ts:294-299 | a generation failure becomes SERVICE_UNAVAILABLE at once, without a retry |
| Replicate.TransientFailuresExhaust | src/services/replicate.ts:335-347 | when every try fails transiently the call as written makes four tries and gives up with MAX_RETRIES_EXCEEDED and the message naming 3 attempts and the last failure |
| Replicate.GenerateImageCorrected | src/services/replicate.ts:150-349 | the corrected call makes at least one and at most four tries from retry 0, with one wait between consecutive tries |
| Replicate.TransientFailuresExhaustCorrected | src/services/replicate.ts:335-347 | when every try fails transiently the corrected call makes four tries and gives up with the message naming the four tries and the last failure |
| Replicate.GiveUpMessageMiscounts | src/services/replicate.ts:343-347 | after four transient failures the call as written reports a message that does not name the four tries made; the corrected call's message names them |
| Replicate.AsWrittenNamesThree | src/services/replicate.ts:343-347 | the message as written never names four attempts, whatever the failure |
| Replicate.SceneFor | src/services/replicate.ts:366-399 | a scene numbered from one keeping its prompt, completed exactly when the image was generated and otherwise errored with no URL |
| Replicate.TryOutcomes | src/services/replicate.ts:155-277 | each try's outcome is what the body of the try gives for that try's network answers |
| Replicate.RunBatch | src/services/replicate.ts:359-408 | the batch never fails: one scene per prompt in prompt order, numbered from one, completed or errored exactly as its generation went, errored ones with no URL |
| Replicate.GenerateMultipleScenes | src/services/replicate.ts:352-409 | four scenes, one per scene variation of the brand's prompt, completed exactly when their generation succeeded |
| Replicate.ProgressReports | src/services/replicate.ts:362-376 | each scene reports i/n of 100 at its start and, on success only, (i+1)/n of 100 |
| Replicate.LastSceneReportsFull | src/services/replicate.ts:359-376 | 100 is reported by the last scene exactly when it succeeds and by no other, so a full progress value does not mean the batch is done |
| ResultsPage.IsGenerating | src/pages/ResultsPage.tsx:15 | a request is being generated while it is pending or processing; no contract of its own, Render states which view it selects |
| ResultsPage.HasError | src/pages/ResultsPage.tsx:17 | the page has an error when the error text is non-empty or the request failed; no contract of its own, Render and FailureBeatsResults state its effect on the view |
| ResultsPage.HasPartialResults | src/pages/ResultsPage.tsx:18 | some but not all four scenes have arrived; no contract of its own, Render states that the error view then offers the partial results |
| ResultsPage.ErrorText | src/pages/ResultsPage.tsx:51 | a non-empty error text wins; any non-empty message shown is the error text or the request's error message |
| ResultsPage.GetErrorType | src/pages/ResultsPage.tsx:46-68 | partial results give partial-failure; otherwise the lower-cased message is a network error exactly when it holds a network word, a timeout exactly when it holds a timeout word and no network word, and so on, with generation-failed for everything left |
| ResultsPage.GenerationGroupRedundant | src/pages/ResultsPage.tsx:63-67 | the generation keyword test decides nothing: without it every message gets the same type |
| ResultsPage.CapitalsIgnored | src/pages/ResultsPage.tsx:52-55 | an example: the message is lower-cased first, so "Network down" is a network error |
| ResultsPage.SceneCounter | src/pages/ResultsPage.tsx:88 | the corrected counter lies between 1 and 4 for any progress from 0 to 100 and agrees with the page's counter below 100 |
| ResultsPage.SceneCounterAsWritten | src/pages/ResultsPage.tsx:88 | the page's counter is n exactly when the progress lies in [25(n-1), 25n) |
| ResultsPage.FullProgressWhileGenerating | src/pages/ResultsPage.tsx:88 | a pending request whose progress reaches 100 is still generating; the page as written shows scene 5 and the corrected view shows scene 4, both at progress 100 |
| ResultsPage.Render | src/pages/ResultsPage.tsx:70-236 | generating beats error beats no results beats results, each view shown exactly in its case; while generating it shows the progress and the counter as written, n for progress in [25(n-1), 25n), which stays within 1 to 4 below 100; the error view carries the error type and retry count and offers the partial results exactly when results are partial; the results view carries the scene count |
| ResultsPage.RenderCorrected | src/pages/ResultsPage.tsx:70-236 | corrected: the same view as the page as written except for the counter, which agrees below progress 100 and stays within 1 to 4 up to 100 |
| ResultsPage.FailureBeatsResults | src/pages/ResultsPage.tsx:99-145 | a failed request with two scenes shows the partial-failure panel with the partial results beside it |
| ResultsPage.HandleRetry | src/pages/ResultsPage.tsx:20-40 | nothing happens while a retry runs or without brand details; otherwise the count goes up, returns to 0 on success, and the running flag is cleared |
| ResultsPage.CountsFailuresSinceSuccess | src/pages/ResultsPage.tsx:20-40 | from rest, retries leave the flag clear, a run of failures adds its length to the count, and a final success resets it to 0 |
| SceneCard3D.StartLoad | src/components/carousel/SceneCard3D.tsx:30-31 | a load starts with the loading flag set, the error flag clear and the texture kept |
| SceneCard3D.LoadSucceeded | src/components/carousel/SceneCard3D.tsx:44-47 | a resolved load stores the texture with mipmaps and the update flag set, and stops loading |
| SceneCard3D.LoadFailed | src/components/carousel/SceneCard3D.tsx:48-52 | a rejected load stops loading with the error flag set and the texture kept |
| SceneCard3D.RunLoad | src/components/carousel/SceneCard3D.tsx:28-62 | after a load the card is not loading, has the error flag exactly when the loader rejected, and on success holds the loaded texture |
| SceneCard3D.FaceMaterial | src/components/carousel/SceneCard3D.tsx:79-107 | loading beats error beats a texture beats the grey fallback, each with its colour and opacity, and every face is transparent |
| SceneCard3D.FaceShowsTextureIff | src/components/carousel/SceneCard3D.tsx:79-107 | the face shows a texture exactly when a load finished without error and a texture is held |
| SceneCard3D.FrameColor | src/components/carousel/SceneCard3D.tsx:118 | the frame is blue when selected, indigo when only hovered, grey otherwise |
| SceneCard3D.TargetScale | src/components/carousel/SceneCard3D.tsx:159 | the scale is 1.1 when selected, 1.05 when only hovered, 1 otherwise |
| SceneCard3D.EmphasisConsistent | src/components/carousel/SceneCard3D.tsx:118-159 | the frame colour and the scale rank the three states the same way |
| SceneCard3D.CreateCard | src/components/carousel/SceneCard3D.tsx:65-150 | four meshes: the face at half the depth, the frame one border wider and taller, the badge and the label 0.01 and 0.02 in front of the face in the top-left corner, face and frame casting and receiving shadows |
| SceneCard3D.MountedCardShowsLoading | src/components/carousel/SceneCard3D.tsx:173-178 | the card is built once on mount, while loading, so its face keeps the loading material and no texture |
| SceneCard3D.ApplyAppearance | src/components/carousel/SceneCard3D.tsx:153-170 | nothing before the group exists; otherwise the scale follows the emphasis, position and rotation are copied, and the card is lifted by 0.1 when hovered or selected |
| SceneCard3D.ApplyAppearanceIdempotent | src/components/carousel/SceneCard3D.tsx:153-170 | running the effect again with the same props changes nothing: the lift does not accumulate |
| SceneCarousel.ConfigIsFixed | src/components/carousel/SceneCarousel.tsx:45-50 | the fixed configuration (radius 8, height 0, speed 0.02, no auto-rotation) is exactly the motion hook's defaults |
| SceneCarousel.Navigate | src/components/carousel/SceneCarousel.tsx:25-36 | on a valid index, back is the ring predecessor and forward the ring successor, and the result is always a valid index |
| SceneCarousel.KeyProps | src/components/carousel/SceneCarousel.tsx:67-74 | the keyboard layer gets navigate, select and set-index callbacks but no escape, the scene count and the current index |
| SceneCarousel.Apply | src/components/carousel/SceneCarousel.tsx:17-73 | a navigate call moves by one on the ring, a set-index call sets the index, and select, escape or no call leave it |
| SceneCarousel.KeyDown | src/components/carousel/SceneCarousel.tsx:66-74 | a key press keeps a valid index valid; outside the carousel nothing moves; Home goes to the first scene, End to the last, and the arrows to the ring neighbours |
| SceneCarousel.LeftThenRight | src/components/carousel/SceneCarousel.tsx:25-36 | left then right returns to the same scene |
| SceneCarousel.SelectScene | src/components/carousel/SceneCarousel.tsx:100 | picking a scene on the carousel or its indicator makes that index current, whatever the current one |
| SceneCarousel.Render | src/components/carousel/SceneCarousel.tsx:54-158 | the placeholder exactly when there are no scenes; otherwise the carousel with all scenes and the fixed configuration, and one indicator per scene with exactly the current one lit |
| Simple3DCarousel.BaseSize | src/components/carousel/Simple3DCarousel.tsx:26-39 | a 300-pixel square below 640 pixels of window width, 350 below 1024, and 400 from there on |
| Simple3DCarousel.ContainerSize | src/components/carousel/Simple3DCarousel.tsx:24-51 | the base square for square images, 0.75 by 1.33 of it for portrait, and 1.33 by 0.75 for landscape |
| Simple3DCarousel.ContainerShape | src/components/carousel/Simple3DCarousel.tsx:24-51 | portrait is taller than wide, landscape is portrait on its side, square is square, and a wider window never gives a smaller container |
| Simple3DCarousel.NextScene | src/components/carousel/Simple3DCarousel.tsx:62-64 | from a shown card, the ring successor |
| Simple3DCarousel.PrevScene | src/components/carousel/Simple3DCarousel.tsx:66-68 | from a shown card, the ring predecessor |
| Simple3DCarousel.StyleOf | src/components/carousel/Simple3DCarousel.tsx:104-124 | only the active card is drawn on top and fully opaque, exactly the two neighbours sit one layer down, and no card is more than opaque |
| Simple3DCarousel.RolesOnRing | src/components/carousel/Simple3DCarousel.tsx:100-124 | the current card alone is active; from three cards on exactly its ring predecessor and successor are the side cards; with two cards the other card is on the left and none on the right |
| Simple3DCarousel.CardRole | src/components/carousel/Simple3DCarousel.tsx:100-124 | a card is active when it is current, else on the left when it is the previous one, else on the right when it is the next one, else in the background; no contract of its own, RolesOnRing states the roles on the ring |
| Simple3DCarousel.Swipe | src/components/carousel/Simple3DCarousel.tsx:176-197 | a swipe of at most 50 pixels does nothing; a longer swipe left goes to the next card and a longer swipe right to the previous |
| Simple3DCarousel.SwipeBackAndForth | src/components/carousel/Simple3DCarousel.tsx:176-197 | a swipe followed by the same swipe back returns to the same card |
| Simple3DCarousel.KeyDown | src/components/carousel/Simple3DCarousel.tsx:204-220 | the index stays valid; the arrows step to the ring neighbours, Enter and Space report the current scene without moving, each preventing the default, and other keys do nothing |
| Simple3DCarousel.CardClick | src/components/carousel/Simple3DCarousel.tsx:135-138 | clicking a card makes it current and reports it with its index |
| Simple3DCarousel.ClickThenEnter | src/components/carousel/Simple3DCarousel.tsx:135-218 | after a click, Enter reports the same selection as the click did |
| Simple3DCarousel.Render | src/components/carousel/Simple3DCarousel.tsx:74-224 | the placeholder exactly when there are no scenes; otherwise one style per card from its role, one indicator per scene with exactly the current one lit, at the container size |
| Simple3DCarousel.OneCardInFront | src/components/carousel/Simple3DCarousel.tsx:99-168 | on a valid index exactly the current card is drawn in front, and it is the one whose indicator is lit |
| ThreeCarousel.BuildCards | src/components/carousel/ThreeCarousel.tsx:88-123 | card i takes the pose computed for i and is tagged with index i, its scene and the enhanced flag; every card has three meshes, and the object registry stays well formed |
| ThreeCarousel.SceneRemove | src/components/carousel/ThreeCarousel.tsx:73-75 | removing a card from the scene takes away only a direct child: a scene holding nothing but carousel groups is left as it was |
| ThreeCarousel.RemoveAll | src/components/carousel/ThreeCarousel.tsx:73-76 | the clearing loop leaves a scene holding only carousel groups unchanged |
| ThreeCarousel.CountGroupsAppend | src/components/carousel/ThreeCarousel.tsx:79-81 | the carousel groups of two node lists add up |
| ThreeCarousel.NewCarousel | src/components/carousel/ThreeCarousel.tsx:79-123 | a new unturned group named "carousel" holding one card per scene, card i tagged with i and placed at the ring position for i |
| ThreeCarousel.CreateSceneObjectsAsWritten | src/components/carousel/ThreeCarousel.tsx:69-124 | nothing happens without a scene or without scenes; otherwise the old nodes all stay and one more carousel group is added |
| ThreeCarousel.RebuildLeavesOldGroup | src/components/carousel/ThreeCarousel.tsx:73-81 | two builds in a row leave two carousel groups in the scene |
| ThreeCarousel.RemoveAt | src/components/carousel/ThreeCarousel.tsx:73-76 | the node at the given position is removed and all others kept in order; no position or one past the end removes nothing |
| ThreeCarousel.CreateSceneObjects | src/components/carousel/ThreeCarousel.tsx:69-124 | nothing happens without a scene or without scenes; otherwise the ref'd group holds exactly the new cards, card i tagged with i at ring position i, and a scene with one carousel keeps exactly one |
| ThreeCarousel.UpdateRotation | src/components/carousel/ThreeCarousel.tsx:127-131 | only the group the ref points at is turned, to the given angle; every other node is unchanged |
| ThreeCarousel.Ndc | src/components/carousel/ThreeCarousel.tsx:138-140 | a click inside the window maps into [-1, 1] on both axes |
| ThreeCarousel.NdcInverse | src/components/carousel/ThreeCarousel.tsx:138-140 | the click point is recovered from its device coordinates |
| ThreeCarousel.FindCardAsWritten | src/components/carousel/ThreeCarousel.tsx:148-156 | the walk as written finds an ancestor only when one has a non-zero index, and then one with a non-zero index |
| ThreeCarousel.FindCard | src/components/carousel/ThreeCarousel.tsx:148-156 | the corrected walk finds the nearest ancestor with a defined index, and nothing exactly when none has one |
| ThreeCarousel.FindCardFromMesh | src/components/carousel/ThreeCarousel.tsx:148-156 | a hit on any card's mesh finds that card |
| ThreeCarousel.CardZeroUnpickable | src/components/carousel/ThreeCarousel.tsx:152 | a hit on card 0 resolves to nothing as written; the corrected walk finds it |
| ThreeCarousel.OtherCardsPickable | src/components/carousel/ThreeCarousel.tsx:152-156 | every other card resolves to itself under both walks |
| ThreeCarousel.SelectCard | src/components/carousel/ThreeCarousel.tsx:156-176 | a found card becomes the selection, opens the overlay at the click, turns the ring to it and is reported; otherwise nothing changes |
| ThreeCarousel.HandleSceneClickAsWritten | src/components/carousel/ThreeCarousel.tsx:134-178 | without a renderer or a hit nothing changes; otherwise the nearest hit is resolved with the walk as written |
| ThreeCarousel.HandleSceneClick | src/components/carousel/ThreeCarousel.tsx:134-178 | without a renderer or a hit nothing changes; otherwise the nearest hit is resolved with the corrected walk |
| ThreeCarousel.ClickSelectsBuiltCard | src/components/carousel/ThreeCarousel.tsx:134-178 | clicking any built card selects it, shows the overlay at the click and turns the ring to it |
| ThreeCarousel.ClickOnFirstCardIgnored | src/components/carousel/ThreeCarousel.tsx:152-156 | as written, clicking the first card does nothing at all |
| ThreeCarousel.CloseOverlay | src/components/carousel/ThreeCarousel.tsx:224-226 | closing hides the overlay and keeps what it showed, the selection and the ring |
| ThreeCarousel.Indicators | src/components/carousel/ThreeCarousel.tsx:262-277 | one dot per scene when there is more than one scene, none otherwise, with exactly the current one highlighted |
| ThreeCarousel.OneActiveIndicator | src/components/carousel/ThreeCarousel.tsx:269 | at most one dot is highlighted |
| ThreeCarousel.IndicatorClick | src/components/carousel/ThreeCarousel.tsx:267 | clicking dot k turns the ring to scene k and leaves the overlay and the selection alone |
| ThreeObjects.InitialValid | src/hooks/useThreeObjects.ts:9-11 | a fresh hook has no loader and an empty texture cache, which satisfies the cache invariant (at most one loader, one texture per URL, keyed by its own URL) |
| ThreeObjects.GetTextureLoader | src/hooks/useThreeObjects.ts:14-19 | the loader is constructed on the first call only; later calls return the same loader and leave the cache and the load log alone; the cache invariant is kept |
| ThreeObjects.BeginLoad | src/hooks/useThreeObjects.ts:22-39 | a cached URL resolves at once with the cached texture and nothing changes; any other URL issues a new loader request, numbered after the earlier ones, with the cross-origin option applied when it is a non-empty string |
| ThreeObjects.NoInFlightSharing | src/hooks/useThreeObjects.ts:28-39 | two loads of the same uncached URL started before either settles go to the loader as two distinct requests |
| ThreeObjects.FinishLoad | src/hooks/useThreeObjects.ts:41-53 | a successful load resolves with a texture for the requested URL flagged for upload and mipmapping and stores it in the cache under that URL; a failure rejects with its reason and changes nothing |
| ThreeObjects.LoadTexture | src/hooks/useThreeObjects.ts:22-56 | a cached URL resolves with the cached texture without touching the loader; otherwise one request is issued and, on success, the texture for that URL is resolved and cached, on failure the error is returned and the cache kept |
| ThreeObjects.LoadTextureTwice | src/hooks/useThreeObjects.ts:28-31 | after a successful load, loading the same URL again returns the same texture and leaves the state unchanged, whatever the loader would have done |
| ThreeObjects.OpacityOr1 | src/hooks/useThreeObjects.ts:79 | `opacity \|\| 1`: a missing or zero opacity becomes 1, any other value is kept |
| ThreeObjects.PlaneMaterial | src/hooks/useThreeObjects.ts:76-95 | the material carries the texture when there is one, transparency defaulting to false and opacity through `\|\| 1`; a textured material uses the requested side (front by default), the grey fallback uses the front side unless the side is kept |
| ThreeObjects.TexturedPlane | src/hooks/useThreeObjects.ts:59-101 | the plane has the requested size, sits at the origin without shadows, and is textured exactly when the URL is non-empty and its texture is cached or loads; the texture is the one for that URL; without a URL the state is unchanged |
| ThreeObjects.CreateTexturedPlaneAsWritten | src/hooks/useThreeObjects.ts:82-96 | as written: every untextured plane is front-facing, and a plane is untextured exactly when there is no URL or an uncached texture fails to load |
| ThreeObjects.BackPlaneSideIgnored | src/hooks/useThreeObjects.ts:136-145 | the back plane a scene card asks for with the back side comes out front-facing from the as-written factory |
| ThreeObjects.CreateTexturedPlane | src/hooks/useThreeObjects.ts:59-101 | corrected: every plane uses the requested side; it is untextured, and grey, exactly when there is no URL or an uncached texture fails to load; opacity follows `\|\| 1` |
| ThreeObjects.SceneCard | src/hooks/useThreeObjects.ts:104-165 | a group of exactly three meshes at the identity pose: the front-facing front plane at +depth/2, textured exactly when its URL is truthy and cached or loads; the grey back plane at -depth/2 with opacity 0.1, on the back side only when the plane honours its side; the edge box (color 0x333333, opacity 0.3) at the origin; all three take the shadow options; the cache invariant is kept |
| ThreeObjects.CreateSceneCard | src/hooks/useThreeObjects.ts:104-165 | as written: three meshes, the front plane front-facing, and the untextured back plane grey, translucent and front-facing although it asks for the back side |
| ThreeObjects.CreateSceneCardCorrected | src/hooks/useThreeObjects.ts:104-165 | corrected: the back plane is on the back side; the front plane, the edge box and the texture cache are those of the card as written |
| ThreeObjects.Cleanup | src/hooks/useThreeObjects.ts:168-174 | every cached texture is disposed once, in cache order, and the cache is emptied; the loader and the load log are untouched |
| ToastContext.Without | src/context/ToastContext.tsx:23 | filtering by id never lengthens the queue |
| ToastContext.WithoutSelects | src/context/ToastContext.tsx:23 | the filter keeps exactly the toasts whose id differs: everything kept has another id and was in the queue, and every toast with another id is kept |
| ToastContext.Reduce | src/context/ToastContext.tsx:13-33 | ADD_TOAST appends the toast after the unchanged queue; REMOVE_TOAST keeps exactly the toasts with another id; CLEAR_ALL empties the queue; any other action leaves it unchanged |
| ToastContext.WithoutAppend | src/context/ToastContext.tsx:23 | removing from two queues joined is joining the two removals |
| ToastContext.WithoutAbsent | src/context/ToastContext.tsx:23 | removing an id no toast carries leaves the queue unchanged |
| ToastContext.AddThenRemove | src/context/ToastContext.tsx:15-24 | adding a toast with a fresh id and then removing that id restores the queue |
| ToastContext.RemoveIdempotent | src/context/ToastContext.tsx:20-24 | removing the same id twice is removing it once |
| ToastContext.ToastId | src/context/ToastContext.tsx:48 | the id starts with "toast_" and its length is 7 plus the clock reading's digits plus the random part |
| ToastContext.ToastIdsDiffer | src/context/ToastContext.tsx:48 | toasts made at different clock readings get different ids when the random parts contain no underscore |
| ToastContext.IdParts | src/context/ToastContext.tsx:48 | splitting an id at underscores gives back "toast", the clock reading and the random part |
| ToastContext.AddToastWithId | src/context/ToastContext.tsx:47-50 | the queue grows by one at the end, the earlier toasts unchanged, and the new toast carries the content and the generated id |
| UseExport.Start | src/hooks/useExport.ts:40-47 | every export opens busy, with its operation recorded, progress at 0, the error cleared and the completed list kept |
| UseExport.Succeed | src/hooks/useExport.ts:54-61 | a successful export closes idle at full progress, with the exported ids appended after the earlier completions |
| UseExport.Fail | src/hooks/useExport.ts:62-69 | a failed export closes idle with the thrown message, or the fallback text when the thrown value is not an Error, and leaves progress, scene and completions alone |
| UseExport.ExportSingleScene | src/hooks/useExport.ts:36-70 | on success the scene's id is appended to the completions, progress is 100 and the current scene cleared; on a failure of either download the scene stays current, progress stays 0 and the error is the message or "Export failed" |
| UseExport.Ids | src/hooks/useExport.ts:100 | `scenes.map(s => s.id)`: one id per scene, in order |
| UseExport.ExportMultipleScenes | src/hooks/useExport.ts:73-110 | when every download succeeds, all scene ids are appended in order at full progress with no error; when any fails, nothing is appended, progress stays 0 and the error is that of the first failure |
| UseExport.ExportAsZip | src/hooks/useExport.ts:113-147 | the ZIP placeholder `createSceneZip` downloads the first scene: when that succeeds every scene id is appended at full progress; with no scenes it throws, and that or a failed first download appends nothing, resets progress and reports the message or "ZIP export failed"; the operation always ends idle |
| UseExport.ClearExportState | src/hooks/useExport.ts:150-161 | the state returns to its initial value and the manager holds no progress for any scene |
| UseExport.SingleExportCompletes | src/hooks/useExport.ts:36-70 | after a single export, a scene counts as completed exactly when it did before or the export succeeded and it is the exported scene |
| UseExport.IsSceneCompleted | src/hooks/useExport.ts:169-171 | a scene is completed when its id is among the completed downloads; no contract of its own, SingleExportCompletes, ZipExportCompletesAll and ClearForgets state how exports change it |
| UseExport.ZipExportCompletesAll | src/hooks/useExport.ts:132-171 | after a successful ZIP export every exported scene counts as completed |
| UseExport.ClearForgets | src/hooks/useExport.ts:150-171 | after clearing, no scene counts as completed |
| UseForm.LastMessage | src/hooks/useForm.ts:23-25 | a field has a last message exactly when some listed error names it |
| UseForm.SetErrorsLastWins | src/hooks/useForm.ts:23-25 | dispatching the errors one by one leaves every named field holding its last message, other fields as they were, and the rest of the state unchanged |
| UseForm.ValidateCurrentForm | src/hooks/useForm.ts:14-28 | the answer is yes exactly when the brand info passes every validation rule |
| UseForm.ValidationRecorded | src/hooks/useForm.ts:14-28 | after validation the stored errors name exactly the fields some rule complained about; the brand info and the submitting flag are untouched |
| UseForm.ValidityMatchesAnswer | src/hooks/useForm.ts:27-36 | after validation the form counts as valid exactly when the answer was yes, and can be submitted exactly when the answer was yes and it was not submitting |
| UseForm.IsFormValid | src/hooks/useForm.ts:30-32 | the form is valid when it holds no error message; no contract of its own, ValidityMatchesAnswer ties it to the validation answer |
| UseForm.CanSubmit | src/hooks/useForm.ts:34-36 | a valid form that is not already submitting can be submitted; no contract of its own, ValidityMatchesAnswer states it after validation |
| UseForm.BrandNameMessageStored | src/hooks/useForm.ts:14-28 | after validation a brand-name message is stored exactly when the untrimmed name is not blank and shorter than 2 characters |
| UseForm.EditsKeepMessages | src/hooks/useForm.ts:10-32 | editing the brand info keeps the stored messages, so validity does not change until the next validation |
| UseForm.ResetMakesSubmittable | src/hooks/useForm.ts:34-44 | after a reset the form can be submitted |
| UseForm.PromptSurvivesValidation | src/hooks/useForm.ts:38-40 | validation leaves the prompt built from the brand info unchanged |
| UsePerformance.DefaultOptions | src/hooks/usePerformance.ts:13 | renders and interactions are tracked unless the caller says otherwise |
| UsePerformance.TrackRender | src/hooks/usePerformance.ts:18-33 | with render tracking off nothing changes; with it on, the render count goes up by one, the time since the last render is recorded as a render metric named `<component>-render`, and the clock reading becomes the last render time |
| UsePerformance.TrackInteraction | src/hooks/usePerformance.ts:56-64 | with interaction tracking on and the monitor enabled, the newest metric is a zero-duration interaction named `<component>-<action>`, appended when the buffer has room; otherwise nothing changes |
| UsePerformance.InteractionsNeverReported | src/hooks/usePerformance.ts:56-64 | a zero-duration interaction is never slow enough to be passed to the error monitor |
| UsePerformance.TrackOperation | src/hooks/usePerformance.ts:67-88 | the operation's own result is returned; with room in an enabled monitor the elapsed time is appended as `<component>-<operation>`, under network for asynchronous and render for synchronous operations; a disabled monitor is left alone |
| UsePerformance.OptimizedCalculation | src/hooks/usePerformance.ts:125-144 | the calculation's result is returned; with memoizing and tracking on and room in an enabled monitor its elapsed time is appended under the operation name and the default category; with memoizing or tracking off, or a disabled monitor, the monitor is unchanged |
| UsePerformance.ComponentMetrics | src/hooks/usePerformance.ts:92-98 | the kept metrics are exactly those of the category whose name contains the component's name, and together with the category's other metrics they make up the category's metrics with their multiplicities |
| UsePerformance.FindNamed | src/hooks/usePerformance.ts:107-109 | the position found is the first whose name contains the text, and no earlier name contains it; when none does, the position is the length |
| UsePerformance.FirstNamed | src/hooks/usePerformance.ts:107-109 | `find` returns a metric exactly when some name contains the text, and that metric is in the list and has such a name |
| UsePerformance.SlowestOperationAsWritten | src/hooks/usePerformance.ts:107-109 | as written: there is an answer exactly when the buffer is not empty and its single slowest metric names the component, and the answer is that metric |
| UsePerformance.SlowestOperation | src/hooks/usePerformance.ts:107-109 | corrected: the answer, when there is one, is a recorded metric whose name contains the component's |
| UsePerformance.SlowestOperationIsSlowest | src/hooks/usePerformance.ts:107-109 | the corrected search finds a metric exactly when the component has one, and no metric of the component is slower |
| UsePerformance.GetStats | src/hooks/usePerformance.ts:91-111 | as written: the render count is the ref's; total render time is the sum over the component's render metrics and the mean is that total over their number, 0 when there are none; the interaction count is the number of its interactions; a slowest operation is given exactly when the single slowest metric of the buffer names the component, and it is that metric |
| UsePerformance.GetStatsCorrected | src/hooks/usePerformance.ts:91-111 | corrected: every figure but the slowest operation is that of the hook as written; a slowest operation is given exactly when some metric names the component, and none of its metrics is slower |
| UsePerformance.SlowestMissedWhenOtherIsSlower | src/hooks/usePerformance.ts:107-109 | when another component's metric is slower than all the rest, the hook as written reports no slowest operation although the component has metrics; the corrected hook reports one |
| UsePerformance.AverageRenderWithinRenders | src/hooks/usePerformance.ts:102-105 | the mean render time lies between the fastest and the slowest of the component's renders |
| UsePerformance.HandleScroll | src/hooks/usePerformance.ts:187-201 | the new offset is stored and the range is recomputed from it; the range starts at 0 or later and ends no later than the last item |
| UsePerformance.Render | src/hooks/usePerformance.ts:203-205 | total height is items times item height, the offset is the range start times item height, and a range inside the list shows exactly the items from start to end inclusive |
| UsePerformance.ScrolledAgreesWithVirtualScroll | src/hooks/usePerformance.ts:178-215 | after a scroll, the optimizing hook renders exactly what the plain virtual-scroll hook of the performance utilities renders at that offset |
| UsePerformance.FirstItemOnlyBeforeScroll | src/hooks/usePerformance.ts:184-203 | before the first scroll event only the first item is rendered, whatever the container's height |
| Validation.ValidateFile | src/utils/validation.ts:3-22 | the file is valid exactly when there is no message; the size message appears exactly when the size exceeds 15 MiB, the type message exactly when the type is not JPEG, JPG, PNG or WebP; no other message appears, and size comes before type |
| Validation.SizeLimitInclusive | src/utils/validation.ts:5-11 | a file of exactly 15 MiB of an allowed type passes and one byte more fails |
| Validation.BrandValueList | src/utils/validation.ts:67 | every value read from the comma-separated list is non-empty, trimmed and free of commas |
| Validation.Assemble | src/utils/validation.ts:31-83 | at most six messages, none other than the six known ones, and none at all exactly when no condition holds |
| Validation.AssembledFirstThree | src/utils/validation.ts:34-55 | the dimensions, brand-name and product-name messages each appear exactly when their condition holds |
| Validation.AssembledLastThree | src/utils/validation.ts:58-81 | the description, no-values and short-value messages each appear exactly when their condition holds |
| Validation.AssembledInFieldOrder | src/utils/validation.ts:31-83 | the messages come out in the form's field order |
| Validation.ValidateBrandInfo | src/utils/validation.ts:24-84 | dimensions are required; a name, product or description that is not blank but whose untrimmed length is below 2, 2 or 10 gets its message; non-blank brand values get one message when no value is left and another when some value is shorter than 2; messages are in field order, and the list is empty exactly when none of these holds |
| Validation.MessagesDistinct | src/utils/validation.ts:35-79 | the six validation messages are pairwise different |
| Validation.ValidateForm | src/utils/validation.ts:86-101 | the form's messages are those of its brand info, and there are none exactly when the brand info is acceptable: dimensions chosen, each filled-in field long enough, and filled-in brand values leaving at least one value, none shorter than 2 |
| Validation.UntrimmedLengthCounts | src/utils/validation.ts:42 | an example: the length test counts the untrimmed text: " a" trims to one letter yet gets no brand-name message |
| Validation.FormatZeroFileSize | src/utils/validation.ts:103-104 | a size of 0 is shown as "0 Bytes"; every other size is left to the floating-point branch |

## Left out

- HTTP plumbing is not modelled: `callAPI`, `fetch`, the poll delays and `validateReplicateApiKey` in `src/services/replicate.ts`, and the axios client in `src/services/openai.ts`. Each request's outcome is a parameter instead.
- A 400 answer without a body, and an answer whose `data.data[0].url` is missing, would throw inside the fetch layer. They are not modelled.
- Three.js and WebGL internals are not modelled: the renderer, the camera, resize, the raycaster's geometry and `useThreeScene`. The raycast hit list, cosine and sine are parameters.
- Timers and frame scheduling are not modelled: debounce and throttle, `requestAnimationFrame` loops, the export hook's 100 ms progress interval, and the image optimizer's 100 ms in-flight polling. They are about time, not state.
- The debounced and throttled wrappers that the performance hook returns are left out with the timers. `useLazyComponent` is left out too; it is a dynamic import.
- Canvas, Image, Blob and DOM side effects are not modelled: `downloadScene` rendering, `triggerDownload`, `ImageOptimizer.processImage` and its cache, `getMimeType`, `getImageDimensions` and the memory manager. Saving a file is left to the browser.
- `Validation.FormatZeroFileSize`: only the zero case of `formatFileSize` is modelled. Other sizes go through `Math.log` and `toFixed`, which are floating-point presentation.
- OpenAI's backoff jitter (`Math.random() * 1000`) is not modelled. The model's waits are the jitter-free exponential part.
- Ids built from `Date.now()` and `Math.random()`, and all `new Date()` timestamps, are parameters. `toLocaleDateString` is taken as a given text.
- Metric metadata records and the development-mode console logging thresholds are not modelled. The `|| 5000` fallback after the threshold lookup cannot be reached, because every category has a threshold.
- `isExpectedError` in the scene batches only decides whether to log, so the model drops it.
- `ErrorMonitoring.Tally`: the message record is a plain object, so a message that names an `Object.prototype` property ("constructor", "toString", "hasOwnProperty" and the like) starts from the inherited function, not from `undefined`. In the source its count becomes a string such as "function Object() { [native code] }1", and a message "__proto__" is never recorded as a key at all. The model counts every message as a number, as it would in a prototype-free record.
- `MostCommon`: when a prototype-named message occurs, the source's comparator subtracts a string count and gets NaN, so the order of the whole list is up to the engine, while the model sorts numbers. When no such message occurs the list is the source's, integer-like messages included.
- `GetAnalytics`: its `mostCommonErrors` is `MostCommon` of the log, so it differs from the source for prototype-named messages as `MostCommon` does. The category and severity tables are exact, because their keys are fixed category and severity names.
- `Replicate.Text`: numbers are written in plain decimal with at most twenty fractional digits. JavaScript writes magnitudes from 10^21 up and below 10^-6 in exponent form, and prints the shortest decimal that identifies the double; the model does neither. An object with its own non-callable `toString` or `valueOf` property makes `String` throw a `TypeError` in the source; the model gives "[object Object]". Neither reaches a caller, because the catch replaces the generation failure with SERVICE_UNAVAILABLE.
- `Performance.Measure`: takes the value the measured function returned. A function that throws leaves the clock reading after it untaken, records no metric and passes the exception on; the model has no such outcome. The same holds for the asynchronous variant and a rejected promise.
- `toLowerCase` is modelled for ASCII letters only. The classifiers' keywords are all ASCII.
- The keyword `ai` in the error monitor's classifier matches inside other words, as `includes` does, so any message containing "failed" counts as a generation error. The model keeps that behaviour, which `ErrorMonitoring.FailedCountsAsGeneration` exhibits, and does not treat it as a defect.
- A non-string image value in a Replicate answer is kept as the empty string, because a scene's image address is text in the model.
- The toast and dispatch orchestration in `useAIGeneration` and the form submission component is not modelled. It is glue between the modelled services and reducers.
- Replicate's batch starts its four generations together and joins them with `Promise.all`. The model computes each scene from its own outcomes, so the interleaving of their progress reports is not modelled. The OpenAI batch and the export manager's downloads run in order in the source and in the model.
- `ValidateBrandInfo`: lengths count characters (Unicode code points), where JavaScript's `length` counts UTF-16 code units. A name made of one emoji such as "😀" has length 2 in the source and passes the two-character minimum, but has length 1 in the model and is rejected. The model uses code points throughout because its strings are sequences of `char`.
- `TruncatePrompt`: keeps the first `maxLength` characters, where the source's `substring` keeps `maxLength` UTF-16 code units. For prompts with characters outside the Basic Multilingual Plane the source's cut comes earlier, and it can split a surrogate pair; the model's cut does neither.
- `PromptLine`: the 50-character caption cut and its length test count code points, not UTF-16 code units, for the same reason as `TruncatePrompt`.
- `NamePart`: the 30-character file-name cut counts code points, not UTF-16 code units. A character outside the Basic Multilingual Plane becomes one underscore in the model where the source's `replace` gives two (one per code unit).
- Reals stand in for IEEE doubles throughout. Rounding error, NaN and Infinity are not modelled.
- `CarouselMechanics.AngleStep`: requires at least one card. With none the source computes 2π/0, and no carousel renders with an empty list. The same holds for `SceneAngle`, `ScenePosition`, `RotateToScene`, `Next`, `Prev`, `HandleKeyDown`, `WindowKeyDown`, `SnapIndex` and `TouchEnd`. `ScenePositions` takes any number of cards: with none, `Array.from` builds no poses, so no angle is computed, and the model gives the empty list too.
- `CarouselMechanics.SettleFrames`: requires a positive rotation speed. A speed of zero never settles in the source either.
- `FallbackCarousel.NextScene`: requires at least one scene. The buttons exist only when the list is non-empty, and `% 0` would give NaN.
- `Simple3DCarousel.NextScene`: requires at least one scene, as above. So do `CardRole` and `Swipe`.
- `Simple3DCarousel.KeyDown`: requires the current index to be a card. The component keeps it so, and a list that shrinks under it, which would report `undefined`, is not modelled.
- `Performance.CalculateDimensions`: requires positive maximum sizes. A zero maximum divides by zero in the source.
- `Performance.VisibleRange`: requires a positive item height. The same holds for `UseVirtualScroll` and `UsePerformance.HandleScroll`. The overscan may be any integer, including a negative one.
- `Performance.Largest`: requires a non-empty list. `Fastest` does too. Both are used only where metrics exist.
- `OpenAi.Percent`: requires a non-empty batch. `Replicate.ProgressReports` does too. Progress is reported only from inside the loop over the batch.
- `ThreeCarousel.SelectCard`: requires at least one card. So do `HandleSceneClick`, `HandleSceneClickAsWritten` and `IndicatorClick`. Clicks reach the handler only when cards are shown.
- `ThreeCarousel.Ndc`: requires a canvas of non-zero size. The renderer never reports a zero-size element to a click.
- `ThreeObjects.FinishLoad`: requires a request number that was issued. Only the loader calls back, and only for requests it received.
- `Replicate.Retry`: requires that `decide` asks for another try only while retries are left. This is the source's own `retryCount < maxRetries` guard, which the model lifts into the parameter's contract.

## Findings

| source | as written | input that shows it | evidently intended | confidence | as-written member | corrected member |
|---|---|---|---|---|---|---|
| src/components/carousel/ThreeCarousel.tsx:152 | the walk up from a hit stops at the first ancestor with a truthy `userData.sceneIndex` | a click on card 0, whose `sceneIndex` is 0 and therefore falsy | every card can be picked, including card 0 | high, not executed | ThreeCarousel.HandleSceneClickAsWritten, ThreeCarousel.ClickOnFirstCardIgnored | ThreeCarousel.HandleSceneClick |
| src/components/carousel/ThreeCarousel.tsx:73-81 | the rebuild calls `scene.remove` on each card, but the cards are children of the carousel group, not of the scene | any rebuild after a first build: the old "carousel" group stays in the scene | a rebuild leaves exactly one carousel group | high, not executed | ThreeCarousel.CreateSceneObjectsAsWritten, ThreeCarousel.RebuildLeavesOldGroup | ThreeCarousel.CreateSceneObjects |
| src/hooks/useCarouselMechanics.ts:205-214 | the window key listener dispatches with a ring size of 4 whatever the number of cards | two cards and the End key: index 3 | the listener dispatches with the number of cards shown | high, not executed | CarouselMechanics.WindowKeyDownAsWritten, CarouselMechanics.WindowKeyDownLeavesRing | CarouselMechanics.WindowKeyDown |
| src/hooks/useThreeObjects.ts:84-95 | the grey fallback material is built without `side`, so it is front-facing | a scene card's back plane, which asks for the back side and has no texture | the fallback honours the requested side | medium, not executed | ThreeObjects.CreateTexturedPlaneAsWritten, ThreeObjects.BackPlaneSideIgnored, ThreeObjects.CreateSceneCard | ThreeObjects.CreateTexturedPlane, ThreeObjects.CreateSceneCardCorrected |
| src/pages/ResultsPage.tsx:88 | the counter is `floor(progress / 25) + 1` of 4 | a pending request at progress 100: "scene 5 of 4" | the counter stays within 1 to 4 | high, not executed | ResultsPage.SceneCounterAsWritten, ResultsPage.Render, ResultsPage.FullProgressWhileGenerating | ResultsPage.SceneCounter, ResultsPage.RenderCorrected |
| src/services/replicate.ts:343-347 | the give-up message counts `maxRetries` attempts | three retries: four tries are made, and the message says 3 | the message counts the tries made | high, not executed | Replicate.GiveUpMessageAsWritten, Replicate.GenerateImage, Replicate.GiveUpMessageMiscounts, Replicate.AsWrittenNamesThree | Replicate.GiveUpMessage, Replicate.GenerateImageCorrected, Replicate.TransientFailuresExhaustCorrected |
| src/services/openai.ts:191-195 | the give-up message counts `maxRetries` attempts | three retries: four tries are made, and the message says 3 | the message counts the tries made | high, not executed | OpenAi.GenerateImage, OpenAi.GiveUpMessageMiscounts | OpenAi.GenerateImageCorrected, OpenAi.EmptyAnswersExhaustCorrected |
| src/hooks/usePerformance.ts:107-109 | the slowest operation is searched for only among the single slowest metric of the whole buffer | a buffer whose slowest metric belongs to another component | the component's own slowest metric | high, not executed | UsePerformance.SlowestOperationAsWritten, UsePerformance.GetStats, UsePerformance.SlowestMissedWhenOtherIsSlower | UsePerformance.GetStatsCorrected, UsePerformance.SlowestOperation, UsePerformance.SlowestOperationIsSlowest |

=== FILE: app_context.dfy ===
/**
 * The application store: the current project, the brand form, the generation request and
 * its scenes, and the page being shown, changed only through `appReducer`.
 */
module AppContext {
  import opened Wrappers
  import opened Types

  /** A `Partial<Project>`: each present field overwrites. */
  datatype ProjectPatch = ProjectPatch(
    id: Option<string>,
    createdAt: Option<Time>,
    updatedAt: Option<Time>,
    status: Option<ProjectStatus>,
    name: Option<string>)

  /** A `Partial<BrandInfo>`. */
  datatype BrandPatch = BrandPatch(
    brandName: Option<string>,
    productName: Option<string>,
    productDescription: Option<string>,
    brandValues: Option<string>,
    imageDimensions: Option<string>)

  /** A `Partial<GeneratedScene>`. */
  datatype ScenePatch = ScenePatch(
    id: Option<string>,
    sceneNumber: Option<int>,
    imageUrl: Option<string>,
    prompt: Option<string>,
    status: Option<SceneStatus>,
    createdAt: Option<Time>,
    downloadedAt: Option<Time>)

  datatype Action =
    | CreateProject(project: Project)
    | UpdateProject(projectPatch: ProjectPatch)
    | SetCurrentPage(page: Page)
    | UpdateBrandInfo(brandPatch: BrandPatch)
    | SetImage(image: Option<UploadedImage>)
    | SetFormSubmitting(submitting: bool)
    | SetFormError(field: string, message: string)
    | ClearFormErrors
    | ResetForm
    | StartGeneration(request: GenerationRequest)
    | UpdateGenerationProgress(progress: real, progressScenes: Option<seq<GeneratedScene>>)
    | AddGeneratedScene(scene: GeneratedScene)
    | CompleteGeneration(completedScenes: seq<GeneratedScene>)
    | FailGeneration(failure: string)
    | SetGeneratedScenes(scenes: seq<GeneratedScene>)
    | UpdateScene(sceneId: string, scenePatch: ScenePatch)
    | DownloadScene(downloadId: string)
    | SetLoading(loading: bool)
    | SetError(error: Option<string>)
    | ResetState
    | Unknown

  const InitialBrandInfo := BrandInfo("", "", "", "", "square")

  const InitialFormData := FormData(InitialBrandInfo, false, map[], None)

  const InitialState := AppState(None, InitialFormData, [], None, false, None, CreatePage)

  function PatchProject(p: Project, u: ProjectPatch): (r: Project)
    ensures r.id == u.id.GetOr(p.id) && r.createdAt == u.createdAt.GetOr(p.createdAt)
    ensures r.updatedAt == u.updatedAt.GetOr(p.updatedAt) && r.status == u.status.GetOr(p.status)
    ensures r.name == (if u.name.Some? then u.name else p.name)
  {
    Project(u.id.GetOr(p.id), u.createdAt.GetOr(p.createdAt), u.updatedAt.GetOr(p.updatedAt),
            u.status.GetOr(p.status), if u.name.Some? then u.name else p.name)
  }

  function PatchBrand(b: BrandInfo, u: BrandPatch): (r: BrandInfo)
    ensures r.brandName == u.brandName.GetOr(b.brandName)
    ensures r.productName == u.productName.GetOr(b.productName)
    ensures r.productDescription == u.productDescription.GetOr(b.productDescription)
    ensures r.brandValues == u.brandValues.GetOr(b.brandValues)
    ensures r.imageDimensions == u.imageDimensions.GetOr(b.imageDimensions)
  {
    BrandInfo(u.brandName.GetOr(b.brandName), u.productName.GetOr(b.productName),
              u.productDescription.GetOr(b.productDescription), u.brandValues.GetOr(b.brandValues),
              u.imageDimensions.GetOr(b.imageDimensions))
  }

  /** Spreading `second` after `first`: a field of `second` wins where both have one. */
  function MergeBrandPatches(first: BrandPatch, second: BrandPatch): BrandPatch {
    BrandPatch(
      if second.brandName.Some? then second.brandName else first.brandName,
      if second.productName.Some? then second.productName else first.productName,
      if second.productDescription.Some? then second.productDescription else first.productDescription,
      if second.brandValues.Some? then second.brandValues else first.brandValues,
      if second.imageDimensions.Some? then second.imageDimensions else first.imageDimensions)
  }

  /** Two brand updates in a row are one update with the later fields winning. */
  lemma BrandUpdatesCompose(b: BrandInfo, first: BrandPatch, second: BrandPatch)
    ensures PatchBrand(PatchBrand(b, first), second) == PatchBrand(b, MergeBrandPatches(first, second))
  {
  }

  function PatchScene(s: GeneratedScene, u: ScenePatch): (r: GeneratedScene)
    ensures r.id == u.id.GetOr(s.id) && r.prompt == u.prompt.GetOr(s.prompt)
    ensures r.status == u.status.GetOr(s.status) && r.imageUrl == u.imageUrl.GetOr(s.imageUrl)
    ensures r.downloadedAt == (if u.downloadedAt.Some? then u.downloadedAt else s.downloadedAt)
  {
    GeneratedScene(u.id.GetOr(s.id), u.sceneNumber.GetOr(s.sceneNumber), u.imageUrl.GetOr(s.imageUrl),
                   u.prompt.GetOr(s.prompt), u.status.GetOr(s.status), u.createdAt.GetOr(s.createdAt),
                   if u.downloadedAt.Some? then u.downloadedAt else s.downloadedAt)
  }

  /** `scenes.map(s => s.id === id ? f(s) : s)` with `f` a patch. */
  function MapMatching(scenes: seq<GeneratedScene>, id: string, u: ScenePatch): (r: seq<GeneratedScene>)
    ensures |r| == |scenes|
    ensures forall k :: 0 <= k < |r| ==> r[k] == (if scenes[k].id == id then PatchScene(scenes[k], u) else scenes[k])
  {
    seq(|scenes|, k requires 0 <= k < |scenes| => if scenes[k].id == id then PatchScene(scenes[k], u) else scenes[k])
  }

  /** The patch for a download stamp: only `downloadedAt` is set. */
  function Stamp(now: Time): ScenePatch {
    ScenePatch(None, None, None, None, None, None, Some(now))
  }

  /** The request fields a progress, completion or failure action touches; none when there is no request. */
  function PatchRequest(g: Option<GenerationRequest>, f: GenerationRequest -> GenerationRequest): (r: Option<GenerationRequest>)
    ensures g.None? <==> r.None?
    ensures g.Some? ==> r == Some(f(g.value))
  {
    match g
    case None => None
    case Some(req) => Some(f(req))
  }

  /**
   * `appReducer`, with the clock reading `now` that the completion, failure and download
   * stamps take. Only project creation, page changes and the full reset move the page;
   * only the form actions touch the form.
   */
  function Reduce(s: AppState, a: Action, now: Time): (r: AppState)
    ensures r.currentPage != s.currentPage ==> a.CreateProject? || a.SetCurrentPage? || a.ResetState?
    ensures r.formData != s.formData ==>
      a.UpdateBrandInfo? || a.SetImage? || a.SetFormSubmitting? || a.SetFormError? ||
      a.ClearFormErrors? || a.ResetForm? || a.ResetState?
    ensures a.Unknown? ==> r == s
  {
    match a
    case CreateProject(p) => s.(currentProject := Some(p), currentPage := CreatePage)
    case UpdateProject(u) =>
      s.(currentProject := if s.currentProject.Some? then Some(PatchProject(s.currentProject.value, u)) else None)
    case SetCurrentPage(page) => s.(currentPage := page)
    case UpdateBrandInfo(u) => s.(formData := s.formData.(brandInfo := PatchBrand(s.formData.brandInfo, u)))
    case SetImage(img) => s.(formData := s.formData.(image := img))
    case SetFormSubmitting(b) => s.(formData := s.formData.(isSubmitting := b))
    case SetFormError(field, message) => s.(formData := s.formData.(errors := s.formData.errors[field := message]))
    case ClearFormErrors => s.(formData := s.formData.(errors := map[]))
    case ResetForm => s.(formData := InitialFormData)
    case StartGeneration(req) => s.(generationRequest := Some(req), generatedScenes := [], isLoading := true, error := None)
    case UpdateGenerationProgress(progress, scenes) =>
      s.(generationRequest := PatchRequest(s.generationRequest,
           (req: GenerationRequest) => req.(progress := progress, scenes := scenes.GetOr(req.scenes))))
    case AddGeneratedScene(scene) => s.(generatedScenes := s.generatedScenes + [scene])
    case CompleteGeneration(scenes) =>
      s.(generatedScenes := scenes,
         generationRequest := PatchRequest(s.generationRequest,
           (req: GenerationRequest) => req.(status := RequestCompleted, progress := 100.0, completedAt := Some(now))),
         isLoading := false)
    case FailGeneration(msg) =>
      s.(generationRequest := PatchRequest(s.generationRequest,
           (req: GenerationRequest) => req.(status := RequestFailed, errorMessage := Some(msg), completedAt := Some(now))),
         isLoading := false,
         error := Some(msg))
    case SetGeneratedScenes(scenes) => s.(generatedScenes := scenes)
    case UpdateScene(id, u) => s.(generatedScenes := MapMatching(s.generatedScenes, id, u))
    case DownloadScene(id) => s.(generatedScenes := MapMatching(s.generatedScenes, id, Stamp(now)))
    case SetLoading(b) => s.(isLoading := b)
    case SetError(e) => s.(error := e)
    case ResetState => InitialState
    case Unknown => s
  }

  /** The project, page and form actions: each changes its own field and nothing else. */
  lemma FormActions(s: AppState, a: Action, now: Time)
    ensures var r := Reduce(s, a, now);
      && (a.CreateProject? ==> r == s.(currentProject := Some(a.project), currentPage := CreatePage))
      && (a.UpdateProject? ==> r.currentProject.Some? == s.currentProject.Some? && r.(currentProject := s.currentProject) == s)
      && (a.UpdateProject? && s.currentProject.Some? ==> r.currentProject.value == PatchProject(s.currentProject.value, a.projectPatch))
      && (a.SetCurrentPage? ==> r == s.(currentPage := a.page))
      && (a.UpdateBrandInfo? ==> r == s.(formData := s.formData.(brandInfo := PatchBrand(s.formData.brandInfo, a.brandPatch))))
      && (a.SetImage? ==> r == s.(formData := s.formData.(image := a.image)))
      && (a.SetFormSubmitting? ==> r == s.(formData := s.formData.(isSubmitting := a.submitting)))
      && (a.ClearFormErrors? ==> r == s.(formData := s.formData.(errors := map[])))
      && (a.ResetForm? ==> r == s.(formData := InitialFormData))
  {
  }

  /** SET_FORM_ERROR overwrites exactly one key of the error record. */
  lemma SetFormErrorOneKey(s: AppState, field: string, message: string, now: Time)
    ensures var r := Reduce(s, SetFormError(field, message), now);
      && r.(formData := s.formData) == s
      && r.formData.(errors := s.formData.errors) == s.formData
      && r.formData.errors.Keys == s.formData.errors.Keys + {field}
      && r.formData.errors[field] == message
      && forall f :: f in s.formData.errors && f != field ==> r.formData.errors[f] == s.formData.errors[f]
  {
  }

  /** START_GENERATION clears the scenes and errors and raises the loading flag, staying on the page. */
  lemma StartGenerationEffect(s: AppState, req: GenerationRequest, now: Time)
    ensures Reduce(s, StartGeneration(req), now) ==
      s.(generationRequest := Some(req), generatedScenes := [], isLoading := true, error := None)
  {
  }

  /** Progress, completion and failure patch the request only when there is one. */
  lemma RequestActions(s: AppState, a: Action, now: Time)
    requires a.UpdateGenerationProgress? || a.CompleteGeneration? || a.FailGeneration?
    ensures var r := Reduce(s, a, now);
      && (r.generationRequest.None? <==> s.generationRequest.None?)
      && (a.UpdateGenerationProgress? ==> r.(generationRequest := s.generationRequest) == s)
      && (a.UpdateGenerationProgress? && s.generationRequest.Some? ==>
            r.generationRequest == Some(s.generationRequest.value.(progress := a.progress,
              scenes := a.progressScenes.GetOr(s.generationRequest.value.scenes))))
      && (a.CompleteGeneration? ==>
            r.(generationRequest := s.generationRequest) == s.(generatedScenes := a.completedScenes, isLoading := false))
      && (a.CompleteGeneration? && s.generationRequest.Some? ==>
            r.generationRequest == Some(s.generationRequest.value.(status := RequestCompleted, progress := 100.0, completedAt := Some(now))))
      && (a.FailGeneration? ==>
            r.(generationRequest := s.generationRequest) == s.(isLoading := false, error := Some(a.failure)))
      && (a.FailGeneration? && s.generationRequest.Some? ==>
            r.generationRequest == Some(s.generationRequest.value.(status := RequestFailed, errorMessage := Some(a.failure), completedAt := Some(now))))
  {
  }

  /** The scene-list and global actions. */
  lemma SceneAndGlobalActions(s: AppState, a: Action, now: Time)
    ensures var r := Reduce(s, a, now);
      && (a.AddGeneratedScene? ==> r == s.(generatedScenes := s.generatedScenes + [a.scene]))
      && (a.SetGeneratedScenes? ==> r == s.(generatedScenes := a.scenes))
      && (a.UpdateScene? ==> r == s.(generatedScenes := MapMatching(s.generatedScenes, a.sceneId, a.scenePatch)))
      && (a.DownloadScene? ==> r == s.(generatedScenes := MapMatching(s.generatedScenes, a.downloadId, Stamp(now))))
      && (a.SetLoading? ==> r == s.(isLoading := a.loading))
      && (a.SetError? ==> r == s.(error := a.error))
      && (a.ResetState? ==> r == InitialState)
  {
  }

  /** A generation run: start, then scenes added one at a time, gives exactly those scenes in order. */
  function RunAdds(s: AppState, scenes: seq<GeneratedScene>, now: Time): AppState
    decreases |scenes|
  {
    if |scenes| == 0 then s else RunAdds(Reduce(s, AddGeneratedScene(scenes[0]), now), scenes[1..], now)
  }

  lemma {:induction false} RunAddsAppends(s: AppState, scenes: seq<GeneratedScene>, now: Time)
    ensures RunAdds(s, scenes, now) == s.(generatedScenes := s.generatedScenes + scenes)
    decreases |scenes|
  {
    if |scenes| > 0 {
      var s' := Reduce(s, AddGeneratedScene(scenes[0]), now);
      RunAddsAppends(s', scenes[1..], now);
      assert s.generatedScenes + [scenes[0]] + scenes[1..] == s.generatedScenes + scenes;
    }
  }

  lemma StartThenAdds(s: AppState, req: GenerationRequest, scenes: seq<GeneratedScene>, now: Time)
    ensures RunAdds(Reduce(s, StartGeneration(req), now), scenes, now).generatedScenes == scenes
    ensures RunAdds(Reduce(s, StartGeneration(req), now), scenes, now).currentPage == s.currentPage
  {
    RunAddsAppends(Reduce(s, StartGeneration(req), now), scenes, now);
  }

  /** Updating or stamping scenes keeps their number, order and ids (when the patch leaves ids alone). */
  lemma SceneUpdatesKeepIds(s: AppState, a: Action, now: Time)
    requires a.DownloadScene? || (a.UpdateScene? && a.scenePatch.id.None?)
    ensures var r := Reduce(s, a, now);
      |r.generatedScenes| == |s.generatedScenes| &&
      forall k :: 0 <= k < |s.generatedScenes| ==> r.generatedScenes[k].id == s.generatedScenes[k].id
  {
  }

  /** A download stamps every scene with that id and no other scene. */
  lemma DownloadStampsExactly(s: AppState, id: string, now: Time, k: int)
    requires 0 <= k < |s.generatedScenes|
    ensures var r := Reduce(s, DownloadScene(id), now).generatedScenes[k];
      if s.generatedScenes[k].id == id then r == s.generatedScenes[k].(downloadedAt := Some(now))
      else r == s.generatedScenes[k]
  {
  }

  /** Resetting the form and then the whole state gives the initial state, as does resetting twice. */
  lemma ResetsAbsorb(s: AppState, a: Action, now: Time)
    ensures Reduce(Reduce(s, ResetForm, now), ResetState, now) == InitialState
    ensures Reduce(Reduce(s, a, now), ResetState, now) == InitialState
    ensures Reduce(InitialState, ResetForm, now) == InitialState
  {
  }
}

=== FILE: carousel_mechanics.dfy ===
/**
 * The 3D carousel's motion state machine: where each card sits on the ring, which card is
 * current, the rotation the ring is animating towards, touch dragging with snap-to-nearest,
 * keyboard dispatch and the per-frame animation step.
 */
module CarouselMechanics {
  import opened Wrappers
  import opened JsMath
  import opened Three

  datatype Config = Config(
    radius: real,
    height: real,
    rotationSpeed: real,
    autoRotate: bool,
    autoRotateSpeed: real)

  /** The hook's argument, a `Partial<CarouselConfig>`: absent fields take their defaults. */
  datatype ConfigPatch = ConfigPatch(
    radius: Option<real>,
    height: Option<real>,
    rotationSpeed: Option<real>,
    autoRotate: Option<bool>,
    autoRotateSpeed: Option<real>)

  const NoPatch := ConfigPatch(None, None, None, None, None)

  function ResolveConfig(p: ConfigPatch): (c: Config)
    ensures p.radius.None? ==> c.radius == 8.0
    ensures p.height.None? ==> c.height == 0.0
    ensures p.rotationSpeed.None? ==> c.rotationSpeed == 0.02
    ensures p.autoRotate.None? ==> !c.autoRotate
    ensures p.autoRotateSpeed.None? ==> c.autoRotateSpeed == 0.005
    ensures p.radius.Some? ==> c.radius == p.radius.value
    ensures p.height.Some? ==> c.height == p.height.value
    ensures p.rotationSpeed.Some? ==> c.rotationSpeed == p.rotationSpeed.value
    ensures p.autoRotate.Some? ==> c.autoRotate == p.autoRotate.value
    ensures p.autoRotateSpeed.Some? ==> c.autoRotateSpeed == p.autoRotateSpeed.value
  {
    Config(
      p.radius.GetOr(8.0),
      p.height.GetOr(0.0),
      p.rotationSpeed.GetOr(0.02),
      p.autoRotate.GetOr(false),
      p.autoRotateSpeed.GetOr(0.005))
  }

  datatype State = State(currentIndex: int, rotationAngle: real, isRotating: bool, targetRotation: real)

  const InitialState := State(0, 0.0, false, 0.0)

  /** Angle between neighbouring cards on a ring of `total` cards. */
  function AngleStep(total: int): (a: real)
    requires total >= 1
    ensures a > 0.0 && a * total as real == 2.0 * Pi
  {
    2.0 * Pi / total as real
  }

  /** The angle around the ring at which card `index` sits: within one turn for a card on the ring. */
  function SceneAngle(index: int, total: int): (a: real)
    requires total >= 1
    ensures 0 <= index < total ==> 0.0 <= a < 2.0 * Pi
    ensures index < 0 ==> a < 0.0
  {
    var step := AngleStep(total);
    assert 0 <= index < total ==> index as real * step < total as real * step;
    index as real * step
  }

  /** The cards are evenly spaced and card `total` would close exactly one full turn. */
  lemma SceneAnglesEvenlySpaced(index: int, total: int)
    requires total >= 1
    ensures SceneAngle(index + 1, total) - SceneAngle(index, total) == AngleStep(total)
    ensures SceneAngle(0, total) == 0.0 && SceneAngle(total, total) == 2.0 * Pi
  {
  }

  /** `getScenePosition`: a card on the ring of the configured radius, turned to face the centre. */
  function ScenePosition(cfg: Config, trig: Trig, index: int, total: int): (p: Pose)
    requires total >= 1
    ensures p.position.y == cfg.height
    ensures p.position.x == cfg.radius * trig.cos(SceneAngle(index, total))
    ensures p.position.z == cfg.radius * trig.sin(SceneAngle(index, total))
    ensures p.rotation == Vec3(0.0, SceneAngle(index, total) + Pi, 0.0)
    ensures p.scale == UnitScale
  {
    var angle := SceneAngle(index, total);
    Pose(Vec3(cfg.radius * trig.cos(angle), cfg.height, cfg.radius * trig.sin(angle)),
         Vec3(0.0, angle + Pi, 0.0),
         UnitScale)
  }

  /** Whenever cosine and sine satisfy the Pythagorean identity, every card lies on the ring. */
  lemma ScenePositionOnRing(cfg: Config, trig: Trig, index: int, total: int)
    requires total >= 1 && Pythagorean(trig, SceneAngle(index, total))
    ensures var p := ScenePosition(cfg, trig, index, total);
      p.position.x * p.position.x + p.position.z * p.position.z == cfg.radius * cfg.radius
  {
    var a := SceneAngle(index, total);
    var c, s := trig.cos(a), trig.sin(a);
    calc {
      (cfg.radius * c) * (cfg.radius * c) + (cfg.radius * s) * (cfg.radius * s);
      cfg.radius * cfg.radius * (c * c + s * s);
    }
  }

  /** `getScenePositions`: one pose per card, in card order; no cards give no poses. */
  function ScenePositions(cfg: Config, trig: Trig, total: int): (ps: seq<Pose>)
    requires total >= 0
    ensures |ps| == total
    ensures forall i :: 0 <= i < total ==> ps[i] == ScenePosition(cfg, trig, i, total)
  {
    seq(total, i requires 0 <= i < total => ScenePosition(cfg, trig, i, total))
  }

  /**
   * `rotateToScene`: make `target` current and aim the ring so that it faces the viewer.
   * The index is not range-checked and the current angle is left for `Animate` to move.
   */
  function RotateToScene(s: State, target: int, total: int, animate: bool := true): (r: State)
    requires total >= 1
    ensures r.currentIndex == target && r.isRotating == animate
    ensures r.targetRotation + SceneAngle(target, total) == 0.0
    ensures r.rotationAngle == s.rotationAngle
  {
    s.(currentIndex := target, isRotating := animate, targetRotation := -SceneAngle(target, total))
  }

  /** `nextScene`: `(currentIndex + 1) % total` with JavaScript's remainder. */
  function Next(s: State, total: int): (r: State)
    requires total >= 1
    ensures 0 <= s.currentIndex < total ==>
      r.currentIndex == (if s.currentIndex == total - 1 then 0 else s.currentIndex + 1)
    ensures r.isRotating && r.rotationAngle == s.rotationAngle
    ensures r.targetRotation + SceneAngle(r.currentIndex, total) == 0.0
  {
    RotateToScene(s, JsRem(s.currentIndex + 1, total), total)
  }

  /** `prevScene`: `(currentIndex - 1 + total) % total` with JavaScript's remainder. */
  function Prev(s: State, total: int): (r: State)
    requires total >= 1
    ensures 0 <= s.currentIndex < total ==>
      r.currentIndex == (if s.currentIndex == 0 then total - 1 else s.currentIndex - 1)
    ensures r.isRotating && r.rotationAngle == s.rotationAngle
    ensures r.targetRotation + SceneAngle(r.currentIndex, total) == 0.0
  {
    RotateToScene(s, JsRem(s.currentIndex - 1 + total, total), total)
  }

  /** Next and previous undo each other and stay on the ring's cards. */
  lemma NextPrevInverse(s: State, total: int)
    requires total >= 1 && 0 <= s.currentIndex < total
    ensures 0 <= Next(s, total).currentIndex < total && 0 <= Prev(s, total).currentIndex < total
    ensures Prev(Next(s, total), total).currentIndex == s.currentIndex
    ensures Next(Prev(s, total), total).currentIndex == s.currentIndex
  {
  }

  /** `handleKeyDown`: arrows step, Home and End jump to the ends, other keys are ignored. */
  function HandleKeyDown(s: State, key: string, total: int): (r: State)
    requires total >= 1
    ensures key == "ArrowLeft" ==> r == Prev(s, total)
    ensures key == "ArrowRight" ==> r == Next(s, total)
    ensures key == "Home" ==> r.currentIndex == 0 && r.targetRotation == 0.0 && r.isRotating
    ensures key == "End" ==> r.currentIndex == total - 1 && r.isRotating
    ensures key !in {"ArrowLeft", "ArrowRight", "Home", "End"} ==> r == s
    ensures 0 <= s.currentIndex < total ==> 0 <= r.currentIndex < total
  {
    match key
    case "ArrowLeft" => Prev(s, total)
    case "ArrowRight" => Next(s, total)
    case "Home" => RotateToScene(s, 0, total)
    case "End" => RotateToScene(s, total - 1, total)
    case _ => s
  }

  /**
   * The window-wide listener passes a fixed ring size of 4 whatever the number of cards
   * actually shown.
   */
  function WindowKeyDownAsWritten(s: State, key: string): (r: State)
    ensures key == "End" ==> r.currentIndex == 3 && r.isRotating
    ensures key == "Home" ==> r.currentIndex == 0 && r.isRotating
    ensures key == "ArrowRight" && 0 <= s.currentIndex < 4 ==> r.currentIndex == (s.currentIndex + 1) % 4
    ensures key == "ArrowLeft" && 0 <= s.currentIndex < 4 ==> r.currentIndex == (s.currentIndex + 3) % 4
    ensures key in {"ArrowLeft", "ArrowRight", "Home", "End"} ==> r.targetRotation + SceneAngle(r.currentIndex, 4) == 0.0
    ensures key !in {"ArrowLeft", "ArrowRight", "Home", "End"} ==> r == s
  {
    HandleKeyDown(s, key, 4)
  }

  /** With two cards on the ring, End through the window listener selects a card that does not exist. */
  lemma WindowKeyDownLeavesRing()
    ensures var r := WindowKeyDownAsWritten(InitialState, "End"); r.currentIndex == 3 && !(0 <= r.currentIndex < 2)
  {
  }

  /** The listener as intended: it dispatches with the number of cards on the ring. */
  function WindowKeyDown(s: State, key: string, total: int): (r: State)
    requires total >= 1
    ensures 0 <= s.currentIndex < total ==> 0 <= r.currentIndex < total
    ensures key == "End" ==> r.currentIndex == total - 1
    ensures key == "ArrowRight" && 0 <= s.currentIndex < total ==> r.currentIndex == (s.currentIndex + 1) % total
    ensures key == "ArrowLeft" && 0 <= s.currentIndex < total ==> r.currentIndex == (s.currentIndex + total - 1) % total
  {
    HandleKeyDown(s, key, total)
  }

  /** Snapping sensitivity: radians of rotation per pixel of horizontal drag. */
  const TouchSensitivity: real := 0.01

  datatype Point = Point(x: real, y: real)

  /** The touch refs: where a one-finger drag started and the ring's angle at that moment. */
  datatype Gesture = Gesture(start: Option<Point>, startAngle: real)

  /** Everything the hook keeps between events. */
  datatype Hook = Hook(state: State, gesture: Gesture)

  const InitialHook := Hook(InitialState, Gesture(None, 0.0))

  /** `handleTouchStart`: a one-finger touch records its point and the current angle. */
  function TouchStart(h: Hook, touches: seq<Point>): (r: Hook)
    ensures |touches| == 1 ==> r.gesture == Gesture(Some(touches[0]), h.state.rotationAngle)
    ensures |touches| != 1 ==> r == h
    ensures r.state == h.state
  {
    if |touches| == 1 then h.(gesture := Gesture(Some(touches[0]), h.state.rotationAngle)) else h
  }

  /** `handleTouchMove`: a mostly horizontal one-finger drag turns the ring with the finger. */
  function TouchMove(h: Hook, touches: seq<Point>): (r: Hook)
    ensures h.gesture.start.None? || |touches| != 1 ==> r == h
    ensures h.gesture.start.Some? && |touches| == 1 ==>
      var dx := touches[0].x - h.gesture.start.value.x;
      var dy := touches[0].y - h.gesture.start.value.y;
      if Abs(dx) < Abs(dy) then r == h
      else r.state.rotationAngle == h.gesture.startAngle + TouchSensitivity * dx && r.state.isRotating
    ensures r.gesture == h.gesture
    ensures r.state.currentIndex == h.state.currentIndex && r.state.targetRotation == h.state.targetRotation
  {
    match h.gesture.start
    case None => h
    case Some(start) =>
      if |touches| != 1 then h
      else
        var dx := touches[0].x - start.x;
        var dy := touches[0].y - start.y;
        if Abs(dx) < Abs(dy) then h
        else h.(state := h.state.(rotationAngle := h.gesture.startAngle + dx * TouchSensitivity, isRotating := true))
  }

  /** The card nearest to the ring's angle: `(round(-angle / step) % total + total) % total`. */
  function SnapIndex(angle: real, total: int): (k: int)
    requires total >= 1
    ensures 0 <= k < total
  {
    var nearest := JsRem(Round(-angle / AngleStep(total)), total);
    JsRem(nearest + total, total)
  }

  /** A ring resting exactly on card `k` snaps back to card `k`. */
  lemma SnapIndexAtRest(k: int, total: int)
    requires total >= 1 && 0 <= k < total
    ensures SnapIndex(-SceneAngle(k, total), total) == k
  {
    var step := AngleStep(total);
    assert -(-SceneAngle(k, total)) / step == k as real by {
      assert SceneAngle(k, total) == k as real * step;
      assert (k as real * step) / step == k as real;
    }
    assert Round(k as real) == k;
    JsRemSmall(k, total);
  }

  /** `handleTouchEnd`: after a drag, rotate to the nearest card and forget the drag. */
  function TouchEnd(h: Hook, total: int): (r: Hook)
    requires total >= 1
    ensures h.gesture.start.None? ==> r == h
    ensures h.gesture.start.Some? ==>
      && r.state == RotateToScene(h.state, SnapIndex(h.state.rotationAngle, total), total)
      && r.gesture == Gesture(None, h.gesture.startAngle)
    ensures 0 <= r.state.currentIndex < total || r.state.currentIndex == h.state.currentIndex
  {
    if h.gesture.start.None? then h
    else Hook(RotateToScene(h.state, SnapIndex(h.state.rotationAngle, total), total),
              h.gesture.(start := None))
  }

  /** A drag released where it would land on card `k` selects card `k`. */
  lemma TouchEndSelectsRestingCard(h: Hook, k: int, total: int)
    requires total >= 1 && 0 <= k < total && h.gesture.start.Some?
    requires h.state.rotationAngle == -SceneAngle(k, total)
    ensures TouchEnd(h, total).state.currentIndex == k
    ensures TouchEnd(h, total).state.targetRotation == h.state.rotationAngle
  {
    SnapIndexAtRest(k, total);
  }

  /** Distance below which the animation snaps onto its target. */
  const SnapThreshold: real := 0.01

  function Distance(s: State): real {
    Abs(s.targetRotation - s.rotationAngle)
  }

  /**
   * `animate`, one frame: while rotating, move towards the target by at most
   * `rotationSpeed` and snap once closer than 0.01; at rest, drift by `autoRotateSpeed`
   * when auto-rotation is on.
   */
  function Animate(cfg: Config, s: State): (r: State)
    ensures r.currentIndex == s.currentIndex && r.targetRotation == s.targetRotation
    ensures !s.isRotating ==> !r.isRotating
    ensures !s.isRotating && cfg.autoRotate ==> r.rotationAngle == s.rotationAngle + cfg.autoRotateSpeed
    ensures !s.isRotating && !cfg.autoRotate ==> r == s
    ensures s.isRotating && Distance(s) < SnapThreshold ==> !r.isRotating && r.rotationAngle == s.targetRotation
    ensures s.isRotating && Distance(s) >= SnapThreshold ==> r.isRotating
  {
    if s.isRotating then
      var diff := s.targetRotation - s.rotationAngle;
      var step := Sign(diff) * MinR(Abs(diff), cfg.rotationSpeed);
      if Abs(diff) < SnapThreshold then s.(rotationAngle := s.targetRotation, isRotating := false)
      else s.(rotationAngle := s.rotationAngle + step)
    else if cfg.autoRotate then s.(rotationAngle := s.rotationAngle + cfg.autoRotateSpeed)
    else s
  }

  /**
   * A moving frame closes the gap by exactly `min(distance, rotationSpeed)` without
   * overshooting: the remaining difference keeps its sign.
   */
  lemma AnimateApproaches(cfg: Config, s: State)
    requires cfg.rotationSpeed >= 0.0 && s.isRotating && Distance(s) >= SnapThreshold
    ensures var r := Animate(cfg, s);
      && Distance(r) == Distance(s) - MinR(Distance(s), cfg.rotationSpeed)
      && (r.targetRotation - r.rotationAngle) * (s.targetRotation - s.rotationAngle) >= 0.0
  {
  }

  /** `animate` applied for `n` consecutive frames. */
  function AnimateN(cfg: Config, s: State, n: nat): State
    decreases n
  {
    if n == 0 then s else AnimateN(cfg, Animate(cfg, s), n - 1)
  }

  /** An upper bound on the frames still needed: ⌈distance / speed⌉ + 1 while rotating. */
  function FramesLeft(cfg: Config, s: State): nat
    requires cfg.rotationSpeed > 0.0
  {
    if !s.isRotating then 0 else Ceil(Distance(s) / cfg.rotationSpeed) + 1
  }

  lemma DivShift(d: real, v: real)
    requires v > 0.0
    ensures (d - v) / v == d / v - 1.0
  {
    calc {
      (d - v) / v;
      d / v - v / v;
      d / v - 1.0;
    }
  }

  lemma AnimateReducesFramesLeft(cfg: Config, s: State)
    requires cfg.rotationSpeed > 0.0 && s.isRotating
    ensures FramesLeft(cfg, Animate(cfg, s)) < FramesLeft(cfg, s)
  {
    var d, v := Distance(s), cfg.rotationSpeed;
    var r := Animate(cfg, s);
    assert FramesLeft(cfg, s) == Ceil(d / v) + 1;
    if d < SnapThreshold {
      assert !r.isRotating && FramesLeft(cfg, r) == 0;
      assert d / v >= 0.0;
    } else {
      AnimateApproaches(cfg, s);
      assert r.isRotating;
      CeilPositive(d / v);
      if d <= v {
        assert Distance(r) / v == 0.0;
        assert FramesLeft(cfg, r) == 1;
      } else {
        assert Distance(r) == d - v;
        DivShift(d, v);
        CeilShift(d / v);
        assert FramesLeft(cfg, r) == Ceil(d / v - 1.0) + 1;
      }
    }
  }

  /**
   * With a positive rotation speed every rotation comes to rest: after `n` frames the
   * ring has stopped on its target, and `n` is at most ⌈distance / speed⌉ + 1.
   */
  function SettleFrames(cfg: Config, s: State): (n: nat)
    requires cfg.rotationSpeed > 0.0
    ensures n <= FramesLeft(cfg, s)
    ensures !AnimateN(cfg, s, n).isRotating
    ensures s.isRotating ==> AnimateN(cfg, s, n).rotationAngle == s.targetRotation
    ensures AnimateN(cfg, s, n).currentIndex == s.currentIndex
    ensures AnimateN(cfg, s, n).targetRotation == s.targetRotation
    decreases FramesLeft(cfg, s)
  {
    if !s.isRotating then 0
    else
      AnimateReducesFramesLeft(cfg, s);
      1 + SettleFrames(cfg, Animate(cfg, s))
  }
}

=== FILE: error_boundary.dfy ===
/** The error boundary: how a caught error is classified, titled and shown, and how retry resets it. */
module ErrorBoundary {
  import opened Wrappers
  import opened JsStrings
  import opened ErrorHandling
  import ErrorMonitoring

  datatype ErrorType = NetworkType | ApiType | ValidationType | UnknownType

  /** `categorizeError`: the class or a case-sensitive word, network first, then API, then validation. */
  function CategorizeError(e: Err): (t: ErrorType)
    ensures t == NetworkType <==> e.cls == NetworkErrorClass || ContainsAny(e.message, ["network", "fetch"])
    ensures t == ApiType <==> (!(e.cls == NetworkErrorClass || ContainsAny(e.message, ["network", "fetch"]))
      && (e.cls == ApiErrorClass || ContainsAny(e.message, ["API", "server"])))
    ensures t == ValidationType <==> (!(e.cls == NetworkErrorClass || ContainsAny(e.message, ["network", "fetch"]))
      && !(e.cls == ApiErrorClass || ContainsAny(e.message, ["API", "server"]))
      && (e.cls == ValidationErrorClass || ContainsAny(e.message, ["validation", "invalid"])))
  {
    if e.cls == NetworkErrorClass || ContainsAny(e.message, ["network", "fetch"]) then NetworkType
    else if e.cls == ApiErrorClass || ContainsAny(e.message, ["API", "server"]) then ApiType
    else if e.cls == ValidationErrorClass || ContainsAny(e.message, ["validation", "invalid"]) then ValidationType
    else UnknownType
  }

  /** The class decides before the message: every error of the three classes gets its own type. */
  lemma ClassesDecide(message: string, field: Option<string>, status: Option<int>, code: Option<string>)
    ensures CategorizeError(NewNetworkError(Some(message))) == NetworkType
    ensures !ContainsAny(message, ["network", "fetch"]) ==> CategorizeError(NewApiError(message, status, code)) == ApiType
  {
  }

  /** An example: the boundary matches "API" in capitals while the monitor lower-cases, so the two disagree on "api". */
  lemma CategorisersDisagree()
    ensures CategorizeError(Err(PlainError, "api", None, None)) == UnknownType
    ensures ErrorMonitoring.CategorizeError("api") == ErrorMonitoring.Api
  {
    var m := "api";
    ShorterNotContained(m, "network");
    ShorterNotContained(m, "fetch");
    ShorterNotContained(m, "server");
    ShorterNotContained(m, "validation");
    ShorterNotContained(m, "invalid");
    ShorterNotContained(m[1..], "API");
    assert m[..3][0] != "API"[0];
    assert !Contains(m, "API");
    assert Lower(m) == m;
    assert StartsWith(m, "api");
    assert Contains(m, ErrorMonitoring.ApiWords[0]);
  }

  datatype BoundaryState = BoundaryState(
    hasError: bool,
    error: Option<Err>,
    errorInfo: Option<string>,
    errorType: Option<ErrorType>)

  const InitialBoundaryState := BoundaryState(false, None, None, None)

  /** `getDerivedStateFromError`. */
  function GetDerivedStateFromError(e: Err): (s: BoundaryState)
    ensures s.hasError && s.error == Some(e) && s.errorType == Some(CategorizeError(e)) && s.errorInfo.None?
  {
    BoundaryState(true, Some(e), None, Some(CategorizeError(e)))
  }

  /** `componentDidCatch`: records the component stack and re-derives the type; `hasError` is left as it is. */
  function ComponentDidCatch(s: BoundaryState, e: Err, info: string): (r: BoundaryState)
    ensures r.hasError == s.hasError && r.error == Some(e) && r.errorInfo == Some(info)
    ensures r.errorType == Some(CategorizeError(e))
  {
    s.(error := Some(e), errorInfo := Some(info), errorType := Some(CategorizeError(e)))
  }

  /** `handleRetry`: clears the flag, the error and the stack, but keeps the last type. */
  function HandleRetry(s: BoundaryState): (r: BoundaryState)
    ensures !r.hasError && r.error.None? && r.errorInfo.None? && r.errorType == s.errorType
  {
    s.(hasError := false, error := None, errorInfo := None)
  }

  /** `getErrorTitle`. */
  function Title(t: Option<ErrorType>): (title: string)
    ensures t == Some(NetworkType) ==> title == "Connection Error"
    ensures t == Some(ApiType) ==> title == "Service Error"
    ensures t == Some(ValidationType) ==> title == "Validation Error"
    ensures t.None? || t == Some(UnknownType) ==> title == "Something went wrong"
  {
    match t
    case Some(NetworkType) => "Connection Error"
    case Some(ApiType) => "Service Error"
    case Some(ValidationType) => "Validation Error"
    case _ => "Something went wrong"
  }

  datatype View = Children | Fallback | ErrorPage(title: string)

  /** `render`: the children without an error; else the given fallback; else the built-in page. */
  function Render(s: BoundaryState, hasFallback: bool): (v: View)
    ensures v == Children <==> !s.hasError
    ensures v == Fallback <==> s.hasError && hasFallback
    ensures v.ErrorPage? ==> v.title == Title(s.errorType)
  {
    if !s.hasError then Children
    else if hasFallback then Fallback
    else ErrorPage(Title(s.errorType))
  }

  /** Catching an error and retrying shows the children again. */
  lemma RetryRestoresChildren(e: Err, info: string, hasFallback: bool)
    ensures Render(GetDerivedStateFromError(e), hasFallback) != Children
    ensures Render(HandleRetry(ComponentDidCatch(GetDerivedStateFromError(e), e, info)), hasFallback) == Children
  {
  }

  /** The four types have four different titles. */
  lemma TitlesDistinct(a: ErrorType, b: ErrorType)
    requires a != b
    ensures Title(Some(a)) != Title(Some(b))
  {
    assert |Title(Some(NetworkType))| == 16 && |Title(Some(ApiType))| == 13;
    assert |Title(Some(ValidationType))| == 16 && |Title(Some(UnknownType))| == 20;
    assert Title(Some(NetworkType))[0] != Title(Some(ValidationType))[0];
  }
}

=== FILE: error_handling.dfy ===
/** The application's error classes, the error handler, the network-error test and the retry loop. */
module ErrorHandling {
  import opened Wrappers
  import opened JsStrings
  import opened JsMath

  /** Which class constructed the thrown object; `PlainError` is any `Error` not from this family. */
  datatype ErrorClass = PlainError | AppErrorClass | NetworkErrorClass | ValidationErrorClass | ApiErrorClass

  /** A thrown error: its class, message, and the `code` and `status` properties when present. */
  datatype Err = Err(cls: ErrorClass, message: string, code: Option<string>, status: Option<int>)

  /** `instanceof AppError` holds for the whole family. */
  predicate IsAppError(e: Err) {
    e.cls != PlainError
  }

  /** `new AppError(message, code?, status?)`: defaults UNKNOWN_ERROR and 500. */
  function NewAppError(message: string, code: Option<string>, status: Option<int>): (e: Err)
    ensures IsAppError(e) && e.message == message
    ensures code.None? ==> e.code == Some("UNKNOWN_ERROR")
    ensures status.None? ==> e.status == Some(500)
    ensures code.Some? ==> e.code == code
    ensures status.Some? ==> e.status == status
  {
    Err(AppErrorClass, message, Some(code.GetOr("UNKNOWN_ERROR")), Some(status.GetOr(500)))
  }

  /** `new NetworkError(message?)`: NETWORK_ERROR with status 0. */
  function NewNetworkError(message: Option<string>): (e: Err)
    ensures IsAppError(e) && e.code == Some("NETWORK_ERROR") && e.status == Some(0)
    ensures e.message == message.GetOr("Network error occurred")
  {
    Err(NetworkErrorClass, message.GetOr("Network error occurred"), Some("NETWORK_ERROR"), Some(0))
  }

  /** `new ValidationError(message, field?)`: status 400, message prefixed by a non-empty field. */
  function NewValidationError(message: string, field: Option<string>): (e: Err)
    ensures IsAppError(e) && e.code == Some("VALIDATION_ERROR") && e.status == Some(400)
    ensures field.Some? && field.value != "" ==> e.message == field.value + ": " + message
    ensures field.None? || field.value == "" ==> e.message == message
  {
    var text := if field.Some? && field.value != "" then field.value + ": " + message else message;
    Err(ValidationErrorClass, text, Some("VALIDATION_ERROR"), Some(400))
  }

  /** `new ApiError(message, status?, code?)`: status 500 and code API_ERROR by default; an empty code also falls back. */
  function NewApiError(message: string, status: Option<int>, code: Option<string>): (e: Err)
    ensures IsAppError(e) && e.message == message
    ensures e.status == Some(status.GetOr(500))
    ensures code.Some? && code.value != "" ==> e.code == code
    ensures code.None? || code.value == "" ==> e.code == Some("API_ERROR")
  {
    var c := if code.Some? && code.value != "" then code.value else "API_ERROR";
    Err(ApiErrorClass, message, Some(c), Some(status.GetOr(500)))
  }

  /** The reported record (timestamp, user agent, URL and stack are left to the runtime). */
  datatype ErrorInfo = ErrorInfo(message: string, code: string, status: int)

  /**
   * `handleError`: the report, and the caller's error object afterwards. A family error is
   * reported as it is and gets the "[context] " prefix written into its own message; any
   * other error is wrapped in a fresh UNKNOWN_ERROR/500 and left alone.
   */
  function HandleError(e: Err, context: Option<string>): (r: (ErrorInfo, Err))
    ensures var (info, after) := r;
      var prefixed := context.Some? && context.value != "";
      && info.message == (if prefixed then "[" + context.value + "] " + e.message else e.message)
      && (IsAppError(e) && e.code.Some? ==> info.code == e.code.value)
      && (IsAppError(e) && e.status.Some? ==> info.status == e.status.value)
      && (!IsAppError(e) ==> info.code == "UNKNOWN_ERROR" && info.status == 500)
      && (!IsAppError(e) ==> after == e)
      && (IsAppError(e) ==> after == e.(message := info.message))
  {
    var base := if IsAppError(e) then e else NewAppError(e.message, None, None);
    var wrapped := if context.Some? && context.value != "" then base.(message := "[" + context.value + "] " + base.message) else base;
    var info := ErrorInfo(wrapped.message, wrapped.code.GetOr(""), wrapped.status.GetOr(0));
    (info, if IsAppError(e) then wrapped else e)
  }

  /** Handling the same family error twice with a context stacks the prefix. */
  lemma ContextPrefixesStack(e: Err, c: string)
    requires IsAppError(e) && c != ""
    ensures HandleError(HandleError(e, Some(c)).1, Some(c)).0.message == "[" + c + "] [" + c + "] " + e.message
  {
  }

  /** `isNetworkError`: the class, the code, or one of three lower-case words in the message. */
  predicate IsNetworkError(e: Err) {
    || e.cls == NetworkErrorClass
    || e.code == Some("NETWORK_ERROR")
    || Contains(e.message, "network")
    || Contains(e.message, "fetch")
    || Contains(e.message, "connection")
  }

  /** Every `NetworkError` is recognised, whatever its message. */
  lemma NetworkErrorsRecognised(message: Option<string>)
    ensures IsNetworkError(NewNetworkError(message))
  {
  }

  /** An example: the words are matched with their case, so a plain error saying "Fetch" is not a network error. */
  lemma CaseMatters()
    ensures !IsNetworkError(Err(PlainError, "Fetch", None, None))
  {
    ShorterNotContained("Fetch", "network");
    ShorterNotContained("Fetch", "connection");
    assert "Fetch"[0] != "fetch"[0];
    assert !StartsWith("Fetch", "fetch");
    ShorterNotContained("Fetch"[1..], "fetch");
  }

  /**
   * `retry`, with `fn(k)` the outcome of the k-th call. Calls stop at the first success, at
   * the first failure that is not a network error, or after `maxRetries` calls; between
   * calls it waits `delay * 2^k`. With no attempts allowed it throws `undefined` (None).
   */
  method Retry<T>(fn: nat -> Result<T, Err>, maxRetries: int, delay: int)
    returns (r: Result<T, Option<Err>>, calls: nat, waits: seq<int>)
    ensures maxRetries <= 0 ==> calls == 0 && r == Failure(None) && waits == []
    ensures maxRetries > 0 ==> 1 <= calls <= maxRetries && |waits| == calls - 1
    ensures forall k :: 0 <= k < |waits| ==> waits[k] == Backoff(delay, k)
    ensures forall k :: 0 <= k < calls - 1 ==> fn(k).Failure? && IsNetworkError(fn(k).error)
    ensures r.Success? <==> calls > 0 && fn(calls - 1).Success?
    ensures r.Success? ==> r.value == fn(calls - 1).value
    ensures calls > 0 && r.Failure? ==>
      r.error == Some(fn(calls - 1).error) && (calls == maxRetries || !IsNetworkError(fn(calls - 1).error))
  {
    waits := [];
    var i := 0;
    while i < maxRetries
      invariant 0 <= i && (maxRetries > 0 ==> i < maxRetries) && (maxRetries <= 0 ==> i == 0) && |waits| == i
      invariant forall k :: 0 <= k < i ==> waits[k] == Backoff(delay, k)
      invariant forall k :: 0 <= k < i ==> fn(k).Failure? && IsNetworkError(fn(k).error)
      decreases maxRetries - i
    {
      match fn(i)
      case Success(v) =>
        return Success(v), i + 1, waits;
      case Failure(e) =>
        if i == maxRetries - 1 || !IsNetworkError(e) {
          return Failure(Some(e)), i + 1, waits;
        }
        waits := waits + [Backoff(delay, i)];
      i := i + 1;
    }
    r, calls := Failure(None), 0;
  }

  /** The total of a list of waits. */
  function Sum(ws: seq<int>): int
    decreases |ws|
  {
    if |ws| == 0 then 0 else Sum(ws[..|ws| - 1]) + ws[|ws| - 1]
  }

  /** Retry's wait after call k: `delay` doubled k times. */
  function Backoff(delay: int, k: nat): int {
    delay * Pow2(k)
  }

  /** Each wait is twice the one before it. */
  lemma BackoffDoubles(delay: int, k: nat)
    ensures Backoff(delay, k + 1) == 2 * Backoff(delay, k)
  {
  }

  /** The waits `Retry` reports double from `delay`, so before call n + 1 they add up to `delay * (2^n - 1)`. */
  lemma {:induction false} TotalWaitClosedForm(delay: int, waits: seq<int>)
    requires forall k :: 0 <= k < |waits| ==> waits[k] == Backoff(delay, k)
    ensures Sum(waits) == Backoff(delay, |waits|) - delay
    decreases |waits|
  {
    if |waits| > 0 {
      var n, init := |waits|, waits[..|waits| - 1];
      assert forall k :: 0 <= k < |init| ==> init[k] == waits[k];
      TotalWaitClosedForm(delay, init);
      BackoffDoubles(delay, n - 1);
    }
  }
}

=== FILE: error_monitoring.dfy ===
/**
 * The error monitor: a bounded log of reports, the keyword categoriser, the analytics over
 * the log, and the capture helpers with their fixed severities.
 */
module ErrorMonitoring {
  import opened Wrappers
  import opened JsStrings
  import opened OrderedMap
  import JsSort
  import PropertyKeys

  datatype Severity = Low | Medium | High | Critical

  datatype Category = Network | Api | Validation | Ui | Generation | UnknownCategory

  /** One captured report; `message` is the error's message, or the string that was thrown. */
  datatype ErrorReport = ErrorReport(
    id: string,
    timestamp: int,
    message: string,
    context: string,
    severity: Severity,
    category: Category)

  datatype Monitor = Monitor(errors: seq<ErrorReport>, isEnabled: bool)

  const MaxErrors: nat := 100

  const NetworkWords := ["network", "fetch", "connection"]
  const ApiWords := ["api", "server", "http"]
  const ValidationWords := ["validation", "invalid", "required"]
  const GenerationWords := ["generation", "ai", "replicate"]
  const UiWords := ["react", "component", "render"]

  /** `categorizeError`: the lower-cased message against five word groups, in this order. */
  function CategorizeError(message: string): (c: Category)
    ensures var m := Lower(message);
      && (c == Network <==> ContainsAny(m, NetworkWords))
      && (c == Api <==> !ContainsAny(m, NetworkWords) && ContainsAny(m, ApiWords))
      && (c == Validation <==> !ContainsAny(m, NetworkWords) && !ContainsAny(m, ApiWords) && ContainsAny(m, ValidationWords))
      && (c == Generation <==> (!ContainsAny(m, NetworkWords) && !ContainsAny(m, ApiWords) && !ContainsAny(m, ValidationWords)
            && ContainsAny(m, GenerationWords)))
      && (c == Ui <==> (!ContainsAny(m, NetworkWords) && !ContainsAny(m, ApiWords) && !ContainsAny(m, ValidationWords)
            && !ContainsAny(m, GenerationWords) && ContainsAny(m, UiWords)))
  {
    var m := Lower(message);
    var groups := [(NetworkWords, Network), (ApiWords, Api), (ValidationWords, Validation),
                   (GenerationWords, Generation), (UiWords, Ui)];
    assert groups[0].0 == NetworkWords && groups[1].0 == ApiWords && groups[2].0 == ValidationWords;
    assert groups[3].0 == GenerationWords && groups[4].0 == UiWords;
    FirstMatch(m, groups, UnknownCategory)
  }

  /** An example: the short word "ai" catches every message mentioning failure, so "Failed" is a generation error. */
  lemma FailedCountsAsGeneration()
    ensures CategorizeError("Failed") == Generation
  {
    assert Lower("Failed") == "failed";
    FailedHasNoNetworkWord();
    FailedHasNoApiWord();
    FailedHasNoValidationWord();
    assert StartsWith("failed"[1..], "ai");
    assert Contains("failed", GenerationWords[1]);
  }

  lemma FailedHasNoNetworkWord()
    ensures !ContainsAny("failed", NetworkWords)
  {
    ShorterNotContained("failed", "network");
    ShorterNotContained("failed", "connection");
    ShorterNotContained("iled", "fetch");
    NotContainsStep("ailed", "fetch", 0);
    NotContainsStep("failed", "fetch", 1);
  }

  lemma FailedHasNoApiWord()
    ensures !ContainsAny("failed", ApiWords)
  {
    ShorterNotContained("ailed", "server");
    NotContainsStep("failed", "server", 0);
    ShorterNotContained("led", "http");
    NotContainsStep("iled", "http", 0);
    NotContainsStep("ailed", "http", 0);
    NotContainsStep("failed", "http", 0);
    ShorterNotContained("ed", "api");
    NotContainsStep("led", "api", 0);
    NotContainsStep("iled", "api", 0);
    NotContainsStep("ailed", "api", 1);
    NotContainsStep("failed", "api", 0);
  }

  lemma FailedHasNoValidationWord()
    ensures !ContainsAny("failed", ValidationWords)
  {
    ShorterNotContained("failed", "validation");
    ShorterNotContained("failed", "invalid");
    ShorterNotContained("failed", "required");
  }

  /** `sub` does not start `s` (they differ at `k`) nor occur further on, so it does not occur. */
  lemma NotContainsStep(s: string, sub: string, k: nat)
    requires k < |sub| && k < |s| && s[k] != sub[k] && !Contains(s[1..], sub)
    ensures !Contains(s, sub)
  {
    if |sub| <= |s| {
      assert s[..|sub|][k] != sub[k];
    }
  }

  /** The newest `MaxErrors` entries of a log. */
  function KeepNewest(log: seq<ErrorReport>): (r: seq<ErrorReport>)
    ensures |r| == if |log| > MaxErrors then MaxErrors else |log|
    ensures r == log[|log| - |r|..]
  {
    if |log| > MaxErrors then log[|log| - MaxErrors..] else log
  }

  /** `captureError`: nothing while disabled; otherwise the report goes last and the log keeps its newest 100. */
  function CaptureError(m: Monitor, report: ErrorReport): (r: Monitor)
    ensures !m.isEnabled ==> r == m
    ensures m.isEnabled ==> r.isEnabled && r.errors == KeepNewest(m.errors + [report])
    ensures m.isEnabled ==> |r.errors| >= 1 && r.errors[|r.errors| - 1] == report
  {
    if !m.isEnabled then m else m.(errors := KeepNewest(m.errors + [report]))
  }

  /** A report with the category computed from its message, as `captureError` builds it. */
  function NewReport(id: string, now: int, message: string, context: string, severity: Severity): (e: ErrorReport)
    ensures e.category == CategorizeError(message) && e.severity == severity && e.message == message
  {
    ErrorReport(id, now, message, context, severity, CategorizeError(message))
  }

  /** The log never holds more than 100 reports, and a capture keeps the newest in order. */
  lemma CaptureBounded(m: Monitor, report: ErrorReport)
    requires |m.errors| <= MaxErrors
    ensures |CaptureError(m, report).errors| <= MaxErrors
    ensures m.isEnabled && |m.errors| == MaxErrors ==> CaptureError(m, report).errors == m.errors[1..] + [report]
    ensures m.isEnabled && |m.errors| < MaxErrors ==> CaptureError(m, report).errors == m.errors + [report]
  {
    if m.isEnabled && |m.errors| == MaxErrors {
      assert (m.errors + [report])[1..] == m.errors[1..] + [report];
    }
  }

  /** `clearErrors`. */
  function ClearErrors(m: Monitor): (r: Monitor)
    ensures r.errors == [] && r.isEnabled == m.isEnabled
  {
    m.(errors := [])
  }

  /** The capture helpers and the severities and contexts they fix. */
  function CapturePerformanceMetric(m: Monitor, id: string, now: int, name: string, durationText: string, duration: real): (r: Monitor)
    ensures !m.isEnabled ==> r == m
    ensures m.isEnabled ==> |r.errors| > 0 && var e := r.errors[|r.errors| - 1];
      e.context == "performance" && (e.severity == Medium <==> duration > 1000.0) && (e.severity == Low <==> duration <= 1000.0)
  {
    if !m.isEnabled then m
    else CaptureError(m, NewReport(id, now, "Performance: " + name + " took " + durationText + "ms", "performance",
                                   if duration > 1000.0 then Medium else Low))
  }

  function CaptureUserAction(m: Monitor, id: string, now: int, action: string): (r: Monitor)
    ensures !m.isEnabled ==> r == m
    ensures m.isEnabled ==> |r.errors| > 0 && var e := r.errors[|r.errors| - 1];
      e.context == "user-interaction" && e.severity == Low && e.message == "User Action: " + action
  {
    if !m.isEnabled then m
    else CaptureError(m, NewReport(id, now, "User Action: " + action, "user-interaction", Low))
  }

  function CaptureGenerationError(m: Monitor, id: string, now: int, message: string): (r: Monitor)
    ensures !m.isEnabled ==> r == m
    ensures m.isEnabled ==> |r.errors| > 0 && var e := r.errors[|r.errors| - 1];
      e.context == "generation" && e.severity == High && e.category == CategorizeError(message)
  {
    CaptureError(m, NewReport(id, now, message, "generation", High))
  }

  function CaptureNetworkError(m: Monitor, id: string, now: int, message: string): (r: Monitor)
    ensures !m.isEnabled ==> r == m
    ensures m.isEnabled ==> |r.errors| > 0 && var e := r.errors[|r.errors| - 1];
      e.context == "network" && e.severity == Medium && e.category == CategorizeError(message)
  {
    CaptureError(m, NewReport(id, now, message, "network", Medium))
  }

  /** `captureError`'s severity when the caller gives none. */
  const DefaultSeverity: Severity := Medium

  /**
   * The global listeners: an uncaught error is captured in context "global" and an
   * unhandled rejection in context "promise", both with the default severity.
   */
  function CaptureUncaught(m: Monitor, id: string, now: int, message: string, rejection: bool): (r: Monitor)
    ensures !m.isEnabled ==> r == m
    ensures m.isEnabled ==> |r.errors| > 0 && var e := r.errors[|r.errors| - 1];
      && e.context == (if rejection then "promise" else "global")
      && e.severity == Medium && e.message == message && e.category == CategorizeError(message)
  {
    CaptureError(m, NewReport(id, now, message, if rejection then "promise" else "global", DefaultSeverity))
  }

  /** `captureReactError`: high severity unless the caller says otherwise. */
  function CaptureReactError(m: Monitor, id: string, now: int, message: string, context: string, severity: Option<Severity>): (r: Monitor)
    ensures !m.isEnabled ==> r == m
    ensures m.isEnabled ==> |r.errors| > 0 && r.errors[|r.errors| - 1].severity == severity.GetOr(High)
  {
    CaptureError(m, NewReport(id, now, message, context, severity.GetOr(High)))
  }

  // ----- analytics -----

  function CategoryCount(log: seq<ErrorReport>, c: Category): nat
    decreases |log|
  {
    if |log| == 0 then 0 else CategoryCount(log[..|log| - 1], c) + (if log[|log| - 1].category == c then 1 else 0)
  }

  function SeverityCount(log: seq<ErrorReport>, s: Severity): nat
    decreases |log|
  {
    if |log| == 0 then 0 else SeverityCount(log[..|log| - 1], s) + (if log[|log| - 1].severity == s then 1 else 0)
  }

  /** The per-category counts add up to the number of reports. */
  lemma {:induction false} CategoriesPartition(log: seq<ErrorReport>)
    ensures CategoryCount(log, Network) + CategoryCount(log, Api) + CategoryCount(log, Validation)
      + CategoryCount(log, Ui) + CategoryCount(log, Generation) + CategoryCount(log, UnknownCategory) == |log|
    decreases |log|
  {
    if |log| > 0 {
      CategoriesPartition(log[..|log| - 1]);
    }
  }

  /** The per-severity counts add up to the number of reports. */
  lemma {:induction false} SeveritiesPartition(log: seq<ErrorReport>)
    ensures SeverityCount(log, Low) + SeverityCount(log, Medium) + SeverityCount(log, High) + SeverityCount(log, Critical) == |log|
    decreases |log|
  {
    if |log| > 0 {
      SeveritiesPartition(log[..|log| - 1]);
    }
  }

  /** How often `msg` occurs among the reports' messages. */
  function MessageCount(log: seq<ErrorReport>, msg: string): nat
    decreases |log|
  {
    if |log| == 0 then 0 else MessageCount(log[..|log| - 1], msg) + (if log[|log| - 1].message == msg then 1 else 0)
  }

  lemma {:induction false} MessageCountPositive(log: seq<ErrorReport>, msg: string)
    ensures MessageCount(log, msg) > 0 <==> exists k :: 0 <= k < |log| && log[k].message == msg
    decreases |log|
  {
    if |log| > 0 {
      MessageCountPositive(log[..|log| - 1], msg);
      var init := log[..|log| - 1];
      if exists k :: 0 <= k < |log| && log[k].message == msg {
        var k :| 0 <= k < |log| && log[k].message == msg;
        if k < |log| - 1 {
          assert init[k].message == msg;
        }
      }
      if exists k :: 0 <= k < |init| && init[k].message == msg {
        var k :| 0 <= k < |init| && init[k].message == msg;
        assert log[k].message == msg;
      }
    }
  }

  /**
   * The `errorMessages` record: each message once, with its count, in the order the
   * messages were first seen (creation order; `Object.entries` lists it in `PropertyKeys.PropertyOrder`).
   */
  function Tally(log: seq<ErrorReport>): (t: OMap<string, nat>)
    ensures DistinctKeys(t)
    ensures forall msg :: Get(t, msg) == if MessageCount(log, msg) > 0 then Some(MessageCount(log, msg)) else None
    decreases |log|
  {
    if |log| == 0 then []
    else
      var before := Tally(log[..|log| - 1]);
      var msg := log[|log| - 1].message;
      Set(before, msg, Get(before, msg).GetOr(0) + 1)
  }

  datatype MessageCountEntry = MessageCountEntry(error: string, count: nat)

  function Entries(t: OMap<string, nat>): (es: seq<MessageCountEntry>)
    ensures |es| == |t| && forall k :: 0 <= k < |t| ==> es[k] == MessageCountEntry(t[k].key, t[k].value)
  {
    seq(|t|, k requires 0 <= k < |t| => MessageCountEntry(t[k].key, t[k].value))
  }

  /** Counts never increase along `es`. */
  predicate NonIncreasing(es: seq<MessageCountEntry>) {
    forall i, j :: 0 <= i < j < |es| ==> es[i].count >= es[j].count
  }

  /** The sort key: an entry's count. */
  function Count(e: MessageCountEntry): real {
    e.count as real
  }

  /** `.sort((a, b) => b.count - a.count)`: a stable sort by decreasing count. */
  function SortDesc(es: seq<MessageCountEntry>): (r: seq<MessageCountEntry>)
    ensures NonIncreasing(r)
    ensures multiset(r) == multiset(es)
  {
    var r := JsSort.Sort(es, Count);
    assert forall i, j :: 0 <= i < j < |r| ==> Count(r[i]) >= Count(r[j]);
    r
  }

  const Categories: set<Category> := {Network, Api, Validation, Ui, Generation, UnknownCategory}
  const Severities: set<Severity> := {Low, Medium, High, Critical}

  /** The two sets list every category and every severity. */
  lemma AllListed()
    ensures forall c: Category :: c in Categories
    ensures forall v: Severity :: v in Severities
  {
    forall c: Category ensures c in Categories {
      match c
      case Network => case Api => case Validation => case Ui => case Generation => case UnknownCategory =>
    }
    forall v: Severity ensures v in Severities {
      match v
      case Low => case Medium => case High => case Critical =>
    }
  }

  datatype ErrorAnalytics = ErrorAnalytics(
    totalErrors: nat,
    errorsByCategory: map<Category, nat>,
    errorsBySeverity: map<Severity, nat>,
    recentErrors: seq<ErrorReport>,
    errorRate: real,
    mostCommonErrors: seq<MessageCountEntry>)

  /** The reports newer than one hour before `now`. */
  function Recent(log: seq<ErrorReport>, now: int): (r: seq<ErrorReport>)
    ensures |r| <= |log|
    ensures forall k :: 0 <= k < |r| ==> r[k] in log && r[k].timestamp > now - 3600000
    ensures forall k :: 0 <= k < |log| && log[k].timestamp > now - 3600000 ==> log[k] in r
    decreases |log|
  {
    if |log| == 0 then []
    else
      var init := Recent(log[..|log| - 1], now);
      var last := log[|log| - 1];
      assert forall k :: 0 <= k < |log| - 1 ==> log[k] == log[..|log| - 1][k];
      if last.timestamp > now - 3600000 then init + [last] else init
  }

  /** The filter's last step: the newest report is counted once more exactly when it is recent. */
  lemma RecentSnoc(log: seq<ErrorReport>, now: int, e: ErrorReport)
    requires |log| > 0
    ensures var init, last := log[..|log| - 1], log[|log| - 1];
      && multiset(log)[e] == multiset(init)[e] + (if last == e then 1 else 0)
      && multiset(Recent(log, now))[e]
         == multiset(Recent(init, now))[e] + (if last == e && last.timestamp > now - 3600000 then 1 else 0)
  {
    var init, last := log[..|log| - 1], log[|log| - 1];
    assert log == init + [last];
    assert multiset(log) == multiset(init) + multiset{last};
  }

  /** The filter works piecewise, so the recent reports keep the log's order. */
  lemma {:induction false} RecentAppend(a: seq<ErrorReport>, b: seq<ErrorReport>, now: int)
    ensures Recent(a + b, now) == Recent(a, now) + Recent(b, now)
    decreases |b|
  {
    if |b| > 0 {
      var b' := b[..|b| - 1];
      assert (a + b)[..|a + b| - 1] == a + b';
      assert (a + b)[|a + b| - 1] == b[|b| - 1];
      RecentAppend(a, b', now);
    } else {
      assert a + b == a;
    }
  }

  /** A report is kept as often as it was logged when it is recent, and never otherwise. */
  lemma {:induction false} RecentCounts(log: seq<ErrorReport>, now: int, e: ErrorReport)
    ensures multiset(Recent(log, now))[e] == if e.timestamp > now - 3600000 then multiset(log)[e] else 0
    decreases |log|
  {
    if |log| > 0 {
      var init, last := log[..|log| - 1], log[|log| - 1];
      RecentCounts(init, now, e);
      RecentSnoc(log, now, e);
    }
  }

  /**
   * The `mostCommonErrors` list: the record's entries as `Object.entries` lists them, sorted
   * by decreasing count, cut to ten.
   */
  function MostCommon(log: seq<ErrorReport>): (top: seq<MessageCountEntry>)
    ensures |top| <= 10 && NonIncreasing(top)
  {
    TopTen(Tally(log))
  }

  function TopTen(t: OMap<string, nat>): (top: seq<MessageCountEntry>)
    ensures |top| <= 10 && NonIncreasing(top)
  {
    var sorted := SortDesc(Entries(PropertyKeys.PropertyOrder(t)));
    if |sorted| > 10 then sorted[..10] else sorted
  }

  /**
   * `getAnalytics` at clock reading `now`: the per-category and per-severity records hold
   * a key exactly for each category and severity that occurs, with its count.
   */
  function GetAnalytics(m: Monitor, now: int): (a: ErrorAnalytics)
    ensures a.totalErrors == |m.errors|
    ensures forall c :: c in a.errorsByCategory <==> CategoryCount(m.errors, c) > 0
    ensures forall c :: c in a.errorsByCategory ==> a.errorsByCategory[c] == CategoryCount(m.errors, c)
    ensures forall v :: v in a.errorsBySeverity <==> SeverityCount(m.errors, v) > 0
    ensures forall v :: v in a.errorsBySeverity ==> a.errorsBySeverity[v] == SeverityCount(m.errors, v)
    ensures a.errorRate == |a.recentErrors| as real / 60.0
    ensures a.recentErrors == Recent(m.errors, now)
    ensures |a.mostCommonErrors| <= 10 && NonIncreasing(a.mostCommonErrors)
    ensures a.mostCommonErrors == MostCommon(m.errors)
  {
    var recent := Recent(m.errors, now);
    var byCategory := map c | c in Categories && CategoryCount(m.errors, c) > 0 :: CategoryCount(m.errors, c);
    var bySeverity := map v | v in Severities && SeverityCount(m.errors, v) > 0 :: SeverityCount(m.errors, v);
    AllListed();
    ErrorAnalytics(|m.errors|, byCategory, bySeverity, recent, |recent| as real / 60.0, MostCommon(m.errors))
  }

  /** An entry of the tally names a message of the log with its true count. */
  lemma TallyEntry(log: seq<ErrorReport>, j: int)
    requires 0 <= j < |Tally(log)|
    ensures Tally(log)[j].value == MessageCount(log, Tally(log)[j].key) > 0
  {
    var t := Tally(log);
    forall i | 0 <= i < j ensures t[i].key != t[j].key {
    }
    FindIs(t, t[j].key, j);
  }

  /** The listed record holds exactly the true counts of the log's messages. */
  lemma ListedEntries(log: seq<ErrorReport>)
    ensures forall e :: e in Entries(PropertyKeys.PropertyOrder(Tally(log))) ==> e.count == MessageCount(log, e.error) > 0
    ensures forall msg :: MessageCount(log, msg) > 0 ==>
      MessageCountEntry(msg, MessageCount(log, msg)) in Entries(PropertyKeys.PropertyOrder(Tally(log)))
  {
    var t := Tally(log);
    var listed := PropertyKeys.PropertyOrder(t);
    var es := Entries(listed);
    PropertyKeys.PropertyOrderMembers(t);
    forall e | e in es ensures e.count == MessageCount(log, e.error) > 0 {
      var i :| 0 <= i < |es| && es[i] == e;
      assert listed[i] in listed;
      var j :| 0 <= j < |t| && t[j] == listed[i];
      TallyEntry(log, j);
    }
    forall msg | MessageCount(log, msg) > 0 ensures MessageCountEntry(msg, MessageCount(log, msg)) in es {
      var j := Find(t, msg);
      assert t[j] in t;
      var l :| 0 <= l < |listed| && listed[l] == t[j];
      assert es[l] == MessageCountEntry(msg, MessageCount(log, msg));
    }
  }

  /** Each listed message is shown with the number of reports carrying it. */
  lemma MostCommonCountsAreTrue(log: seq<ErrorReport>)
    ensures forall k :: 0 <= k < |MostCommon(log)| ==> MostCommon(log)[k].count == MessageCount(log, MostCommon(log)[k].error) > 0
  {
    var es := Entries(PropertyKeys.PropertyOrder(Tally(log)));
    var sorted := SortDesc(es);
    var top := MostCommon(log);
    ListedEntries(log);
    forall k | 0 <= k < |top| ensures top[k].count == MessageCount(log, top[k].error) > 0 {
      assert top[k] == sorted[k];
      assert sorted[k] in multiset(es);
    }
  }

  /** Every message left out of the top ten is no more frequent than the tenth one. */
  lemma TopTenAreMostCommon(log: seq<ErrorReport>, msg: string)
    requires MessageCount(log, msg) > 0
    ensures (forall k :: 0 <= k < |MostCommon(log)| ==> MostCommon(log)[k].error != msg) ==>
              |MostCommon(log)| == 10 && MessageCount(log, msg) <= MostCommon(log)[9].count
  {
    ListedEntries(log);
    TopTenKeepsLargest(Tally(log), MessageCountEntry(msg, MessageCount(log, msg)));
  }

  /** An entry of the record missing from the top ten is no larger than the tenth. */
  lemma TopTenKeepsLargest(t: OMap<string, nat>, e: MessageCountEntry)
    requires e in Entries(PropertyKeys.PropertyOrder(t))
    ensures (forall k :: 0 <= k < |TopTen(t)| ==> TopTen(t)[k].error != e.error) ==>
              |TopTen(t)| == 10 && e.count <= TopTen(t)[9].count
  {
    var es := Entries(PropertyKeys.PropertyOrder(t));
    var sorted := SortDesc(es);
    var top := TopTen(t);
    assert e in multiset(es);
    assert e in multiset(sorted);
    var i :| 0 <= i < |sorted| && sorted[i] == e;
    if i < |top| {
      assert top[i] == sorted[i];
    } else {
      assert top == sorted[..10];
      assert sorted[9].count >= sorted[i].count;
    }
  }

  /**
   * An example: `Object.entries` lists an integer-like message before an older one, and the
   * stable sort keeps that order between equal counts, so "404" heads the list.
   */
  lemma IntegerMessageListedFirst(log: seq<ErrorReport>)
    requires |log| == 2 && log[0].message == "b" && log[1].message == "404"
    ensures MostCommon(log) == [MessageCountEntry("404", 1), MessageCountEntry("b", 1)]
  {
    assert log[0].message != log[1].message by {
      assert log[0].message[0] != log[1].message[0];
    }
    TallyOfTwo(log);
    TopTenExample(Tally(log));
  }

  /** Two different messages are recorded in the order they were first seen. */
  lemma {:induction false} TallyOfTwo(log: seq<ErrorReport>)
    requires |log| == 2 && log[0].message != log[1].message
    ensures Tally(log) == [Entry(log[0].message, 1), Entry(log[1].message, 1)]
  {
    var first := log[..1];
    assert first == [] + [log[0]] && log == first + [log[1]];
    TallyNewMessage([], log[0]);
    assert MessageCount(first, log[1].message) == 0 by {
      assert first[..0] == [];
    }
    TallyNewMessage(first, log[1]);
  }

  lemma TopTenExample(t: OMap<string, nat>)
    requires t == [Entry("b", 1), Entry("404", 1)]
    ensures TopTen(t) == [MessageCountEntry("404", 1), MessageCountEntry("b", 1)]
  {
    var listed := PropertyKeys.PropertyOrder(t);
    FourOhFourIsIndex();
    PropertyKeys.IndexBeforeName(t);
    var es := Entries(listed);
    assert es == [MessageCountEntry("404", 1), MessageCountEntry("b", 1)];
    JsSort.SortEqualKeys(es, Count, 1.0);
  }

  /** A message seen for the first time is recorded last, with count one. */
  lemma TallyNewMessage(log: seq<ErrorReport>, r: ErrorReport)
    requires MessageCount(log, r.message) == 0
    ensures Tally(log + [r]) == Tally(log) + [Entry(r.message, 1)]
  {
    assert (log + [r])[..|log|] == log;
    assert !Has(Tally(log), r.message);
  }

  lemma FourOhFourIsIndex()
    ensures PropertyKeys.IsArrayIndex("404")
  {
    assert "404"[..2] == "40" && "40"[..1] == "4" && "4"[..0] == "";
  }
}

=== FILE: export_utils.dfy ===
/**
 * The export manager: its per-scene progress queue, the batch download loop, the ZIP
 * placeholder, the metadata caption and the download file name.
 */
module ExportUtils {
  import opened Wrappers
  import opened JsStrings
  import opened Types
  import opened OrderedMap

  datatype DownloadStatus = Pending | Downloading | Completed | Errored

  datatype DownloadProgress = DownloadProgress(sceneId: string, progress: real, status: DownloadStatus, error: Option<string>)

  /** The manager's `downloadQueue`, keyed by scene id in insertion order. */
  type Queue = OMap<string, DownloadProgress>

  /** What a rejected download carried: an `Error` with its message, or some other value. */
  datatype Thrown = ThrownError(message: string) | ThrownValue

  /** `error instanceof Error ? error.message : fallback`. */
  function Describe(t: Thrown, fallback: string): (m: string)
    ensures t.ThrownError? ==> m == t.message
    ensures t.ThrownValue? ==> m == fallback
  {
    match t
    case ThrownError(msg) => msg
    case ThrownValue => fallback
  }

  /** The entry a download starts from: the stored one, or a fresh pending one. */
  function EntryFor(q: Queue, id: string): (e: DownloadProgress)
    ensures Has(q, id) ==> Some(e) == Get(q, id)
    ensures !Has(q, id) ==> e == DownloadProgress(id, 0.0, Pending, None)
  {
    Get(q, id).GetOr(DownloadProgress(id, 0.0, Pending, None))
  }

  /** Marking scene `i` of `n` as downloading, at `i / n * 100` percent. */
  function Begin(q: Queue, id: string, i: nat, n: nat): (r: Queue)
    requires i < n
    ensures Get(r, id).Some? && Get(r, id).value.status == Downloading
    ensures 0.0 <= Get(r, id).value.progress < 100.0
    ensures forall k :: k != id ==> Get(r, k) == Get(q, k)
  {
    var p := (i as real / n as real) * 100.0;
    assert p < 100.0 by {
      assert i as real / n as real < 1.0;
    }
    Set(q, id, EntryFor(q, id).(status := Downloading, progress := p))
  }

  /** Index of the first failed outcome, or the length when all succeed. */
  function FirstFailure<B>(outcomes: seq<Result<B, Thrown>>): (i: nat)
    ensures i <= |outcomes|
    ensures forall k :: 0 <= k < i ==> outcomes[k].Success?
    ensures i < |outcomes| ==> outcomes[i].Failure?
    decreases |outcomes|
  {
    if |outcomes| == 0 then 0
    else if outcomes[0].Failure? then 0
    else 1 + FirstFailure(outcomes[1..])
  }

  /** Scene `id` finished downloading: completed, at 100 percent. */
  predicate Done(q: Queue, id: string) {
    Get(q, id).Some? && Get(q, id).value.status == Completed && Get(q, id).value.progress == 100.0
  }

  /** One scene's download: marked as downloading, then completed, or errored with the failure's description. */
  method Record<B>(q: Queue, id: string, i: nat, n: nat, outcome: Result<B, Thrown>) returns (r: Queue)
    requires i < n
    ensures outcome.Success? ==> Done(r, id)
    ensures outcome.Failure? ==> (Get(r, id).Some? && Get(r, id).value.status == Errored &&
      Get(r, id).value.error == Some(Describe(outcome.error, "Unknown error")))
    ensures forall k :: k != id ==> Get(r, k) == Get(q, k)
  {
    var started := Begin(q, id, i, n);
    match outcome
    case Failure(t) =>
      r := Set(started, id, EntryFor(started, id).(status := Errored, error := Some(Describe(t, "Unknown error"))));
    case Success(_) =>
      r := Set(started, id, EntryFor(started, id).(status := Completed, progress := 100.0));
  }

  /** Scene `id` is among the first `n` scenes, the ones a download up to `n` touches. */
  predicate Attempted(scenes: seq<GeneratedScene>, n: nat, id: string) {
    exists k :: 0 <= k < n && k < |scenes| && scenes[k].id == id
  }

  /**
   * `downloadScenes`, with `outcomes[k]` what downloading `scenes[k]` would give. Scenes are
   * fetched in order; the first failure is recorded against its scene and thrown, and no
   * later scene is attempted.
   */
  method DownloadScenes<B>(q0: Queue, scenes: seq<GeneratedScene>, outcomes: seq<Result<B, Thrown>>)
    returns (blobs: seq<B>, thrown: Option<Thrown>, q: Queue)
    requires |outcomes| == |scenes|
    ensures var stop := FirstFailure(outcomes);
      && (thrown.None? <==> stop == |scenes|)
      && |blobs| == stop
      && (forall k :: 0 <= k < stop ==> blobs[k] == outcomes[k].value)
      && (thrown.Some? ==> thrown == Some(outcomes[stop].error))
    ensures thrown.None? ==> forall k :: 0 <= k < |scenes| ==> Done(q, scenes[k].id)
    ensures thrown.Some? ==> var stop := FirstFailure(outcomes);
      Get(q, scenes[stop].id).Some? && Get(q, scenes[stop].id).value.status == Errored
      && Get(q, scenes[stop].id).value.error == Some(Describe(outcomes[stop].error, "Unknown error"))
    ensures forall id :: !Attempted(scenes, FirstFailure(outcomes) + 1, id) ==> Get(q, id) == Get(q0, id)
  {
    blobs, thrown, q := [], None, q0;
    ghost var stop := FirstFailure(outcomes);
    var i := 0;
    while i < |scenes|
      invariant 0 <= i <= stop
      invariant |blobs| == i && forall k :: 0 <= k < i ==> blobs[k] == outcomes[k].value
      invariant forall k :: 0 <= k < i ==> Done(q, scenes[k].id)
      invariant forall id :: !Attempted(scenes, i, id) ==> Get(q, id) == Get(q0, id)
    {
      var id := scenes[i].id;
      var before := q;
      q := Record(q, id, i, |scenes|, outcomes[i]);
      forall x | !Attempted(scenes, i + 1, x) ensures Get(q, x) == Get(q0, x) {
        assert !Attempted(scenes, i, x) && x != id;
      }
      if outcomes[i].Failure? {
        assert stop <= i;
        thrown := Some(outcomes[i].error);
        return;
      }
      assert stop < |outcomes| ==> outcomes[stop].Failure?;
      var prev := blobs;
      blobs := blobs + [outcomes[i].value];
      forall k | 0 <= k < i + 1 ensures blobs[k] == outcomes[k].value {
        if k < i {
          assert blobs[k] == prev[k];
        }
      }
      forall k | 0 <= k < i + 1 ensures Done(q, scenes[k].id) {
        if scenes[k].id != id {
          assert Get(q, scenes[k].id) == Get(before, scenes[k].id);
        }
      }
      i := i + 1;
    }
  }

  /** `createSceneZip`: a placeholder that downloads only the first scene; with no scenes it throws. */
  function CreateSceneZip<B>(scenes: seq<GeneratedScene>, first: Result<B, Thrown>, noSceneError: Thrown): (r: Result<B, Thrown>)
    ensures |scenes| == 0 ==> r == Failure(noSceneError)
    ensures |scenes| > 0 ==> r == first
  {
    if |scenes| == 0 then Failure(noSceneError) else first
  }

  /** `getDownloadProgress`: the progress entry stored under the scene's id, if any. */
  function GetDownloadProgress(q: Queue, id: string): (r: Option<DownloadProgress>)
    ensures r.Some? <==> id in Keys(q)
    ensures r.Some? ==> exists i :: 0 <= i < |q| && q[i] == Entry(id, r.value)
    ensures DistinctKeys(q) ==> forall i :: 0 <= i < |q| && q[i].key == id ==> r == Some(q[i].value)
  {
    HasIff(q, id);
    forall i | 0 <= i < |q| && q[i].key == id && DistinctKeys(q) ensures Get(q, id) == Some(q[i].value) {
      FindIs(q, id, i);
    }
    Get(q, id)
  }

  /** `clearDownloadQueue`: afterwards no scene has progress. */
  function ClearDownloadQueue(q: Queue): (r: Queue)
    ensures forall id :: GetDownloadProgress(r, id).None?
  {
    []
  }

  const CaptionLength: nat := 50

  /** The caption's prompt line: "Prompt: ", the first 50 characters, and "..." only when something was cut. */
  function PromptLine(prompt: string): (line: string)
    ensures |prompt| <= CaptionLength ==> line == "Prompt: " + prompt
    ensures |prompt| > CaptionLength ==> line == "Prompt: " + prompt[..CaptionLength] + "..."
    ensures |line| <= 8 + CaptionLength + 3
  {
    var shown := if |prompt| <= CaptionLength then prompt else prompt[..CaptionLength];
    "Prompt: " + shown + (if |prompt| > CaptionLength then "..." else "")
  }

  /** The three caption lines: scene number, creation date (as the locale prints it), prompt. */
  function CaptionLines(scene: GeneratedScene, dateText: string): (lines: seq<string>)
    ensures |lines| == 3
    ensures lines[0] == "Scene " + IntToString(scene.sceneNumber) && lines[1] == "Created: " + dateText
    ensures lines[2] == PromptLine(scene.prompt)
  {
    ["Scene " + IntToString(scene.sceneNumber), "Created: " + dateText, PromptLine(scene.prompt)]
  }

  predicate IsAlphanumeric(c: char) {
    ('a' <= c <= 'z') || ('A' <= c <= 'Z') || ('0' <= c <= '9')
  }

  /** `.replace(/[^a-zA-Z0-9]/g, '_')`. */
  function Underscored(s: string): (r: string)
    ensures |r| == |s|
    ensures forall k :: 0 <= k < |s| ==> r[k] == (if IsAlphanumeric(s[k]) then s[k] else '_')
  {
    seq(|s|, k requires 0 <= k < |s| => if IsAlphanumeric(s[k]) then s[k] else '_')
  }

  const NameLength: nat := 30

  /** The part of the file name taken from the prompt: at most 30 characters, only letters, digits and '_'. */
  function NamePart(prompt: string): (r: string)
    ensures |r| == if |prompt| < NameLength then |prompt| else NameLength
    ensures forall k :: 0 <= k < |r| ==> IsAlphanumeric(r[k]) || r[k] == '_'
    ensures forall k :: 0 <= k < |r| && IsAlphanumeric(prompt[k]) ==> r[k] == prompt[k]
  {
    Underscored(if |prompt| < NameLength then prompt else prompt[..NameLength])
  }

  /** `generateFilename`, with `date` the YYYY-MM-DD part of the current time. */
  function GenerateFilename(scene: GeneratedScene, format: string, date: string): (name: string)
    ensures var prefix := "brandscene_" + IntToString(scene.sceneNumber) + "_" + NamePart(scene.prompt) + "_";
      && |name| == |prefix| + |date| + 1 + |format|
      && StartsWith(name, prefix)
      && name[|prefix|..|prefix| + |date|] == date
      && name[|prefix| + |date|..] == "." + format
  {
    var prefix := "brandscene_" + IntToString(scene.sceneNumber) + "_" + NamePart(scene.prompt) + "_";
    var name := prefix + date + "." + format;
    assert name[..|prefix|] == prefix;
    assert name[|prefix|..|prefix| + |date|] == date;
    assert name[|prefix| + |date|..] == "." + format;
    name
  }

  /** Prompts that agree on their first 30 characters give the same file name. */
  lemma FilenameForgetsTail(scene: GeneratedScene, other: string, format: string, date: string)
    requires |scene.prompt| >= NameLength && |other| >= NameLength
    requires scene.prompt[..NameLength] == other[..NameLength]
    ensures GenerateFilename(scene, format, date) == GenerateFilename(scene.(prompt := other), format, date)
  {
  }

  /** An example: punctuation and spaces of the prompt all become '_', so "a b!" names its scene "a_b_". */
  lemma FilenameExample(scene: GeneratedScene)
    requires scene.prompt == "a b!" && scene.sceneNumber == 2
    ensures GenerateFilename(scene, "png", "2024-01-31") == "brandscene_2_a_b__2024-01-31.png"
  {
    var u := Underscored("a b!");
    assert !IsAlphanumeric(' ') && !IsAlphanumeric('!') && IsAlphanumeric('a') && IsAlphanumeric('b');
    assert u[0] == 'a' && u[1] == '_' && u[2] == 'b' && u[3] == '_';
    assert u == "a_b_";
    assert NamePart("a b!") == "a_b_";
    assert IntToString(2) == "2";
    var head := "brandscene_" + "2" + "_" + "a_b_";
    assert head == "brandscene_2_a_b_";
    assert head + "_" + "2024-01-31" == "brandscene_2_a_b__2024-01-31";
  }
}

=== FILE: fallback_carousel.dfy ===
/** The flat carousel used without WebGL: one card at a time, arrows, indicators and a counter. */
module FallbackCarousel {
  import opened Wrappers
  import opened JsStrings
  import opened Types
  import opened RingIndex

  /** `nextScene`: `(i + 1) % n`. */
  function NextScene(i: int, n: int): (r: int)
    requires n >= 1
    ensures 0 <= i < n ==> r == Succ(i, n)
    ensures i == n - 1 ==> r == 0
  {
    RemNext(i, n)
  }

  /** `prevScene`: `i === 0 ? n - 1 : i - 1`. */
  function PrevScene(i: int, n: int): (r: int)
    ensures 0 <= i < n ==> r == Pred(i, n)
    ensures i == 0 ==> r == n - 1
  {
    ZeroPrev(i, n)
  }

  /** `goToScene`: an indicator click makes its index current as it is. */
  function GoToScene(i: nat, k: nat): nat {
    k
  }

  /** The counter in the corner: the one-based position, a slash, the number of scenes. */
  function Counter(i: nat, n: nat): (c: string)
    ensures |c| >= 5 && |c| == |NatToString(i + 1)| + 3 + |NatToString(n)|
    ensures c[|NatToString(i + 1)|..|NatToString(i + 1)| + 3] == " / "
  {
    NatToString(i + 1) + " / " + NatToString(n)
  }

  /** The counter can be read back: split on spaces it gives the position, "/" and the count. */
  lemma {:induction false} ReadCounter(i: nat, n: nat)
    ensures Split(Counter(i, n), {' '}) == [NatToString(i + 1), "/", NatToString(n)]
    ensures ParseNat(Split(Counter(i, n), {' '})[0]) == i + 1
    ensures ParseNat(Split(Counter(i, n), {' '})[2]) == n
  {
    var a, b := NatToString(i + 1), NatToString(n);
    assert Counter(i, n) == a + [' '] + "/" + [' '] + b;
    DigitsHaveNo(a, ' ');
    DigitsHaveNo(b, ' ');
    SplitThree(a, "/", b, ' ');
    ParseNatToString(i + 1);
    ParseNatToString(n);
  }

  /** Distinct positions give distinct counters. */
  lemma CounterInjective(i: nat, j: nat, n: nat)
    requires Counter(i, n) == Counter(j, n)
    ensures i == j
  {
    ReadCounter(i, n);
    ReadCounter(j, n);
  }

  datatype View =
    | Placeholder
    | Showing(scene: Option<GeneratedScene>, counter: string, indicators: seq<bool>)

  /**
   * The placeholder for an empty list; otherwise the current scene (missing when the shared
   * list has shrunk below the index), the counter and one indicator per scene.
   */
  function Render(scenes: seq<GeneratedScene>, i: nat): (v: View)
    ensures v.Placeholder? <==> |scenes| == 0
    ensures v.Showing? ==> v.counter == Counter(i, |scenes|) && |v.indicators| == |scenes|
    ensures v.Showing? ==> (v.scene.Some? <==> i < |scenes|) && (v.scene.Some? ==> v.scene.value == scenes[i])
    ensures v.Showing? ==> forall k :: 0 <= k < |scenes| ==> (v.indicators[k] <==> k == i)
  {
    var n := |scenes|;
    if n == 0 then Placeholder
    else Showing(if i < n then Some(scenes[i]) else None,
                 Counter(i, n),
                 seq(n, k requires 0 <= k < n => k == i))
  }

  /** A step forward from a shown card shows the next card, and a step back undoes it. */
  lemma NextKeepsShowing(scenes: seq<GeneratedScene>, i: nat)
    requires 0 <= i < |scenes|
    ensures var j := NextScene(i, |scenes|);
      0 <= j && Render(scenes, j).Showing? && Render(scenes, j).scene == Some(scenes[j])
    ensures PrevScene(NextScene(i, |scenes|), |scenes|) == i
  {
    SuccPredInverse(i, |scenes|);
  }

  /** Clicking indicator `k` shows scene `k`, lights only its indicator, and the counter opens with `k + 1`. */
  lemma GoToSceneShows(scenes: seq<GeneratedScene>, i: nat, k: nat)
    requires 0 <= k < |scenes|
    ensures var v := Render(scenes, GoToScene(i, k));
      && v.Showing? && v.scene == Some(scenes[k])
      && (forall j :: 0 <= j < |scenes| ==> (v.indicators[j] <==> j == k))
      && Split(v.counter, {' '})[0] == NatToString(k + 1)
  {
    ReadCounter(k, |scenes|);
  }
}

=== FILE: form_helpers.dfy ===
/**
 * Helpers behind the brand form: the upload gate, a new draft project, the image prompt
 * and its four scene variations, the brand-value list, e-mail shape and input sanitising.
 */
module FormHelpers {
  import opened Wrappers
  import opened JsStrings
  import opened Types
  import Validation

  /**
   * `handleFileUpload`: reject with the validation messages joined by ", "; otherwise read
   * the image's dimensions (`dimensions`, None when the image cannot be decoded).
   */
  function HandleFileUpload(f: FileInfo, previewUrl: string, dimensions: Option<Dimensions>): (r: Result<UploadedImage, string>)
    ensures !Validation.ValidateFile(f).isValid ==> r == Failure(Join(Validation.ValidateFile(f).errors, ", "))
    ensures Validation.ValidateFile(f).isValid && dimensions.None? ==> r == Failure("Failed to load image")
    ensures r.Success? <==> Validation.ValidateFile(f).isValid && dimensions.Some?
    ensures r.Success? ==> (r.value.file == f && r.value.fileName == f.name && r.value.fileSize == f.size
      && r.value.mimeType == f.mimeType && r.value.previewUrl == previewUrl && r.value.dimensions == dimensions)
  {
    var v := Validation.ValidateFile(f);
    if !v.isValid then Failure(Join(v.errors, ", "))
    else if dimensions.None? then Failure("Failed to load image")
    else Success(UploadedImage(f, previewUrl, f.name, f.size, f.mimeType, dimensions))
  }

  /** A file that is too large and of the wrong type is refused with both messages, size first. */
  lemma BothUploadMessages(name: string, previewUrl: string, dims: Option<Dimensions>)
    ensures HandleFileUpload(FileInfo(name, MaxFileSize + 1, "image/gif"), previewUrl, dims)
      == Failure(FileSizeMessage + ", " + FileTypeMessage)
  {
    var f := FileInfo(name, MaxFileSize + 1, "image/gif");
    assert "image/gif" !in AllowedFileTypes;
    assert Validation.ValidateFile(f).errors == [FileSizeMessage, FileTypeMessage];
    assert Join([FileSizeMessage, FileTypeMessage], ", ") == FileSizeMessage + ", " + Join([FileTypeMessage], ", ");
  }

  /**
   * `createProject`: `now` is the `new Date()` reading stamped on both dates, `idTime` the
   * separate `Date.now()` reading written into the id, and `suffix` the id's random part.
   */
  function CreateProject(now: nat, idTime: nat, suffix: string): (p: Project)
    ensures p.status == Draft && p.createdAt == p.updatedAt == now && p.name.None?
    ensures StartsWith(p.id, "project_")
  {
    Project("project_" + NatToString(idTime) + "_" + suffix, now, now, Draft, None)
  }

  /**
   * The id can be taken apart again: when the random part has no underscore, it names the
   * id's own clock reading and the suffix; the dates play no part in it.
   */
  lemma ProjectIdParts(now: nat, idTime: nat, suffix: string)
    requires NoneIn(suffix, {'_'})
    ensures Split(CreateProject(now, idTime, suffix).id, {'_'}) == ["project", NatToString(idTime), suffix]
    ensures ParseNat(Split(CreateProject(now, idTime, suffix).id, {'_'})[1]) == idTime
    ensures forall later: nat :: CreateProject(later, idTime, suffix).id == CreateProject(now, idTime, suffix).id
  {
    ProjectIdSplit(now, idTime, suffix);
    ParseNatToString(idTime);
  }

  lemma ProjectIdSplit(now: nat, idTime: nat, suffix: string)
    requires NoneIn(suffix, {'_'})
    ensures Split(CreateProject(now, idTime, suffix).id, {'_'}) == ["project", NatToString(idTime), suffix]
  {
    var digits := NatToString(idTime);
    assert CreateProject(now, idTime, suffix).id == "project" + ['_'] + digits + ['_'] + suffix;
    assert NoneIn("project", {'_'});
    DigitsHaveNo(digits, '_');
    SplitThree("project", digits, suffix, '_');
  }

  const PromptOpening := "Create a professional advertising scene featuring "
  const PromptStyle := "Style: Modern, forward-thinking, visually striking, designed to stand out among competing ads. Include the product prominently in a realistic advertising context."

  /** What is advertised: the product name as typed, or "the product" when it is blank. */
  function Subject(b: BrandInfo): (r: string)
    ensures IsBlank(b.productName) ==> r == "the product"
    ensures !IsBlank(b.productName) ==> r == b.productName
  {
    if IsBlank(b.productName) then "the product" else b.productName
  }

  /** " from <brand>", present exactly when the brand name is not blank. */
  function BrandClause(b: BrandInfo): (r: string)
    ensures r == [] <==> IsBlank(b.brandName)
    ensures r != [] ==> r == " from " + b.brandName
  {
    if IsBlank(b.brandName) then "" else " from " + b.brandName
  }

  /** The brand-values sentence, present exactly when the values field is not blank. */
  function ValuesSentence(b: BrandInfo): (r: string)
    ensures r == [] <==> IsBlank(b.brandValues)
    ensures r != [] ==> r == "The scene should embody these brand values: " + Join(FormatBrandValues(b.brandValues), ", ") + ". "
  {
    if IsBlank(b.brandValues) then ""
    else "The scene should embody these brand values: " + Join(FormatBrandValues(b.brandValues), ", ") + ". "
  }

  /** `buildPrompt`: opening, subject, optional brand, ". ", optional values sentence, style sentence. */
  function BuildPrompt(b: BrandInfo): (p: string)
    ensures StartsWith(p, PromptOpening + Subject(b) + BrandClause(b) + ". " + ValuesSentence(b))
    ensures |p| >= |PromptStyle| && p[|p| - |PromptStyle|..] == PromptStyle
    ensures |p| == |PromptOpening + Subject(b) + BrandClause(b) + ". " + ValuesSentence(b)| + |PromptStyle|
  {
    var head := PromptOpening + Subject(b) + BrandClause(b) + ". " + ValuesSentence(b);
    assert (head + PromptStyle)[|head|..] == PromptStyle;
    head + PromptStyle
  }

  /** The prompt reads only the brand name, product name and values: description and dimensions do not matter. */
  lemma BuildPromptIgnoresOtherFields(b: BrandInfo, desc: string, dims: string)
    ensures BuildPrompt(b.(productDescription := desc, imageDimensions := dims)) == BuildPrompt(b)
  {
  }

  const SceneSuffixes := [
    "Urban cityscape background with modern architecture.",
    "Natural outdoor environment with dramatic lighting.",
    "Minimalist studio setting with clean lines and shadows.",
    "Dynamic lifestyle scene with people and movement."]

  /** `generateScenePrompts`: four prompts, each the base prompt with a different setting appended. */
  function GenerateScenePrompts(base: string): (ps: seq<string>)
    ensures |ps| == 4
    ensures forall i :: 0 <= i < 4 ==> ps[i] == base + " Scene variation: " + SceneSuffixes[i]
    ensures forall i :: 0 <= i < 4 ==> StartsWith(ps[i], base)
  {
    seq(4, i requires 0 <= i < 4 => base + " Scene variation: " + SceneSuffixes[i])
  }

  /** The four prompts are pairwise different. */
  lemma ScenePromptsDistinct(base: string)
    ensures forall i, j :: 0 <= i < j < 4 ==> GenerateScenePrompts(base)[i] != GenerateScenePrompts(base)[j]
  {
    var ps := GenerateScenePrompts(base);
    var n := |base| + |" Scene variation: "|;
    assert |SceneSuffixes[0]| == 52 && |SceneSuffixes[1]| == 51 && |SceneSuffixes[2]| == 55 && |SceneSuffixes[3]| == 49;
    assert |ps[0]| == n + 52 && |ps[1]| == n + 51 && |ps[2]| == n + 55 && |ps[3]| == n + 49;
  }

  /** `formatBrandValues`: split on commas, trim, drop the empty ones. */
  function FormatBrandValues(values: string): (vs: seq<string>)
    ensures forall i :: 0 <= i < |vs| ==> vs[i] != [] && NoneIn(vs[i], {','})
    ensures forall i :: 0 <= i < |vs| ==> !IsSpace(vs[i][0]) && !IsSpace(vs[i][|vs[i]| - 1])
  {
    ListValues(values, {','})
  }

  /** Joining clean values with commas and formatting the result gives the values back. */
  lemma {:induction false} FormatJoinRoundTrip(vs: seq<string>)
    requires forall i :: 0 <= i < |vs| ==> IsToken(vs[i], {','})
    ensures FormatBrandValues(Join(vs, ",")) == vs
  {
    if |vs| == 0 {
      assert Join(vs, ",") == "";
      assert Split("", {','}) == [""];
    } else {
      SplitJoin(vs);
      ListOfTokens(Join(vs, ","), {','});
    }
  }

  lemma {:induction false} SplitJoin(vs: seq<string>)
    requires forall i :: 0 <= i < |vs| ==> NoneIn(vs[i], {','})
    ensures |vs| > 0 ==> Split(Join(vs, ","), {','}) == vs
    decreases |vs|
  {
    if |vs| == 1 {
      SplitWhole(vs[0], {','});
    } else if |vs| > 1 {
      SplitJoin(vs[1..]);
      assert Join(vs, ",") == vs[0] + [','] + Join(vs[1..], ",");
      SplitCons(vs[0], ',', Join(vs[1..], ","), {','});
      assert vs == [vs[0]] + vs[1..];
    }
  }

  /** A character allowed in each of the three parts of an address: not white space, not '@'. */
  predicate EmailChar(c: char) {
    !IsSpace(c) && c != '@'
  }

  /**
   * The shape `/^[^\s@]+@[^\s@]+\.[^\s@]+$/` accepts, with the '@' at `i` and a '.' at `j`:
   * text, '@', text, '.', text, with no white space and no other '@'.
   */
  predicate EmailShape(s: string, i: int, j: int) {
    && 0 < i && i + 1 < j < |s| - 1
    && s[i] == '@' && s[j] == '.'
    && forall k :: 0 <= k < |s| && k != i ==> EmailChar(s[k])
  }

  /** `isValidEmail`: first '@' not at the start, no other '@', no white space, and a '.' with text on both sides after it. */
  function IsValidEmail(s: string): (ok: bool)
  {
    var i := IndexOfAny(s, {'@'});
    && 0 < i && i + 3 < |s|
    && (forall k :: 0 <= k < |s| ==> !IsSpace(s[k]))
    && NoneIn(s[i + 1..], {'@'})
    && IndexOfAny(s[i + 2..|s| - 1], {'.'}) < |s| - 1 - (i + 2)
  }

  /** `isValidEmail` accepts exactly the addresses of that shape. */
  lemma IsValidEmailIff(s: string)
    ensures IsValidEmail(s) <==> exists i, j :: EmailShape(s, i, j)
  {
    if IsValidEmail(s) {
      var i := IndexOfAny(s, {'@'});
      var mid := s[i + 2..|s| - 1];
      var j := i + 2 + IndexOfAny(mid, {'.'});
      assert mid[j - (i + 2)] == s[j];
      forall k | 0 <= k < |s| && k != i ensures EmailChar(s[k]) {
        if k < i {
          assert s[..i][k] == s[k];
        } else {
          assert s[i + 1..][k - (i + 1)] == s[k];
        }
      }
      assert EmailShape(s, i, j);
    }
    if exists i, j :: EmailShape(s, i, j) {
      var i, j :| EmailShape(s, i, j);
      assert NoneIn(s[..i], {'@'}) by {
        forall k | 0 <= k < i ensures s[..i][k] !in {'@'} {
          assert EmailChar(s[k]);
        }
      }
      IndexOfAnyIs(s, {'@'}, i);
      var after := s[i + 1..];
      assert NoneIn(after, {'@'}) by {
        forall k | 0 <= k < |after| ensures after[k] !in {'@'} {
          assert after[k] == s[i + 1 + k];
          assert EmailChar(s[i + 1 + k]);
        }
      }
      var mid := s[i + 2..|s| - 1];
      assert mid[j - (i + 2)] == '.';
      assert IndexOfAny(mid, {'.'}) < |mid|;
    }
  }

  /** `sanitizeInput`: trim, then delete every '<' and '>'. */
  function SanitizeInput(input: string): (r: string)
    ensures NoneIn(r, {'<', '>'})
    ensures |r| <= |input|
  {
    Strip(Trim(input), {'<', '>'})
  }

  /** Text that is already trimmed and free of angle brackets comes through unchanged. */
  lemma SanitizeKeepsCleanText(s: string)
    requires NoneIn(s, {'<', '>'})
    requires s == [] || (!IsSpace(s[0]) && !IsSpace(s[|s| - 1]))
    ensures SanitizeInput(s) == s
  {
    TrimOfTrimmed(s);
    StripNoneIn(s, {'<', '>'});
  }
}

=== FILE: js_math.dfy ===
/** The JavaScript number operations the model needs, over unbounded integers and reals. */
module JsMath {

  /**
   * `Math.PI`: the exact value of the IEEE double that JavaScript uses for pi
   * (884279719003555 / 2^48).
   */
  const Pi: real := 884279719003555.0 / 281474976710656.0

  /**
   * `Math.cos` and `Math.sin`, supplied by the caller: the model makes no assumption
   * about them beyond what a lemma states as its precondition.
   */
  datatype Trig = Trig(cos: real -> real, sin: real -> real)

  /** The Pythagorean identity at one angle. */
  predicate Pythagorean(t: Trig, a: real) {
    t.cos(a) * t.cos(a) + t.sin(a) * t.sin(a) == 1.0
  }

  lemma PiBounds()
    ensures 3.1415 < Pi < 3.1416
  {
  }

  /** The integer quotient of `a / b` truncated toward zero (`Math.trunc(a / b)`). */
  function TruncDiv(a: int, b: int): int
    requires b > 0
  {
    if a >= 0 then a / b else -((-a) / b)
  }

  /** `a % b`: JavaScript's remainder truncates toward zero, so it takes the sign of `a`. */
  function JsRem(a: int, b: int): (r: int)
    requires b > 0
    ensures a >= 0 ==> 0 <= r < b
    ensures a < 0 ==> -b < r <= 0
    ensures a == TruncDiv(a, b) * b + r
  {
    if a >= 0 then a % b
    else
      var q := (-a) / b;
      assert -a == q * b + (-a) % b;
      assert -q * b == -(q * b);
      -((-a) % b)
  }

  /** The remainder leaves a number already below the divisor unchanged, even after adding the divisor once. */
  lemma JsRemSmall(a: int, b: int)
    requires 0 <= a < b
    ensures JsRem(a, b) == a && JsRem(a + b, b) == a
  {
    assert a % b == a by {
      assert a == 0 * b + a;
    }
    assert (a + b) % b == a by {
      assert a + b == 1 * b + a;
    }
    assert JsRem(a, b) == a % b && JsRem(a + b, b) == (a + b) % b;
  }

  /** `Math.round(x)`: halves round toward +infinity. */
  function Round(x: real): (r: int)
    ensures x - 0.5 < r as real <= x + 0.5
  {
    (x + 0.5).Floor
  }

  /** `Math.floor(x)`. */
  function Floor(x: real): (r: int)
    ensures r as real <= x < r as real + 1.0
  {
    x.Floor
  }

  /** `Math.ceil(x)`. */
  function Ceil(x: real): (r: int)
    ensures x <= r as real < x + 1.0
  {
    -((-x).Floor)
  }

  /** Rounding up commutes with a shift by one. */
  lemma CeilShift(x: real)
    ensures Ceil(x - 1.0) == Ceil(x) - 1
  {
    var a, b := Ceil(x - 1.0), Ceil(x);
    assert x - 1.0 <= a as real < x && x - 1.0 <= (b - 1) as real < x;
  }

  /** A positive number rounds up to at least one, and zero to zero. */
  lemma CeilPositive(x: real)
    requires x > 0.0
    ensures Ceil(x) >= 1 && Ceil(0.0) == 0
  {
  }

  /** `Math.abs(x)`. */
  function Abs(x: real): (r: real)
    ensures r >= 0.0 && (r == x || r == -x)
  {
    if x < 0.0 then -x else x
  }

  /** `Math.sign(x)`. */
  function Sign(x: real): (r: real)
    ensures (x > 0.0 ==> r == 1.0) && (x < 0.0 ==> r == -1.0) && (x == 0.0 ==> r == 0.0)
  {
    if x > 0.0 then 1.0 else if x < 0.0 then -1.0 else 0.0
  }

  function MinR(a: real, b: real): (r: real)
    ensures r <= a && r <= b && (r == a || r == b)
  {
    if a <= b then a else b
  }

  function MaxR(a: real, b: real): (r: real)
    ensures r >= a && r >= b && (r == a || r == b)
  {
    if a >= b then a else b
  }

  function MinI(a: int, b: int): (r: int)
    ensures r <= a && r <= b && (r == a || r == b)
  {
    if a <= b then a else b
  }

  function MaxI(a: int, b: int): (r: int)
    ensures r >= a && r >= b && (r == a || r == b)
  {
    if a >= b then a else b
  }

  /** `Math.pow(2, n)` for a whole exponent. */
  function Pow2(n: nat): (r: nat)
    ensures r >= 1
  {
    if n == 0 then 1 else 2 * Pow2(n - 1)
  }

  lemma {:induction false} Pow2Monotone(a: nat, b: nat)
    requires a <= b
    ensures Pow2(a) <= Pow2(b)
    decreases b - a
  {
    if a < b {
      Pow2Monotone(a, b - 1);
    }
  }
}

=== FILE: js_sort.dfy ===
/**
 * `Array.prototype.sort` with a comparator `(a, b) => key(b) - key(a)`: a stable sort,
 * largest key first. Both the performance monitor and the error monitor sort this way.
 */
module JsSort {

  /** Keys never increase along `xs`. */
  predicate Descending<T>(xs: seq<T>, key: T -> real) {
    forall i, j :: 0 <= i < j < |xs| ==> key(xs[i]) >= key(xs[j])
  }

  /** Insert `x` after every element whose key is at least its own, so equal keys keep their order. */
  function Insert<T>(x: T, xs: seq<T>, key: T -> real): (r: seq<T>)
    requires Descending(xs, key)
    ensures Descending(r, key)
    ensures |r| == |xs| + 1
    ensures forall k :: 0 <= k < |r| ==> r[k] == x || r[k] in xs
    decreases |xs|
  {
    if |xs| == 0 then [x]
    else if key(xs[0]) >= key(x) then
      var rest := Insert(x, xs[1..], key);
      assert forall k :: 0 <= k < |rest| ==> key(rest[k]) <= key(xs[0]) by {
        forall k | 0 <= k < |rest| ensures key(rest[k]) <= key(xs[0]) {
          if rest[k] != x {
            var j :| 0 <= j < |xs[1..]| && xs[1..][j] == rest[k];
            assert xs[j + 1] == rest[k];
          }
        }
      }
      [xs[0]] + rest
    else [x] + xs
  }

  lemma {:induction false} InsertPermutes<T>(x: T, xs: seq<T>, key: T -> real)
    requires Descending(xs, key)
    ensures multiset(Insert(x, xs, key)) == multiset(xs) + multiset{x}
    decreases |xs|
  {
    if |xs| > 0 && key(xs[0]) >= key(x) {
      InsertPermutes(x, xs[1..], key);
      assert xs == [xs[0]] + xs[1..];
    }
  }

  /** The sort: each element in turn is inserted into the sorted prefix before it. */
  function Sort<T>(xs: seq<T>, key: T -> real): (r: seq<T>)
    ensures Descending(r, key)
    ensures multiset(r) == multiset(xs)
    decreases |xs|
  {
    if |xs| == 0 then []
    else
      var last := xs[|xs| - 1];
      var init := xs[..|xs| - 1];
      assert xs == init + [last];
      assert multiset(xs) == multiset(init) + multiset{last};
      var sorted := Sort(init, key);
      InsertPermutes(last, sorted, key);
      Insert(last, sorted, key)
  }

  /** The sort keeps every element: membership is unchanged. */
  lemma SortKeepsMembers<T>(xs: seq<T>, key: T -> real)
    ensures forall x :: x in Sort(xs, key) <==> x in xs
  {
    var r := Sort(xs, key);
    assert forall x :: x in r <==> x in multiset(r);
    assert forall x :: x in xs <==> x in multiset(xs);
  }

  /** The elements of `xs` whose key is `v`, in their order in `xs`. */
  function WithKey<T>(xs: seq<T>, key: T -> real, v: real): seq<T>
    decreases |xs|
  {
    if |xs| == 0 then []
    else (if key(xs[0]) == v then [xs[0]] else []) + WithKey(xs[1..], key, v)
  }

  lemma {:induction false} WithKeyNone<T>(xs: seq<T>, key: T -> real, v: real)
    requires forall k :: 0 <= k < |xs| ==> key(xs[k]) != v
    ensures WithKey(xs, key, v) == []
    decreases |xs|
  {
    if |xs| > 0 {
      WithKeyNone(xs[1..], key, v);
    }
  }

  lemma {:induction false} WithKeyAppend<T>(a: seq<T>, b: seq<T>, key: T -> real, v: real)
    ensures WithKey(a + b, key, v) == WithKey(a, key, v) + WithKey(b, key, v)
    decreases |a|
  {
    if |a| > 0 {
      assert (a + b)[1..] == a[1..] + b;
      WithKeyAppend(a[1..], b, key, v);
    } else {
      assert a + b == b;
    }
  }

  /** Inserting `x` adds it behind the elements already holding its key. */
  lemma {:induction false} InsertKeepsOrder<T>(x: T, xs: seq<T>, key: T -> real, v: real)
    requires Descending(xs, key)
    ensures WithKey(Insert(x, xs, key), key, v) == WithKey(xs, key, v) + (if key(x) == v then [x] else [])
    decreases |xs|
  {
    var r := Insert(x, xs, key);
    if |xs| == 0 {
      assert r[1..] == [];
    } else if key(xs[0]) >= key(x) {
      var rest := Insert(x, xs[1..], key);
      assert r[1..] == rest;
      InsertKeepsOrder(x, xs[1..], key, v);
    } else {
      assert r[1..] == xs;
      if key(x) == v {
        WithKeyNone(xs, key, v);
      }
    }
  }

  /** The sort is stable: the elements sharing any one key keep their input order. */
  lemma {:induction false} SortStable<T>(xs: seq<T>, key: T -> real, v: real)
    ensures WithKey(Sort(xs, key), key, v) == WithKey(xs, key, v)
    decreases |xs|
  {
    if |xs| > 0 {
      var last := xs[|xs| - 1];
      var init := xs[..|xs| - 1];
      assert xs == init + [last];
      SortStable(init, key, v);
      InsertKeepsOrder(last, Sort(init, key), key, v);
      WithKeyAppend(init, [last], key, v);
      assert WithKey([last], key, v) == (if key(last) == v then [last] else []) by {
        assert [last][1..] == [];
      }
    }
  }

  lemma {:induction false} WithKeyAll<T>(xs: seq<T>, key: T -> real, v: real)
    requires forall k :: 0 <= k < |xs| ==> key(xs[k]) == v
    ensures WithKey(xs, key, v) == xs
    decreases |xs|
  {
    if |xs| > 0 {
      WithKeyAll(xs[1..], key, v);
    }
  }

  /** With one key throughout, the sort leaves the sequence as it is. */
  lemma SortEqualKeys<T>(xs: seq<T>, key: T -> real, v: real)
    requires forall k :: 0 <= k < |xs| ==> key(xs[k]) == v
    ensures Sort(xs, key) == xs
  {
    var r := Sort(xs, key);
    SortStable(xs, key, v);
    WithKeyAll(xs, key, v);
    forall k | 0 <= k < |r| ensures key(r[k]) == v {
      assert r[k] in multiset(xs);
    }
    WithKeyAll(r, key, v);
  }
}

=== FILE: js_strings.dfy ===
/**
 * The JavaScript string operations the application relies on, over `seq<char>`:
 * `trim`, `split`, `join`, `includes`, `startsWith`, `toLowerCase`, number-to-string,
 * and the character filters behind `replace(/[..]/g, ..)`.
 */
module JsStrings {

  /** The code points `String.prototype.trim` removes and the regular-expression class `\s` matches. */
  predicate IsSpace(c: char) {
    || c == '\t' || c == '\n' || c == '\U{000B}' || c == '\U{000C}' || c == '\r' || c == ' '
    || c == '\U{00A0}' || c == '\U{1680}' || ('\U{2000}' <= c <= '\U{200A}')
    || c == '\U{2028}' || c == '\U{2029}' || c == '\U{202F}' || c == '\U{205F}'
    || c == '\U{3000}' || c == '\U{FEFF}'
  }

  predicate AllSpace(s: string) {
    forall i :: 0 <= i < |s| ==> IsSpace(s[i])
  }

  function TrimStart(s: string): (r: string)
    ensures |r| <= |s| && r == s[|s| - |r|..]
    ensures AllSpace(s[..|s| - |r|])
    ensures r == [] || !IsSpace(r[0])
    ensures r == [] <==> AllSpace(s)
    decreases |s|
  {
    if |s| > 0 && IsSpace(s[0]) then
      var r := TrimStart(s[1..]);
      var cut := s[..|s| - |r|];
      assert forall i :: 1 <= i < |cut| ==> cut[i] == s[1..][..|s| - 1 - |r|][i - 1];
      assert AllSpace(cut);
      r
    else s
  }

  function TrimEnd(s: string): (r: string)
    ensures |r| <= |s| && r == s[..|r|]
    ensures AllSpace(s[|r|..])
    ensures r == [] || !IsSpace(r[|r| - 1])
    ensures r == [] <==> AllSpace(s)
    decreases |s|
  {
    if |s| > 0 && IsSpace(s[|s| - 1]) then
      var r := TrimEnd(s[..|s| - 1]);
      assert s[|r|..] == s[..|s| - 1][|r|..] + [s[|s| - 1]];
      r
    else s
  }

  /** `s.trim()`: the longest infix of `s` that neither starts nor ends with white space. */
  function Trim(s: string): (r: string)
    ensures |r| <= |s|
    ensures r == [] || (!IsSpace(r[0]) && !IsSpace(r[|r| - 1]))
    ensures r == [] <==> AllSpace(s)
    ensures forall c :: c in r ==> c in s
  {
    var t := TrimStart(s);
    var r := TrimEnd(t);
    assert r != [] ==> r[0] == t[0];
    assert forall c :: c in r ==> c in t;
    assert forall c :: c in t ==> c in s;
    r
  }

  /** `s.trim()` is non-empty: what the source tests with `if (s.trim())`. */
  predicate IsBlank(s: string) {
    Trim(s) == []
  }

  lemma {:induction false} TrimOfTrimmed(s: string)
    requires s == [] || (!IsSpace(s[0]) && !IsSpace(s[|s| - 1]))
    ensures Trim(s) == s
  {
  }

  predicate NoneIn(s: string, cs: set<char>) {
    forall k :: 0 <= k < |s| ==> s[k] !in cs
  }

  /** Index of the first character of `s` that belongs to `seps`, or |s| when none does. */
  function IndexOfAny(s: string, seps: set<char>): (i: nat)
    ensures i <= |s|
    ensures i < |s| ==> s[i] in seps
    ensures NoneIn(s[..i], seps)
    decreases |s|
  {
    if |s| == 0 then 0
    else if s[0] in seps then 0
    else
      var j := IndexOfAny(s[1..], seps);
      assert s[..1 + j] == [s[0]] + s[1..][..j];
      1 + j
  }

  /** `s.split(c)` for a one-character separator, and `s.split(/[..]/)` for a character class. */
  function Split(s: string, seps: set<char>): (parts: seq<string>)
    ensures |parts| >= 1
    ensures forall i :: 0 <= i < |parts| ==> NoneIn(parts[i], seps)
    decreases |s|
  {
    var i := IndexOfAny(s, seps);
    if i == |s| then [s]
    else [s[..i]] + Split(s[i + 1..], seps)
  }

  /** `parts.join(sep)`. */
  function Join(parts: seq<string>, sep: string): string
    decreases |parts|
  {
    if |parts| == 0 then ""
    else if |parts| == 1 then parts[0]
    else parts[0] + sep + Join(parts[1..], sep)
  }

  /** Splitting on one character and joining with it again gives back the string. */
  lemma {:induction false} JoinSplit(s: string, c: char)
    ensures Join(Split(s, {c}), [c]) == s
    decreases |s|
  {
    var i := IndexOfAny(s, {c});
    if i < |s| {
      var rest := Split(s[i + 1..], {c});
      JoinSplit(s[i + 1..], c);
      assert Split(s, {c}) == [s[..i]] + rest;
      assert Join(Split(s, {c}), [c]) == s[..i] + [c] + Join(rest, [c]);
      assert s == s[..i] + [s[i]] + s[i + 1..];
    }
  }

  /** `IndexOfAny` finds the first separator, and finds none where there is none. */
  lemma {:induction false} IndexOfAnyIs(s: string, seps: set<char>, j: nat)
    requires j <= |s| && NoneIn(s[..j], seps)
    requires j < |s| ==> s[j] in seps
    ensures IndexOfAny(s, seps) == j
    decreases |s|
  {
    if j > 0 {
      assert s[..j][0] == s[0];
      assert s[1..][..j - 1] == s[..j][1..];
      IndexOfAnyIs(s[1..], seps, j - 1);
    }
  }

  /** A piece without separators splits to itself. */
  lemma SplitWhole(a: string, seps: set<char>)
    requires NoneIn(a, seps)
    ensures Split(a, seps) == [a]
  {
    assert a[..|a|] == a;
    IndexOfAnyIs(a, seps, |a|);
  }

  /** The first separator ends the first part; the rest is split on its own. */
  lemma SplitCons(a: string, c: char, b: string, seps: set<char>)
    requires NoneIn(a, seps) && c in seps
    ensures Split(a + [c] + b, seps) == [a] + Split(b, seps)
  {
    var s := a + [c] + b;
    assert s[..|a|] == a;
    IndexOfAnyIs(s, seps, |a|);
    assert s[|a| + 1..] == b;
  }

  /** Three pieces joined by one separator that none of them contains split back into the three. */
  lemma SplitThree(a: string, b: string, c: string, sep: char)
    requires NoneIn(a, {sep}) && NoneIn(b, {sep}) && NoneIn(c, {sep})
    ensures Split(a + [sep] + b + [sep] + c, {sep}) == [a, b, c]
  {
    assert a + [sep] + b + [sep] + c == a + [sep] + (b + [sep] + c);
    SplitCons(a, sep, b + [sep] + c, {sep});
    SplitCons(b, sep, c, {sep});
    SplitWhole(c, {sep});
  }

  /** `parts.map(v => v.trim())`. */
  function TrimAll(parts: seq<string>): (r: seq<string>)
    ensures |r| == |parts|
    ensures forall i :: 0 <= i < |r| ==> r[i] == Trim(parts[i])
  {
    seq(|parts|, i requires 0 <= i < |parts| => Trim(parts[i]))
  }

  /** `xs.filter(v => v)`: the non-empty strings of `xs`, in order. */
  function NonEmpty(xs: seq<string>): (r: seq<string>)
    ensures |r| <= |xs|
    ensures forall x :: x in r <==> x in xs && x != []
    decreases |xs|
  {
    if |xs| == 0 then []
    else if xs[0] == [] then NonEmpty(xs[1..])
    else [xs[0]] + NonEmpty(xs[1..])
  }

  /** One entry of a typed list: non-empty, trimmed, free of the separators. */
  predicate IsToken(x: string, seps: set<char>) {
    x != [] && !IsSpace(x[0]) && !IsSpace(x[|x| - 1]) && NoneIn(x, seps)
  }

  lemma TrimKeepsNoneIn(p: string, seps: set<char>)
    requires NoneIn(p, seps)
    ensures NoneIn(Trim(p), seps)
  {
    var t := Trim(p);
    forall k | 0 <= k < |t| ensures t[k] !in seps {
      assert t[k] in t;
    }
  }

  lemma {:induction false} NonEmptyTokens(xs: seq<string>, seps: set<char>)
    requires forall i :: 0 <= i < |xs| ==> xs[i] == [] || IsToken(xs[i], seps)
    ensures forall i :: 0 <= i < |NonEmpty(xs)| ==> IsToken(NonEmpty(xs)[i], seps)
    decreases |xs|
  {
    if |xs| > 0 {
      NonEmptyTokens(xs[1..], seps);
    }
  }

  /** Trimming leaves clean tokens alone. */
  lemma TrimAllTokens(vs: seq<string>, seps: set<char>)
    requires forall i :: 0 <= i < |vs| ==> IsToken(vs[i], seps)
    ensures TrimAll(vs) == vs
  {
    forall i | 0 <= i < |vs| ensures Trim(vs[i]) == vs[i] {
      TrimOfTrimmed(vs[i]);
    }
  }

  /** Filtering out empty strings keeps a list that has none. */
  lemma {:induction false} NonEmptyKeepsAll(vs: seq<string>)
    requires forall i :: 0 <= i < |vs| ==> vs[i] != []
    ensures NonEmpty(vs) == vs
    decreases |vs|
  {
    if |vs| > 0 {
      NonEmptyKeepsAll(vs[1..]);
      assert vs == [vs[0]] + vs[1..];
    }
  }

  /** The values of a list typed as one string: split, trimmed, empty entries dropped. */
  function ListValues(s: string, seps: set<char>): (r: seq<string>)
    ensures forall i :: 0 <= i < |r| ==> IsToken(r[i], seps)
  {
    var parts := Split(s, seps);
    var trimmed := TrimAll(parts);
    forall i | 0 <= i < |trimmed| ensures trimmed[i] == [] || IsToken(trimmed[i], seps) {
      TrimKeepsNoneIn(parts[i], seps);
    }
    NonEmptyTokens(trimmed, seps);
    NonEmpty(trimmed)
  }

  /** When the split already yields clean values, the list is exactly those values. */
  lemma ListOfTokens(s: string, seps: set<char>)
    requires forall i :: 0 <= i < |Split(s, seps)| ==> IsToken(Split(s, seps)[i], seps)
    ensures ListValues(s, seps) == Split(s, seps)
  {
    var parts := Split(s, seps);
    TrimAllTokens(parts, seps);
    NonEmptyKeepsAll(parts);
  }

  /** Every character of a part of a split comes from the string split. */
  lemma {:induction false} SplitPartsFromSource(s: string, seps: set<char>)
    ensures forall i, k :: 0 <= i < |Split(s, seps)| && 0 <= k < |Split(s, seps)[i]| ==> Split(s, seps)[i][k] in s
    decreases |s|
  {
    var parts := Split(s, seps);
    var j := IndexOfAny(s, seps);
    if j < |s| {
      var rest := s[j + 1..];
      SplitPartsFromSource(rest, seps);
      assert parts == [s[..j]] + Split(rest, seps);
      forall i, k | 0 <= i < |parts| && 0 <= k < |parts[i]| ensures parts[i][k] in s {
        if i == 0 {
          assert parts[0][k] == s[k];
        } else {
          assert parts[i] == Split(rest, seps)[i - 1];
          var c := parts[i][k];
          assert c in rest;
          var m :| 0 <= m < |rest| && rest[m] == c;
          assert s[j + 1 + m] == c;
        }
      }
    } else {
      assert parts == [s];
    }
  }

  /** Every part of a blank string trims away to nothing. */
  lemma BlankPartsTrimAway(s: string, seps: set<char>)
    requires IsBlank(s)
    ensures forall i :: 0 <= i < |Split(s, seps)| ==> Trim(Split(s, seps)[i]) == []
  {
    SplitPartsFromSource(s, seps);
    var parts := Split(s, seps);
    assert AllSpace(s);
    forall i | 0 <= i < |parts| ensures AllSpace(parts[i]) {
      forall k | 0 <= k < |parts[i]| ensures IsSpace(parts[i][k]) {
        var m :| 0 <= m < |s| && s[m] == parts[i][k];
      }
    }
  }

  lemma {:induction false} NoneNonEmpty(xs: seq<string>)
    requires forall i :: 0 <= i < |xs| ==> xs[i] == []
    ensures NonEmpty(xs) == []
    decreases |xs|
  {
    if |xs| > 0 {
      NoneNonEmpty(xs[1..]);
    }
  }

  /** `s.startsWith(p)`. */
  predicate StartsWith(s: string, p: string) {
    |p| <= |s| && s[..|p|] == p
  }

  /** Each part of `a + (b + c + d)` is found back at its offset. */
  lemma Parts4(a: string, b: string, c: string, d: string)
    ensures var h := a + (b + c + d);
      && |h| == |a| + |b| + |c| + |d|
      && h[..|a|] == a
      && h[|a|..|a| + |b|] == b
      && h[|a| + |b|..|a| + |b| + |c|] == c
      && h[|a| + |b| + |c|..] == d
  {
    var h := a + (b + c + d);
    assert h[..|a|] == a;
    assert h[|a|..] == b + c + d;
    assert (b + c + d)[..|b|] == b;
    assert (b + c + d)[|b|..|b| + |c|] == c;
    assert (b + c + d)[|b| + |c|..] == d;
    assert h[|a|..|a| + |b|] == (b + c + d)[..|b|];
    assert h[|a| + |b|..|a| + |b| + |c|] == (b + c + d)[|b|..|b| + |c|];
    assert h[|a| + |b| + |c|..] == (b + c + d)[|b| + |c|..];
  }

  lemma StartsWithTrans(s: string, p: string, q: string)
    requires StartsWith(s, p) && StartsWith(p, q)
    ensures StartsWith(s, q)
  {
    assert s[..|q|] == s[..|p|][..|q|];
  }

  /** `s.includes(sub)`. */
  predicate Contains(s: string, sub: string)
    decreases |s|
  {
    StartsWith(s, sub) || (|s| > 0 && Contains(s[1..], sub))
  }

  /** `sub` occurs in `s` starting at position `i`. */
  predicate OccursAt(s: string, sub: string, i: int) {
    0 <= i && i + |sub| <= |s| && s[i..i + |sub|] == sub
  }

  /** `includes` holds exactly when `sub` occurs at some position. */
  lemma {:induction false} ContainsIff(s: string, sub: string)
    ensures Contains(s, sub) <==> exists i :: OccursAt(s, sub, i)
    decreases |s|
  {
    if StartsWith(s, sub) {
      assert OccursAt(s, sub, 0);
    }
    if |s| > 0 {
      ContainsIff(s[1..], sub);
      if Contains(s[1..], sub) {
        var i :| OccursAt(s[1..], sub, i);
        assert OccursAt(s, sub, i + 1);
      }
      if exists i :: OccursAt(s, sub, i) {
        var i :| OccursAt(s, sub, i);
        if i > 0 {
          assert OccursAt(s[1..], sub, i - 1);
        }
      }
    }
  }

  /** Text around an occurrence does not hide it. */
  lemma ContainsInfix(a: string, sub: string, b: string)
    ensures Contains(a + sub + b, sub)
  {
    var s := a + sub + b;
    assert OccursAt(s, sub, |a|);
    ContainsIff(s, sub);
  }

  /** `sub` occurs nowhere in `s`, position by position. */
  lemma NotContains(s: string, sub: string)
    requires forall i :: !OccursAt(s, sub, i)
    ensures !Contains(s, sub)
  {
    ContainsIff(s, sub);
  }

  /** Nothing longer than `s` occurs in it. */
  lemma ShorterNotContained(s: string, sub: string)
    requires |s| < |sub|
    ensures !Contains(s, sub)
  {
    ContainsIff(s, sub);
  }

  /** One of `words` occurs in `s`: a chain of `includes` joined by `||`. */
  predicate ContainsAny(s: string, words: seq<string>) {
    exists k :: 0 <= k < |words| && Contains(s, words[k])
  }

  /** A keyword classifier: the label of the first group one of whose words occurs in `s`, else `otherwise`. */
  function FirstMatch<L>(s: string, groups: seq<(seq<string>, L)>, otherwise: L): (r: L)
    ensures forall i :: (0 <= i < |groups| && ContainsAny(s, groups[i].0) &&
      (forall j :: 0 <= j < i ==> !ContainsAny(s, groups[j].0))) ==> r == groups[i].1
    ensures (forall j :: 0 <= j < |groups| ==> !ContainsAny(s, groups[j].0)) ==> r == otherwise
    decreases |groups|
  {
    if |groups| == 0 then otherwise
    else if ContainsAny(s, groups[0].0) then groups[0].1
    else FirstMatch(s, groups[1..], otherwise)
  }

  function LowerChar(c: char): char {
    if 'A' <= c <= 'Z' then (c as int + 32) as char else c
  }

  /** `s.toLowerCase()` on the ASCII letters. */
  function Lower(s: string): (r: string)
    ensures |r| == |s|
    ensures forall i :: 0 <= i < |s| ==> r[i] == LowerChar(s[i])
    ensures forall i :: 0 <= i < |r| ==> !('A' <= r[i] <= 'Z')
  {
    seq(|s|, i requires 0 <= i < |s| => LowerChar(s[i]))
  }

  function DigitChar(d: nat): char
    requires d < 10
  {
    "0123456789"[d]
  }

  predicate AllDigits(s: string) {
    forall i :: 0 <= i < |s| ==> '0' <= s[i] <= '9'
  }

  /** A string of digits holds no other character. */
  lemma DigitsHaveNo(d: string, c: char)
    requires AllDigits(d) && !('0' <= c <= '9')
    ensures NoneIn(d, {c})
  {
    forall k | 0 <= k < |d| ensures d[k] !in {c} {
      assert '0' <= d[k] <= '9';
    }
  }

  /** The decimal text JavaScript gives a non-negative integer below 10^21. */
  function NatToString(n: nat): (r: string)
    ensures |r| >= 1 && AllDigits(r)
    decreases n
  {
    if n < 10 then [DigitChar(n)] else NatToString(n / 10) + [DigitChar(n % 10)]
  }

  function IntToString(n: int): string {
    if n < 0 then "-" + NatToString(-n) else NatToString(n)
  }

  /** The value of a string of decimal digits. */
  function ParseNat(s: string): nat
    requires AllDigits(s)
    decreases |s|
  {
    if |s| == 0 then 0 else ParseNat(s[..|s| - 1]) * 10 + (s[|s| - 1] as int - '0' as int)
  }

  /** Decimal printing is injective: reading the digits back gives the number. */
  lemma {:induction false} ParseNatToString(n: nat)
    ensures ParseNat(NatToString(n)) == n
    decreases n
  {
    if n >= 10 {
      var s := NatToString(n);
      ParseNatToString(n / 10);
      assert s[..|s| - 1] == NatToString(n / 10);
    }
  }

  /** `s.replace(/[cs]/g, '')`: the characters of `s` that are not in `cs`, in order. */
  function Strip(s: string, cs: set<char>): (r: string)
    ensures |r| <= |s|
    ensures NoneIn(r, cs)
    decreases |s|
  {
    if |s| == 0 then ""
    else if s[0] in cs then Strip(s[1..], cs)
    else [s[0]] + Strip(s[1..], cs)
  }

  /** Stripping keeps a string that has none of the characters. */
  lemma {:induction false} StripNoneIn(s: string, cs: set<char>)
    requires NoneIn(s, cs)
    ensures Strip(s, cs) == s
    decreases |s|
  {
    if |s| > 0 {
      StripNoneIn(s[1..], cs);
      assert s == [s[0]] + s[1..];
    }
  }

  /** Stripping distributes over concatenation. */
  lemma {:induction false} StripAppend(a: string, b: string, cs: set<char>)
    ensures Strip(a + b, cs) == Strip(a, cs) + Strip(b, cs)
    decreases |a|
  {
    if |a| > 0 {
      StripAppend(a[1..], b, cs);
      assert (a + b)[1..] == a[1..] + b;
    } else {
      assert a + b == b;
    }
  }
}

=== FILE: keyboard_navigation.dfy ===
/**
 * The keyboard wrapper around a carousel: a document-wide key listener that acts only on
 * events from inside its container and turns keys into calls of the callbacks it was given.
 */
module KeyboardNavigation {
  import opened Wrappers
  import opened RingIndex

  datatype Direction = Backward | Forward

  /** One callback invocation. */
  datatype Call =
    | Navigate(direction: Direction)
    | SetIndex(index: int)
    | Select
    | Escape

  /** The props that decide behaviour; a missing callback is `false`. */
  datatype Props = Props(
    hasNavigate: bool,
    hasSelect: bool,
    hasEscape: bool,
    hasSetIndex: bool,
    itemCount: nat,
    currentIndex: int)

  datatype Response = Response(preventDefault: bool, call: Option<Call>)

  const Ignored := Response(false, None)

  /** Moving by one without `onNavigate`: wrap through `setCurrentIndex` when there are items. */
  function Step(p: Props, d: Direction): (c: Option<Call>)
    ensures c.Some? <==> p.hasSetIndex && p.itemCount > 0
    ensures c.Some? && d == Backward ==> c.value == SetIndex(ClampPrev(p.currentIndex, p.itemCount))
    ensures c.Some? && d == Forward ==> c.value == SetIndex(ClampNext(p.currentIndex, p.itemCount))
  {
    if p.hasSetIndex && p.itemCount > 0 then
      Some(SetIndex(if d == Backward then ClampPrev(p.currentIndex, p.itemCount)
                    else ClampNext(p.currentIndex, p.itemCount)))
    else None
  }

  /** Jumping to an index, which needs `setCurrentIndex` and at least one item. */
  function Jump(p: Props, target: int): (c: Option<Call>)
    ensures c.Some? <==> p.hasSetIndex && p.itemCount > 0
    ensures c.Some? ==> c.value == SetIndex(target)
  {
    if p.hasSetIndex && p.itemCount > 0 then Some(SetIndex(target)) else None
  }

  function Arrow(p: Props, d: Direction): (c: Option<Call>)
    ensures p.hasNavigate ==> c == Some(Navigate(d))
    ensures !p.hasNavigate ==> c == Step(p, d)
  {
    if p.hasNavigate then Some(Navigate(d)) else Step(p, d)
  }

  /** `handleKeyDown` for an event whose target is (`inside`) or is not in the container. */
  function HandleKeyDown(p: Props, key: string, inside: bool): (r: Response)
    ensures !inside ==> r == Ignored
    ensures inside && key == "ArrowLeft" ==> r == Response(true, Arrow(p, Backward))
    ensures inside && key == "ArrowRight" ==> r == Response(true, Arrow(p, Forward))
    ensures inside && key in {"Enter", " "} ==> r == Response(true, if p.hasSelect then Some(Select) else None)
    ensures inside && key == "Escape" ==> r == Response(true, if p.hasEscape then Some(Escape) else None)
    ensures inside && key == "Home" ==> r == Response(true, Jump(p, 0))
    ensures inside && key == "End" ==> r == Response(true, Jump(p, p.itemCount - 1))
    ensures key !in {"ArrowLeft", "ArrowRight", "Enter", " ", "Escape", "Home", "End"} ==> r == Ignored
  {
    if !inside then Ignored
    else match key
      case "ArrowLeft" => Response(true, Arrow(p, Backward))
      case "ArrowRight" => Response(true, Arrow(p, Forward))
      case "Enter" => Response(true, if p.hasSelect then Some(Select) else None)
      case " " => Response(true, if p.hasSelect then Some(Select) else None)
      case "Escape" => Response(true, if p.hasEscape then Some(Escape) else None)
      case "Home" => Response(true, Jump(p, 0))
      case "End" => Response(true, Jump(p, p.itemCount - 1))
      case _ => Ignored
  }

  /** Any index the wrapper asks for is an index of the items, when the current one is. */
  lemma SetIndexInRange(p: Props, key: string, inside: bool)
    requires 0 <= p.currentIndex < p.itemCount
    ensures var r := HandleKeyDown(p, key, inside);
      r.call.Some? && r.call.value.SetIndex? ==> 0 <= r.call.value.index < p.itemCount
  {
  }

  /**
   * The arrows move by `onNavigate` alone when it is given; Home and End still go through
   * `setCurrentIndex`; selection and escape never touch the index.
   */
  lemma CallsByKey(p: Props, key: string)
    requires p.hasNavigate && p.hasSetIndex && p.itemCount > 0
    ensures key in {"ArrowLeft", "ArrowRight"} ==> HandleKeyDown(p, key, true).call.value.Navigate?
    ensures key in {"Home", "End"} ==> HandleKeyDown(p, key, true).call.value.SetIndex?
    ensures key in {"Enter", " ", "Escape"} ==>
      var c := HandleKeyDown(p, key, true).call; c.None? || c.value.Select? || c.value.Escape?
  {
  }

  /** Without `onNavigate`, left then right through `setCurrentIndex` returns to the same item. */
  lemma ArrowsUndoEachOther(p: Props)
    requires !p.hasNavigate && p.hasSetIndex && 0 <= p.currentIndex < p.itemCount
    ensures var left := HandleKeyDown(p, "ArrowLeft", true).call.value.index;
      HandleKeyDown(p.(currentIndex := left), "ArrowRight", true).call == Some(SetIndex(p.currentIndex))
  {
    SuccPredInverse(p.currentIndex, p.itemCount);
  }
}

=== FILE: metadata_overlay.dfy ===
/** The floating panel describing a clicked scene: number, shortened prompt, status and download note. */
module SceneMetadataOverlay {
  import opened Wrappers
  import opened Types

  const DefaultPromptLength: nat := 100

  /** `truncatePrompt`: unchanged when short enough, else the first `maxLength` characters and "...". */
  function TruncatePrompt(prompt: string, maxLength: nat := DefaultPromptLength): (r: string)
    ensures |prompt| <= maxLength ==> r == prompt
    ensures |prompt| > maxLength ==> |r| == maxLength + 3 && r[maxLength..] == "..."
    ensures |r| <= maxLength + 3
    ensures var keep := if |prompt| <= maxLength then |prompt| else maxLength;
      |r| >= keep && r[..keep] == prompt[..keep]
  {
    if |prompt| <= maxLength then prompt else prompt[..maxLength] + "..."
  }

  /** Shortening twice is shortening once: the marked text is cut at the same place again. */
  lemma TruncateIdempotent(prompt: string, maxLength: nat)
    ensures TruncatePrompt(TruncatePrompt(prompt, maxLength), maxLength) == TruncatePrompt(prompt, maxLength)
  {
    if |prompt| > maxLength {
      var t := TruncatePrompt(prompt, maxLength);
      assert t[..maxLength] == prompt[..maxLength];
    }
  }

  /** Two prompts that agree on their first `maxLength` characters and are both too long look the same. */
  lemma TruncateForgetsTail(p: string, q: string, maxLength: nat)
    requires |p| > maxLength && |q| > maxLength && p[..maxLength] == q[..maxLength]
    ensures TruncatePrompt(p, maxLength) == TruncatePrompt(q, maxLength)
  {
  }

  datatype Dot = Green | Yellow | Red

  /**
   * Green for completed, yellow for generating, red for anything else. A scene is pending,
   * completed or errored, so the yellow dot can never show.
   */
  function StatusDot(status: SceneStatus): (d: Dot)
    ensures d == Green <==> status == SceneCompleted
    ensures d != Yellow
  {
    if status == SceneCompleted then Green else Red
  }

  datatype Point = Point(x: real, y: real)

  datatype Panel = Panel(
    anchor: Point,
    number: int,
    prompt: string,
    dot: Dot,
    status: SceneStatus,
    downloadedAt: Option<Time>)

  /** What is rendered: nothing when hidden; otherwise the panel up and to the right of the click. */
  function Render(scene: GeneratedScene, index: int, isVisible: bool, position: Point): (r: Option<Panel>)
    ensures r.None? <==> !isVisible
    ensures r.Some? ==> r.value.anchor == Point(position.x + 20.0, position.y - 20.0)
    ensures r.Some? ==> r.value.number == index + 1 && r.value.prompt == TruncatePrompt(scene.prompt)
    ensures r.Some? ==> r.value.dot == StatusDot(scene.status)
    ensures r.Some? ==> (r.value.downloadedAt.Some? <==> scene.downloadedAt.Some?)
  {
    if !isVisible then None
    else Some(Panel(Point(position.x + 20.0, position.y - 20.0), index + 1, TruncatePrompt(scene.prompt),
                    StatusDot(scene.status), scene.status, scene.downloadedAt))
  }
}

=== FILE: openai.dfy ===
/**
 * The OpenAI image client: the brand prompt, its four scene variations, the mapping of a
 * failed request to an error code, the retry bound, and the sequential batch with its
 * progress reports. Each request's answer is an input.
 */
module OpenAi {
  import opened Wrappers
  import opened JsStrings
  import opened Types
  import R = Replicate

  const MaxRetries: nat := 3

  const PromptOpening := "Create a professional advertising scene featuring "
  const ValuesLead := "Whilst all design and structural integrity from the main subject should be adhered to, the scene should embody these brand values: "
  const PromptStyle := "Style: Modern, forward-thinking, visually striking, designed to stand out among competing ads. Include the product prominently in a realistic advertising context. High quality, professional photography style."

  /** The quoted product name, or "the product" when the name is blank. */
  function Subject(b: BrandInfo): (r: string)
    ensures IsBlank(b.productName) ==> r == "the product"
    ensures !IsBlank(b.productName) ==> r == "\"" + b.productName + "\""
  {
    if !IsBlank(b.productName) then "\"" + b.productName + "\"" else "the product"
  }

  /** ` from "<brand>"`, present exactly when the brand name is not blank. */
  function BrandClause(b: BrandInfo): (r: string)
    ensures r == "" <==> IsBlank(b.brandName)
    ensures r != "" ==> r == " from \"" + b.brandName + "\""
  {
    if !IsBlank(b.brandName) then " from \"" + b.brandName + "\"" else ""
  }

  /** The comma-separated brand values, trimmed, empty ones dropped. */
  function Values(b: BrandInfo): (vs: seq<string>)
    ensures vs == NonEmpty(TrimAll(Split(b.brandValues, {','})))
    ensures forall i :: 0 <= i < |vs| ==> IsToken(vs[i], {','})
  {
    ListValues(b.brandValues, {','})
  }

  /** The brand-values sentence, present exactly when some comma-separated value is non-empty. */
  function ValuesSentence(b: BrandInfo): (r: string)
    ensures r == "" <==> Values(b) == []
    ensures r != "" ==> r == ValuesLead + Join(Values(b), ", ") + ". "
  {
    if !IsBlank(b.brandValues) then
      if Values(b) != [] then ValuesLead + Join(Values(b), ", ") + ". " else ""
    else
      BlankPartsTrimAway(b.brandValues, {','});
      NoneNonEmpty(TrimAll(Split(b.brandValues, {','})));
      ""
  }

  /** `buildBrandPrompt`: opening, subject, brand clause, ". ", values sentence, and the style sentence last. */
  function BuildBrandPrompt(b: BrandInfo): (p: string)
    ensures StartsWith(p, PromptOpening + Subject(b) + BrandClause(b) + ". " + ValuesSentence(b))
    ensures |p| == |PromptOpening + Subject(b) + BrandClause(b) + ". " + ValuesSentence(b)| + |PromptStyle|
    ensures p[|p| - |PromptStyle|..] == PromptStyle
  {
    var head := PromptOpening + Subject(b) + BrandClause(b) + ". " + ValuesSentence(b);
    assert (head + PromptStyle)[|head|..] == PromptStyle;
    head + PromptStyle
  }

  /** The prompt reads only the two names and the values: description and dimensions do not matter. */
  lemma BrandPromptIgnoresOtherFields(b: BrandInfo, desc: string, dims: string)
    ensures BuildBrandPrompt(b.(productDescription := desc, imageDimensions := dims)) == BuildBrandPrompt(b)
  {
    var b' := b.(productDescription := desc, imageDimensions := dims);
    assert Subject(b') == Subject(b) && BrandClause(b') == BrandClause(b);
    assert Values(b') == Values(b);
    assert ValuesSentence(b') == ValuesSentence(b);
  }

  const VariationSuffixes: seq<string> := [
    "Urban cityscape background with modern architecture and dynamic lighting.",
    "Natural outdoor environment with dramatic lighting and organic elements.",
    "Minimalist studio setting with clean lines, shadows, and sophisticated composition.",
    "Dynamic lifestyle scene with people, movement, and contemporary urban setting."
  ]

  /** `generateSceneVariations`: the base prompt followed by " Scene variation: " and each fixed setting. */
  function GenerateSceneVariations(base: string): (ps: seq<string>)
    ensures |ps| == |VariationSuffixes| == 4
    ensures forall i :: 0 <= i < 4 ==> StartsWith(ps[i], base + " Scene variation: ")
    ensures forall i :: 0 <= i < 4 ==> |ps[i]| == |base| + 18 + |VariationSuffixes[i]|
  {
    var ps := seq(4, i requires 0 <= i < 4 => base + " Scene variation: " + VariationSuffixes[i]);
    assert forall i :: 0 <= i < 4 ==> ps[i][..|base| + 18] == base + " Scene variation: ";
    ps
  }

  /** The four prompts are pairwise different. */
  lemma VariationsDistinct(base: string)
    ensures forall i, j :: 0 <= i < j < 4 ==> GenerateSceneVariations(base)[i] != GenerateSceneVariations(base)[j]
  {
    assert |VariationSuffixes[0]| == 73 && |VariationSuffixes[1]| == 72;
    assert |VariationSuffixes[2]| == 83 && |VariationSuffixes[3]| == 78;
  }

  // ---------------------------------------------------------------- requests

  datatype ImageData = ImageData(url: string, revisedPrompt: Option<string>)

  /** The `code` of a failure without a response: the two the client singles out, or any other (or none). */
  datatype RequestCode = ConnAborted | NetworkErrorCode | OtherCode

  /**
   * Why a request threw: an answer with an error status and the body's `error.message` if
   * any, or a failure with no response, carrying the error's code and its message.
   */
  datatype Thrown =
    | HttpError(status: int, detail: Option<string>)
    | NoResponse(code: RequestCode, message: string)

  /** What one request does: an answer with its image list (missing and empty read alike), or a throw. */
  datatype Outcome = Answer(images: seq<ImageData>) | Threw(thrown: Thrown)

  /** The `code` of an `OpenAIError`; `NoCode` for the error thrown on an empty answer. */
  datatype ErrorCode =
    | InvalidApiKey | RateLimitExceeded | InvalidRequest | ServiceUnavailable | UnknownError
    | Timeout | NetworkError | MaxRetriesExceeded | NoCode

  datatype OpenAiError = OpenAiError(message: string, status: int, code: ErrorCode)

  const NoImageData := "No image data received from OpenAI"

  /** The text of a `||` fallback: the value when it is a non-empty string, else the default. */
  function OrElse(v: Option<string>, default: string): (r: string)
    ensures v.Some? && v.value != "" ==> r == v.value
    ensures (v.None? || v.value == "") ==> r == default
  {
    if v.Some? && v.value != "" then v.value else default
  }

  /** The `try` of `generateImage`: the first image, or what was thrown. An empty answer throws with no response. */
  function TryOnce(o: Outcome): (r: Result<ImageData, Thrown>)
    ensures r.Success? <==> o.Answer? && |o.images| > 0
    ensures r.Success? ==> r.value == o.images[0]
    ensures o.Threw? ==> r == Failure(o.thrown)
    ensures o == Answer([]) ==> r == Failure(NoResponse(OtherCode, NoImageData))
  {
    match o
    case Answer(images) =>
      if |images| > 0 then Success(images[0]) else Failure(NoResponse(OtherCode, NoImageData))
    case Threw(t) => Failure(t)
  }

  /** The gateway and server failures the client reports as a temporary outage. */
  predicate Unavailable(status: int) {
    status == 500 || status == 502 || status == 503 || status == 504
  }

  /** The statuses with a message of their own. */
  predicate Recognised(status: int) {
    status == 401 || status == 429 || status == 400 || Unavailable(status)
  }

  /** HTTP statuses to error codes: none of them is retried. */
  function StatusError(status: int, detail: Option<string>): (e: OpenAiError)
    ensures e.status == status
    ensures e.code == InvalidApiKey <==> status == 401
    ensures e.code == RateLimitExceeded <==> status == 429
    ensures e.code == InvalidRequest <==> status == 400
    ensures e.code == ServiceUnavailable <==> Unavailable(status)
    ensures e.code == UnknownError <==> !Recognised(status)
    ensures status == 400 ==> e.message == "Request error: " + OrElse(detail, "Invalid request")
    ensures !Recognised(status) ==> e.message == "Unexpected error: " + OrElse(detail, "Unknown error")
  {
    if status == 401 then OpenAiError("Invalid API key. Please contact support.", status, InvalidApiKey)
    else if status == 429 then OpenAiError("Rate limit exceeded. Please wait before making another request.", status, RateLimitExceeded)
    else if status == 400 then OpenAiError("Request error: " + OrElse(detail, "Invalid request"), status, InvalidRequest)
    else if Unavailable(status) then OpenAiError("OpenAI service temporarily unavailable. Please try again.", status, ServiceUnavailable)
    else OpenAiError("Unexpected error: " + OrElse(detail, "Unknown error"), status, UnknownError)
  }

  const TimeoutFailure := OpenAiError("Request timeout. Please check your internet connection.", 408, Timeout)
  const NetworkFailure := OpenAiError("Network error. Please check your internet connection.", 0, NetworkError)

  /** What the `catch` decides: a final error, or a retry after the given wait. */
  datatype Recovery = GiveUp(err: OpenAiError) | RetryAfter(wait: int)

  /** The `catch`: an answer with an error status, a timeout or a network failure is final; anything else is retried. */
  function Recover(t: Thrown, retryCount: nat): (r: Recovery)
    ensures t.HttpError? ==> r == GiveUp(StatusError(t.status, t.detail))
    ensures t.NoResponse? && t.code == ConnAborted ==> r == GiveUp(TimeoutFailure)
    ensures t.NoResponse? && t.code == NetworkErrorCode ==> r == GiveUp(NetworkFailure)
    ensures r.RetryAfter? <==> t.NoResponse? && t.code == OtherCode && retryCount < MaxRetries
    ensures r.RetryAfter? ==> r.wait == R.ExponentialBackoff(retryCount)
    ensures (t.NoResponse? && t.code == OtherCode && retryCount >= MaxRetries) ==>
      r == GiveUp(OpenAiError(R.GiveUpMessageAsWritten(t.message), 0, MaxRetriesExceeded))
  {
    match t
    case HttpError(status, detail) => GiveUp(StatusError(status, detail))
    case NoResponse(code, message) =>
      match code
      case ConnAborted => GiveUp(TimeoutFailure)
      case NetworkErrorCode => GiveUp(NetworkFailure)
      case OtherCode =>
        if retryCount < MaxRetries then RetryAfter(R.ExponentialBackoff(retryCount))
        else GiveUp(OpenAiError(R.GiveUpMessageAsWritten(message), 0, MaxRetriesExceeded))
  }

  /** The corrected `catch`: the same decisions, except that giving up names the tries actually made. */
  function RecoverCorrected(t: Thrown, retryCount: nat): (r: Recovery)
    ensures (t.NoResponse? && t.code == OtherCode && retryCount >= MaxRetries) ==>
      r == GiveUp(OpenAiError(R.GiveUpMessage(t.message), 0, MaxRetriesExceeded))
    ensures !(t.NoResponse? && t.code == OtherCode && retryCount >= MaxRetries) ==> r == Recover(t, retryCount)
  {
    if t.NoResponse? && t.code == OtherCode && retryCount >= MaxRetries then
      GiveUp(OpenAiError(R.GiveUpMessage(t.message), 0, MaxRetriesExceeded))
    else Recover(t, retryCount)
  }

  datatype Run = Run(result: Result<ImageData, OpenAiError>, tries: nat, waits: seq<int>)

  /** `generateImage` from try `retryCount` on; `outcomes(k)` is what request k does. */
  function GenerateImage(outcomes: nat -> Outcome, retryCount: nat): (r: Run)
    ensures 1 <= r.tries
    ensures retryCount <= MaxRetries ==> r.tries <= MaxRetries + 1 - retryCount
    ensures |r.waits| == r.tries - 1
    ensures forall k :: 0 <= k < |r.waits| ==> r.waits[k] == R.ExponentialBackoff(retryCount + k)
    ensures r.result.Success? <==> TryOnce(outcomes(retryCount + r.tries - 1)).Success?
    ensures r.result.Success? ==> r.result.value == TryOnce(outcomes(retryCount + r.tries - 1)).value
    decreases if retryCount < MaxRetries then MaxRetries - retryCount else 0
  {
    match TryOnce(outcomes(retryCount))
    case Success(img) => Run(Success(img), 1, [])
    case Failure(t) =>
      var d := Recover(t, retryCount);
      if d.GiveUp? then Run(Failure(d.err), 1, [])
      else
        var w := d.wait;
        RecoverRetries(t, retryCount);
        var rest := GenerateImage(outcomes, retryCount + 1);
        BackoffShift(retryCount, rest.waits);
        var r := Run(rest.result, rest.tries + 1, [w] + rest.waits);
        AnswerShift(outcomes, retryCount, rest, r);
        r
  }

  /** A retry waits the backoff of its retry number, and only while retries are left. */
  lemma RecoverRetries(t: Thrown, retryCount: nat)
    requires Recover(t, retryCount).RetryAfter?
    ensures Recover(t, retryCount).wait == R.ExponentialBackoff(retryCount) && retryCount < MaxRetries
  {
  }

  /** A run that adds one failed try in front of `rest` ends on the same request as `rest`. */
  lemma AnswerShift(outcomes: nat -> Outcome, retryCount: nat, rest: Run, r: Run)
    requires r.result == rest.result && r.tries == rest.tries + 1
    requires rest.result.Success? <==> TryOnce(outcomes(retryCount + 1 + rest.tries - 1)).Success?
    requires rest.result.Success? ==> rest.result.value == TryOnce(outcomes(retryCount + 1 + rest.tries - 1)).value
    ensures r.result.Success? <==> TryOnce(outcomes(retryCount + r.tries - 1)).Success?
    ensures r.result.Success? ==> r.result.value == TryOnce(outcomes(retryCount + r.tries - 1)).value
  {
  }

  /** The waits after try `retryCount + 1`, behind the wait after try `retryCount`, are the waits after try `retryCount`. */
  lemma BackoffShift(retryCount: nat, rest: seq<int>)
    requires forall k :: 0 <= k < |rest| ==> rest[k] == R.ExponentialBackoff(retryCount + 1 + k)
    ensures var waits := [R.ExponentialBackoff(retryCount)] + rest;
      forall k :: 0 <= k < |waits| ==> waits[k] == R.ExponentialBackoff(retryCount + k)
  {
    var waits := [R.ExponentialBackoff(retryCount)] + rest;
    forall k | 1 <= k < |waits| ensures waits[k] == R.ExponentialBackoff(retryCount + k) {
      assert waits[k] == rest[k - 1];
    }
  }

  /**
   * `generateImage` with the corrected give-up message: the same requests and waits as
   * `GenerateImage`, the same image on success, and the same error unless it gave up.
   */
  function GenerateImageCorrected(outcomes: nat -> Outcome, retryCount: nat): (r: Run)
    ensures r.tries == GenerateImage(outcomes, retryCount).tries
    ensures r.waits == GenerateImage(outcomes, retryCount).waits
    ensures r.result.Success? <==> GenerateImage(outcomes, retryCount).result.Success?
    ensures r.result.Success? ==> r.result == GenerateImage(outcomes, retryCount).result
    decreases if retryCount < MaxRetries then MaxRetries - retryCount else 0
  {
    match TryOnce(outcomes(retryCount))
    case Success(img) => Run(Success(img), 1, [])
    case Failure(t) =>
      match RecoverCorrected(t, retryCount)
      case GiveUp(e) => Run(Failure(e), 1, [])
      case RetryAfter(w) =>
        var rest := GenerateImageCorrected(outcomes, retryCount + 1);
        Run(rest.result, rest.tries + 1, [w] + rest.waits)
  }

  /** An error status is final on the spot: one request, no wait. */
  lemma HttpErrorsNotRetried(outcomes: nat -> Outcome, retryCount: nat)
    requires outcomes(retryCount).Threw? && outcomes(retryCount).thrown.HttpError?
    ensures var t := outcomes(retryCount).thrown;
      GenerateImage(outcomes, retryCount) == Run(Failure(StatusError(t.status, t.detail)), 1, [])
  {
  }

  /** An empty answer is retried like a dropped connection, and gives up after four requests naming it. */
  lemma {:induction false} EmptyAnswersExhaust(outcomes: nat -> Outcome, retryCount: nat)
    requires retryCount <= MaxRetries
    requires forall k: nat :: retryCount <= k <= MaxRetries ==> outcomes(k) == Answer([])
    ensures GenerateImage(outcomes, retryCount).tries == MaxRetries + 1 - retryCount
    ensures GenerateImage(outcomes, retryCount).result ==
      Failure(OpenAiError(R.GiveUpMessageAsWritten(NoImageData), 0, MaxRetriesExceeded))
    decreases MaxRetries - retryCount
  {
    if retryCount < MaxRetries {
      EmptyAnswersExhaust(outcomes, retryCount + 1);
    }
  }

  /** With the corrected message, four empty answers give up naming the four requests made. */
  lemma {:induction false} EmptyAnswersExhaustCorrected(outcomes: nat -> Outcome, retryCount: nat)
    requires retryCount <= MaxRetries
    requires forall k: nat :: retryCount <= k <= MaxRetries ==> outcomes(k) == Answer([])
    ensures GenerateImageCorrected(outcomes, retryCount).tries == MaxRetries + 1 - retryCount
    ensures GenerateImageCorrected(outcomes, retryCount).result ==
      Failure(OpenAiError(R.GiveUpMessage(NoImageData), 0, MaxRetriesExceeded))
    decreases MaxRetries - retryCount
  {
    if retryCount < MaxRetries {
      EmptyAnswersExhaustCorrected(outcomes, retryCount + 1);
    }
  }

  /**
   * After four empty answers the error names three attempts, as the source words it
   * (`maxRetries`), although four requests were made; the corrected call names four.
   */
  lemma GiveUpMessageMiscounts(outcomes: nat -> Outcome)
    requires forall k: nat :: k <= MaxRetries ==> outcomes(k) == Answer([])
    ensures GenerateImage(outcomes, 0).tries == 4 && GenerateImage(outcomes, 0).result.Failure?
    ensures !R.NamesAttempts(GenerateImage(outcomes, 0).result.error.message, GenerateImage(outcomes, 0).tries)
    ensures GenerateImageCorrected(outcomes, 0).tries == 4 && GenerateImageCorrected(outcomes, 0).result.Failure?
    ensures R.NamesAttempts(GenerateImageCorrected(outcomes, 0).result.error.message, GenerateImageCorrected(outcomes, 0).tries)
  {
    EmptyAnswersExhaust(outcomes, 0);
    EmptyAnswersExhaustCorrected(outcomes, 0);
    R.AsWrittenNamesThree(NoImageData);
  }

  // ---------------------------------------------------------------- batch

  /** The prompt a scene keeps: the revised prompt when the answer has a non-empty one. */
  function ScenePrompt(prompt: string, img: ImageData): string {
    OrElse(img.revisedPrompt, prompt)
  }

  function SceneFor(i: nat, prompt: string, run: Run, id: string, now: Time): (s: GeneratedScene)
    ensures s.sceneNumber == i + 1 && s.id == id && s.createdAt == now && s.downloadedAt.None?
    ensures s.status == SceneCompleted <==> run.result.Success?
    ensures s.status == SceneError <==> run.result.Failure?
    ensures run.result.Success? ==> s.imageUrl == run.result.value.url && s.prompt == ScenePrompt(prompt, run.result.value)
    ensures run.result.Failure? ==> s.imageUrl == "" && s.prompt == prompt
  {
    match run.result
    case Success(img) => GeneratedScene(id, i + 1, img.url, ScenePrompt(prompt, img), SceneCompleted, now, None)
    case Failure(_) => GeneratedScene(id, i + 1, "", prompt, SceneError, now, None)
  }

  /** A progress report: the percentage, and the scene just finished if any. */
  datatype Report = Report(progress: real, scene: Option<GeneratedScene>)

  /** The progress after `done` of `n` prompts, in percent. */
  function Percent(done: nat, n: nat): (p: real)
    requires n > 0
    ensures done <= n ==> 0.0 <= p <= 100.0
    ensures p == 100.0 <==> done == n
  {
    (done as real / n as real) * 100.0
  }

  /**
   * The loop of `generateMultipleScenes` over any list of prompts: every prompt yields a
   * scene, and around each the progress goes from i/n to (i+1)/n of 100, failure or not.
   * `outcomes(i)` is the network for prompt i, `ids(i)` its scene id, `clock(i)` its time.
   */
  method RunPrompts(prompts: seq<string>, outcomes: nat -> nat -> Outcome, ids: nat -> string, clock: nat -> Time)
    returns (scenes: seq<GeneratedScene>, reports: seq<Report>)
    ensures |scenes| == |prompts| && |reports| == 2 * |prompts|
    ensures forall i :: 0 <= i < |prompts| ==> scenes[i] == SceneFor(i, prompts[i], GenerateImage(outcomes(i), 0), ids(i), clock(i))
    ensures forall i :: 0 <= i < |prompts| ==> reports[2 * i] == Report(Percent(i, |prompts|), None)
    ensures forall i :: 0 <= i < |prompts| ==> reports[2 * i + 1] == Report(Percent(i + 1, |prompts|), Some(scenes[i]))
  {
    var n := |prompts|;
    scenes := [];
    reports := [];
    var i := 0;
    while i < n
      invariant 0 <= i <= n
      invariant |scenes| == i && |reports| == 2 * i
      invariant forall k :: 0 <= k < i ==> scenes[k] == SceneFor(k, prompts[k], GenerateImage(outcomes(k), 0), ids(k), clock(k))
      invariant forall k :: 0 <= k < i ==> reports[2 * k] == Report(Percent(k, n), None)
      invariant forall k :: 0 <= k < i ==> reports[2 * k + 1] == Report(Percent(k + 1, n), Some(scenes[k]))
    {
      var scene := SceneFor(i, prompts[i], GenerateImage(outcomes(i), 0), ids(i), clock(i));
      var pair := [Report(Percent(i, n), None), Report(Percent(i + 1, n), Some(scene))];
      assert forall k :: 0 <= k < 2 * i ==> (reports + pair)[k] == reports[k];
      forall k | 0 <= k <= i
        ensures (scenes + [scene])[k] == SceneFor(k, prompts[k], GenerateImage(outcomes(k), 0), ids(k), clock(k))
      {
        if k < i {
          assert (scenes + [scene])[k] == scenes[k];
        }
      }
      reports := reports + pair;
      scenes := scenes + [scene];
      i := i + 1;
    }
  }

  /** `generateMultipleScenes`: the loop above on the four variations of the brand prompt. */
  method GenerateMultipleScenes(b: BrandInfo, outcomes: nat -> nat -> Outcome, ids: nat -> string, clock: nat -> Time)
    returns (scenes: seq<GeneratedScene>, reports: seq<Report>)
    ensures |scenes| == 4 && |reports| == 8
    ensures forall i :: 0 <= i < 4 ==>
      scenes[i] == SceneFor(i, GenerateSceneVariations(BuildBrandPrompt(b))[i], GenerateImage(outcomes(i), 0), ids(i), clock(i))
    ensures forall i :: 0 <= i < 4 ==> reports[2 * i] == Report(Percent(i, 4), None)
    ensures forall i :: 0 <= i < 4 ==> reports[2 * i + 1] == Report(Percent(i + 1, 4), Some(scenes[i]))
  {
    var prompts := GenerateSceneVariations(BuildBrandPrompt(b));
    scenes, reports := RunPrompts(prompts, outcomes, ids, clock);
  }

  /** Sequential progress never goes back, and reaches 100 only with the last report. */
  lemma ProgressOrdered(reports: seq<Report>)
    requires |reports| == 8
    requires forall i :: 0 <= i < 4 ==> reports[2 * i].progress == Percent(i, 4)
    requires forall i :: 0 <= i < 4 ==> reports[2 * i + 1].progress == Percent(i + 1, 4)
    ensures forall j, k :: 0 <= j < k < 8 ==> reports[j].progress <= reports[k].progress
    ensures forall j :: 0 <= j < 7 ==> reports[j].progress < 100.0
    ensures reports[7].progress == 100.0
  {
    forall j | 0 <= j < 8 ensures reports[j].progress == Percent(j / 2 + j % 2, 4) {
      if j % 2 == 0 {
        assert reports[2 * (j / 2)].progress == Percent(j / 2, 4);
      } else {
        assert reports[2 * (j / 2) + 1].progress == Percent(j / 2 + 1, 4);
      }
    }
  }

  /**
   * `validateApiKey` given what the model-list request did (`None` when it answered): only
   * an answer with status 401 marks the key invalid; every other failure keeps it.
   */
  function ValidateApiKey(t: Option<Thrown>): (valid: bool)
    ensures !valid <==> exists d :: t == Some(HttpError(401, d))
  {
    !(t.Some? && t.value.HttpError? && t.value.status == 401)
  }

  /** A timeout, a network failure or a server error all leave the key taken as valid. */
  lemma OtherFailuresKeepKey(t: Thrown)
    requires t.NoResponse? || t.status != 401
    ensures ValidateApiKey(Some(t))
  {
  }
}

=== FILE: ordered_map.dfy ===
/**
 * A JavaScript `Map` (and the key order of a plain object used as a record): keys are
 * unique and iterate in first-insertion order; overwriting a key keeps its place.
 */
module OrderedMap {
  import opened Wrappers

  datatype Entry<K, V> = Entry(key: K, value: V)

  type OMap<K, V> = seq<Entry<K, V>>

  predicate DistinctKeys<K(==), V>(m: OMap<K, V>) {
    forall i, j :: 0 <= i < j < |m| ==> m[i].key != m[j].key
  }

  function Keys<K, V>(m: OMap<K, V>): (ks: seq<K>)
    ensures |ks| == |m| && forall i :: 0 <= i < |m| ==> ks[i] == m[i].key
  {
    seq(|m|, i requires 0 <= i < |m| => m[i].key)
  }

  function Values<K, V>(m: OMap<K, V>): (vs: seq<V>)
    ensures |vs| == |m| && forall i :: 0 <= i < |m| ==> vs[i] == m[i].value
  {
    seq(|m|, i requires 0 <= i < |m| => m[i].value)
  }

  /** Position of `k` in the map, or |m| when it is absent. */
  function Find<K(==), V>(m: OMap<K, V>, k: K): (i: nat)
    ensures i <= |m|
    ensures i < |m| ==> m[i].key == k
    ensures forall j :: 0 <= j < i ==> m[j].key != k
    decreases |m|
  {
    if |m| == 0 then 0 else if m[0].key == k then 0 else 1 + Find(m[1..], k)
  }

  /** `Find` is determined by its contract: the first position holding `k`. */
  lemma {:induction false} FindIs<K, V>(m: OMap<K, V>, k: K, i: nat)
    requires i <= |m|
    requires i < |m| ==> m[i].key == k
    requires forall j :: 0 <= j < i ==> m[j].key != k
    ensures Find(m, k) == i
    decreases |m|
  {
    if |m| > 0 && m[0].key != k {
      FindIs(m[1..], k, i - 1);
    }
  }

  /** `map.has(k)`. */
  predicate Has<K(==), V>(m: OMap<K, V>, k: K) {
    Find(m, k) < |m|
  }

  lemma HasIff<K, V>(m: OMap<K, V>, k: K)
    ensures Has(m, k) <==> k in Keys(m)
  {
    if k in Keys(m) {
      var i :| 0 <= i < |m| && Keys(m)[i] == k;
      assert Find(m, k) <= i;
    }
  }

  /** `map.get(k)`. */
  function Get<K(==), V>(m: OMap<K, V>, k: K): (r: Option<V>)
    ensures r.Some? <==> Has(m, k)
    ensures r.Some? ==> exists i :: 0 <= i < |m| && m[i] == Entry(k, r.value)
  {
    var i := Find(m, k);
    if i < |m| then Some(m[i].value) else None
  }

  /** `map.set(k, v)`: overwrite in place, or append a new key. */
  function Set<K(==, !new), V>(m: OMap<K, V>, k: K, v: V): (r: OMap<K, V>)
    ensures Get(r, k) == Some(v)
    ensures forall k' :: k' != k ==> Get(r, k') == Get(m, k')
    ensures Has(m, k) ==> Keys(r) == Keys(m)
    ensures !Has(m, k) ==> Keys(r) == Keys(m) + [k]
    ensures DistinctKeys(m) ==> DistinctKeys(r)
    ensures forall i :: 0 <= i < |r| ==> r[i] in m || r[i] == Entry(k, v)
  {
    var i := Find(m, k);
    var r := if i < |m| then m[i := Entry(k, v)] else m + [Entry(k, v)];
    FindIs(r, k, i);
    forall k' | k' != k ensures Get(r, k') == Get(m, k') {
      var j := Find(m, k');
      if j < |m| {
        FindIs(r, k', j);
      } else {
        FindIs(r, k', |r|);
      }
    }
    r
  }

  /** `map.delete(k)`. */
  function Delete<K(==), V>(m: OMap<K, V>, k: K): (r: OMap<K, V>)
    ensures !Has(r, k)
    ensures |r| <= |m|
    ensures forall i :: 0 <= i < |r| ==> r[i] in m
    ensures forall i :: 0 <= i < |m| && m[i].key != k ==> m[i] in r
    decreases |m|
  {
    if |m| == 0 then []
    else if m[0].key == k then Delete(m[1..], k)
    else [m[0]] + Delete(m[1..], k)
  }

  /** With unique keys, an entry of the map is what `get` returns for its key. */
  lemma GetOfMember<K, V>(m: OMap<K, V>, e: Entry<K, V>)
    requires DistinctKeys(m) && e in m
    ensures Get(m, e.key) == Some(e.value)
  {
    var i :| 0 <= i < |m| && m[i] == e;
    FindIs(m, e.key, i);
  }
}

=== FILE: performance.dfy ===
/**
 * The performance utilities: the metric buffer kept by the performance monitor and its
 * queries, timed measurement, the bounded memoization cache, fitting an image into the
 * optimizer's maximum box, and the index range a virtual-scroll list renders.
 */
module Performance {
  import opened Wrappers
  import opened JsMath
  import opened OrderedMap
  import JsSort

  type Time = int

  datatype Category = Load | Render | Interaction | Network | Memory

  /** A recorded metric; the optional metadata record is not modelled. */
  datatype Metric = Metric(name: string, duration: real, timestamp: Time, category: Category)

  datatype Monitor = Monitor(metrics: seq<Metric>, isEnabled: bool)

  const MaxMetrics: nat := 1000

  const InitialMonitor := Monitor([], true)

  /** The newest `n` elements of `s` (all of them when there are fewer): `s.slice(-n)` guarded by a length test. */
  function Newest<T>(s: seq<T>, n: nat): (r: seq<T>)
    ensures |r| == MinI(|s|, n)
    ensures r == s[|s| - |r|..]
  {
    if |s| > n then s[|s| - n..] else s
  }

  /** Trimming a suffix that is long enough gives the same newest elements as trimming the whole. */
  lemma NewestOfSuffix<T>(s: seq<T>, k: nat, n: nat)
    requires k <= |s| && |s| - k >= MinI(|s|, n)
    ensures Newest(s[k..], n) == Newest(s, n)
  {
    var t := s[k..];
    var r := Newest(t, n);
    forall i | 0 <= i < |r| ensures r[i] == Newest(s, n)[i] {
      assert r[i] == t[|t| - |r| + i] == s[|s| - |r| + i];
    }
  }

  /** Trimming, then appending, then trimming again keeps the newest elements of everything. */
  lemma NewestAppend<T>(a: seq<T>, b: seq<T>, n: nat)
    ensures Newest(Newest(a, n) + b, n) == Newest(a + b, n)
  {
    var k := |a| - |Newest(a, n)|;
    assert (a + b)[k..] == Newest(a, n) + b;
    NewestOfSuffix(a + b, k, n);
  }

  /** The duration above which a metric is passed to the error monitor, per category. */
  function Threshold(c: Category): (t: real)
    ensures t > 0.0
  {
    match c
    case Load => 30000.0
    case Render => 100.0
    case Interaction => 500.0
    case Network => 60000.0
    case Memory => 1000.0
  }

  /** The monitor after a recording, and whether the metric was passed on to the error monitor. */
  datatype Recorded = Recorded(monitor: Monitor, reported: bool)

  /**
   * `recordMetric` at clock reading `now`: nothing when disabled; otherwise the metric is
   * appended, only the newest 1000 are kept, and it is reported when slower than its
   * category's threshold.
   */
  function RecordMetric(m: Monitor, name: string, duration: real, category: Category, now: Time): (r: Recorded)
    ensures !m.isEnabled ==> r == Recorded(m, false)
    ensures r.monitor.isEnabled == m.isEnabled
    ensures m.isEnabled ==> r.monitor.metrics == Newest(m.metrics + [Metric(name, duration, now, category)], MaxMetrics)
    ensures m.isEnabled && |m.metrics| < MaxMetrics ==> r.monitor.metrics == m.metrics + [Metric(name, duration, now, category)]
    ensures m.isEnabled ==> |r.monitor.metrics| <= MaxMetrics && r.monitor.metrics[|r.monitor.metrics| - 1] == Metric(name, duration, now, category)
    ensures r.reported <==> m.isEnabled && duration > Threshold(category)
  {
    if !m.isEnabled then Recorded(m, false)
    else
      var metrics := Newest(m.metrics + [Metric(name, duration, now, category)], MaxMetrics);
      Recorded(m.(metrics := metrics), duration > Threshold(category))
  }

  /** An example: the same duration can be slow for one category and not for another. */
  lemma ThresholdPerCategory(m: Monitor, name: string, now: Time)
    requires m.isEnabled
    ensures RecordMetric(m, name, 150.0, Render, now).reported
    ensures !RecordMetric(m, name, 150.0, Interaction, now).reported
  {
  }

  /** A series of recordings, each metric with its own clock reading. */
  function RecordAll(m: Monitor, xs: seq<Metric>): Monitor
    decreases |xs|
  {
    if |xs| == 0 then m
    else RecordAll(RecordMetric(m, xs[0].name, xs[0].duration, xs[0].category, xs[0].timestamp).monitor, xs[1..])
  }

  /** However many metrics are recorded, the buffer holds exactly the newest 1000 of all of them. */
  lemma {:induction false} RecordAllKeepsNewest(m: Monitor, xs: seq<Metric>)
    requires m.isEnabled && |m.metrics| <= MaxMetrics
    ensures RecordAll(m, xs).metrics == Newest(m.metrics + xs, MaxMetrics)
    decreases |xs|
  {
    if |xs| == 0 {
      assert m.metrics + xs == m.metrics;
    } else {
      var m1 := RecordMetric(m, xs[0].name, xs[0].duration, xs[0].category, xs[0].timestamp).monitor;
      assert m1.metrics == Newest(m.metrics + [xs[0]], MaxMetrics);
      RecordAllKeepsNewest(m1, xs[1..]);
      NewestAppend(m.metrics + [xs[0]], xs[1..], MaxMetrics);
      assert m.metrics + [xs[0]] + xs[1..] == m.metrics + xs;
    }
  }

  /** A disabled monitor records nothing, however many metrics arrive. */
  lemma {:induction false} DisabledRecordsNothing(m: Monitor, xs: seq<Metric>)
    requires !m.isEnabled
    ensures RecordAll(m, xs) == m
    decreases |xs|
  {
    if |xs| > 0 {
      DisabledRecordsNothing(m, xs[1..]);
    }
  }

  /** `enable`, `disable` and `clearMetrics`. */
  function SetEnabled(m: Monitor, on: bool): (r: Monitor)
    ensures r.isEnabled == on && r.metrics == m.metrics
  {
    m.(isEnabled := on)
  }

  function ClearMetrics(m: Monitor): (r: Monitor)
    ensures r.metrics == [] && r.isEnabled == m.isEnabled
  {
    m.(metrics := [])
  }

  const DefaultMeasureCategory := Render
  const DefaultAsyncMeasureCategory := Network

  /**
   * `measurePerformance` (and its async twin, which differs only in the default category):
   * the function's result, and one metric whose duration is the time between the two
   * clock readings taken around the call.
   */
  function Measure<T>(m: Monitor, name: string, result: T, start: real, end: real, category: Category, now: Time): (r: (T, Recorded))
    ensures r.0 == result
    ensures r.1.monitor.isEnabled == m.isEnabled
    ensures m.isEnabled && |m.metrics| < MaxMetrics ==> r.1.monitor.metrics == m.metrics + [Metric(name, end - start, now, category)]
    ensures !m.isEnabled ==> r.1.monitor == m
  {
    (result, RecordMetric(m, name, end - start, category, now))
  }

  // ---------------------------------------------------------------- queries

  /** `metrics.filter(p)`: the elements satisfying `p`, in order. */
  function Where(ms: seq<Metric>, p: Metric -> bool): (r: seq<Metric>)
    ensures |r| <= |ms|
    ensures forall x :: x in r <==> x in ms && p(x)
    ensures forall i :: 0 <= i < |r| ==> p(r[i])
    decreases |ms|
  {
    if |ms| == 0 then []
    else
      var init := Where(ms[..|ms| - 1], p);
      var last := ms[|ms| - 1];
      assert forall x :: x in ms <==> x in ms[..|ms| - 1] || x == last;
      if p(last) then init + [last] else init
  }

  /** Filtering works piecewise, so it keeps the order of the elements it keeps. */
  lemma {:induction false} WhereAppend(a: seq<Metric>, b: seq<Metric>, p: Metric -> bool)
    ensures Where(a + b, p) == Where(a, p) + Where(b, p)
    decreases |b|
  {
    if |b| > 0 {
      var b' := b[..|b| - 1];
      assert (a + b)[..|a + b| - 1] == a + b';
      assert (a + b)[|a + b| - 1] == b[|b| - 1];
      WhereAppend(a, b', p);
    } else {
      assert a + b == a;
    }
  }

  /**
   * Filtering by a test and by its negation splits a list: every element lands in exactly
   * one of the two results, as often as it occurs.
   */
  lemma {:induction false} WherePartition(ms: seq<Metric>, p: Metric -> bool, q: Metric -> bool)
    requires forall x :: q(x) == !p(x)
    ensures multiset(Where(ms, p)) + multiset(Where(ms, q)) == multiset(ms)
    decreases |ms|
  {
    if |ms| > 0 {
      WherePartition(ms[..|ms| - 1], p, q);
      assert ms == ms[..|ms| - 1] + [ms[|ms| - 1]];
    }
  }

  /** A one-element list is kept exactly when its element satisfies the test. */
  lemma WhereSingle(x: Metric, p: Metric -> bool)
    ensures Where([x], p) == if p(x) then [x] else []
  {
    assert [x][..0] == [];
  }

  /** `getMetrics(category?)`: the metrics of one category, or a copy of all of them. */
  function GetMetrics(m: Monitor, category: Option<Category>): (r: seq<Metric>)
    ensures category.None? ==> r == m.metrics
    ensures category.Some? ==> forall x :: x in r <==> x in m.metrics && x.category == category.value
    ensures category.Some? ==>
      multiset(r) + multiset(Where(m.metrics, (x: Metric) => x.category != category.value)) == multiset(m.metrics)
  {
    if category.Some? then
      WherePartition(m.metrics, (x: Metric) => x.category == category.value, (x: Metric) => x.category != category.value);
      Where(m.metrics, (x: Metric) => x.category == category.value)
    else m.metrics
  }

  /** `reduce((sum, m) => sum + m.duration, 0)`. */
  function TotalDuration(ms: seq<Metric>): real
    decreases |ms|
  {
    if |ms| == 0 then 0.0 else TotalDuration(ms[..|ms| - 1]) + ms[|ms| - 1].duration
  }

  /** `avg` times the number of metrics is their total duration. */
  predicate IsMean(avg: real, ms: seq<Metric>) {
    |ms| > 0 ==> avg * |ms| as real == TotalDuration(ms)
  }

  /** The mean duration, 0 for no metrics. */
  function MeanDuration(ms: seq<Metric>): (avg: real)
    ensures |ms| == 0 ==> avg == 0.0
    ensures IsMean(avg, ms)
  {
    if |ms| == 0 then 0.0 else TotalDuration(ms) / |ms| as real
  }

  /** Durations between two bounds sum to between the bounds times the count. */
  lemma {:induction false} TotalBounds(ms: seq<Metric>, lo: real, hi: real)
    requires forall i :: 0 <= i < |ms| ==> lo <= ms[i].duration <= hi
    ensures lo * |ms| as real <= TotalDuration(ms) <= hi * |ms| as real
    decreases |ms|
  {
    if |ms| > 0 {
      TotalBounds(ms[..|ms| - 1], lo, hi);
    }
  }

  /** A mean lies between the smallest and the largest duration averaged. */
  lemma MeanWithinBounds(ms: seq<Metric>, lo: real, hi: real)
    requires |ms| > 0
    requires forall i :: 0 <= i < |ms| ==> lo <= ms[i].duration <= hi
    ensures lo <= MeanDuration(ms) <= hi
  {
    TotalBounds(ms, lo, hi);
    var n := |ms| as real;
    var avg := MeanDuration(ms);
    assert avg * n == TotalDuration(ms);
    assert (avg - lo) * n >= 0.0 && (hi - avg) * n >= 0.0;
  }

  /** The metrics recorded under `name`, in order. */
  function Named(m: Monitor, name: string): (r: seq<Metric>)
    ensures forall x :: x in r <==> x in m.metrics && x.name == name
    ensures multiset(r) + multiset(Where(m.metrics, (x: Metric) => x.name != name)) == multiset(m.metrics)
  {
    WherePartition(m.metrics, (x: Metric) => x.name == name, (x: Metric) => x.name != name);
    Where(m.metrics, (x: Metric) => x.name == name)
  }

  /** `getAverageMetric(name)`: 0 when no metric has the name, else the mean duration of those that do. */
  function GetAverageMetric(m: Monitor, name: string): (avg: real)
    ensures (forall x :: x in m.metrics ==> x.name != name) ==> avg == 0.0
    ensures IsMean(avg, Named(m, name))
  {
    NoneNamed(m, name);
    MeanDuration(Named(m, name))
  }

  /** With no metric of that name, nothing is selected. */
  lemma NoneNamed(m: Monitor, name: string)
    ensures (forall x :: x in m.metrics ==> x.name != name) ==> Named(m, name) == []
  {
    var named := Named(m, name);
    if |named| > 0 {
      assert named[0] in named;
    }
  }

  /** The largest duration of a non-empty list. */
  function Largest(ms: seq<Metric>): (hi: real)
    requires |ms| > 0
    ensures forall i :: 0 <= i < |ms| ==> ms[i].duration <= hi
    ensures exists i :: 0 <= i < |ms| && ms[i].duration == hi
    decreases |ms|
  {
    if |ms| == 1 then ms[0].duration
    else
      var rest := Largest(ms[1..]);
      assert forall i :: 1 <= i < |ms| ==> ms[i] == ms[1..][i - 1];
      if ms[0].duration >= rest then ms[0].duration else rest
  }

  /** The mean of a non-empty list lies between its smallest and its largest duration. */
  lemma MeanBetweenExtremes(ms: seq<Metric>)
    requires |ms| > 0
    ensures Fastest(ms) <= MeanDuration(ms) <= Largest(ms)
  {
    MeanWithinBounds(ms, Fastest(ms), Largest(ms));
  }

  /** The average of one name's metrics lies between its fastest and its slowest one. */
  lemma AverageBetweenFastestAndSlowest(m: Monitor, name: string)
    requires exists x :: x in m.metrics && x.name == name
    ensures |Named(m, name)| > 0
    ensures Fastest(Named(m, name)) <= GetAverageMetric(m, name) <= Largest(Named(m, name))
  {
    var named := Named(m, name);
    var x :| x in m.metrics && x.name == name;
    assert x in named;
    MeanWithinBounds(named, Fastest(named), Largest(named));
  }

  /** The smallest duration of a non-empty list. */
  function Fastest(ms: seq<Metric>): (lo: real)
    requires |ms| > 0
    ensures forall i :: 0 <= i < |ms| ==> lo <= ms[i].duration
    ensures exists i :: 0 <= i < |ms| && ms[i].duration == lo
    decreases |ms|
  {
    if |ms| == 1 then ms[0].duration
    else
      var rest := Fastest(ms[1..]);
      assert forall i :: 1 <= i < |ms| ==> ms[i] == ms[1..][i - 1];
      if ms[0].duration <= rest then ms[0].duration else rest
  }

  /** The sort key: a metric's duration. */
  function Duration(m: Metric): real {
    m.duration
  }

  /** Durations never increase along `ms`. */
  predicate NonIncreasing(ms: seq<Metric>) {
    forall i, j :: 0 <= i < j < |ms| ==> ms[i].duration >= ms[j].duration
  }

  /** `[...metrics].sort((a, b) => b.duration - a.duration)`: a stable sort, slowest first. */
  function SortSlowest(ms: seq<Metric>): (r: seq<Metric>)
    ensures NonIncreasing(r)
    ensures multiset(r) == multiset(ms)
  {
    var r := JsSort.Sort(ms, Duration);
    assert forall i, j :: 0 <= i < j < |r| ==> Duration(r[i]) >= Duration(r[j]);
    r
  }

  /** A JavaScript slice index: negative counts from the end; both are clamped to the length. */
  function SliceIndex(i: int, n: nat): (k: nat)
    ensures k <= n
    ensures 0 <= i <= n ==> k == i
    ensures i > n ==> k == n
    ensures i < 0 ==> k == MaxI(0, n + i)
  {
    if i < 0 then MaxI(0, n + i) else MinI(i, n)
  }

  /** `s.slice(start, end)`. */
  function JsSlice<T>(s: seq<T>, start: int, end: int): (r: seq<T>)
    ensures 0 <= start <= end <= |s| ==> r == s[start..end]
    ensures SliceIndex(start, |s|) >= SliceIndex(end, |s|) ==> r == []
  {
    var a := SliceIndex(start, |s|);
    var b := SliceIndex(end, |s|);
    if a < b then s[a..b] else []
  }

  const DefaultSlowestLimit := 10

  /** `getSlowestMetrics(limit)`: the `limit` slowest metrics, slowest first (a negative limit drops that many from the end). */
  function GetSlowestMetrics(m: Monitor, limit: int): (r: seq<Metric>)
    ensures NonIncreasing(r)
    ensures limit >= 0 ==> |r| == MinI(limit, |m.metrics|)
    ensures |r| <= |m.metrics|
    ensures r == SortSlowest(m.metrics)[..|r|]
    ensures multiset(r) <= multiset(m.metrics)
  {
    var sorted := SortSlowest(m.metrics);
    var r := JsSlice(sorted, 0, limit);
    assert r == sorted[..|r|];
    PrefixOfSorted(sorted, |r|);
    r
  }

  /** A prefix of a slowest-first list is slowest-first and draws on the list's elements. */
  lemma PrefixOfSorted(sorted: seq<Metric>, n: nat)
    requires NonIncreasing(sorted) && n <= |sorted|
    ensures NonIncreasing(sorted[..n])
    ensures multiset(sorted[..n]) <= multiset(sorted)
  {
    assert sorted == sorted[..n] + sorted[n..];
    assert multiset(sorted) == multiset(sorted[..n]) + multiset(sorted[n..]);
  }

  /** Every metric left out of the slowest list is no slower than any metric in it. */
  lemma SlowestAreSlowest(m: Monitor, limit: int, x: Metric)
    requires multiset(GetSlowestMetrics(m, limit))[x] < multiset(m.metrics)[x]
    ensures forall i :: 0 <= i < |GetSlowestMetrics(m, limit)| ==> x.duration <= GetSlowestMetrics(m, limit)[i].duration
  {
    var sorted := SortSlowest(m.metrics);
    var r := GetSlowestMetrics(m, limit);
    var tail := sorted[|r|..];
    assert sorted == r + tail;
    assert multiset(sorted) == multiset(r) + multiset(tail);
    assert x in multiset(tail);
    NoSlowerBehind(sorted, |r|, x);
  }

  /** In a slowest-first list, an element past position `n` is no slower than any before it. */
  lemma NoSlowerBehind(sorted: seq<Metric>, n: nat, x: Metric)
    requires NonIncreasing(sorted) && n <= |sorted|
    requires x in sorted[n..]
    ensures forall i :: 0 <= i < n ==> x.duration <= sorted[i].duration
  {
    var k :| n <= k < |sorted| && sorted[k] == x;
    forall i | 0 <= i < n ensures x.duration <= sorted[i].duration {
      assert sorted[i].duration >= sorted[k].duration;
    }
  }

  // ---------------------------------------------------------------- memoize

  const DefaultMaxCacheSize := 100

  /**
   * One call of a function wrapped by `memoize(func, maxCacheSize)` on the arguments `args`,
   * cached under `key(args)` (their `JSON.stringify` text): a hit returns the cached value and
   * leaves the cache as it is (no reordering); a miss calls `func`, first evicting the oldest
   * key when the cache is full, then appends.
   */
  function MemoCall<A(!new), V>(cache: OMap<string, V>, args: A, key: A -> string, func: A -> V, maxCacheSize: int): (r: (V, OMap<string, V>))
    ensures Has(cache, key(args)) ==> r == (Get(cache, key(args)).value, cache)
    ensures !Has(cache, key(args)) ==> r.0 == func(args)
    ensures !Has(cache, key(args)) && |cache| >= maxCacheSize && |cache| > 0 ==> Keys(r.1) == Keys(cache)[1..] + [key(args)]
    ensures !Has(cache, key(args)) && |cache| < maxCacheSize ==> Keys(r.1) == Keys(cache) + [key(args)]
    ensures !Has(cache, key(args)) ==> |r.1| > 0 && r.1[|r.1| - 1] == Entry(key(args), func(args))
    ensures forall e :: e in r.1 ==> e in cache || e == Entry(key(args), func(args))
    ensures DistinctKeys(cache) ==> DistinctKeys(r.1)
    ensures |cache| <= MaxI(maxCacheSize, 1) ==> |r.1| <= MaxI(maxCacheSize, 1)
  {
    var k := key(args);
    if Has(cache, k) then (Get(cache, k).value, cache)
    else
      var kept := if |cache| >= maxCacheSize && |cache| > 0 then cache[1..] else cache;
      assert Keys(kept) == if |cache| >= maxCacheSize && |cache| > 0 then Keys(cache)[1..] else Keys(cache);
      assert !Has(kept, k) by {
        HasIff(kept, k);
        HasIff(cache, k);
      }
      var v := func(args);
      var next := Set(kept, k, v);
      assert DistinctKeys(cache) ==> DistinctKeys(kept);
      (v, next)
  }

  /** Every cached value is what `func` gives for any arguments with that entry's key. */
  ghost predicate Faithful<A(!new), V>(cache: OMap<string, V>, key: A -> string, func: A -> V) {
    forall i, a :: 0 <= i < |cache| && key(a) == cache[i].key ==> cache[i].value == func(a)
  }

  /** Arguments with the same key text get the same value from `func`. */
  ghost predicate Coherent<A(!new), V>(key: A -> string, func: A -> V) {
    forall a, a' :: key(a) == key(a') ==> func(a) == func(a')
  }

  /**
   * Memoization is transparent when the key text determines the value: a faithful cache
   * answers what `func` would, and stays faithful.
   */
  lemma MemoTransparent<A(!new), V>(cache: OMap<string, V>, args: A, key: A -> string, func: A -> V, maxCacheSize: int)
    requires Coherent(key, func)
    requires Faithful(cache, key, func)
    ensures MemoCall(cache, args, key, func, maxCacheSize).0 == func(args)
    ensures Faithful(MemoCall(cache, args, key, func, maxCacheSize).1, key, func)
  {
    var r := MemoCall(cache, args, key, func, maxCacheSize);
    if Has(cache, key(args)) {
      var i := Find(cache, key(args));
      assert cache[i].key == key(args);
    }
  }

  /**
   * Two arguments with the same key text but different values are confused: after a call on
   * the first, a call on the second answers the first's value.
   */
  lemma MemoCollision<A(!new), V>(args: A, args': A, key: A -> string, func: A -> V, maxCacheSize: int)
    requires key(args) == key(args') && func(args) != func(args')
    ensures var c := MemoCall([], args, key, func, maxCacheSize).1;
      MemoCall(c, args', key, func, maxCacheSize).0 == func(args) != func(args')
  {
    var c := MemoCall([], args, key, func, maxCacheSize).1;
    assert c[0] == Entry(key(args), func(args));
    assert Has(c, key(args')) by { HasIff(c, key(args')); }
  }

  /** Calls on a run of arguments, threading the cache. */
  function MemoRun<A(!new), V>(cache: OMap<string, V>, calls: seq<A>, key: A -> string, func: A -> V, maxCacheSize: int): OMap<string, V>
    decreases |calls|
  {
    if |calls| == 0 then cache else MemoRun(MemoCall(cache, calls[0], key, func, maxCacheSize).1, calls[1..], key, func, maxCacheSize)
  }

  /** From a cache within bounds, any run of calls keeps at most max(maxCacheSize, 1) distinct keys, all faithful. */
  lemma {:induction false} MemoRunBounded<A(!new), V>(cache: OMap<string, V>, calls: seq<A>, key: A -> string, func: A -> V, maxCacheSize: int)
    requires Coherent(key, func)
    requires |cache| <= MaxI(maxCacheSize, 1) && DistinctKeys(cache) && Faithful(cache, key, func)
    ensures var c := MemoRun(cache, calls, key, func, maxCacheSize);
      |c| <= MaxI(maxCacheSize, 1) && DistinctKeys(c) && Faithful(c, key, func)
    decreases |calls|
  {
    if |calls| > 0 {
      MemoTransparent(cache, calls[0], key, func, maxCacheSize);
      MemoRunBounded(MemoCall(cache, calls[0], key, func, maxCacheSize).1, calls[1..], key, func, maxCacheSize);
    }
  }

  // ---------------------------------------------------------------- image box

  const DefaultMaxWidth := 1920
  const DefaultMaxHeight := 1080

  datatype Size = Size(width: int, height: int)

  /**
   * `calculateDimensions`: a size inside the box is kept; a larger one is scaled by the
   * smaller of the two ratios and each side rounded. A zero side gives an infinite ratio,
   * which the minimum never picks.
   */
  function CalculateDimensions(width: nat, height: nat, maxWidth: nat, maxHeight: nat): (r: Size)
    requires maxWidth > 0 && maxHeight > 0
    ensures width <= maxWidth && height <= maxHeight ==> r == Size(width, height)
    ensures 0 <= r.width <= maxWidth && 0 <= r.height <= maxHeight
    ensures !(width <= maxWidth && height <= maxHeight) ==> r.width == maxWidth || r.height == maxHeight
  {
    if width <= maxWidth && height <= maxHeight then Size(width, height)
    else
      var ratio := FitRatio(width, height, maxWidth, maxHeight);
      Size(Round(width as real * ratio), Round(height as real * ratio))
  }

  /** `Math.min(maxWidth / width, maxHeight / height)` with x / 0 read as +infinity. */
  function FitRatio(width: nat, height: nat, maxWidth: nat, maxHeight: nat): (ratio: real)
    requires maxWidth > 0 && maxHeight > 0
    requires width > maxWidth || height > maxHeight
    ensures ratio > 0.0
    ensures width as real * ratio <= maxWidth as real && height as real * ratio <= maxHeight as real
    ensures width as real * ratio == maxWidth as real || height as real * ratio == maxHeight as real
  {
    var w := width as real;
    var h := height as real;
    if width == 0 then maxHeight as real / h
    else if height == 0 then maxWidth as real / w
    else
      var rw := maxWidth as real / w;
      var rh := maxHeight as real / h;
      if rw <= rh then
        assert h * rw <= h * rh;
        rw
      else
        assert w * rh <= w * rw;
        rh
  }

  /** Scaling keeps the aspect ratio up to the rounding of the two sides. */
  lemma DimensionsKeepAspect(width: nat, height: nat, maxWidth: nat, maxHeight: nat)
    requires maxWidth > 0 && maxHeight > 0
    requires width > maxWidth || height > maxHeight
    ensures var r := CalculateDimensions(width, height, maxWidth, maxHeight);
      var skew := r.width as real * height as real - r.height as real * width as real;
      -(width + height) as real / 2.0 <= skew <= (width + height) as real / 2.0
  {
    var ratio := FitRatio(width, height, maxWidth, maxHeight);
    var w := width as real;
    var h := height as real;
    var a, b := Round(w * ratio), Round(h * ratio);
    assert CalculateDimensions(width, height, maxWidth, maxHeight) == Size(a, b);
    RoundingSkew(w, h, ratio, a, b);
    assert -(width + height) as real / 2.0 == -(w + h) / 2.0;
  }

  /** Two sides scaled by one ratio and rounded to within a half keep their cross products within half the perimeter. */
  lemma RoundingSkew(w: real, h: real, ratio: real, a: int, b: int)
    requires w >= 0.0 && h >= 0.0
    requires w * ratio - 0.5 < a as real <= w * ratio + 0.5
    requires h * ratio - 0.5 < b as real <= h * ratio + 0.5
    ensures -(w + h) / 2.0 <= a as real * h - b as real * w <= (w + h) / 2.0
  {
    var ew := a as real - w * ratio;
    var eh := b as real - h * ratio;
    assert a as real * h - b as real * w == ew * h - eh * w;
    HalfBound(ew, h);
    HalfBound(eh, w);
  }

  lemma HalfBound(e: real, x: real)
    requires -0.5 <= e <= 0.5 && x >= 0.0
    ensures -0.5 * x <= e * x <= 0.5 * x
  {
    assert (e + 0.5) * x >= 0.0;
    assert (0.5 - e) * x >= 0.0;
  }

  // ---------------------------------------------------------------- virtual scroll

  datatype Range = Range(start: int, end: int)

  /**
   * The rendered index range of a virtual-scroll list: from `overscan` rows above the first
   * visible row to `overscan` rows below the last, clamped to the list.
   */
  function VisibleRange(scrollTop: real, itemHeight: real, containerHeight: real, overscan: int, count: nat): (r: Range)
    requires itemHeight > 0.0
    ensures r.start >= 0 && r.end <= count - 1
    ensures r.start == MaxI(0, Floor(scrollTop / itemHeight) - overscan)
    ensures r.end == MinI(count - 1, Ceil((scrollTop + containerHeight) / itemHeight) + overscan)
  {
    Range(MaxI(0, Floor(scrollTop / itemHeight) - overscan),
          MinI(count - 1, Ceil((scrollTop + containerHeight) / itemHeight) + overscan))
  }

  /** Every row that overlaps the viewport is in the rendered range, whatever the overscan (when not negative). */
  lemma VisibleRowsRendered(scrollTop: real, itemHeight: real, containerHeight: real, overscan: nat, count: nat, k: nat)
    requires itemHeight > 0.0
    requires k < count
    requires k as real * itemHeight < scrollTop + containerHeight
    requires (k + 1) as real * itemHeight > scrollTop
    ensures var r := VisibleRange(scrollTop, itemHeight, containerHeight, overscan, count);
      r.start <= k <= r.end
  {
    var top := scrollTop / itemHeight;
    var bottom := (scrollTop + containerHeight) / itemHeight;
    assert k as real < bottom by {
      assert k as real * itemHeight < bottom * itemHeight;
    }
    assert (k + 1) as real > top by {
      assert (k + 1) as real * itemHeight > top * itemHeight;
    }
  }

  datatype VirtualScroll<T> = VirtualScroll(visibleItems: seq<T>, totalHeight: real, offsetY: real)

  /** `useVirtualScroll` at a scroll offset: the rendered items, the full height, and the top offset of the first rendered item. */
  function UseVirtualScroll<T>(items: seq<T>, itemHeight: real, containerHeight: real, overscan: int, scrollTop: real): (v: VirtualScroll<T>)
    requires itemHeight > 0.0
    ensures var r := VisibleRange(scrollTop, itemHeight, containerHeight, overscan, |items|);
      && v.offsetY == r.start as real * itemHeight
      && (r.start <= r.end ==> v.visibleItems == items[r.start..r.end + 1])
      && (r.start > r.end >= -1 ==> v.visibleItems == [])
    ensures v.totalHeight == |items| as real * itemHeight
    ensures v.offsetY >= 0.0 && |v.visibleItems| <= |items|
  {
    var r := VisibleRange(scrollTop, itemHeight, containerHeight, overscan, |items|);
    VirtualScroll(JsSlice(items, r.start, r.end + 1), |items| as real * itemHeight, r.start as real * itemHeight)
  }
}

=== FILE: property_keys.dfy ===
/**
 * The order in which `Object.keys`, `Object.values` and `Object.entries` list a plain
 * object's own string keys (OrdinaryOwnPropertyKeys, section 10.1.11.1 of ECMAScript
 * 2020): the array indices first, in ascending numeric order, then every other key in
 * the order it was created. `OrderedMap` records creation order; `PropertyOrder`
 * turns it into listing order.
 */
module PropertyKeys {
  import opened OrderedMap
  import JsSort

  predicate IsDigit(c: char) {
    '0' <= c <= '9'
  }

  /** The number a string of decimal digits denotes. */
  function DigitsValue(s: string): nat
    requires forall i :: 0 <= i < |s| ==> IsDigit(s[i])
    decreases |s|
  {
    if |s| == 0 then 0
    else
      assert IsDigit(s[|s| - 1]);
      DigitsValue(s[..|s| - 1]) * 10 + (s[|s| - 1] as int - '0' as int)
  }

  /** The largest array index, 2^32 - 2. */
  const MaxArrayIndex: nat := 0xFFFF_FFFE

  /** An array index: the canonical decimal form (no sign, no leading zero) of an integer up to 2^32 - 2. */
  predicate IsArrayIndex(k: string) {
    && |k| > 0
    && (forall i :: 0 <= i < |k| ==> IsDigit(k[i]))
    && (k[0] != '0' || |k| == 1)
    && DigitsValue(k) <= MaxArrayIndex
  }

  /** The rank every key that is not an array index shares; it lies below every index's rank. */
  const NamedRank: real := -(MaxArrayIndex as real) - 1.0

  /** The sort key: larger for smaller indices, and lowest for the other keys. */
  function Rank<V>(e: Entry<string, V>): real {
    if IsArrayIndex(e.key) then -(DigitsValue(e.key) as real) else NamedRank
  }

  /** The entries whose key is not an array index, in their order in `m`. */
  function Named<V>(m: OMap<string, V>): OMap<string, V>
    decreases |m|
  {
    if |m| == 0 then []
    else (if IsArrayIndex(m[0].key) then [] else [m[0]]) + Named(m[1..])
  }

  /** `Named` is the sort's run of entries of rank `NamedRank`. */
  lemma {:induction false} NamedIsLowestRank<V>(m: OMap<string, V>)
    ensures Named(m) == JsSort.WithKey(m, Rank, NamedRank)
    decreases |m|
  {
    if |m| > 0 {
      NamedIsLowestRank(m[1..]);
    }
  }

  /**
   * The listing order of an object whose keys were created in the order of `m`: the same
   * entries, array indices first and ascending, the other keys after them in creation order.
   */
  function PropertyOrder<V>(m: OMap<string, V>): (r: OMap<string, V>)
    ensures multiset(r) == multiset(m)
    ensures forall i, j :: 0 <= i < j < |r| && IsArrayIndex(r[j].key) ==>
      IsArrayIndex(r[i].key) && DigitsValue(r[i].key) <= DigitsValue(r[j].key)
    ensures Named(r) == Named(m)
  {
    var r := JsSort.Sort(m, Rank);
    IndicesAscendFirst(r);
    JsSort.SortStable(m, Rank, NamedRank);
    NamedIsLowestRank(m);
    NamedIsLowestRank(r);
    r
  }

  /** Sorting by decreasing rank puts the indices first, in ascending numeric order. */
  lemma IndicesAscendFirst<V>(r: OMap<string, V>)
    requires JsSort.Descending(r, Rank)
    ensures forall i, j :: 0 <= i < j < |r| && IsArrayIndex(r[j].key) ==>
      IsArrayIndex(r[i].key) && DigitsValue(r[i].key) <= DigitsValue(r[j].key)
  {
    forall i, j | 0 <= i < j < |r| && IsArrayIndex(r[j].key)
      ensures IsArrayIndex(r[i].key) && DigitsValue(r[i].key) <= DigitsValue(r[j].key)
    {
      assert Rank(r[i]) >= Rank(r[j]);
    }
  }

  /** Listing keeps every entry: membership is unchanged. */
  lemma PropertyOrderMembers<V>(m: OMap<string, V>)
    ensures forall e :: e in PropertyOrder(m) <==> e in m
  {
    var r := PropertyOrder(m);
    assert forall e :: e in r <==> e in multiset(r);
    assert forall e :: e in m <==> e in multiset(m);
  }

  /** A record whose only array-index key is `e`'s lists `e` first. */
  lemma SoleIndexFirst<V>(m: OMap<string, V>, e: Entry<string, V>)
    requires DistinctKeys(m) && e in m && IsArrayIndex(e.key)
    requires forall f :: f in m && IsArrayIndex(f.key) ==> f.key == e.key
    ensures |PropertyOrder(m)| > 0 && PropertyOrder(m)[0] == e
  {
    var r := PropertyOrder(m);
    PropertyOrderMembers(m);
    var j :| 0 <= j < |r| && r[j] == e;
    if j > 0 {
      assert 0 < j < |r| && IsArrayIndex(r[j].key);
    }
    assert IsArrayIndex(r[0].key);
    assert r[0] in multiset(r);
    assert r[0] in m;
    GetOfMember(m, r[0]);
    GetOfMember(m, e);
  }

  /** No key of `m` is an array index. */
  predicate NoIndices<V>(m: OMap<string, V>) {
    forall i :: 0 <= i < |m| ==> !IsArrayIndex(m[i].key)
  }

  lemma PermutationKeepsNoIndices<V>(m: OMap<string, V>, r: OMap<string, V>)
    requires multiset(r) == multiset(m) && NoIndices(m)
    ensures NoIndices(r)
  {
    forall i | 0 <= i < |r| ensures !IsArrayIndex(r[i].key) {
      assert r[i] in multiset(m);
      var j :| 0 <= j < |m| && m[j] == r[i];
    }
  }

  /** Without array-index keys, listing order is creation order. */
  lemma NoIndicesKeepOrder<V>(m: OMap<string, V>)
    requires NoIndices(m)
    ensures PropertyOrder(m) == m
  {
    var r := PropertyOrder(m);
    PermutationKeepsNoIndices(m, r);
    NamedAll(m);
    NamedAll(r);
  }

  lemma {:induction false} NamedAll<V>(m: OMap<string, V>)
    requires NoIndices(m)
    ensures Named(m) == m
    decreases |m|
  {
    if |m| > 0 {
      NamedAll(m[1..]);
    }
  }

  /** An index created after a named key is still listed before it. */
  lemma IndexBeforeName<V>(m: OMap<string, V>)
    requires |m| == 2 && !IsArrayIndex(m[0].key) && IsArrayIndex(m[1].key)
    ensures PropertyOrder(m) == [m[1], m[0]]
  {
    var first: OMap<string, V> := [m[0]];
    assert m[..1] == first && first[..0] == [];
    assert JsSort.Sort(first, Rank) == first;
    assert Rank(m[1]) > Rank(m[0]);
  }
}

=== FILE: replicate.dfy ===
/**
 * The Replicate image service as the client sees it: the prompt builder, the scene
 * variations, the reading of a finished prediction, the polling bound, the mapping of
 * failures to service error codes with bounded retries, and the batch over four prompts.
 * Every network answer is an input: an `Attempt` says what creating the prediction and
 * each later poll returned.
 */
module Replicate {
  import opened Wrappers
  import opened JsStrings
  import opened JsMath
  import opened Types
  import OrderedMap
  import PropertyKeys

  const MaxRetries: nat := 3
  const BaseDelay: int := 1000
  const MaxDelay: int := 10000
  const MaxPollAttempts: nat := 60

  /** `exponentialBackoff`: the wait before retry `attempt`, doubling from one second up to ten. */
  function ExponentialBackoff(attempt: nat): (d: int)
    ensures BaseDelay <= d <= MaxDelay
    ensures d == MaxDelay || d == BaseDelay * Pow2(attempt)
    ensures d < MaxDelay ==> d == BaseDelay * Pow2(attempt)
  {
    MinI(BaseDelay * Pow2(attempt), MaxDelay)
  }

  /** Later retries never wait less. */
  lemma BackoffMonotone(a: nat, b: nat)
    requires a <= b
    ensures ExponentialBackoff(a) <= ExponentialBackoff(b)
  {
    Pow2Monotone(a, b);
  }

  /** The waits the three retries can take: one, two and four seconds; from the fourth on, the cap. */
  lemma BackoffSchedule(a: nat)
    ensures ExponentialBackoff(0) == 1000 && ExponentialBackoff(1) == 2000 && ExponentialBackoff(2) == 4000
    ensures ExponentialBackoff(3) == 8000
    ensures a >= 4 ==> ExponentialBackoff(a) == MaxDelay
  {
    assert Pow2(3) == 8;
    if a >= 4 {
      Pow2Monotone(4, a);
      assert Pow2(4) == 16;
    }
  }

  // ---------------------------------------------------------------- prompt

  const StyleSeparators: set<char> := {',', ';'}
  const QualitySentence := "Professional product photography, photorealistic, high quality, detailed, commercial-grade image."

  /** The brand values used for styling: split on ',' or ';', trimmed, empty ones dropped, at most the first three. */
  function StyleValues(brandValues: string): (vs: seq<string>)
    ensures |vs| <= 3
    ensures forall i :: 0 <= i < |vs| ==> IsToken(vs[i], StyleSeparators)
    ensures var all := ListValues(brandValues, StyleSeparators);
      |vs| == MinI(|all|, 3) && vs == all[..|vs|]
  {
    var all := ListValues(brandValues, StyleSeparators);
    if |all| <= 3 then all else all[..3]
  }

  /** "Create a professional product image of <product>. ", with no stand-in for an empty name. */
  function ProductSentence(b: BrandInfo): string {
    "Create a professional product image of " + b.productName + ". "
  }

  /** "This is a <description in lower case>. ", present exactly when the description is not empty. */
  function DescriptionSentence(b: BrandInfo): (r: string)
    ensures r == "" <==> b.productDescription == ""
    ensures r != "" ==> r == "This is a " + Lower(b.productDescription) + ". "
  {
    if b.productDescription != "" then "This is a " + Lower(b.productDescription) + ". " else ""
  }

  /** "Brand: <brand>. ", present exactly when the brand name is not empty. */
  function BrandSentence(b: BrandInfo): (r: string)
    ensures r == "" <==> b.brandName == ""
    ensures r != "" ==> r == "Brand: " + b.brandName + ". "
  {
    if b.brandName != "" then "Brand: " + b.brandName + ". " else ""
  }

  /** "Design style: <v1, v2, v3>. ", present exactly when some value survives the cleaning. */
  function StyleSentence(b: BrandInfo): (r: string)
    ensures r != "" ==> r == "Design style: " + Join(StyleValues(b.brandValues), ", ") + ". "
  {
    if b.brandValues != "" && StyleValues(b.brandValues) != [] then
      "Design style: " + Join(StyleValues(b.brandValues), ", ") + ". "
    else ""
  }

  /** The style sentence is left out exactly when no style value survives the cleaning. */
  lemma StyleSentencePresent(b: BrandInfo)
    ensures StyleSentence(b) == "" <==> StyleValues(b.brandValues) == []
  {
  }

  /** Everything before the scene sentence: it depends on the brand only. */
  function PromptHead(b: BrandInfo): (h: string)
    ensures StartsWith(h, ProductSentence(b))
  {
    var p := ProductSentence(b);
    var h := p + (DescriptionSentence(b) + BrandSentence(b) + StyleSentence(b));
    assert h[..|p|] == p;
    h
  }

  /**
   * The head reads as the product sentence, then the description, brand and style
   * sentences, each at its own offset.
   */
  lemma PromptHeadParts(b: BrandInfo)
    ensures var h := PromptHead(b);
      var p, d, n := |ProductSentence(b)|, |DescriptionSentence(b)|, |BrandSentence(b)|;
      && |h| == p + d + n + |StyleSentence(b)|
      && h[..p] == ProductSentence(b)
      && h[p..p + d] == DescriptionSentence(b)
      && h[p + d..p + d + n] == BrandSentence(b)
      && h[p + d + n..] == StyleSentence(b)
  {
    Parts4(ProductSentence(b), DescriptionSentence(b), BrandSentence(b), StyleSentence(b));
  }

  /** "Scene: <scene type in lower case>. " */
  function SceneSentence(sceneType: string): (r: string)
    ensures |r| == |sceneType| + 9
    ensures r[..7] == "Scene: " && r[7..|r| - 2] == Lower(sceneType) && r[|r| - 2..] == ". "
  {
    Parts4("Scene: ", Lower(sceneType), ". ", "");
    "Scene: " + (Lower(sceneType) + ". " + "")
  }

  /**
   * `buildReplicatePrompt`: the brand's head, then the scene sentence, then the fixed
   * quality sentence, and nothing else.
   */
  function BuildReplicatePrompt(b: BrandInfo, sceneType: string): (r: string)
    ensures StartsWith(r, PromptHead(b))
    ensures r[|PromptHead(b)|..] == SceneSentence(sceneType) + QualitySentence
  {
    var head := PromptHead(b);
    var r := head + (SceneSentence(sceneType) + QualitySentence);
    assert r[..|head|] == head;
    r
  }

  /** The image dimensions play no part in the prompt; the scene type changes only its tail. */
  lemma PromptIgnoresDimensions(b: BrandInfo, dims: string, sceneType: string)
    ensures BuildReplicatePrompt(b.(imageDimensions := dims), sceneType) == BuildReplicatePrompt(b, sceneType)
  {
  }

  /** Unlike the form helper's prompt, an empty product name is not replaced by "the product". */
  lemma EmptyProductNameKept(b: BrandInfo, sceneType: string)
    requires b.productName == ""
    ensures StartsWith(BuildReplicatePrompt(b, sceneType), "Create a professional product image of . ")
  {
    StartsWithTrans(BuildReplicatePrompt(b, sceneType), PromptHead(b), ProductSentence(b));
    EmptyProductSentence(b);
  }

  lemma EmptyProductSentence(b: BrandInfo)
    requires b.productName == ""
    ensures ProductSentence(b) == "Create a professional product image of . "
  {
  }

  /**
   * Only the first three values reach the prompt, and ';' separates like ',':
   * for clean values a, b, c, d, the text "a,b;c,d" styles with a, b and c.
   */
  lemma StyleKeepsFirstThree(a: string, b: string, c: string, d: string)
    requires IsToken(a, StyleSeparators) && IsToken(b, StyleSeparators)
    requires IsToken(c, StyleSeparators) && IsToken(d, StyleSeparators)
    ensures StyleValues(a + [','] + (b + [';'] + (c + [','] + d))) == [a, b, c]
  {
    var s := a + [','] + (b + [';'] + (c + [','] + d));
    var parts := [a, b, c, d];
    SplitFour(a, b, c, d, StyleSeparators);
    assert forall i :: 0 <= i < 4 ==> IsToken(parts[i], StyleSeparators);
    ListOfTokens(s, StyleSeparators);
    assert parts[..3] == [a, b, c];
  }

  lemma SplitFour(a: string, b: string, c: string, d: string, seps: set<char>)
    requires NoneIn(a, seps) && NoneIn(b, seps) && NoneIn(c, seps) && NoneIn(d, seps)
    requires ',' in seps && ';' in seps
    ensures Split(a + [','] + (b + [';'] + (c + [','] + d)), seps) == [a, b, c, d]
  {
    SplitWhole(d, seps);
    SplitCons(c, ',', d, seps);
    SplitCons(b, ';', c + [','] + d, seps);
    SplitCons(a, ',', b + [';'] + (c + [','] + d), seps);
  }

  const SceneTypes: seq<string> := [
    "Urban cityscape background with modern architecture and dynamic lighting",
    "Natural outdoor environment with dramatic lighting and organic elements",
    "Minimalist studio setting with clean lines, shadows, and sophisticated composition",
    "Dynamic lifestyle scene with people, movement, and contemporary urban setting"
  ]

  /** `generateSceneVariations`: one prompt per scene type, in the fixed order. */
  function GenerateSceneVariations(b: BrandInfo): (ps: seq<string>)
    ensures |ps| == 4
    ensures forall i :: 0 <= i < 4 ==> ps[i] == BuildReplicatePrompt(b, SceneTypes[i])
  {
    seq(4, i requires 0 <= i < 4 => BuildReplicatePrompt(b, SceneTypes[i]))
  }

  /** The scene types have four different lengths. */
  lemma SceneTypeLengths()
    ensures |SceneTypes| == 4
    ensures |SceneTypes[0]| == 72 && |SceneTypes[1]| == 71 && |SceneTypes[2]| == 82 && |SceneTypes[3]| == 77
  {
  }

  /** Each prompt is the brand's head, the scene sentence and the quality sentence, so its length follows its scene type. */
  lemma VariationLengths(b: BrandInfo)
    ensures var ps := GenerateSceneVariations(b);
      |ps[1]| < |ps[0]| < |ps[3]| < |ps[2]|
  {
    SceneTypeLengths();
  }

  /** Four texts of four different lengths are pairwise different. */
  lemma DistinctByLength(ps: seq<string>)
    requires |ps| == 4 && |ps[1]| < |ps[0]| < |ps[3]| < |ps[2]|
    ensures forall i, j :: 0 <= i < j < 4 ==> ps[i] != ps[j]
  {
    forall i, j | 0 <= i < j < 4 ensures ps[i] != ps[j] {
      assert |ps[i]| != |ps[j]|;
    }
  }

  /** The four prompts are pairwise different, whatever the brand: their scene types differ in length. */
  lemma VariationsDistinct(b: BrandInfo)
    ensures forall i, j :: 0 <= i < j < 4 ==> GenerateSceneVariations(b)[i] != GenerateSceneVariations(b)[j]
  {
    VariationLengths(b);
    DistinctByLength(GenerateSceneVariations(b));
  }

  /** The text sent to the model: the prompt, a space, and the aspect-ratio sentence for the dimensions. */
  function EnhancedPrompt(prompt: string, dimensions: string): (r: string)
    ensures StartsWith(r, prompt + " ")
    ensures dimensions !in {"square", "portrait", "landscape"} ==> r == prompt + " undefined"
  {
    var instruction := match dimensions
      case "square" => "The image should be in a 1:1 (square) aspect ratio."
      case "portrait" => "The image should be in a 9:16 (portrait) aspect ratio."
      case "landscape" => "The image should be in a 16:9 (landscape) aspect ratio."
      case _ => "undefined";
    var r := prompt + " " + instruction;
    assert r[..|prompt + " "|] == prompt + " ";
    r
  }

  // ---------------------------------------------------------------- predictions

  /** The JSON values a prediction's output and error fields can hold. */
  datatype JsValue =
    | JsUndefined
    | JsNull
    | JsBool(b: bool)
    | JsNumber(n: real)
    | JsString(s: string)
    | JsArray(items: seq<JsValue>)
    | JsObject(props: seq<(string, JsValue)>)

  /** JavaScript truthiness (NaN is not among the modelled numbers). */
  predicate Truthy(v: JsValue) {
    match v
    case JsUndefined => false
    case JsNull => false
    case JsBool(b) => b
    case JsNumber(n) => n != 0.0
    case JsString(s) => s != ""
    case _ => true
  }

  /**
   * `v[key]` on an object parsed from JSON text: a name written twice holds the value
   * written last, as `JSON.parse` overwrites it.
   */
  function Prop(v: JsValue, key: string): JsValue {
    match v
    case JsObject(props) => Lookup(props, key)
    case _ => JsUndefined
  }

  /** Some property of the text is named `key`. */
  predicate Names(props: seq<(string, JsValue)>, key: string) {
    exists i :: 0 <= i < |props| && props[i].0 == key
  }

  function Lookup(props: seq<(string, JsValue)>, key: string): (r: JsValue)
    ensures !Names(props, key) ==> r == JsUndefined
    ensures forall i :: 0 <= i < |props| && props[i].0 == key && (forall j :: i < j < |props| ==> props[j].0 != key) ==> r == props[i].1
    decreases |props|
  {
    if |props| == 0 then JsUndefined
    else if props[|props| - 1].0 == key then props[|props| - 1].1
    else
      var init := props[..|props| - 1];
      assert forall i :: 0 <= i < |init| ==> init[i] == props[i];
      Lookup(init, key)
  }

  /**
   * The object `JSON.parse` builds: each name once, at the place it was first written
   * (creation order), holding the value written last.
   */
  function OwnProperties(props: seq<(string, JsValue)>): (m: OrderedMap.OMap<string, JsValue>)
    ensures OrderedMap.DistinctKeys(m)
    ensures forall k :: OrderedMap.Get(m, k) == if Names(props, k) then Some(Lookup(props, k)) else None
    decreases |props|
  {
    if |props| == 0 then []
    else
      var init := props[..|props| - 1];
      var last := props[|props| - 1];
      assert forall i :: 0 <= i < |init| ==> init[i] == props[i];
      assert forall k :: k != last.0 ==> (Names(props, k) <==> Names(init, k));
      OrderedMap.Set(OwnProperties(init), last.0, last.1)
  }

  /** `Object.values(v)`: an object's values in property order; an array's values are its elements. */
  function ObjectValues(v: JsValue): seq<JsValue> {
    match v
    case JsObject(props) => OrderedMap.Values(PropertyKeys.PropertyOrder(OwnProperties(props)))
    case JsArray(items) => items
    case _ => []
  }

  /** The values `Object.values` lists are exactly the values the object's names hold. */
  lemma ObjectValuesHeld(props: seq<(string, JsValue)>)
    ensures forall v :: v in ObjectValues(JsObject(props)) <==> exists k :: Names(props, k) && Lookup(props, k) == v
  {
    var m := OwnProperties(props);
    var listed := PropertyKeys.PropertyOrder(m);
    var vals := ObjectValues(JsObject(props));
    PropertyKeys.PropertyOrderMembers(m);
    forall v | v in vals ensures exists k :: Names(props, k) && Lookup(props, k) == v {
      var i :| 0 <= i < |vals| && vals[i] == v;
      assert listed[i] in listed;
      OrderedMap.GetOfMember(m, listed[i]);
      assert OrderedMap.Get(m, listed[i].key) == Some(v);
    }
    forall v | exists k :: Names(props, k) && Lookup(props, k) == v ensures v in vals {
      var k :| Names(props, k) && Lookup(props, k) == v;
      var e := OrderedMap.Entry(k, v);
      assert OrderedMap.Get(m, k) == Some(v);
      var j :| 0 <= j < |m| && m[j] == e;
      assert e in listed;
      var i :| 0 <= i < |listed| && listed[i] == e;
      assert vals[i] == v;
    }
  }

  predicate IsHttpString(v: JsValue) {
    v.JsString? && StartsWith(v.s, "http")
  }

  /** The first value that is a string starting with "http". */
  function FirstHttp(vals: seq<JsValue>): (r: Option<JsValue>)
    ensures r.None? <==> forall i :: 0 <= i < |vals| ==> !IsHttpString(vals[i])
    ensures r.Some? ==> exists i :: (0 <= i < |vals| && vals[i] == r.value && IsHttpString(vals[i]) &&
      forall j :: 0 <= j < i ==> !IsHttpString(vals[j]))
  {
    if |vals| == 0 then None
    else if IsHttpString(vals[0]) then Some(vals[0])
    else
      var r := FirstHttp(vals[1..]);
      assert forall j :: 1 <= j < |vals| ==> vals[j] == vals[1..][j - 1];
      r
  }

  datatype ServiceError = ServiceError(message: string, status: int, code: string)

  const NoOutputError := ServiceError("No image data received from Replicate", 500, "NO_OUTPUT")
  const UnexpectedFormatError := ServiceError("Unexpected output format from Nano Banana model", 500, "UNEXPECTED_OUTPUT_FORMAT")
  const TimeoutError := ServiceError("Generation timeout - took longer than expected", 408, "TIMEOUT")
  const CanceledError := ServiceError("Generation was canceled", 400, "GENERATION_CANCELED")
  const UnavailableError := ServiceError("Replicate service temporarily unavailable. Please try again.", 500, "SERVICE_UNAVAILABLE")
  const NetworkError := ServiceError("Network error. Please check your internet connection.", 0, "NETWORK_ERROR")
  const InvalidKeyError := ServiceError("Invalid API key. Please check your Replicate API token.", 401, "INVALID_API_KEY")
  const RateLimitError := ServiceError("Rate limit exceeded. Please wait before making another request.", 429, "RATE_LIMIT_EXCEEDED")

  /** Reading the image out of a finished prediction's output, whatever shape the model returned. */
  function ExtractImageUrl(output: JsValue): (r: Result<JsValue, ServiceError>)
    ensures !Truthy(output) ==> r == Failure(NoOutputError)
    ensures output.JsArray? && |output.items| > 0 ==> r == Success(output.items[0])
    ensures output.JsString? && output.s != "" ==> r == Success(output)
    ensures output.JsNumber? || output.JsBool? ==> r == Failure(NoOutputError)
    ensures output == JsArray([]) ==> r == Failure(UnexpectedFormatError)
    ensures output.JsObject? && Truthy(Prop(output, "url")) ==> r == Success(Prop(output, "url"))
    ensures output.JsObject? && !Truthy(Prop(output, "url")) && Truthy(Prop(output, "image")) ==> r == Success(Prop(output, "image"))
    ensures output.JsObject? && !Truthy(Prop(output, "url")) && !Truthy(Prop(output, "image")) ==>
      (r.Failure? <==> forall k :: Names(output.props, k) ==> !IsHttpString(Lookup(output.props, k)))
    ensures output.JsObject? && !Truthy(Prop(output, "url")) && !Truthy(Prop(output, "image")) && r.Success? ==>
      IsHttpString(r.value) && exists k :: Names(output.props, k) && Lookup(output.props, k) == r.value
    ensures r.Failure? ==> r.error == NoOutputError || r.error == UnexpectedFormatError
  {
    if !Truthy(output) then Failure(NoOutputError)
    else if output.JsArray? && |output.items| > 0 then Success(output.items[0])
    else if output.JsString? then Success(output)
    else if output.JsObject? || output.JsArray? then
      if Truthy(Prop(output, "url")) then Success(Prop(output, "url"))
      else if Truthy(Prop(output, "image")) then Success(Prop(output, "image"))
      else FirstUrlValue(output)
    else Failure(NoOutputError)
  }

  /** The first value `Object.values` lists that is an http string, or UNEXPECTED_OUTPUT_FORMAT. */
  function FirstUrlValue(output: JsValue): (r: Result<JsValue, ServiceError>)
    ensures r.Failure? ==> r.error == UnexpectedFormatError
    ensures output == JsArray([]) ==> r.Failure?
    ensures output.JsObject? ==>
      (r.Failure? <==> forall k :: Names(output.props, k) ==> !IsHttpString(Lookup(output.props, k)))
    ensures output.JsObject? && r.Success? ==>
      IsHttpString(r.value) && exists k :: Names(output.props, k) && Lookup(output.props, k) == r.value
  {
    var vals := ObjectValues(output);
    if output.JsObject? then ObjectValuesHeld(output.props); FirstHttpResult(vals)
    else FirstHttpResult(vals)
  }

  function FirstHttpResult(vals: seq<JsValue>): (r: Result<JsValue, ServiceError>)
    ensures r.Failure? <==> forall v :: v in vals ==> !IsHttpString(v)
    ensures r.Failure? ==> r.error == UnexpectedFormatError
    ensures r.Success? ==> r.value in vals && IsHttpString(r.value)
  {
    match FirstHttp(vals)
    case Some(v) => Success(v)
    case None => Failure(UnexpectedFormatError)
  }

  /** An object without `url` or `image` whose names hold a single http string yields that string. */
  lemma SoleUrlValue(output: JsValue, k: string)
    requires output.JsObject? && !Names(output.props, "url") && !Names(output.props, "image")
    requires Names(output.props, k) && IsHttpString(Lookup(output.props, k))
    requires forall k' :: Names(output.props, k') && IsHttpString(Lookup(output.props, k')) ==>
      Lookup(output.props, k') == Lookup(output.props, k)
    ensures ExtractImageUrl(output) == Success(Lookup(output.props, k))
  {
  }

  /** An example: an object with neither `url` nor `image` yields its http string, skipping the value before it. */
  lemma ExtractFindsUrlProperty(output: JsValue)
    requires output == JsObject([("id", JsString("abc")), ("out", JsString("https://x/y.png"))])
    ensures ExtractImageUrl(output) == Success(JsString("https://x/y.png"))
  {
    var props := output.props;
    assert !IsHttpString(JsString("abc")) by {
      assert "abc"[0] != "http"[0];
    }
    assert forall k :: Names(props, k) ==> k == "id" || k == "out";
    assert Lookup(props, "id") == JsString("abc");
    SoleUrlValue(output, "out");
  }

  /** Without `url` or `image`, a leading http string in `Object.values` order is the answer. */
  lemma FirstListedValue(output: JsValue)
    requires output.JsObject? && !Names(output.props, "url") && !Names(output.props, "image")
    requires |ObjectValues(output)| > 0 && IsHttpString(ObjectValues(output)[0])
    ensures ExtractImageUrl(output) == Success(ObjectValues(output)[0])
  {
  }

  /**
   * Without `url` or `image`, an object with a single array-index name lists that name's
   * value first, wherever it was written, so its http string is the answer even when a
   * value written before it is an http string too.
   */
  lemma OnlyIndexListedFirst(output: JsValue, k: string)
    requires output.JsObject? && !Names(output.props, "url") && !Names(output.props, "image")
    requires Names(output.props, k) && PropertyKeys.IsArrayIndex(k) && IsHttpString(Lookup(output.props, k))
    requires forall k' :: Names(output.props, k') && PropertyKeys.IsArrayIndex(k') ==> k' == k
    ensures ExtractImageUrl(output) == Success(Lookup(output.props, k))
  {
    var props := output.props;
    var own := OwnProperties(props);
    var e := OrderedMap.Entry(k, Lookup(props, k));
    assert OrderedMap.Get(own, k) == Some(e.value);
    forall f | f in own && PropertyKeys.IsArrayIndex(f.key) ensures f.key == k {
      OrderedMap.GetOfMember(own, f);
    }
    PropertyKeys.SoleIndexFirst(own, e);
    FirstListedValue(output);
  }

  /**
   * An example: an index key written after a named key is listed first, so its http string
   * wins even though the named key's value may be one too: `{"a": "http://x", "0": "http://y"}`
   * yields "http://y".
   */
  lemma IntegerKeyListedFirst(name: string, index: string, x: JsValue, y: JsValue)
    requires !PropertyKeys.IsArrayIndex(name) && PropertyKeys.IsArrayIndex(index)
    requires name != "url" && name != "image" && index != "url" && index != "image"
    requires IsHttpString(y)
    ensures ExtractImageUrl(JsObject([(name, x), (index, y)])) == Success(y)
  {
    var props := [(name, x), (index, y)];
    assert name != index;
    forall k | true ensures Names(props, k) <==> k == name || k == index {
      NamesOfTwo(props, k);
    }
    assert Lookup(props, index) == y;
    OnlyIndexListedFirst(JsObject(props), index);
  }

  lemma NamesOfTwo(props: seq<(string, JsValue)>, k: string)
    requires |props| == 2
    ensures Names(props, k) <==> props[0].0 == k || props[1].0 == k
  {
  }

  /** Of two `url` properties the one written last is read, as `JSON.parse` keeps it, whatever the first held. */
  lemma DuplicateUrlKeepsLast(first: JsValue, last: JsValue)
    requires Truthy(last)
    ensures ExtractImageUrl(JsObject([("url", first), ("url", last)])) == Success(last)
  {
  }

  datatype PredictionStatus = Starting | Processing | Succeeded | Failed | Canceled | Aborted

  datatype Prediction = Prediction(id: string, status: PredictionStatus, output: JsValue, error: JsValue)

  predicate Unsettled(s: PredictionStatus) {
    s == Starting || s == Processing
  }

  /** What an `await` can throw: a service error, another `Error` with its message, or a non-error value. */
  datatype Thrown = Service(err: ServiceError) | PlainError(message: string) | NonError

  /**
   * The polling loop: while the prediction is starting or processing, give up with TIMEOUT once
   * `MaxPollAttempts` polls have been made, otherwise fetch it again (`polls(n)` is the answer to poll n).
   */
  function Poll(p: Prediction, polls: nat -> Result<Prediction, Thrown>, n: nat): (r: Result<Prediction, Thrown>)
    ensures !Unsettled(p.status) ==> r == Success(p)
    ensures Unsettled(p.status) && n >= MaxPollAttempts ==> r == Failure(Service(TimeoutError))
    ensures r.Success? ==> !Unsettled(r.value.status)
    decreases if n <= MaxPollAttempts then MaxPollAttempts - n else 0
  {
    if !Unsettled(p.status) then Success(p)
    else if n >= MaxPollAttempts then Failure(Service(TimeoutError))
    else match polls(n)
      case Failure(t) => Failure(t)
      case Success(q) => Poll(q, polls, n + 1)
  }

  /** The number of polls the loop makes from poll `n` on. */
  function PollsMade(p: Prediction, polls: nat -> Result<Prediction, Thrown>, n: nat): (k: nat)
    ensures n <= MaxPollAttempts ==> k <= MaxPollAttempts - n
    ensures n >= MaxPollAttempts ==> k == 0
    decreases if n <= MaxPollAttempts then MaxPollAttempts - n else 0
  {
    if !Unsettled(p.status) || n >= MaxPollAttempts then 0
    else match polls(n)
      case Failure(_) => 1
      case Success(q) => 1 + PollsMade(q, polls, n + 1)
  }

  /** A prediction that never settles costs exactly sixty polls and then times out. */
  lemma {:induction false} NeverSettlingTimesOut(p: Prediction, polls: nat -> Result<Prediction, Thrown>, n: nat)
    requires n <= MaxPollAttempts
    requires Unsettled(p.status)
    requires forall k :: n <= k < MaxPollAttempts ==> polls(k).Success? && Unsettled(polls(k).value.status)
    ensures Poll(p, polls, n) == Failure(Service(TimeoutError))
    ensures PollsMade(p, polls, n) == MaxPollAttempts - n
    decreases MaxPollAttempts - n
  {
    if n < MaxPollAttempts {
      NeverSettlingTimesOut(polls(n).value, polls, n + 1);
    }
  }

  /**
   * The text JavaScript's `String(x)` gives a finite number written in plain decimal: the
   * sign, the integer part, and the fraction's digits when it has any (at most twenty).
   */
  function NumberText(x: real): (t: string)
    ensures |t| > 0 && (t[0] == '-' <==> x < 0.0)
  {
    if x < 0.0 then "-" + PlainDecimal(-x) else PlainDecimal(x)
  }

  function PlainDecimal(x: real): (t: string)
    requires x >= 0.0
    ensures |t| > 0 && '0' <= t[0] <= '9'
  {
    var whole := x.Floor;
    var rest := x - whole as real;
    if rest == 0.0 then NatToString(whole) else NatToString(whole) + "." + FractionDigits(rest, 20)
  }

  /** The decimal digits of a fraction in [0, 1), stopping when it runs out or after `fuel` digits. */
  function FractionDigits(f: real, fuel: nat): (t: string)
    requires 0.0 <= f < 1.0
    ensures |t| <= fuel && AllDigits(t)
    ensures f == 0.0 ==> t == ""
    decreases fuel
  {
    if f == 0.0 || fuel == 0 then ""
    else
      var d := (f * 10.0).Floor;
      [DigitChar(d)] + FractionDigits(f * 10.0 - d as real, fuel - 1)
  }

  /**
   * `String(v)`: strings as they are, "true"/"false", numbers in decimal, an array's
   * elements joined by "," with null and undefined left empty, any other object
   * "[object Object]".
   */
  function Text(v: JsValue): (t: string)
    ensures v.JsString? ==> t == v.s
    ensures v.JsBool? ==> t == (if v.b then "true" else "false")
    ensures v.JsNumber? ==> t == NumberText(v.n)
    ensures v.JsObject? ==> t == "[object Object]"
    ensures v.JsArray? && |v.items| == 0 ==> t == ""
    decreases v
  {
    match v
    case JsUndefined => "undefined"
    case JsNull => "null"
    case JsBool(b) => if b then "true" else "false"
    case JsNumber(n) => NumberText(n)
    case JsString(s) => s
    case JsArray(items) =>
      Join(seq(|items|, i requires 0 <= i < |items| =>
        if items[i].JsNull? || items[i].JsUndefined? then "" else Text(items[i])), ",")
    case JsObject(_) => "[object Object]"
  }

  /** A whole number's text is the decimal integer text, with "-" before a negative one. */
  lemma NumberTextOfInt(n: int)
    ensures NumberText(n as real) == IntToString(n)
  {
    if n < 0 {
      var m: nat := -n;
      assert -(n as real) == m as real;
      assert NumberText(n as real) == "-" + PlainDecimal(m as real);
      PlainDecimalOfNat(m);
      assert IntToString(n) == "-" + NatToString(m);
    } else {
      PlainDecimalOfNat(n);
    }
  }

  lemma PlainDecimalOfNat(m: nat)
    ensures PlainDecimal(m as real) == NatToString(m)
  {
    assert (m as real).Floor == m;
  }

  /** A whole number's text reads back as that number. */
  lemma NumberTextOfNat(n: nat)
    ensures NumberText(n as real) == NatToString(n) && AllDigits(NumberText(n as real))
    ensures ParseNat(NumberText(n as real)) == n
  {
    NumberTextOfInt(n);
    ParseNatToString(n);
  }

  /** A fraction's text is its integer part, a point and its digits: 2.5 reads "2.5". */
  lemma NumberTextOfHalf()
    ensures NumberText(2.5) == "2.5"
  {
    assert (2.5).Floor == 2;
    assert FractionDigits(0.5, 20) == "5" by {
      assert (0.5 * 10.0).Floor == 5;
      assert FractionDigits(0.0, 19) == "";
    }
  }

  /**
   * The message of a failed prediction: its error text, else the error's truthy `message`
   * as `String` renders it (through the `Error` constructor), else "Generation failed".
   */
  function FailureMessage(error: JsValue): (m: string)
    ensures error.JsString? ==> m == error.s
    ensures !error.JsString? && !Truthy(Prop(error, "message")) ==> m == "Generation failed"
    ensures !error.JsString? && Truthy(Prop(error, "message")) ==> m == Text(Prop(error, "message"))
  {
    if error.JsString? then error.s
    else if Truthy(Prop(error, "message")) then Text(Prop(error, "message"))
    else "Generation failed"
  }

  /** A numeric `message` such as 42 becomes its decimal text, which reads back as the number. */
  lemma NumericMessageText(error: JsValue, n: nat)
    requires error.JsObject? && Lookup(error.props, "message") == JsNumber(n as real) && n > 0
    ensures FailureMessage(error) == NatToString(n)
    ensures ParseNat(FailureMessage(error)) == n
  {
    NumberTextOfNat(n);
  }

  /**
   * The other truthy kinds: `{"message": true}` fails with "true", an object message with
   * "[object Object]", and a falsy one such as 0 or false with the default.
   */
  lemma OtherMessagesRendered(error: JsValue)
    requires error.JsObject?
    ensures Lookup(error.props, "message") == JsBool(true) ==> FailureMessage(error) == "true"
    ensures Lookup(error.props, "message").JsObject? ==> FailureMessage(error) == "[object Object]"
    ensures Lookup(error.props, "message") in {JsNumber(0.0), JsBool(false), JsNull} ==> FailureMessage(error) == "Generation failed"
  {
  }

  /** The example `{"message": 42}` fails with the text "42". */
  lemma FortyTwoMessage()
    ensures FailureMessage(JsObject([("message", JsNumber(42.0))])) == "42"
  {
    var error := JsObject([("message", JsNumber(42.0))]);
    assert Lookup(error.props, "message") == JsNumber(42 as real);
    NumericMessageText(error, 42);
    assert NatToString(42) == "42";
  }

  /** After polling: failed and canceled predictions throw, anything else has its output read. */
  function Settle(p: Prediction): (r: Result<JsValue, Thrown>)
    ensures p.status == Failed ==> r == Failure(Service(ServiceError(FailureMessage(p.error), 500, "GENERATION_FAILED")))
    ensures p.status == Canceled || p.status == Aborted ==> r == Failure(Service(CanceledError))
    ensures p.status == Succeeded ==> (r.Success? <==> ExtractImageUrl(p.output).Success?)
    ensures p.status == Succeeded && r.Success? ==> r.value == ExtractImageUrl(p.output).value
  {
    if p.status == Failed then Failure(Service(ServiceError(FailureMessage(p.error), 500, "GENERATION_FAILED")))
    else if p.status == Canceled || p.status == Aborted then Failure(Service(CanceledError))
    else match ExtractImageUrl(p.output)
      case Success(v) => Success(v)
      case Failure(e) => Failure(Service(e))
  }

  /** The network's answers during one try: to the creation request, and to each poll. */
  datatype Attempt = Attempt(created: Result<Prediction, Thrown>, polls: nat -> Result<Prediction, Thrown>)

  /** The body of the `try` in `generateImage`: create, poll, settle. */
  function RunAttempt(a: Attempt): (r: Result<JsValue, Thrown>)
    ensures a.created.Failure? ==> r == Failure(a.created.error)
    ensures r.Success? ==> (a.created.Success? && Poll(a.created.value, a.polls, 0).Success? &&
      Poll(a.created.value, a.polls, 0).value.status !in {Failed, Canceled, Aborted})
  {
    match a.created
    case Failure(t) => Failure(t)
    case Success(p) =>
      match Poll(p, a.polls, 0)
      case Failure(t) => Failure(t)
      case Success(f) => Settle(f)
  }

  /** What the `catch` decides: a final answer, or a retry after the given wait. */
  datatype Recovery = GiveUp(err: ServiceError) | RetryAfter(wait: int)

  /** The give-up message, naming the number of attempts actually made (the first try and three retries). */
  function GiveUpMessage(detail: string): (m: string)
    ensures NamesAttempts(m, MaxRetries + 1)
    ensures |m| > |detail| && m[|m| - |detail|..] == detail
  {
    var head := "Failed to generate image after " + NatToString(MaxRetries + 1) + " attempts: ";
    assert (head + detail)[..|head|] == head && (head + detail)[|head|..] == detail;
    head + detail
  }

  /** The same message as the source words it, naming the retry limit as the attempt count. */
  function GiveUpMessageAsWritten(detail: string): (m: string)
    ensures NamesAttempts(m, MaxRetries)
    ensures |m| > |detail| && m[|m| - |detail|..] == detail
  {
    var head := "Failed to generate image after " + NatToString(MaxRetries) + " attempts: ";
    assert (head + detail)[..|head|] == head && (head + detail)[|head|..] == detail;
    head + detail
  }

  /** A failure that is neither a service error nor one of the recognised message patterns. */
  predicate Transient(t: Thrown) {
    match t
    case Service(_) => false
    case PlainError(m) =>
      !Contains(m, "fetch") && !Contains(m, "401") && !Contains(m, "unauthorized") &&
      !Contains(m, "429") && !Contains(m, "rate limit")
    case NonError => true
  }

  function Detail(t: Thrown): string {
    if t.PlainError? then t.message else "Unknown error"
  }

  /**
   * The last branch of the `catch`: retry while retries are left, else give up naming the
   * failure, with the message as the source words it.
   */
  function RetryOrGiveUp(t: Thrown, retryCount: nat): (r: Recovery)
    ensures r.RetryAfter? <==> retryCount < MaxRetries
    ensures r.RetryAfter? ==> r.wait == ExponentialBackoff(retryCount)
    ensures r.GiveUp? ==> r.err == ServiceError(GiveUpMessageAsWritten(Detail(t)), 0, "MAX_RETRIES_EXCEEDED")
  {
    if retryCount < MaxRetries then RetryAfter(ExponentialBackoff(retryCount))
    else GiveUp(ServiceError(GiveUpMessageAsWritten(Detail(t)), 0, "MAX_RETRIES_EXCEEDED"))
  }

  /** The `catch` of `generateImage`, after try number `retryCount`. */
  function Recover(t: Thrown, retryCount: nat): (r: Recovery)
    ensures r.RetryAfter? ==> retryCount < MaxRetries && r.wait == ExponentialBackoff(retryCount)
    ensures t.Service? && t.err.code == "TIMEOUT" ==>
      r == (if retryCount < MaxRetries then RetryAfter(ExponentialBackoff(retryCount)) else GiveUp(t.err))
    ensures t.Service? && t.err.code == "GENERATION_FAILED" ==> r == GiveUp(UnavailableError)
    ensures t.Service? && t.err.code != "TIMEOUT" && t.err.code != "GENERATION_FAILED" ==> r == GiveUp(t.err)
    ensures t.PlainError? && Contains(t.message, "fetch") ==> r == GiveUp(NetworkError)
    ensures (t.PlainError? && !Contains(t.message, "fetch") &&
             (Contains(t.message, "401") || Contains(t.message, "unauthorized"))) ==>
      r == GiveUp(InvalidKeyError)
    ensures (t.PlainError? && !Contains(t.message, "fetch") && !Contains(t.message, "401") && !Contains(t.message, "unauthorized") &&
             (Contains(t.message, "429") || Contains(t.message, "rate limit"))) ==>
      r == GiveUp(RateLimitError)
    ensures Transient(t) ==> r == RetryOrGiveUp(t, retryCount)
    ensures r.GiveUp? ==> r.err.code != "GENERATION_FAILED"
  {
    match t
    case Service(e) =>
      if e.code == "TIMEOUT" then
        if retryCount < MaxRetries then RetryAfter(ExponentialBackoff(retryCount)) else GiveUp(e)
      else if e.code == "GENERATION_FAILED" then GiveUp(UnavailableError)
      else GiveUp(e)
    case PlainError(m) =>
      if Contains(m, "fetch") then GiveUp(NetworkError)
      else if Contains(m, "401") || Contains(m, "unauthorized") then GiveUp(InvalidKeyError)
      else if Contains(m, "429") || Contains(m, "rate limit") then GiveUp(RateLimitError)
      else RetryOrGiveUp(t, retryCount)
    case NonError => RetryOrGiveUp(t, retryCount)
  }

  /**
   * The corrected `catch`: the same decisions as `Recover`, except that giving up after a
   * transient failure names the tries actually made.
   */
  function RecoverCorrected(t: Thrown, retryCount: nat): (r: Recovery)
    ensures r.RetryAfter? <==> Recover(t, retryCount).RetryAfter?
    ensures r.RetryAfter? ==> r == Recover(t, retryCount)
    ensures Transient(t) && retryCount >= MaxRetries ==>
      r == GiveUp(ServiceError(GiveUpMessage(Detail(t)), 0, "MAX_RETRIES_EXCEEDED"))
    ensures !(Transient(t) && retryCount >= MaxRetries) ==> r == Recover(t, retryCount)
  {
    if Transient(t) && retryCount >= MaxRetries then
      GiveUp(ServiceError(GiveUpMessage(Detail(t)), 0, "MAX_RETRIES_EXCEEDED"))
    else Recover(t, retryCount)
  }

  /** The outcome of `generateImage`: the image or the error, how many tries were made, and the waits between them. */
  datatype Run = Run(result: Result<JsValue, ServiceError>, tries: nat, waits: seq<int>)

  /**
   * The retry loop of `generateImage` apart from its two halves: `outcome(k)` is what try k
   * returns, and `decide` is the `catch`, which asks for another try only while retries are left.
   */
  function Retry(outcome: nat -> Result<JsValue, Thrown>, decide: (Thrown, nat) -> Recovery, retryCount: nat): (r: Run)
    requires forall t, k: nat :: decide(t, k).RetryAfter? ==> k < MaxRetries
    ensures 1 <= r.tries
    ensures retryCount <= MaxRetries ==> r.tries <= MaxRetries + 1 - retryCount
    ensures retryCount >= MaxRetries ==> r.tries == 1
    ensures |r.waits| == r.tries - 1
    decreases if retryCount < MaxRetries then MaxRetries - retryCount else 0
  {
    match outcome(retryCount)
    case Success(v) => Run(Success(v), 1, [])
    case Failure(t) =>
      match decide(t, retryCount)
      case GiveUp(e) => Run(Failure(e), 1, [])
      case RetryAfter(w) =>
        var rest := Retry(outcome, decide, retryCount + 1);
        Run(rest.result, rest.tries + 1, [w] + rest.waits)
  }

  /** Every try but the last failed, and the catch answered it with the wait that follows it. */
  lemma {:induction false} RetryWaits(outcome: nat -> Result<JsValue, Thrown>, decide: (Thrown, nat) -> Recovery, retryCount: nat)
    requires forall t, k: nat :: decide(t, k).RetryAfter? ==> k < MaxRetries
    ensures var r := Retry(outcome, decide, retryCount);
      forall k :: retryCount <= k < retryCount + |r.waits| ==>
        outcome(k).Failure? && decide(outcome(k).error, k) == RetryAfter(r.waits[k - retryCount])
    decreases if retryCount < MaxRetries then MaxRetries - retryCount else 0
  {
    var r := Retry(outcome, decide, retryCount);
    match outcome(retryCount)
    case Success(_) =>
    case Failure(t) =>
      match decide(t, retryCount)
      case GiveUp(_) =>
      case RetryAfter(w) =>
        var rest := Retry(outcome, decide, retryCount + 1);
        RetryWaits(outcome, decide, retryCount + 1);
        assert r.waits == [w] + rest.waits;
        WaitsShift(outcome, decide, retryCount, w, rest.waits);
  }

  /** A failed try answered with wait `w`, in front of tries already matched to `waits`, matches `[w] + waits`. */
  lemma WaitsShift(outcome: nat -> Result<JsValue, Thrown>, decide: (Thrown, nat) -> Recovery, start: nat, w: int, waits: seq<int>)
    requires outcome(start).Failure? && decide(outcome(start).error, start) == RetryAfter(w)
    requires forall k :: start + 1 <= k < start + 1 + |waits| ==>
      outcome(k).Failure? && decide(outcome(k).error, k) == RetryAfter(waits[k - (start + 1)])
    ensures forall k :: start <= k < start + 1 + |waits| ==>
      outcome(k).Failure? && decide(outcome(k).error, k) == RetryAfter(([w] + waits)[k - start])
  {
    forall k | start < k < start + 1 + |waits|
      ensures outcome(k).Failure? && decide(outcome(k).error, k) == RetryAfter(([w] + waits)[k - start])
    {
      assert ([w] + waits)[k - start] == waits[k - (start + 1)];
    }
  }

  /** The answer is the last try's value, or the error the catch gave up with after it. */
  lemma {:induction false} RetryAnswer(outcome: nat -> Result<JsValue, Thrown>, decide: (Thrown, nat) -> Recovery, retryCount: nat)
    requires forall t, k: nat :: decide(t, k).RetryAfter? ==> k < MaxRetries
    ensures var r := Retry(outcome, decide, retryCount);
      var last := retryCount + r.tries - 1;
      && (r.result.Success? <==> outcome(last).Success?)
      && (r.result.Success? ==> r.result.value == outcome(last).value)
      && (r.result.Failure? ==> decide(outcome(last).error, last) == GiveUp(r.result.error))
    decreases if retryCount < MaxRetries then MaxRetries - retryCount else 0
  {
    var r := Retry(outcome, decide, retryCount);
    if outcome(retryCount).Failure? && decide(outcome(retryCount).error, retryCount).RetryAfter? {
      var rest := Retry(outcome, decide, retryCount + 1);
      RetryAnswer(outcome, decide, retryCount + 1);
      assert r.result == rest.result && r.tries == rest.tries + 1;
      assert retryCount + r.tries - 1 == (retryCount + 1) + rest.tries - 1;
    }
  }

  /** `RetryAnswer` for a run already in hand, leaving the catch out of the statement. */
  lemma RunAnswer(outcome: nat -> Result<JsValue, Thrown>, decide: (Thrown, nat) -> Recovery, retryCount: nat, r: Run)
    requires forall t, k: nat :: decide(t, k).RetryAfter? ==> k < MaxRetries
    requires r == Retry(outcome, decide, retryCount)
    ensures r.tries >= 1
    ensures r.result.Success? <==> outcome(retryCount + r.tries - 1).Success?
    ensures r.result.Success? ==> r.result.value == outcome(retryCount + r.tries - 1).value
  {
    RetryAnswer(outcome, decide, retryCount);
  }

  /** The catch asks for a retry only while retries are left, and never gives up with GENERATION_FAILED. */
  lemma RecoverBounds()
    ensures forall t, k: nat :: Recover(t, k).RetryAfter? ==> k < MaxRetries
    ensures forall t, k: nat :: Recover(t, k).GiveUp? ==> Recover(t, k).err.code != "GENERATION_FAILED"
  {
  }

  /** `generateImage` from try `retryCount` on; `tries(k)` is what the body of the `try` returns on try k
   * (`TryOutcomes` computes it from the network's answers). */
  function GenerateImage(tries: nat -> Result<JsValue, Thrown>, retryCount: nat): (r: Run)
    ensures 1 <= r.tries
    ensures retryCount <= MaxRetries ==> r.tries <= MaxRetries + 1 - retryCount
    ensures |r.waits| == r.tries - 1
  {
    Retry(tries, Recover, retryCount)
  }

  /** Every try but the last failed, and the waits between tries follow the backoff schedule. */
  lemma WaitsFollowBackoff(tries: nat -> Result<JsValue, Thrown>, retryCount: nat)
    ensures var r := GenerateImage(tries, retryCount);
      && (forall k :: 0 <= k < |r.waits| ==> r.waits[k] == ExponentialBackoff(retryCount + k))
      && (forall k :: retryCount <= k < retryCount + r.tries - 1 ==> tries(k).Failure?)
  {
    RecoverBounds();
    RetryWaits(tries, Recover, retryCount);
    var r := GenerateImage(tries, retryCount);
    forall k | 0 <= k < |r.waits| ensures r.waits[k] == ExponentialBackoff(retryCount + k) {
      var j := retryCount + k;
      assert Recover(tries(j).error, j) == RetryAfter(r.waits[j - retryCount]);
    }
  }

  /** The answer is the last try's image, or the failure it gave up with. */
  lemma AnswerIsLastTry(tries: nat -> Result<JsValue, Thrown>, retryCount: nat)
    ensures var r := GenerateImage(tries, retryCount);
      var last := tries(retryCount + r.tries - 1);
      && (r.result.Success? <==> last.Success?)
      && (r.result.Success? ==> r.result.value == last.value)
  {
    RecoverBounds();
    RunAnswer(tries, Recover, retryCount, GenerateImage(tries, retryCount));
  }

  /** A failure is never reported as a generation failure: those become SERVICE_UNAVAILABLE. */
  lemma NeverReportsGenerationFailed(tries: nat -> Result<JsValue, Thrown>, retryCount: nat)
    ensures var r := GenerateImage(tries, retryCount);
      r.result.Failure? ==> r.result.error.code != "GENERATION_FAILED"
  {
    RecoverBounds();
    RetryNeverGivesCode(tries, Recover, retryCount, "GENERATION_FAILED");
  }

  /** When the catch never gives up with error code `code`, neither does the retry loop. */
  lemma {:induction false} RetryNeverGivesCode(outcome: nat -> Result<JsValue, Thrown>, decide: (Thrown, nat) -> Recovery, retryCount: nat, code: string)
    requires forall t, k: nat :: decide(t, k).RetryAfter? ==> k < MaxRetries
    requires forall t, k: nat :: decide(t, k).GiveUp? ==> decide(t, k).err.code != code
    ensures Retry(outcome, decide, retryCount).result.Failure? ==> Retry(outcome, decide, retryCount).result.error.code != code
    decreases if retryCount < MaxRetries then MaxRetries - retryCount else 0
  {
    if outcome(retryCount).Failure? && decide(outcome(retryCount).error, retryCount).RetryAfter? {
      RetryNeverGivesCode(outcome, decide, retryCount + 1, code);
    }
  }

  /** A first try that succeeds is the answer, with no wait. */
  lemma FirstSuccessIsFinal(tries: nat -> Result<JsValue, Thrown>)
    requires tries(0).Success?
    ensures GenerateImage(tries, 0) == Run(Success(tries(0).value), 1, [])
  {
  }

  /** A generation failure becomes SERVICE_UNAVAILABLE at once, without a retry. */
  lemma GenerationFailureNotRetried(tries: nat -> Result<JsValue, Thrown>, retryCount: nat)
    requires tries(retryCount).Failure?
    requires var t := tries(retryCount).error; t.Service? && t.err.code == "GENERATION_FAILED"
    ensures GenerateImage(tries, retryCount) == Run(Failure(UnavailableError), 1, [])
  {
  }

  /**
   * When every try fails transiently, the call makes four tries and gives up with
   * MAX_RETRIES_EXCEEDED carrying the last failure, in the message as the source words it.
   */
  lemma {:induction false} TransientFailuresExhaust(tries: nat -> Result<JsValue, Thrown>, retryCount: nat)
    requires retryCount <= MaxRetries
    requires forall k :: retryCount <= k <= MaxRetries ==> tries(k).Failure? && Transient(tries(k).error)
    ensures var r := GenerateImage(tries, retryCount);
      && r.tries == MaxRetries + 1 - retryCount
      && r.result == Failure(ServiceError(GiveUpMessageAsWritten(Detail(tries(MaxRetries).error)), 0, "MAX_RETRIES_EXCEEDED"))
    decreases MaxRetries - retryCount
  {
    if retryCount < MaxRetries {
      TransientFailuresExhaust(tries, retryCount + 1);
    }
  }

  /** `generateImage` with the corrected give-up message; every other decision is `Recover`'s. */
  function GenerateImageCorrected(tries: nat -> Result<JsValue, Thrown>, retryCount: nat): (r: Run)
    ensures 1 <= r.tries
    ensures retryCount <= MaxRetries ==> r.tries <= MaxRetries + 1 - retryCount
    ensures |r.waits| == r.tries - 1
  {
    RecoverBounds();
    Retry(tries, RecoverCorrected, retryCount)
  }

  /** With the corrected message, exhausting the retries gives up naming the last failure and the four tries made. */
  lemma {:induction false} TransientFailuresExhaustCorrected(tries: nat -> Result<JsValue, Thrown>, retryCount: nat)
    requires retryCount <= MaxRetries
    requires forall k :: retryCount <= k <= MaxRetries ==> tries(k).Failure? && Transient(tries(k).error)
    ensures var r := GenerateImageCorrected(tries, retryCount);
      && r.tries == MaxRetries + 1 - retryCount
      && r.result == Failure(ServiceError(GiveUpMessage(Detail(tries(MaxRetries).error)), 0, "MAX_RETRIES_EXCEEDED"))
    decreases MaxRetries - retryCount
  {
    if retryCount < MaxRetries {
      TransientFailuresExhaustCorrected(tries, retryCount + 1);
    }
  }

  /** The decimal count named at the front of a give-up message. */
  predicate NamesAttempts(message: string, n: nat) {
    StartsWith(message, "Failed to generate image after " + NatToString(n) + " attempts: ")
  }

  /**
   * As written, a call whose four tries all fail transiently gives up with a message naming
   * the retry limit (3) as the attempt count; the corrected call names the four tries made.
   */
  lemma GiveUpMessageMiscounts(tries: nat -> Result<JsValue, Thrown>)
    requires forall k: nat :: k <= MaxRetries ==> tries(k).Failure? && Transient(tries(k).error)
    ensures GenerateImage(tries, 0).tries == 4 && GenerateImage(tries, 0).result.Failure?
    ensures !NamesAttempts(GenerateImage(tries, 0).result.error.message, GenerateImage(tries, 0).tries)
    ensures GenerateImageCorrected(tries, 0).tries == 4 && GenerateImageCorrected(tries, 0).result.Failure?
    ensures NamesAttempts(GenerateImageCorrected(tries, 0).result.error.message, GenerateImageCorrected(tries, 0).tries)
  {
    var detail := Detail(tries(MaxRetries).error);
    TransientFailuresExhaust(tries, 0);
    TransientFailuresExhaustCorrected(tries, 0);
    assert GenerateImage(tries, 0).result.error.message == GiveUpMessageAsWritten(detail);
    assert GenerateImageCorrected(tries, 0).result.error.message == GiveUpMessage(detail);
    AsWrittenNamesThree(detail);
  }

  /** The message as written never names the four tries. */
  lemma AsWrittenNamesThree(detail: string)
    ensures !NamesAttempts(GiveUpMessageAsWritten(detail), MaxRetries + 1)
  {
    var head := "Failed to generate image after ";
    assert NatToString(3) == "3" && NatToString(4) == "4";
    var w := GiveUpMessageAsWritten(detail);
    assert w[|head|] == '3';
    assert (head + "4" + " attempts: ")[|head|] == '4';
  }

  // ---------------------------------------------------------------- batch

  /** The text kept as a scene's image address; a non-string value is not representable here and is kept as "". */
  function UrlText(v: JsValue): string {
    if v.JsString? then v.s else ""
  }

  /** Scene i of the batch: completed with the image, or an error scene with no image; the prompt is always kept. */
  function SceneFor(i: nat, prompt: string, run: Run, id: string, now: Time): (s: GeneratedScene)
    ensures s.sceneNumber == i + 1 && s.prompt == prompt && s.id == id && s.createdAt == now && s.downloadedAt.None?
    ensures s.status == SceneCompleted <==> run.result.Success?
    ensures s.status == SceneError <==> run.result.Failure?
    ensures run.result.Failure? ==> s.imageUrl == ""
  {
    match run.result
    case Success(v) => GeneratedScene(id, i + 1, UrlText(v), prompt, SceneCompleted, now, None)
    case Failure(_) => GeneratedScene(id, i + 1, "", prompt, SceneError, now, None)
  }

  /** What each try returns, given the network's answers to it. */
  function TryOutcomes(attempts: nat -> Attempt): (o: nat -> Result<JsValue, Thrown>)
    ensures forall k: nat :: o(k) == RunAttempt(attempts(k))
  {
    (k: nat) => RunAttempt(attempts(k))
  }

  /**
   * The batch over given prompts: every prompt is tried (in parallel in the source), and the
   * batch never fails: it returns one scene per prompt, in prompt order.
   * `attempts(i)` is the network for scene i; `ids(i)` is scene i's random id.
   */
  function RunBatch(prompts: seq<string>, attempts: nat -> nat -> Attempt, ids: nat -> string, now: Time): (scenes: seq<GeneratedScene>)
    ensures |scenes| == |prompts|
    ensures forall i :: 0 <= i < |prompts| ==> scenes[i].sceneNumber == i + 1 && scenes[i].prompt == prompts[i]
    ensures forall i :: 0 <= i < |prompts| ==> (scenes[i].status == SceneCompleted <==> GenerateImage(TryOutcomes(attempts(i)), 0).result.Success?)
    ensures forall i :: 0 <= i < |prompts| ==> (scenes[i].status == SceneError <==> GenerateImage(TryOutcomes(attempts(i)), 0).result.Failure?)
    ensures forall i :: 0 <= i < |prompts| && scenes[i].status == SceneError ==> scenes[i].imageUrl == ""
  {
    var scenes := seq(|prompts|, i requires 0 <= i < |prompts| => SceneFor(i, prompts[i], GenerateImage(TryOutcomes(attempts(i)), 0), ids(i), now));
    assert forall i :: 0 <= i < |prompts| ==> scenes[i] == SceneFor(i, prompts[i], GenerateImage(TryOutcomes(attempts(i)), 0), ids(i), now);
    scenes
  }

  /** `generateMultipleScenes`: the batch over the four scene variations of the brand's prompt. */
  function GenerateMultipleScenes(b: BrandInfo, attempts: nat -> nat -> Attempt, ids: nat -> string, now: Time): (scenes: seq<GeneratedScene>)
    ensures |scenes| == 4
    ensures forall i :: 0 <= i < 4 ==> scenes[i].sceneNumber == i + 1 && scenes[i].prompt == GenerateSceneVariations(b)[i]
    ensures forall i :: 0 <= i < 4 ==> (scenes[i].status == SceneCompleted <==> GenerateImage(TryOutcomes(attempts(i)), 0).result.Success?)
  {
    RunBatch(GenerateSceneVariations(b), attempts, ids, now)
  }

  /** The progress values scene i reports: its start, and on success its end. */
  function ProgressReports(i: nat, n: nat, succeeded: bool): (ps: seq<real>)
    requires n > 0
    ensures |ps| == if succeeded then 2 else 1
    ensures ps[0] == (i as real / n as real) * 100.0
    ensures succeeded ==> ps[1] == ((i + 1) as real / n as real) * 100.0
  {
    [(i as real / n as real) * 100.0] + (if succeeded then [((i + 1) as real / n as real) * 100.0] else [])
  }

  /**
   * The last prompt reports 100 exactly when it succeeds, and it can finish before the others:
   * a full progress value does not mean the batch is done.
   */
  lemma LastSceneReportsFull(succeeded: bool)
    ensures 100.0 in ProgressReports(3, 4, succeeded) <==> succeeded
    ensures forall i :: 0 <= i < 3 ==> 100.0 !in ProgressReports(i, 4, true)
  {
    forall i | 0 <= i < 3 ensures 100.0 !in ProgressReports(i, 4, true) {
      var ps := ProgressReports(i, 4, true);
      assert ps[0] < 100.0 && ps[1] < 100.0;
    }
  }
}

=== FILE: results_page.dfy ===
/**
 * The results page: which of its four views it shows, how it classifies a failure for
 * the fallback panel, the spinner's scene counter, and the retry button's bookkeeping.
 */
module ResultsPage {
  import opened Wrappers
  import opened JsStrings
  import opened JsMath
  import opened Types
  import AC = AppContext

  /** The request is still running: pending or processing. */
  predicate IsGenerating(s: AppState) {
    s.generationRequest.Some? &&
    (s.generationRequest.value.status == RequestPending || s.generationRequest.value.status == RequestProcessing)
  }

  /** A truthy error text, or a failed request. */
  predicate HasError(s: AppState) {
    (s.error.Some? && s.error.value != "") ||
    (s.generationRequest.Some? && s.generationRequest.value.status == RequestFailed)
  }

  predicate HasResults(s: AppState) {
    |s.generatedScenes| > 0
  }

  /** Some but not all four scenes arrived. */
  predicate HasPartialResults(s: AppState) {
    0 < |s.generatedScenes| < 4
  }

  /** `error || generationRequest?.errorMessage || ''`: the first non-empty of the two texts. */
  function ErrorText(s: AppState): (m: string)
    ensures s.error.Some? && s.error.value != "" ==> m == s.error.value
    ensures m != "" ==> ((s.error.Some? && m == s.error.value) ||
      (s.generationRequest.Some? && s.generationRequest.value.errorMessage == Some(m)))
  {
    if s.error.Some? && s.error.value != "" then s.error.value
    else if s.generationRequest.Some? && s.generationRequest.value.errorMessage.Some? then
      s.generationRequest.value.errorMessage.value
    else ""
  }

  datatype ErrorKind = PartialFailure | NetworkFailure | Timeout | ServiceUnavailable | GenerationFailed

  const NetworkWords: seq<string> := ["network", "connection", "fetch"]
  const TimeoutWords: seq<string> := ["timeout", "timed out"]
  const ServiceWords: seq<string> := ["service", "unavailable", "overloaded"]
  const GenerationWords: seq<string> := ["generation", "ai", "replicate"]

  /** The keyword tests, in the order the page makes them. */
  const KindGroups: seq<(seq<string>, ErrorKind)> := [
    (NetworkWords, NetworkFailure),
    (TimeoutWords, Timeout),
    (ServiceWords, ServiceUnavailable),
    (GenerationWords, GenerationFailed)
  ]

  /** `getErrorType`: partial results win; otherwise the first keyword group found in the lower-cased message. */
  function GetErrorType(s: AppState): (k: ErrorKind)
    ensures HasPartialResults(s) ==> k == PartialFailure
    ensures !HasPartialResults(s) ==> k != PartialFailure
    ensures !HasPartialResults(s) ==>
      var m := Lower(ErrorText(s));
      && (k == NetworkFailure <==> ContainsAny(m, NetworkWords))
      && (k == Timeout <==> !ContainsAny(m, NetworkWords) && ContainsAny(m, TimeoutWords))
      && (k == ServiceUnavailable <==>
            !ContainsAny(m, NetworkWords) && !ContainsAny(m, TimeoutWords) && ContainsAny(m, ServiceWords))
      && (k == GenerationFailed <==>
            !ContainsAny(m, NetworkWords) && !ContainsAny(m, TimeoutWords) && !ContainsAny(m, ServiceWords))
  {
    if HasPartialResults(s) then PartialFailure
    else
      var m := Lower(ErrorText(s));
      assert KindGroups[0].0 == NetworkWords && KindGroups[1].0 == TimeoutWords;
      assert KindGroups[2].0 == ServiceWords && KindGroups[3].0 == GenerationWords;
      FirstMatch(m, KindGroups, GenerationFailed)
  }

  /** The generation keywords decide nothing: dropping their test gives the same answer for every message. */
  lemma GenerationGroupRedundant(s: AppState)
    requires !HasPartialResults(s)
    ensures GetErrorType(s) == FirstMatch(Lower(ErrorText(s)), KindGroups[..3], GenerationFailed)
  {
    var m := Lower(ErrorText(s));
    var short := KindGroups[..3];
    assert short[0].0 == NetworkWords && short[1].0 == TimeoutWords && short[2].0 == ServiceWords;
    assert short[0].1 == NetworkFailure && short[1].1 == Timeout && short[2].1 == ServiceUnavailable;
  }

  /** An example: a message is classified whatever its capitals, so "Network" counts as a network failure here. */
  lemma CapitalsIgnored(s: AppState)
    requires !HasPartialResults(s) && s.error == Some("Network down")
    ensures GetErrorType(s) == NetworkFailure
  {
    var m := Lower("Network down");
    assert m[..7] == "network";
    assert OccursAt(m, "network", 0);
    ContainsIff(m, "network");
    assert NetworkWords[0] == "network";
  }

  /** The scene counter the spinner shows, capped at the last scene. */
  function SceneCounter(progress: real): (n: int)
    ensures 0.0 <= progress <= 100.0 ==> 1 <= n <= 4
    ensures progress < 100.0 ==> n == SceneCounterAsWritten(progress)
  {
    MinI(SceneCounterAsWritten(progress), 4)
  }

  /** The counter as the page computes it: `floor(progress / 25) + 1`, which reads 5 at full progress. */
  function SceneCounterAsWritten(progress: real): (n: int)
    ensures (n - 1) as real * 25.0 <= progress < n as real * 25.0
  {
    Floor(progress / 25.0) + 1
  }

  /**
   * The request's progress reaches 100 while it is still pending: the batch reports 100 as soon
   * as the fourth prompt finishes, and the request only completes once all four have. On that
   * state the page's counter reads "Generating scene 5 of 4"; the capped counter reads 4.
   */
  lemma FullProgressWhileGenerating(s: AppState, req: GenerationRequest, now: Time)
    requires req.status == RequestPending
    ensures var s' := AC.Reduce(AC.Reduce(s, AC.StartGeneration(req), now), AC.UpdateGenerationProgress(100.0, None), now);
      && IsGenerating(s')
      && Render(s', 0) == GeneratingView(5, 100.0)
      && RenderCorrected(s', 0) == GeneratingView(4, 100.0)
  {
    var s1 := AC.Reduce(s, AC.StartGeneration(req), now);
    AC.StartGenerationEffect(s, req, now);
    AC.RequestActions(s1, AC.UpdateGenerationProgress(100.0, None), now);
  }

  datatype View =
    | GeneratingView(counter: int, progress: real)
    | ErrorView(kind: ErrorKind, message: string, retryCount: nat, showPartial: bool)
    | EmptyView
    | ResultsView(count: nat)

  /** The page's render: generating, then error, then no results, then the results. */
  function Render(s: AppState, retryCount: nat): (v: View)
    ensures v.GeneratingView? <==> IsGenerating(s)
    ensures v.ErrorView? <==> !IsGenerating(s) && HasError(s)
    ensures v.EmptyView? <==> !IsGenerating(s) && !HasError(s) && !HasResults(s)
    ensures v.ResultsView? <==> !IsGenerating(s) && !HasError(s) && HasResults(s)
    ensures v.GeneratingView? ==> v.progress == s.generationRequest.value.progress
    ensures v.GeneratingView? ==> (v.counter - 1) as real * 25.0 <= v.progress < v.counter as real * 25.0
    ensures v.GeneratingView? && 0.0 <= v.progress < 100.0 ==> 1 <= v.counter <= 4
    ensures v.ErrorView? ==> v.kind == GetErrorType(s) && v.retryCount == retryCount
    ensures v.ErrorView? ==> (v.showPartial <==> HasPartialResults(s))
    ensures v.ResultsView? ==> v.count == |s.generatedScenes|
  {
    if IsGenerating(s) then
      var p := s.generationRequest.value.progress;
      GeneratingView(SceneCounterAsWritten(p), p)
    else if HasError(s) then ErrorView(GetErrorType(s), ErrorText(s), retryCount, HasPartialResults(s))
    else if !HasResults(s) then EmptyView
    else ResultsView(|s.generatedScenes|)
  }

  /** The render with the capped counter: the same view, except that the counter never passes 4. */
  function RenderCorrected(s: AppState, retryCount: nat): (v: View)
    ensures !v.GeneratingView? ==> v == Render(s, retryCount)
    ensures v.GeneratingView? <==> Render(s, retryCount).GeneratingView?
    ensures v.GeneratingView? ==> v.progress == Render(s, retryCount).progress
    ensures v.GeneratingView? && v.progress < 100.0 ==> v.counter == Render(s, retryCount).counter
    ensures v.GeneratingView? && 0.0 <= v.progress <= 100.0 ==> 1 <= v.counter <= 4
  {
    match Render(s, retryCount)
    case GeneratingView(_, p) => GeneratingView(SceneCounter(p), p)
    case v => v
  }

  /** A failed request shows the error panel even when scenes exist, and partial results are offered beside it. */
  lemma FailureBeatsResults(s: AppState, retryCount: nat)
    requires s.generationRequest.Some? && s.generationRequest.value.status == RequestFailed
    requires |s.generatedScenes| == 2
    ensures Render(s, retryCount) == ErrorView(PartialFailure, ErrorText(s), retryCount, true)
  {
  }

  /** The retry button's state: how many retries in a row have failed, and whether one is running. */
  datatype RetryState = RetryState(retryCount: nat, isRetrying: bool)

  const InitialRetryState := RetryState(0, false)

  /**
   * `handleRetry` with the retry's outcome given: ignored while one is running or when the form
   * holds no brand details; otherwise the count goes up, back to 0 on success, and the running
   * flag is cleared at the end.
   */
  function HandleRetry(r: RetryState, hasBrandInfo: bool, succeeded: bool): (r': RetryState)
    ensures r.isRetrying || !hasBrandInfo ==> r' == r
    ensures !r.isRetrying ==> !r'.isRetrying
    ensures !r.isRetrying && hasBrandInfo && succeeded ==> r'.retryCount == 0
    ensures !r.isRetrying && hasBrandInfo && !succeeded ==> r'.retryCount == r.retryCount + 1
  {
    if r.isRetrying || !hasBrandInfo then r
    else
      var started := RetryState(r.retryCount + 1, true);
      RetryState(if succeeded then 0 else started.retryCount, false)
  }

  /** Retries run one after another with the brand details present, each with its outcome. */
  function RetrySequence(r: RetryState, outcomes: seq<bool>): RetryState
    decreases |outcomes|
  {
    if |outcomes| == 0 then r else RetrySequence(HandleRetry(r, true, outcomes[0]), outcomes[1..])
  }

  /** From rest, the count is the number of failures since the last success. */
  lemma {:induction false} CountsFailuresSinceSuccess(r: RetryState, outcomes: seq<bool>)
    requires !r.isRetrying
    ensures !RetrySequence(r, outcomes).isRetrying
    ensures (forall i :: 0 <= i < |outcomes| ==> !outcomes[i]) ==>
      RetrySequence(r, outcomes).retryCount == r.retryCount + |outcomes|
    ensures |outcomes| > 0 && outcomes[|outcomes| - 1] ==> RetrySequence(r, outcomes).retryCount == 0
    decreases |outcomes|
  {
    if |outcomes| > 0 {
      CountsFailuresSinceSuccess(HandleRetry(r, true, outcomes[0]), outcomes[1..]);
      if |outcomes| > 1 {
        assert outcomes[1..][|outcomes[1..]| - 1] == outcomes[|outcomes| - 1];
      }
    }
  }
}

=== FILE: ring_index.dfy ===
/**
 * Stepping through a ring of `n` cards. The carousels write the wrap-around in four
 * different ways; `Succ` and `Pred` are the reference the four are measured against.
 */
module RingIndex {
  import opened JsMath

  /** The card after `i`: the last card is followed by the first. */
  function Succ(i: int, n: int): (r: int)
    requires 0 <= i < n
    ensures 0 <= r < n
  {
    if i == n - 1 then 0 else i + 1
  }

  /** The card before `i`: the first card is preceded by the last. */
  function Pred(i: int, n: int): (r: int)
    requires 0 <= i < n
    ensures 0 <= r < n
  {
    if i == 0 then n - 1 else i - 1
  }

  /** Stepping forward then back, or back then forward, returns to the same card. */
  lemma SuccPredInverse(i: int, n: int)
    requires 0 <= i < n
    ensures Pred(Succ(i, n), n) == i && Succ(Pred(i, n), n) == i
  {
  }

  /** Going forward `n` times from any card comes back to it. */
  function SuccN(i: int, n: int, k: nat): (r: int)
    requires 0 <= i < n
    ensures 0 <= r < n
  {
    if k == 0 then i else Succ(SuccN(i, n, k - 1), n)
  }

  /** `k` steps forward land on `(i + k) mod n`. */
  lemma {:induction false} SuccNIsMod(i: int, n: int, k: nat)
    requires 0 <= i < n
    ensures SuccN(i, n, k) == (i + k) % n
  {
    if k > 0 {
      SuccNIsMod(i, n, k - 1);
      ModStep(i + k - 1, n);
    }
  }

  /** Adding one to a number moves its remainder one step round the ring. */
  lemma ModStep(m: nat, n: int)
    requires n >= 1
    ensures (m + 1) % n == Succ(m % n, n)
  {
    var q, p := m / n, m % n;
    assert m == q * n + p;
    if p == n - 1 {
      assert m + 1 == (q + 1) * n;
      ModUnique(m + 1, n, q + 1, 0);
    } else {
      assert m + 1 == q * n + (p + 1);
      ModUnique(m + 1, n, q, p + 1);
    }
  }

  /** The remainder is the `r` of any division `m == q * n + r` with `0 <= r < n`. */
  lemma ModUnique(m: int, n: int, q: int, r: int)
    requires n >= 1 && 0 <= r < n && m == q * n + r
    ensures m % n == r
  {
    var q', r' := m / n, m % n;
    assert q' * n + r' == q * n + r;
    if q' != q {
      var d := q' - q;
      assert d * n == q' * n - q * n;
      assert d * n == r - r';
      if d > 0 {
        MulAtLeast(d, n);
      } else {
        MulAtLeast(-d, n);
      }
    }
  }

  lemma MulAtLeast(a: int, n: int)
    requires a >= 1 && n >= 1
    ensures a * n >= n
  {
    assert a * n == (a - 1) * n + n;
  }

  /** A full lap of forward steps returns to the starting card. */
  lemma FullLap(i: int, n: int)
    requires 0 <= i < n
    ensures SuccN(i, n, n) == i
  {
    SuccNIsMod(i, n, n);
    ModUnique(i + n, n, 1, i);
  }

  /** `(i + 1) % n`. */
  function RemNext(i: int, n: int): (r: int)
    requires n >= 1
    ensures 0 <= i < n ==> r == Succ(i, n)
    ensures -1 <= i ==> 0 <= r < n
  {
    JsRem(i + 1, n)
  }

  /** `(i - 1 + n) % n`. */
  function RemPrev(i: int, n: int): (r: int)
    requires n >= 1
    ensures 0 <= i < n ==> r == Pred(i, n)
    ensures 1 - n <= i ==> 0 <= r < n
  {
    assert 0 <= i < n ==> JsRem(i - 1 + n, n) == Pred(i, n) by {
      if 0 < i < n {
        ModUnique(i - 1 + n, n, 1, i - 1);
      } else if i == 0 {
        ModUnique(n - 1, n, 0, n - 1);
      }
    }
    JsRem(i - 1 + n, n)
  }

  /** `i === 0 ? n - 1 : i - 1`. */
  function ZeroPrev(i: int, n: int): (r: int)
    ensures 0 <= i < n ==> r == Pred(i, n)
    ensures i == 0 ==> r == n - 1
  {
    if i == 0 then n - 1 else i - 1
  }

  /** `i > 0 ? i - 1 : n - 1`: any index at or below zero goes to the last card. */
  function ClampPrev(i: int, n: int): (r: int)
    ensures 0 <= i < n ==> r == Pred(i, n)
    ensures n >= 1 && i <= n ==> 0 <= r < n
  {
    if i > 0 then i - 1 else n - 1
  }

  /** `i < n - 1 ? i + 1 : 0`: any index at or beyond the last card goes to the first. */
  function ClampNext(i: int, n: int): (r: int)
    ensures 0 <= i < n ==> r == Succ(i, n)
    ensures n >= 1 && -1 <= i ==> 0 <= r < n
  {
    if i < n - 1 then i + 1 else 0
  }

  /**
   * On an index that is on the ring, the four spellings agree: `(i+1) % n` with
   * `i < n-1 ? i+1 : 0`, and `(i-1+n) % n` with both conditional forms.
   */
  lemma SpellingsAgree(i: int, n: int)
    requires 0 <= i < n
    ensures RemNext(i, n) == ClampNext(i, n)
    ensures RemPrev(i, n) == ZeroPrev(i, n) == ClampPrev(i, n)
  {
  }

  /** Off the ring they differ: from index n the remainder form wraps to 1, the clamped form to 0. */
  lemma SpellingsDifferOffRing(n: int)
    requires n >= 2
    ensures RemNext(n, n) == 1 && ClampNext(n, n) == 0
  {
    assert n + 1 == 1 * n + 1;
  }
}

=== FILE: scene_card3d.dfy ===
/**
 * A single 3D scene card: its texture-load flags, the face material those flags select,
 * the frame and badge around the face, and the scale and lift that selection and hover give.
 */
module SceneCard3D {
  import opened Wrappers
  import opened Three

  /** The component's `isLoading`, `hasError` and `texture` state. */
  datatype LoadFlags = LoadFlags(isLoading: bool, hasError: bool, texture: Option<Texture>)

  const InitialFlags := LoadFlags(true, false, None)

  /** The load effect starts: loading again, no error, texture kept. */
  function StartLoad(f: LoadFlags): (r: LoadFlags)
    ensures r.isLoading && !r.hasError && r.texture == f.texture
  {
    f.(isLoading := true, hasError := false)
  }

  /** The loader resolved: the texture is stored, mipmapped and flagged for upload. */
  function LoadSucceeded(f: LoadFlags, t: Texture): (r: LoadFlags)
    ensures !r.isLoading && r.hasError == f.hasError
    ensures r.texture == Some(t.(generateMipmaps := true, needsUpdate := true))
  {
    f.(texture := Some(t.(generateMipmaps := true, needsUpdate := true)), isLoading := false)
  }

  /** The loader rejected: loading stops with the error flag set. */
  function LoadFailed(f: LoadFlags): (r: LoadFlags)
    ensures !r.isLoading && r.hasError && r.texture == f.texture
  {
    f.(hasError := true, isLoading := false)
  }

  /** One run of the load effect, whose outcome is `loaded` (None when the loader rejects). */
  function RunLoad(f: LoadFlags, loaded: Option<Texture>): (r: LoadFlags)
    ensures !r.isLoading
    ensures r.hasError <==> loaded.None?
    ensures loaded.Some? ==> r.texture.Some? && r.texture.value.url == loaded.value.url
  {
    var started := StartLoad(f);
    match loaded
    case Some(t) => LoadSucceeded(started, t)
    case None => LoadFailed(started)
  }

  const CardWidth: real := 3.0
  const CardHeight: real := 2.0
  const CardDepth: real := 0.1
  const BorderWidth: real := 0.05

  const LoadingColor: Color := 0x666666
  const ErrorColor: Color := 0xff4444
  const FallbackColor: Color := 0x888888

  /** The face material: loading beats error beats a texture beats the grey fallback. */
  function FaceMaterial(f: LoadFlags): (m: Material)
    ensures m.transparent && m.side == FrontSide
    ensures f.isLoading ==> m.color == LoadingColor && m.texture.None? && m.opacity == 0.8
    ensures !f.isLoading && f.hasError ==> m.color == ErrorColor && m.texture.None? && m.opacity == 0.8
    ensures !f.isLoading && !f.hasError && f.texture.Some? ==> m.texture == f.texture && m.opacity == 0.95
    ensures !f.isLoading && !f.hasError && f.texture.None? ==> m.color == FallbackColor && m.texture.None? && m.opacity == 0.8
  {
    if f.isLoading then BasicMaterial(LoadingColor, true, 0.8)
    else if f.hasError then BasicMaterial(ErrorColor, true, 0.8)
    else if f.texture.Some? then Material(White, f.texture, true, 0.95, FrontSide)
    else BasicMaterial(FallbackColor, true, 0.8)
  }

  /** A face shows the texture exactly when a load finished without error. */
  lemma FaceShowsTextureIff(f: LoadFlags)
    ensures FaceMaterial(f).texture.Some? <==> !f.isLoading && !f.hasError && f.texture.Some?
  {
  }

  const SelectedFrameColor: Color := 0x3b82f6
  const HoveredFrameColor: Color := 0x6366f1
  const PlainFrameColor: Color := 0x374151

  /** Frame colour: selected beats hovered beats neither. */
  function FrameColor(isSelected: bool, isHovered: bool): (c: Color)
    ensures isSelected ==> c == SelectedFrameColor
    ensures !isSelected && isHovered ==> c == HoveredFrameColor
    ensures !isSelected && !isHovered ==> c == PlainFrameColor
  {
    if isSelected then SelectedFrameColor else if isHovered then HoveredFrameColor else PlainFrameColor
  }

  /** Scale factor: selected beats hovered beats neither. */
  function TargetScale(isSelected: bool, isHovered: bool): (s: real)
    ensures isSelected ==> s == 1.1
    ensures !isSelected && isHovered ==> s == 1.05
    ensures !isSelected && !isHovered ==> s == 1.0
  {
    if isSelected then 1.1 else if isHovered then 1.05 else 1.0
  }

  /** The frame and the scale rank the three states the same way. */
  lemma EmphasisConsistent(sel: bool, hov: bool)
    ensures TargetScale(sel, hov) > 1.0 <==> FrameColor(sel, hov) != PlainFrameColor
    ensures TargetScale(sel, hov) == 1.1 <==> FrameColor(sel, hov) == SelectedFrameColor
  {
  }

  const BadgeColor: Color := 0x1f2937

  /**
   * `createCard`: a group of four meshes in back-to-front order: the face at depth/2, the
   * frame box one border wider and taller, the badge 0.01 in front of the face and the
   * label 0.02 in front of it, both in the top-left corner.
   */
  function CreateCard(f: LoadFlags, isSelected: bool, isHovered: bool): (g: Group)
    ensures |g.children| == 4 && g.pose == IdentityPose
    ensures g.children[0].geometry == PlaneGeometry(CardWidth, CardHeight)
    ensures g.children[0].material == FaceMaterial(f)
    ensures g.children[1].geometry == BoxGeometry(CardWidth + BorderWidth, CardHeight + BorderWidth, CardDepth)
    ensures g.children[1].material.color == FrameColor(isSelected, isHovered)
    ensures g.children[0].position.z == CardDepth / 2.0
    ensures g.children[2].position.z == CardDepth / 2.0 + 0.01
    ensures g.children[3].position.z == CardDepth / 2.0 + 0.02
    ensures g.children[0].position.z < g.children[2].position.z < g.children[3].position.z
    ensures g.children[2].position.x == g.children[3].position.x == -CardWidth / 2.0 + 0.3
    ensures g.children[2].position.y == g.children[3].position.y == CardHeight / 2.0 - 0.3
    ensures g.children[0].castShadow && g.children[0].receiveShadow && g.children[1].castShadow && g.children[1].receiveShadow
  {
    var face := NewMesh(PlaneGeometry(CardWidth, CardHeight), FaceMaterial(f));
    var frame := NewMesh(BoxGeometry(CardWidth + BorderWidth, CardHeight + BorderWidth, CardDepth),
                         BasicMaterial(FrameColor(isSelected, isHovered), true, 0.8));
    var corner := Vec3(-CardWidth / 2.0 + 0.3, CardHeight / 2.0 - 0.3, 0.0);
    var badge := NewMesh(CircleGeometry(0.2, 32), BasicMaterial(BadgeColor, true, 0.9));
    var caption := NewMesh(PlaneGeometry(0.3, 0.3), BasicMaterial(White, true, 0.9));
    Group([face.(position := Vec3(0.0, 0.0, CardDepth / 2.0), castShadow := true, receiveShadow := true),
           frame.(castShadow := true, receiveShadow := true),
           badge.(position := corner.(z := CardDepth / 2.0 + 0.01)),
           caption.(position := corner.(z := CardDepth / 2.0 + 0.02))],
          IdentityPose)
  }

  /** The card is built once, on mount, when the flags are still the initial ones: its face is the loading material. */
  lemma MountedCardShowsLoading(sel: bool, hov: bool)
    ensures CreateCard(InitialFlags, sel, hov).children[0].material.color == LoadingColor
    ensures CreateCard(InitialFlags, sel, hov).children[0].material.texture.None?
  {
  }

  /**
   * The appearance effect: nothing before the group exists; otherwise scale by the
   * emphasis, copy position and rotation, and lift by 0.1 when hovered or selected.
   */
  function ApplyAppearance(g: Option<Group>, position: Vec3, rotation: Vec3, isSelected: bool, isHovered: bool): (r: Option<Group>)
    ensures g.None? <==> r.None?
    ensures r.Some? ==> r.value.children == g.value.children
    ensures r.Some? ==> var p := r.value.pose;
      && p.scale == Vec3(TargetScale(isSelected, isHovered), TargetScale(isSelected, isHovered), TargetScale(isSelected, isHovered))
      && p.rotation == rotation
      && p.position.x == position.x && p.position.z == position.z
      && p.position.y == (if isSelected || isHovered then position.y + 0.1 else position.y)
  {
    match g
    case None => None
    case Some(grp) =>
      var s := TargetScale(isSelected, isHovered);
      var lifted := if isHovered || isSelected then position.(y := position.y + 0.1) else position;
      Some(grp.(pose := Pose(lifted, rotation, Vec3(s, s, s))))
  }

  /** Applying the effect again with the same props changes nothing: the lift does not accumulate. */
  lemma ApplyAppearanceIdempotent(g: Option<Group>, position: Vec3, rotation: Vec3, sel: bool, hov: bool)
    ensures var once := ApplyAppearance(g, position, rotation, sel, hov);
      ApplyAppearance(once, position, rotation, sel, hov) == once
  {
  }
}

=== FILE: scene_carousel.dfy ===
/**
 * The page-level 3D carousel: the WebGL ring with a fixed configuration, wrapped in the
 * keyboard layer, with its own current index driven by arrows, indicators and card clicks.
 */
module SceneCarousel {
  import opened Wrappers
  import opened Types
  import opened RingIndex
  import CM = CarouselMechanics
  import KN = KeyboardNavigation

  /** The configuration handed to the ring: radius 8, height 0, speed 0.02, no auto-rotation. */
  const CarouselConfig: CM.Config :=
    CM.ResolveConfig(CM.ConfigPatch(Some(8.0), Some(0.0), Some(0.02), Some(false), None))

  /** The fixed configuration spells out exactly the defaults of the motion hook. */
  lemma ConfigIsFixed()
    ensures CarouselConfig == CM.Config(8.0, 0.0, 0.02, false, 0.005)
    ensures CarouselConfig == CM.ResolveConfig(CM.NoPatch)
  {
  }

  /** `handleNavigate`: `i > 0 ? i - 1 : n - 1` backwards, `i < n - 1 ? i + 1 : 0` forwards. */
  function Navigate(i: int, d: KN.Direction, n: int): (r: int)
    ensures 0 <= i < n && d == KN.Backward ==> r == Pred(i, n)
    ensures 0 <= i < n && d == KN.Forward ==> r == Succ(i, n)
    ensures n >= 1 && -1 <= i <= n ==> 0 <= r < n
  {
    match d
    case Backward => ClampPrev(i, n)
    case Forward => ClampNext(i, n)
  }

  /** The props this component gives the keyboard layer: navigate, select and set, but no escape. */
  function KeyProps(n: nat, i: int): (p: KN.Props)
    ensures p.hasNavigate && p.hasSelect && !p.hasEscape && p.hasSetIndex
    ensures p.itemCount == n && p.currentIndex == i
  {
    KN.Props(true, true, false, true, n, i)
  }

  /** The effect of one keyboard-layer call on the current index; selecting only logs. */
  function Apply(i: int, n: int, c: Option<KN.Call>): (r: int)
    ensures c.None? ==> r == i
    ensures c.Some? && c.value.Navigate? ==> r == Navigate(i, c.value.direction, n)
    ensures c.Some? && c.value.SetIndex? ==> r == c.value.index
    ensures c.Some? && (c.value.Select? || c.value.Escape?) ==> r == i
  {
    match c
    case None => i
    case Some(Navigate(d)) => Navigate(i, d, n)
    case Some(SetIndex(k)) => k
    case Some(_) => i
  }

  /** A key press on the carousel, through the keyboard layer. */
  function KeyDown(i: int, n: nat, key: string, inside: bool): (r: int)
    ensures n >= 1 && 0 <= i < n ==> 0 <= r < n
    ensures !inside ==> r == i
    ensures inside && key == "Home" && n >= 1 ==> r == 0
    ensures inside && key == "End" && n >= 1 ==> r == n - 1
    ensures inside && 0 <= i < n && key == "ArrowLeft" ==> r == Pred(i, n)
    ensures inside && 0 <= i < n && key == "ArrowRight" ==> r == Succ(i, n)
  {
    Apply(i, n, KN.HandleKeyDown(KeyProps(n, i), key, inside).call)
  }

  /** Left then right on the keyboard returns to the same scene. */
  lemma LeftThenRight(i: int, n: nat)
    requires 0 <= i < n
    ensures KeyDown(KeyDown(i, n, "ArrowLeft", true), n, "ArrowRight", true) == i
  {
    SuccPredInverse(i, n);
  }

  /** `handleSceneSelect` and the indicator buttons both make the given index current. */
  function SelectScene(i: int, index: int): (r: int)
    ensures r == index
  {
    Apply(i, 0, Some(KN.SetIndex(index)))
  }

  datatype View = Placeholder | Carousel(scenes: seq<GeneratedScene>, config: CM.Config, indicators: seq<bool>)

  function Render(scenes: seq<GeneratedScene>, i: int): (v: View)
    ensures v.Placeholder? <==> |scenes| == 0
    ensures v.Carousel? ==> v.scenes == scenes && v.config == CarouselConfig
    ensures v.Carousel? ==> |v.indicators| == |scenes| && forall k :: 0 <= k < |scenes| ==> (v.indicators[k] <==> k == i)
  {
    if |scenes| == 0 then Placeholder
    else Carousel(scenes, CarouselConfig, seq(|scenes|, k requires 0 <= k < |scenes| => k == i))
  }
}

=== FILE: simple3d_carousel.dfy ===
/**
 * The CSS 3D carousel: one current card shown flat, its neighbours turned aside behind it,
 * the rest pushed back; arrows, swipes, clicks and indicators move the current card.
 */
module Simple3DCarousel {
  import opened Wrappers
  import opened JsMath
  import opened Types
  import opened RingIndex

  datatype ImageDimensions = Square | Portrait | Landscape

  datatype Size = Size(width: real, height: real)

  /** The container before the first measurement. */
  const InitialSize := Size(400.0, 400.0)

  /** The side of the square container for a window this wide: phone, tablet, desktop. */
  function BaseSize(windowWidth: real): (b: real)
    ensures windowWidth < 640.0 ==> b == 300.0
    ensures 640.0 <= windowWidth < 1024.0 ==> b == 350.0
    ensures 1024.0 <= windowWidth ==> b == 400.0
  {
    if windowWidth < 640.0 then 300.0 else if windowWidth < 1024.0 then 350.0 else 400.0
  }

  /** `getContainerDimensions`: the base square, narrowed for portrait and widened for landscape. */
  function ContainerSize(windowWidth: real, dims: ImageDimensions): (s: Size)
    ensures var b := BaseSize(windowWidth);
      && (dims == Square ==> s == Size(b, b))
      && (dims == Portrait ==> s == Size(b * 0.75, b * 1.33))
      && (dims == Landscape ==> s == Size(b * 1.33, b * 0.75))
  {
    var b := BaseSize(windowWidth);
    match dims
    case Square => Size(b, b)
    case Portrait => Size(b * 0.75, b * 1.33)
    case Landscape => Size(b * 1.33, b * 0.75)
  }

  /**
   * Portrait is taller than wide, landscape is portrait turned on its side, and a wider
   * window never gives a smaller container.
   */
  lemma ContainerShape(w: real, w': real, dims: ImageDimensions)
    ensures ContainerSize(w, Portrait).width < ContainerSize(w, Portrait).height
    ensures ContainerSize(w, Landscape) == Size(ContainerSize(w, Portrait).height, ContainerSize(w, Portrait).width)
    ensures ContainerSize(w, Square).width == ContainerSize(w, Square).height
    ensures w <= w' ==> ContainerSize(w, dims).width <= ContainerSize(w', dims).width
    ensures w <= w' ==> ContainerSize(w, dims).height <= ContainerSize(w', dims).height
  {
  }

  /** `nextScene`: `(i + 1) % n`. */
  function NextScene(i: int, n: int): (r: int)
    requires n >= 1
    ensures 0 <= i < n ==> r == Succ(i, n)
  {
    RemNext(i, n)
  }

  /** `prevScene`: `i === 0 ? n - 1 : i - 1`. */
  function PrevScene(i: int, n: int): (r: int)
    ensures 0 <= i < n ==> r == Pred(i, n)
  {
    ZeroPrev(i, n)
  }

  /** How a card is placed relative to the current one; checked in this order. */
  datatype Role = Active | PrevCard | NextCard | Background

  function CardRole(index: int, current: int, n: int): Role
    requires n >= 1
  {
    if index == current then Active
    else if index == RemPrev(current, n) then PrevCard
    else if index == RemNext(current, n) then NextCard
    else Background
  }

  datatype CardStyle = CardStyle(transform: string, opacity: real, zIndex: int)

  function StyleOf(role: Role): (st: CardStyle)
    ensures st.zIndex == 3 <==> role == Active
    ensures st.opacity == 1.0 <==> role == Active
    ensures role.PrevCard? || role.NextCard? <==> st.zIndex == 2
    ensures st.opacity <= 1.0 && 1 <= st.zIndex <= 3
  {
    match role
    case Active => CardStyle("translateZ(0px) scale(1)", 1.0, 3)
    case PrevCard => CardStyle("translateZ(-100px) translateX(-200px) rotateY(45deg) scale(0.8)", 0.6, 2)
    case NextCard => CardStyle("translateZ(-100px) translateX(200px) rotateY(-45deg) scale(0.8)", 0.6, 2)
    case Background => CardStyle("translateZ(-200px) scale(0.6)", 0.2, 1)
  }

  /**
   * With the current card on the ring: it is the only active card; from three cards on
   * there is exactly one card on each side; with two cards the other one is on the left,
   * because the left-hand test comes first.
   */
  lemma RolesOnRing(index: int, current: int, n: int)
    requires 0 <= index < n && 0 <= current < n
    ensures CardRole(index, current, n) == Active <==> index == current
    ensures n >= 3 ==> (CardRole(index, current, n) == PrevCard <==> index == Pred(current, n))
    ensures n >= 3 ==> (CardRole(index, current, n) == NextCard <==> index == Succ(current, n))
    ensures n == 2 && index != current ==> CardRole(index, current, n) == PrevCard
    ensures n <= 2 ==> CardRole(index, current, n) != NextCard
  {
  }

  /** One swipe: a horizontal travel of more than 50 pixels; leftwards goes forward. */
  const SwipeThreshold: real := 50.0

  function Swipe(i: int, startX: real, endX: real, n: int): (r: int)
    requires n >= 1
    ensures Abs(startX - endX) <= SwipeThreshold ==> r == i
    ensures startX - endX > SwipeThreshold ==> r == NextScene(i, n)
    ensures endX - startX > SwipeThreshold ==> r == PrevScene(i, n)
  {
    var diff := startX - endX;
    if Abs(diff) > SwipeThreshold then
      if diff > 0.0 then NextScene(i, n) else PrevScene(i, n)
    else i
  }

  /** A long swipe one way followed by the same swipe back returns to the same card. */
  lemma SwipeBackAndForth(i: int, a: real, b: real, n: int)
    requires 0 <= i < n
    ensures Swipe(Swipe(i, a, b, n), b, a, n) == i
  {
    SuccPredInverse(i, n);
  }

  /** A scene handed to `onSceneSelect`, with its index. */
  datatype Selection = Selection(scene: GeneratedScene, index: int)

  /** The new current index, the selection reported (if any) and whether the default was prevented. */
  datatype Outcome = Outcome(index: int, selected: Option<Selection>, preventDefault: bool)

  /**
   * The keyboard layer: arrows step, Enter and Space report the current scene without
   * moving, any other key does nothing.
   */
  function KeyDown(scenes: seq<GeneratedScene>, i: int, key: string): (o: Outcome)
    requires 0 <= i < |scenes|
    ensures 0 <= o.index < |scenes|
    ensures key == "ArrowLeft" ==> o == Outcome(Pred(i, |scenes|), None, true)
    ensures key == "ArrowRight" ==> o == Outcome(Succ(i, |scenes|), None, true)
    ensures key in {"Enter", " "} ==> o == Outcome(i, Some(Selection(scenes[i], i)), true)
    ensures key !in {"ArrowLeft", "ArrowRight", "Enter", " "} ==> o == Outcome(i, None, false)
  {
    match key
    case "ArrowLeft" => Outcome(PrevScene(i, |scenes|), None, true)
    case "ArrowRight" => Outcome(NextScene(i, |scenes|), None, true)
    case "Enter" => Outcome(i, Some(Selection(scenes[i], i)), true)
    case " " => Outcome(i, Some(Selection(scenes[i], i)), true)
    case _ => Outcome(i, None, false)
  }

  /** Clicking card `k` makes it current and reports it. */
  function CardClick(scenes: seq<GeneratedScene>, k: int): (o: Outcome)
    requires 0 <= k < |scenes|
    ensures o.index == k && o.selected == Some(Selection(scenes[k], k))
    ensures !o.preventDefault
  {
    Outcome(k, Some(Selection(scenes[k], k)), false)
  }

  /** After clicking a card, Enter reports the same selection as the click did. */
  lemma ClickThenEnter(scenes: seq<GeneratedScene>, k: int)
    requires 0 <= k < |scenes|
    ensures KeyDown(scenes, CardClick(scenes, k).index, "Enter").selected == CardClick(scenes, k).selected
  {
  }

  /** What the component renders: the placeholder, or one styled card and one indicator per scene. */
  datatype View =
    | Placeholder
    | Carousel(size: Size, styles: seq<CardStyle>, indicators: seq<bool>)

  function Render(scenes: seq<GeneratedScene>, current: int, size: Size): (v: View)
    ensures v.Placeholder? <==> |scenes| == 0
    ensures v.Carousel? ==> |v.styles| == |v.indicators| == |scenes| && v.size == size
    ensures v.Carousel? ==> forall k :: 0 <= k < |scenes| ==>
      v.styles[k] == StyleOf(CardRole(k, current, |scenes|)) && (v.indicators[k] <==> k == current)
  {
    var n := |scenes|;
    if n == 0 then Placeholder
    else Carousel(size,
                  seq(n, k requires 0 <= k < n => StyleOf(CardRole(k, current, n))),
                  seq(n, k requires 0 <= k < n => k == current))
  }

  /** On a valid index exactly one card is drawn in front, and it is the current one. */
  lemma OneCardInFront(scenes: seq<GeneratedScene>, current: int, size: Size, k: int)
    requires 0 <= current < |scenes| && 0 <= k < |scenes|
    ensures var v := Render(scenes, current, size);
      v.Carousel? && (v.styles[k].zIndex == 3 <==> k == current) && (v.styles[k].zIndex == 3 <==> v.indicators[k])
  {
    RolesOnRing(k, current, |scenes|);
  }
}

=== FILE: three.dfy ===
/** The few Three.js value types the carousel builds: vectors, poses, colours and sides. */
module Three {
  import opened Wrappers

  /** A `THREE.Vector3`, also used for the angles of a `THREE.Euler`. */
  datatype Vec3 = Vec3(x: real, y: real, z: real)

  const Origin := Vec3(0.0, 0.0, 0.0)
  const UnitScale := Vec3(1.0, 1.0, 1.0)

  /** Position, rotation and scale of an object. */
  datatype Pose = Pose(position: Vec3, rotation: Vec3, scale: Vec3)

  /** `THREE.FrontSide`, `THREE.BackSide`, `THREE.DoubleSide` (0, 1, 2). */
  datatype Side = FrontSide | BackSide | DoubleSide

  /** A colour as its 24-bit hexadecimal value. */
  type Color = c: int | 0 <= c < 0x100_0000

  datatype Geometry =
    | PlaneGeometry(width: real, height: real)
    | BoxGeometry(width: real, height: real, depth: real)
    | CircleGeometry(radius: real, segments: nat)

  /** A loaded image texture; `generateMipmaps` defaults to true in Three.js. */
  datatype Texture = Texture(url: string, generateMipmaps: bool, needsUpdate: bool)

  /** A `MeshBasicMaterial`: colour 0xffffff, opaque, front side unless told otherwise. */
  datatype Material = Material(color: Color, texture: Option<Texture>, transparent: bool, opacity: real, side: Side)

  function BasicMaterial(color: Color, transparent: bool, opacity: real): Material {
    Material(color, None, transparent, opacity, FrontSide)
  }

  const White: Color := 0xffffff

  datatype Mesh = Mesh(geometry: Geometry, material: Material, position: Vec3, castShadow: bool, receiveShadow: bool)

  /** `new THREE.Mesh(g, m)`: at the origin, casting and receiving no shadow. */
  function NewMesh(g: Geometry, m: Material): Mesh {
    Mesh(g, m, Origin, false, false)
  }

  const IdentityPose := Pose(Origin, Origin, UnitScale)

  /** A `THREE.Group` of meshes. */
  datatype Group = Group(children: seq<Mesh>, pose: Pose)
}

=== FILE: three_carousel.dfy ===
/**
 * The WebGL carousel component: building one card per scene into a 'carousel' group,
 * resolving a click to a card through the hit object's ancestors, the metadata overlay,
 * and the navigation controls shown for more than one scene.
 */
module ThreeCarousel {
  import opened Wrappers
  import opened Three
  import opened Types
  import opened JsMath
  import CM = CarouselMechanics
  import TO = ThreeObjects

  /** A card group's `userData`; meshes, groups and the scene carry the empty one. */
  datatype UserData = UserData(sceneIndex: Option<int>, sceneData: Option<GeneratedScene>, isEnhanced: bool)

  const NoUserData := UserData(None, None, false)

  datatype Card = Card(group: Group, userData: UserData)

  /** A top-level child of the Three.js scene: a named group of cards, or a card on its own. */
  datatype Node = CarouselGroup(name: string, rotationY: real, cards: seq<Card>) | LoneCard(card: Card)

  /**
   * The component's scene graph: the scene's children, `sceneObjectsRef`, the index of the
   * node `carouselGroupRef` points at, and the object factory's state.
   */
  datatype World = World(nodes: seq<Node>, sceneObjects: seq<Card>, carouselGroup: Option<nat>, objects: TO.Objects)

  const EmptyWorld := World([], [], None, TO.InitialObjects)

  /** The options every card is built with. */
  const CardOpts := TO.CardOptions(Some(true), Some(0.9), Some(true), Some(true))

  /** Build the first `n` cards in order; card i takes pose i and is tagged with index i. */
  function BuildCards(o: TO.Objects, scenes: seq<GeneratedScene>, poses: seq<Pose>,
                      outcomes: seq<TO.LoadOutcome>, n: nat): (r: (TO.Objects, seq<Card>))
    requires n <= |scenes| == |poses| == |outcomes|
    ensures |r.1| == n
    ensures forall i :: 0 <= i < n ==>
      && r.1[i].userData == UserData(Some(i), Some(scenes[i]), true)
      && r.1[i].group.pose == poses[i]
      && |r.1[i].group.children| == 3
    ensures TO.Valid(o) ==> TO.Valid(r.0)
    decreases n
  {
    if n == 0 then (o, [])
    else
      var (o1, cards) := BuildCards(o, scenes, poses, outcomes, n - 1);
      var (o2, g) := TO.CreateSceneCard(o1, 3.0, 2.0, 0.1, Some(scenes[n - 1].imageUrl), CardOpts, outcomes[n - 1]);
      (o2, cards + [Card(g.(pose := poses[n - 1]), UserData(Some(n - 1), Some(scenes[n - 1]), true))])
  }

  /** `scene.remove(card)`: only a direct child of the scene is removed. */
  function SceneRemove(nodes: seq<Node>, c: Card): (r: seq<Node>)
    ensures |r| <= |nodes|
    ensures forall i :: 0 <= i < |r| ==> r[i] in nodes && r[i] != LoneCard(c)
    ensures (forall i :: 0 <= i < |nodes| ==> nodes[i].CarouselGroup?) ==> r == nodes
    decreases |nodes|
  {
    if |nodes| == 0 then []
    else if nodes[0] == LoneCard(c) then SceneRemove(nodes[1..], c)
    else [nodes[0]] + SceneRemove(nodes[1..], c)
  }

  /** The clearing loop: `scene.remove` on every card of `sceneObjectsRef`. */
  function RemoveAll(nodes: seq<Node>, cards: seq<Card>): (r: seq<Node>)
    ensures (forall i :: 0 <= i < |nodes| ==> nodes[i].CarouselGroup?) ==> r == nodes
    decreases |cards|
  {
    if |cards| == 0 then nodes else RemoveAll(SceneRemove(nodes, cards[0]), cards[1..])
  }

  function CountGroups(nodes: seq<Node>): (n: nat)
    ensures n <= |nodes|
  {
    if |nodes| == 0 then 0 else (if nodes[0].CarouselGroup? then 1 else 0) + CountGroups(nodes[1..])
  }

  lemma {:induction false} CountGroupsAppend(a: seq<Node>, b: seq<Node>)
    ensures CountGroups(a + b) == CountGroups(a) + CountGroups(b)
    decreases |a|
  {
    if |a| > 0 {
      CountGroupsAppend(a[1..], b);
      assert (a + b)[1..] == a[1..] + b;
    } else {
      assert a + b == b;
    }
  }

  /** The shared part of a rebuild: the new cards and the new 'carousel' group. */
  function NewCarousel(w: World, scenes: seq<GeneratedScene>, cfg: CM.Config, trig: Trig,
                       outcomes: seq<TO.LoadOutcome>): (r: (TO.Objects, Node))
    requires |outcomes| == |scenes| >= 1
    ensures r.1.CarouselGroup? && r.1.name == "carousel" && r.1.rotationY == 0.0
    ensures |r.1.cards| == |scenes|
    ensures forall i :: 0 <= i < |scenes| ==>
      && r.1.cards[i].userData == UserData(Some(i), Some(scenes[i]), true)
      && r.1.cards[i].group.pose == CM.ScenePosition(cfg, trig, i, |scenes|)
    ensures TO.Valid(w.objects) ==> TO.Valid(r.0)
  {
    var poses := CM.ScenePositions(cfg, trig, |scenes|);
    var (o, cards) := BuildCards(w.objects, scenes, poses, outcomes, |scenes|);
    (o, CarouselGroup("carousel", 0.0, cards))
  }

  /**
   * `createSceneObjects` as written: nothing happens without a scene or without scenes;
   * the clearing step calls `scene.remove` on cards that live inside the old group, so the
   * old group stays in the scene next to the new one.
   */
  function CreateSceneObjectsAsWritten(w: World, sceneReady: bool, scenes: seq<GeneratedScene>,
                                       cfg: CM.Config, trig: Trig, outcomes: seq<TO.LoadOutcome>): (r: World)
    requires |outcomes| == |scenes|
    ensures !sceneReady || |scenes| == 0 ==> r == w
    ensures sceneReady && |scenes| > 0 && (forall i :: 0 <= i < |w.nodes| ==> w.nodes[i].CarouselGroup?) ==>
      && |r.nodes| == |w.nodes| + 1
      && r.nodes[..|w.nodes|] == w.nodes
      && CountGroups(r.nodes) == CountGroups(w.nodes) + 1
  {
    if !sceneReady || |scenes| == 0 then w
    else
      var cleared := RemoveAll(w.nodes, w.sceneObjects);
      var (o, group) := NewCarousel(w, scenes, cfg, trig, outcomes);
      var nodes := cleared + [group];
      CountGroupsAppend(cleared, [group]);
      World(nodes, group.cards, Some(|nodes| - 1), o)
  }

  /** Two builds in a row leave two 'carousel' groups in the scene. */
  lemma RebuildLeavesOldGroup(scenes: seq<GeneratedScene>, cfg: CM.Config, trig: Trig, outcomes: seq<TO.LoadOutcome>)
    requires |outcomes| == |scenes| >= 1
    ensures var once := CreateSceneObjectsAsWritten(EmptyWorld, true, scenes, cfg, trig, outcomes);
      var twice := CreateSceneObjectsAsWritten(once, true, scenes, cfg, trig, outcomes);
      CountGroups(once.nodes) == 1 && CountGroups(twice.nodes) == 2
  {
    var once := CreateSceneObjectsAsWritten(EmptyWorld, true, scenes, cfg, trig, outcomes);
    assert |once.nodes| == 1 && once.nodes[0].CarouselGroup?;
  }

  /** The scene holds at most the one group the ref points at. */
  predicate SingleCarousel(w: World) {
    && |w.nodes| <= 1
    && (forall i :: 0 <= i < |w.nodes| ==> w.nodes[i].CarouselGroup?)
    && (|w.nodes| == 1 ==> w.carouselGroup == Some(0))
  }

  /** Remove the node at `i`, if there is one. */
  function RemoveAt(nodes: seq<Node>, i: Option<nat>): (r: seq<Node>)
    ensures i.Some? && i.value < |nodes| ==> r == nodes[..i.value] + nodes[i.value + 1..]
    ensures i.None? || i.value >= |nodes| ==> r == nodes
  {
    if i.Some? && i.value < |nodes| then nodes[..i.value] + nodes[i.value + 1..] else nodes
  }

  /**
   * `createSceneObjects` with the clearing step removing the previous 'carousel' group
   * itself: the scene holds only the freshly built cards.
   */
  function CreateSceneObjects(w: World, sceneReady: bool, scenes: seq<GeneratedScene>,
                              cfg: CM.Config, trig: Trig, outcomes: seq<TO.LoadOutcome>): (r: World)
    requires |outcomes| == |scenes|
    ensures !sceneReady || |scenes| == 0 ==> r == w
    ensures SingleCarousel(w) ==> SingleCarousel(r)
    ensures sceneReady && |scenes| > 0 ==>
      && |r.sceneObjects| == |scenes|
      && r.carouselGroup.Some? && r.carouselGroup.value < |r.nodes|
      && r.nodes[r.carouselGroup.value].CarouselGroup?
      && r.nodes[r.carouselGroup.value].cards == r.sceneObjects
      && forall i :: 0 <= i < |scenes| ==>
           && r.sceneObjects[i].userData == UserData(Some(i), Some(scenes[i]), true)
           && r.sceneObjects[i].group.pose == CM.ScenePosition(cfg, trig, i, |scenes|)
    ensures sceneReady && |scenes| > 0 && SingleCarousel(w) ==> |r.nodes| == 1
    ensures TO.Valid(w.objects) ==> TO.Valid(r.objects)
  {
    if !sceneReady || |scenes| == 0 then w
    else
      var cleared := RemoveAt(RemoveAll(w.nodes, w.sceneObjects), w.carouselGroup);
      var (o, group) := NewCarousel(w, scenes, cfg, trig, outcomes);
      var nodes := cleared + [group];
      World(nodes, group.cards, Some(|nodes| - 1), o)
  }

  /** `updateCarouselRotation`: turn the group the ref points at, if any. */
  function UpdateRotation(w: World, angle: real): (r: World)
    ensures |r.nodes| == |w.nodes| && r.sceneObjects == w.sceneObjects && r.carouselGroup == w.carouselGroup
    ensures forall i :: 0 <= i < |w.nodes| && Some(i) != w.carouselGroup ==> r.nodes[i] == w.nodes[i]
    ensures w.carouselGroup.Some? && w.carouselGroup.value < |w.nodes| && w.nodes[w.carouselGroup.value].CarouselGroup? ==>
      r.nodes[w.carouselGroup.value] == w.nodes[w.carouselGroup.value].(rotationY := angle)
  {
    match w.carouselGroup
    case Some(i) =>
      if i < |w.nodes| && w.nodes[i].CarouselGroup? then w.(nodes := w.nodes[i := w.nodes[i].(rotationY := angle)]) else w
    case None => w
  }

  /** Normalised device coordinates of a click in a `width` × `height` window. */
  function Ndc(p: CM.Point, width: real, height: real): (r: CM.Point)
    requires width > 0.0 && height > 0.0
    ensures 0.0 <= p.x <= width ==> -1.0 <= r.x <= 1.0
    ensures 0.0 <= p.y <= height ==> -1.0 <= r.y <= 1.0
  {
    CM.Point(p.x / width * 2.0 - 1.0, -(p.y / height) * 2.0 + 1.0)
  }

  /** The mapping is invertible: the click point is recovered from its device coordinates. */
  lemma NdcInverse(p: CM.Point, width: real, height: real)
    requires width > 0.0 && height > 0.0
    ensures (Ndc(p, width, height).x + 1.0) * width / 2.0 == p.x
    ensures (1.0 - Ndc(p, width, height).y) * height / 2.0 == p.y
  {
  }

  /** JavaScript truthiness of an optional number: absent and 0 are falsy. */
  predicate TruthyIndex(i: Option<int>) {
    i.Some? && i.value != 0
  }

  /**
   * The ancestor walk as written: climb from the hit object while `userData.sceneIndex`
   * is falsy, then accept the object if its index is defined.
   */
  function FindCardAsWritten(chain: seq<UserData>): (r: Option<UserData>)
    ensures r.Some? ==> r.value in chain && TruthyIndex(r.value.sceneIndex)
    ensures r.None? <==> forall i :: 0 <= i < |chain| ==> !TruthyIndex(chain[i].sceneIndex)
    decreases |chain|
  {
    if |chain| == 0 then None
    else if TruthyIndex(chain[0].sceneIndex) then Some(chain[0])
    else FindCardAsWritten(chain[1..])
  }

  /** The walk as intended: stop at the first ancestor whose index is defined. */
  function FindCard(chain: seq<UserData>): (r: Option<UserData>)
    ensures r.Some? ==> r.value in chain && r.value.sceneIndex.Some?
    ensures r.None? <==> forall i :: 0 <= i < |chain| ==> chain[i].sceneIndex.None?
    ensures r.Some? ==> exists i :: (0 <= i < |chain| && chain[i] == r.value &&
      forall j :: 0 <= j < i ==> chain[j].sceneIndex.None?)
    decreases |chain|
  {
    if |chain| == 0 then None
    else if chain[0].sceneIndex.Some? then Some(chain[0])
    else
      var r := FindCard(chain[1..]);
      assert r.Some? ==> exists i :: (0 <= i < |chain| && chain[i] == r.value &&
        forall j :: 0 <= j < i ==> chain[j].sceneIndex.None?)
      by {
        if r.Some? {
          var i :| 0 <= i < |chain[1..]| && chain[1..][i] == r.value && forall j :: 0 <= j < i ==> chain[1..][j].sceneIndex.None?;
          assert chain[i + 1] == r.value;
          assert forall j :: 0 <= j < i + 1 ==> chain[j].sceneIndex.None? by {
            forall j | 0 <= j < i + 1 ensures chain[j].sceneIndex.None? {
              if j > 0 {
                assert chain[j] == chain[1..][j - 1];
              }
            }
          }
        }
      }
      r
  }

  /** The ancestors of a hit on one of card `k`'s meshes: the mesh, the card, the group, the scene. */
  function HitChain(c: Card): seq<UserData> {
    [NoUserData, c.userData, NoUserData, NoUserData]
  }

  /** The intended walk finds the card from any of its meshes. */
  lemma FindCardFromMesh(c: Card)
    requires c.userData.sceneIndex.Some?
    ensures FindCard(HitChain(c)) == Some(c.userData)
  {
    assert HitChain(c)[1..] == [c.userData, NoUserData, NoUserData];
  }

  /** A hit on card 0 resolves to nothing in the as-written walk; the intended walk finds it. */
  lemma CardZeroUnpickable(c: Card)
    requires c.userData.sceneIndex == Some(0)
    ensures FindCardAsWritten(HitChain(c)).None?
    ensures FindCard(HitChain(c)) == Some(c.userData)
  {
  }

  /** Every other card resolves to itself under both walks. */
  lemma OtherCardsPickable(c: Card)
    requires c.userData.sceneIndex.Some? && c.userData.sceneIndex.value != 0
    ensures FindCardAsWritten(HitChain(c)) == Some(c.userData)
    ensures FindCard(HitChain(c)) == Some(c.userData)
  {
  }

  datatype Overlay = Overlay(isVisible: bool, scene: Option<GeneratedScene>, index: int, position: CM.Point)

  const InitialOverlay := Overlay(false, None, 0, CM.Point(0.0, 0.0))

  /** The component's React state: the overlay, the selected scene and the carousel hook's state. */
  datatype View = View(overlay: Overlay, selectedScene: Option<GeneratedScene>, carousel: CM.State)

  /** A call of the `onSceneSelect` prop. */
  datatype Selected = Selected(scene: Option<GeneratedScene>, index: int)

  /** Select the card found by the walk: overlay at the click, rotate to it, report it. */
  function SelectCard(v: View, card: Option<UserData>, click: CM.Point, total: int): (r: (View, Option<Selected>))
    requires total >= 1
    ensures card.None? || card.value.sceneIndex.None? ==> r == (v, None)
    ensures card.Some? && card.value.sceneIndex.Some? ==>
      var k := card.value.sceneIndex.value;
      && r.0.selectedScene == card.value.sceneData
      && r.0.overlay == Overlay(true, card.value.sceneData, k, click)
      && r.0.carousel == CM.RotateToScene(v.carousel, k, total)
      && r.1 == Some(Selected(card.value.sceneData, k))
  {
    match card
    case None => (v, None)
    case Some(u) =>
      match u.sceneIndex
      case None => (v, None)
      case Some(k) =>
        (View(Overlay(true, u.sceneData, k, click), u.sceneData, CM.RotateToScene(v.carousel, k, total)),
         Some(Selected(u.sceneData, k)))
  }

  /**
   * `handleSceneClick` with the as-written walk. `hits` are the raycaster's intersections,
   * nearest first, each given as its object's ancestor chain.
   */
  function HandleSceneClickAsWritten(v: View, rendererReady: bool, click: CM.Point,
                                     hits: seq<seq<UserData>>, total: int): (r: (View, Option<Selected>))
    requires total >= 1
    ensures !rendererReady || |hits| == 0 ==> r == (v, None)
    ensures rendererReady && |hits| > 0 ==> r == SelectCard(v, FindCardAsWritten(hits[0]), click, total)
  {
    if !rendererReady || |hits| == 0 then (v, None)
    else SelectCard(v, FindCardAsWritten(hits[0]), click, total)
  }

  /** `handleSceneClick` with the intended walk. */
  function HandleSceneClick(v: View, rendererReady: bool, click: CM.Point,
                            hits: seq<seq<UserData>>, total: int): (r: (View, Option<Selected>))
    requires total >= 1
    ensures !rendererReady || |hits| == 0 ==> r == (v, None)
    ensures rendererReady && |hits| > 0 ==> r == SelectCard(v, FindCard(hits[0]), click, total)
  {
    if !rendererReady || |hits| == 0 then (v, None)
    else SelectCard(v, FindCard(hits[0]), click, total)
  }

  /** Clicking any built card selects it, shows the overlay there and turns the ring to it. */
  lemma ClickSelectsBuiltCard(v: View, w: World, k: int, click: CM.Point, total: int)
    requires total >= 1 && 0 <= k < |w.sceneObjects|
    requires w.sceneObjects[k].userData.sceneIndex == Some(k)
    ensures var (v1, sel) := HandleSceneClick(v, true, click, [HitChain(w.sceneObjects[k])], total);
      && sel == Some(Selected(w.sceneObjects[k].userData.sceneData, k))
      && v1.overlay.isVisible && v1.overlay.index == k && v1.overlay.position == click
      && v1.carousel.currentIndex == k
  {
    FindCardFromMesh(w.sceneObjects[k]);
  }

  /** With the as-written walk, clicking the first card does nothing at all. */
  lemma ClickOnFirstCardIgnored(v: View, c: Card, click: CM.Point, total: int)
    requires total >= 1 && c.userData.sceneIndex == Some(0)
    ensures HandleSceneClickAsWritten(v, true, click, [HitChain(c)], total) == (v, None)
  {
  }

  /** `handleMetadataClose`: hide the overlay and keep everything it showed. */
  function CloseOverlay(v: View): (r: View)
    ensures !r.overlay.isVisible
    ensures r.overlay.scene == v.overlay.scene && r.overlay.index == v.overlay.index && r.overlay.position == v.overlay.position
    ensures r.selectedScene == v.selectedScene && r.carousel == v.carousel
  {
    v.(overlay := v.overlay.(isVisible := false))
  }

  /** The overlay element is rendered only when visible and holding a scene. */
  predicate ShowsOverlay(v: View) {
    v.overlay.isVisible && v.overlay.scene.Some?
  }

  /** Previous/next buttons and indicator dots are rendered only for more than one scene. */
  predicate ShowsControls(total: int) {
    total > 1
  }

  /** The indicator dots: one per scene when controls are shown, the current one highlighted. */
  function Indicators(total: int, current: int): (dots: seq<bool>)
    ensures ShowsControls(total) ==> |dots| == total
    ensures !ShowsControls(total) ==> dots == []
    ensures forall k :: 0 <= k < |dots| ==> (dots[k] <==> k == current)
  {
    if total > 1 then seq(total, k requires 0 <= k < total => k == current) else []
  }

  /** At most one dot is highlighted, and exactly one when the current index is a scene. */
  lemma OneActiveIndicator(total: int, current: int, a: int, b: int)
    requires 0 <= a < |Indicators(total, current)| && 0 <= b < |Indicators(total, current)|
    requires Indicators(total, current)[a] && Indicators(total, current)[b]
    ensures a == b
  {
  }

  /** Clicking dot `k` rotates the ring to scene `k`. */
  function IndicatorClick(v: View, k: int, total: int): (r: View)
    requires total >= 1
    ensures r.carousel.currentIndex == k && r.carousel.isRotating
    ensures r.overlay == v.overlay && r.selectedScene == v.selectedScene
  {
    v.(carousel := CM.RotateToScene(v.carousel, k, total))
  }
}

=== FILE: three_objects.dfy ===
/**
 * The Three.js object factory hook: one lazily created texture loader, a URL-keyed texture
 * cache without reference counting or sharing of in-flight loads, textured planes that fall
 * back to a grey material, three-part scene cards, and a cleanup that disposes the cache.
 */
module ThreeObjects {
  import opened Wrappers
  import opened Three
  import OM = OrderedMap

  datatype LoaderOptions = LoaderOptions(crossOrigin: Option<string>, generateMipmaps: Option<bool>)

  const NoLoaderOptions := LoaderOptions(None, None)

  datatype Loader = Loader(crossOrigin: Option<string>)

  /**
   * The hook's refs: the loader (created on first use), how many loaders were ever
   * constructed, the texture cache, and the URL of every `loader.load` call issued.
   */
  datatype Objects = Objects(
    loader: Option<Loader>,
    loadersCreated: nat,
    cache: OM.OMap<string, Texture>,
    loads: seq<string>)

  const InitialObjects := Objects(None, 0, [], [])

  /** At most one loader exists, and the cache holds one texture per URL, loaded from that URL. */
  predicate Valid(o: Objects) {
    && o.loadersCreated == (if o.loader.Some? then 1 else 0)
    && OM.DistinctKeys(o.cache)
    && forall i :: 0 <= i < |o.cache| ==> o.cache[i].value.url == o.cache[i].key
  }

  lemma InitialValid()
    ensures Valid(InitialObjects)
  {
  }

  /** `getTextureLoader`: construct the loader the first time only. */
  function GetTextureLoader(o: Objects): (r: (Objects, Loader))
    ensures o.loader.Some? ==> r == (o, o.loader.value)
    ensures o.loader.None? ==> r.0.loader == Some(r.1) && r.0.loadersCreated == o.loadersCreated + 1
    ensures r.0.cache == o.cache && r.0.loads == o.loads
    ensures r.0.loader == Some(r.1)
    ensures Valid(o) ==> Valid(r.0)
  {
    match o.loader
    case Some(l) => (o, l)
    case None =>
      var l := Loader(None);
      (o.(loader := Some(l), loadersCreated := o.loadersCreated + 1), l)
  }

  /** A JavaScript string is truthy when it is non-empty. */
  predicate TruthyString(s: Option<string>) {
    s.Some? && s.value != ""
  }

  datatype LoadStart = Cached(texture: Texture) | Issued(request: nat)

  /**
   * `loadTexture` up to the loader's callbacks: a cached URL resolves at once without the
   * loader; any other URL issues a new `loader.load`, even while the same URL is loading.
   */
  function BeginLoad(o: Objects, url: string, opts: LoaderOptions): (r: (Objects, LoadStart))
    ensures OM.Has(o.cache, url) ==> r == (o, Cached(OM.Get(o.cache, url).value))
    ensures !OM.Has(o.cache, url) ==>
      && r.1 == Issued(|o.loads|)
      && r.0.loads == o.loads + [url]
      && r.0.cache == o.cache
      && r.0.loader.Some?
      && (TruthyString(opts.crossOrigin) ==> r.0.loader.value.crossOrigin == opts.crossOrigin)
    ensures Valid(o) ==> Valid(r.0)
  {
    match OM.Get(o.cache, url)
    case Some(t) => (o, Cached(t))
    case None =>
      var (o1, l) := GetTextureLoader(o);
      var l1 := if TruthyString(opts.crossOrigin) then l.(crossOrigin := opts.crossOrigin) else l;
      (o1.(loader := Some(l1), loads := o1.loads + [url]), Issued(|o.loads|))
  }

  /** A texture load started twice for an uncached URL goes to the loader twice. */
  lemma NoInFlightSharing(o: Objects, url: string)
    requires !OM.Has(o.cache, url)
    ensures var (o1, s1) := BeginLoad(o, url, NoLoaderOptions);
      var (o2, s2) := BeginLoad(o1, url, NoLoaderOptions);
      s1.Issued? && s2.Issued? && s1 != s2 && o2.loads == o.loads + [url, url]
  {
  }

  datatype LoadOutcome = LoadSucceeds | LoadFails(reason: string)

  /**
   * The loader's callbacks for request `request`: a success caches and resolves the texture,
   * flagged for upload and mipmapping; a failure rejects and leaves the cache alone.
   */
  function FinishLoad(o: Objects, request: nat, opts: LoaderOptions, outcome: LoadOutcome): (r: (Objects, Result<Texture, string>))
    requires request < |o.loads|
    ensures outcome.LoadSucceeds? ==>
      && r.1.Success?
      && r.1.value.url == o.loads[request] && r.1.value.needsUpdate && r.1.value.generateMipmaps
      && r.0 == o.(cache := OM.Set(o.cache, o.loads[request], r.1.value))
    ensures outcome.LoadFails? ==> r == (o, Failure(outcome.reason))
    ensures Valid(o) ==> Valid(r.0)
  {
    match outcome
    case LoadFails(reason) => (o, Failure(reason))
    case LoadSucceeds =>
      var url := o.loads[request];
      var loaded := Texture(url, true, false);
      var t := loaded.(generateMipmaps := if opts.generateMipmaps == Some(false) then loaded.generateMipmaps else true,
                       needsUpdate := true);
      (o.(cache := OM.Set(o.cache, url, t)), Success(t))
  }

  /** `loadTexture` from call to settlement, when no other load interleaves. */
  function LoadTexture(o: Objects, url: string, opts: LoaderOptions, outcome: LoadOutcome): (r: (Objects, Result<Texture, string>))
    ensures OM.Has(o.cache, url) ==> r == (o, Success(OM.Get(o.cache, url).value))
    ensures !OM.Has(o.cache, url) ==> r.0.loads == o.loads + [url] && r.0.loader.Some?
    ensures !OM.Has(o.cache, url) && outcome.LoadSucceeds? ==>
      r.1.Success? && r.1.value.url == url && OM.Get(r.0.cache, url) == Some(r.1.value)
    ensures !OM.Has(o.cache, url) && outcome.LoadFails? ==>
      r.1 == Failure(outcome.reason) && r.0.cache == o.cache
    ensures Valid(o) ==> Valid(r.0)
  {
    var (o1, start) := BeginLoad(o, url, opts);
    match start
    case Cached(t) => (o1, Success(t))
    case Issued(id) => FinishLoad(o1, id, opts, outcome)
  }

  /** A texture, once loaded, is served from the cache without asking the loader again. */
  lemma LoadTextureTwice(o: Objects, url: string, opts: LoaderOptions, other: LoadOutcome)
    requires Valid(o)
    ensures var (o1, t1) := LoadTexture(o, url, opts, LoadSucceeds);
      var (o2, t2) := LoadTexture(o1, url, opts, other);
      o2 == o1 && t2 == t1
  {
  }

  datatype PlaneOptions = PlaneOptions(transparent: Option<bool>, opacity: Option<real>, side: Option<Side>)

  /** `options.opacity || 1`: an absent or zero opacity becomes 1. */
  function OpacityOr1(opacity: Option<real>): (r: real)
    ensures opacity.None? || opacity.value == 0.0 ==> r == 1.0
    ensures opacity.Some? && opacity.value != 0.0 ==> r == opacity.value
  {
    if opacity.None? || opacity.value == 0.0 then 1.0 else opacity.value
  }

  /** The grey used when a plane has no texture. */
  const FallbackColor: Color := 0x888888

  /**
   * The material of a plane. The grey fallback is built without a `side`, so it
   * renders the front side whatever the options ask for; `keepSide` gives the
   * corrected behaviour that honours `options.side` there too.
   */
  function PlaneMaterial(tex: Option<Texture>, opts: PlaneOptions, keepSide: bool): (m: Material)
    ensures m.texture == tex
    ensures m.transparent == opts.transparent.GetOr(false)
    ensures m.opacity == OpacityOr1(opts.opacity)
    ensures tex.Some? ==> m.color == White && m.side == opts.side.GetOr(FrontSide)
    ensures tex.None? ==> m.color == FallbackColor && m.side == (if keepSide then opts.side.GetOr(FrontSide) else FrontSide)
  {
    var transparent := opts.transparent.GetOr(false);
    var opacity := OpacityOr1(opts.opacity);
    match tex
    case Some(t) => Material(White, Some(t), transparent, opacity, opts.side.GetOr(FrontSide))
    case None => Material(FallbackColor, None, transparent, opacity, if keepSide then opts.side.GetOr(FrontSide) else FrontSide)
  }

  /**
   * `createTexturedPlane` generalised over the fallback's side: never fails; a truthy URL
   * whose texture loads gives a texture-mapped material, anything else the grey fallback.
   */
  function TexturedPlane(o: Objects, width: real, height: real, url: Option<string>, opts: PlaneOptions,
                         outcome: LoadOutcome, keepSide: bool): (r: (Objects, Mesh))
    ensures r.1.geometry == PlaneGeometry(width, height)
    ensures r.1.position == Origin && !r.1.castShadow && !r.1.receiveShadow
    ensures r.1.material.texture.Some? <==> TruthyString(url) && (OM.Has(o.cache, url.value) || outcome.LoadSucceeds?)
    ensures Valid(o) && r.1.material.texture.Some? ==> r.1.material.texture.value.url == url.value
    ensures r.1.material == PlaneMaterial(r.1.material.texture, opts, keepSide)
    ensures !TruthyString(url) ==> r.0 == o
    ensures Valid(o) ==> Valid(r.0)
  {
    if TruthyString(url) then
      var (o1, loaded) := LoadTexture(o, url.value, NoLoaderOptions, outcome);
      assert Valid(o) && OM.Has(o.cache, url.value) ==> OM.Get(o.cache, url.value).value.url == url.value by {
        if Valid(o) && OM.Has(o.cache, url.value) {
          var i := OM.Find(o.cache, url.value);
          assert o.cache[i].key == url.value;
        }
      }
      var texture := if loaded.Success? then Some(loaded.value) else None;
      (o1, NewMesh(PlaneGeometry(width, height), PlaneMaterial(texture, opts, keepSide)))
    else
      (o, NewMesh(PlaneGeometry(width, height), PlaneMaterial(None, opts, keepSide)))
  }

  /** `createTexturedPlane` as written: the fallback material ignores `options.side`. */
  function CreateTexturedPlaneAsWritten(o: Objects, width: real, height: real, url: Option<string>,
                                        opts: PlaneOptions, outcome: LoadOutcome): (r: (Objects, Mesh))
    ensures r.1.material.texture.None? ==> r.1.material.side == FrontSide
    ensures r.1.material.texture.None? <==> !TruthyString(url) || (!OM.Has(o.cache, url.value) && outcome.LoadFails?)
  {
    TexturedPlane(o, width, height, url, opts, outcome, false)
  }

  /** The back plane a scene card asks for is drawn front-facing by the as-written factory. */
  lemma BackPlaneSideIgnored(o: Objects)
    ensures CreateTexturedPlaneAsWritten(o, 3.0, 2.0, None, PlaneOptions(Some(true), Some(0.1), Some(BackSide)), LoadSucceeds).1.material.side == FrontSide
  {
  }

  /** `createTexturedPlane` with the requested side kept on the fallback material. */
  function CreateTexturedPlane(o: Objects, width: real, height: real, url: Option<string>,
                               opts: PlaneOptions, outcome: LoadOutcome): (r: (Objects, Mesh))
    ensures r.1.material.side == opts.side.GetOr(FrontSide)
    ensures r.1.material.texture.None? <==> !TruthyString(url) || (!OM.Has(o.cache, url.value) && outcome.LoadFails?)
    ensures r.1.material.texture.None? ==> r.1.material.color == FallbackColor
    ensures r.1.material.opacity == OpacityOr1(opts.opacity)
    ensures Valid(o) ==> Valid(r.0)
  {
    TexturedPlane(o, width, height, url, opts, outcome, true)
  }

  datatype CardOptions = CardOptions(
    transparent: Option<bool>,
    opacity: Option<real>,
    castShadow: Option<bool>,
    receiveShadow: Option<bool>)

  const EdgeColor: Color := 0x333333

  /**
   * `createSceneCard` generalised over the plane factory's fallback side: a group of exactly
   * three meshes, in order the textured front plane at +depth/2, an untextured translucent
   * back plane at -depth/2 and the edge box.
   */
  function SceneCard(o: Objects, width: real, height: real, depth: real, url: Option<string>,
                     opts: CardOptions, outcome: LoadOutcome, keepSide: bool): (r: (Objects, Group))
    ensures |r.1.children| == 3
    ensures r.1.pose == IdentityPose
    ensures r.1.children[0].geometry == PlaneGeometry(width, height) && r.1.children[0].position == Vec3(0.0, 0.0, depth / 2.0)
    ensures r.1.children[0].material.side == FrontSide
    ensures r.1.children[0].material.texture.Some? <==> TruthyString(url) && (OM.Has(o.cache, url.value) || outcome.LoadSucceeds?)
    ensures r.1.children[1].geometry == PlaneGeometry(width, height) && r.1.children[1].position == Vec3(0.0, 0.0, -depth / 2.0)
    ensures r.1.children[1].material == Material(FallbackColor, None, true, 0.1, if keepSide then BackSide else FrontSide)
    ensures r.1.children[2].geometry == BoxGeometry(width, height, depth) && r.1.children[2].position == Origin
    ensures r.1.children[2].material == BasicMaterial(EdgeColor, true, 0.3)
    ensures forall i :: 0 <= i < 3 ==>
      r.1.children[i].castShadow == opts.castShadow.GetOr(false) && r.1.children[i].receiveShadow == opts.receiveShadow.GetOr(false)
    ensures Valid(o) ==> Valid(r.0)
  {
    var cast := opts.castShadow.GetOr(false);
    var receive := opts.receiveShadow.GetOr(false);
    var (o1, front) := TexturedPlane(o, width, height, url, PlaneOptions(opts.transparent, opts.opacity, Some(FrontSide)), outcome, keepSide);
    var (o2, back) := TexturedPlane(o1, width, height, None, PlaneOptions(Some(true), Some(0.1), Some(BackSide)), outcome, keepSide);
    var edges := NewMesh(BoxGeometry(width, height, depth), BasicMaterial(EdgeColor, true, 0.3));
    var children := [
      front.(position := Vec3(0.0, 0.0, depth / 2.0), castShadow := cast, receiveShadow := receive),
      back.(position := Vec3(0.0, 0.0, -depth / 2.0), castShadow := cast, receiveShadow := receive),
      edges.(castShadow := cast, receiveShadow := receive)];
    (o2, Group(children, IdentityPose))
  }

  /**
   * `createSceneCard` as written, on the as-written plane factory: the back plane asks for
   * the back side, but being untextured it comes out front-facing.
   */
  function CreateSceneCard(o: Objects, width: real, height: real, depth: real, url: Option<string>,
                           opts: CardOptions, outcome: LoadOutcome): (r: (Objects, Group))
    ensures |r.1.children| == 3
    ensures r.1.children[0].material.side == FrontSide
    ensures r.1.children[1].material == Material(FallbackColor, None, true, 0.1, FrontSide)
  {
    SceneCard(o, width, height, depth, url, opts, outcome, false)
  }

  /** `createSceneCard` on the corrected plane factory: the back plane is back-facing, as asked. */
  function CreateSceneCardCorrected(o: Objects, width: real, height: real, depth: real, url: Option<string>,
                                    opts: CardOptions, outcome: LoadOutcome): (r: (Objects, Group))
    ensures |r.1.children| == 3
    ensures r.1.children[1].material == Material(FallbackColor, None, true, 0.1, BackSide)
    ensures r.1.children[0] == CreateSceneCard(o, width, height, depth, url, opts, outcome).1.children[0]
    ensures r.1.children[2] == CreateSceneCard(o, width, height, depth, url, opts, outcome).1.children[2]
    ensures r.0 == CreateSceneCard(o, width, height, depth, url, opts, outcome).0
  {
    SceneCard(o, width, height, depth, url, opts, outcome, true)
  }

  /** `cleanup`: dispose every cached texture once, in cache order, and empty the cache. */
  function Cleanup(o: Objects): (r: (Objects, seq<Texture>))
    ensures r.0.cache == [] && r.0.loader == o.loader && r.0.loads == o.loads
    ensures |r.1| == |o.cache|
    ensures forall url :: OM.Has(o.cache, url) ==> OM.Get(o.cache, url).value in r.1
    ensures forall i :: 0 <= i < |r.1| ==> OM.Get(o.cache, o.cache[i].key) == Some(r.1[i]) || !OM.DistinctKeys(o.cache)
    ensures Valid(o) ==> Valid(r.0)
  {
    var disposed := OM.Values(o.cache);
    forall url | OM.Has(o.cache, url) ensures OM.Get(o.cache, url).value in disposed {
      assert disposed[OM.Find(o.cache, url)] == OM.Get(o.cache, url).value;
    }
    forall i | 0 <= i < |disposed| && OM.DistinctKeys(o.cache)
      ensures OM.Get(o.cache, o.cache[i].key) == Some(disposed[i])
    {
      OM.FindIs(o.cache, o.cache[i].key, i);
    }
    (o.(cache := []), disposed)
  }
}

=== FILE: toast_context.dfy ===
/** The toast queue: a reducer over a list of notices, each with a generated id. */
module ToastContext {
  import opened JsStrings

  /** A notice; `content` stands for the type, title, message and duration the UI shows. */
  datatype Toast<T> = Toast(id: string, content: T)

  datatype ToastAction<T> = AddToast(toast: Toast<T>) | RemoveToast(removeId: string) | ClearAll | UnknownAction

  /** The toasts whose id differs from `id`, in their original order. */
  function Without<T>(ts: seq<Toast<T>>, id: string): (r: seq<Toast<T>>)
    ensures |r| <= |ts|
    decreases |ts|
  {
    if |ts| == 0 then []
    else if ts[|ts| - 1].id == id then Without(ts[..|ts| - 1], id)
    else Without(ts[..|ts| - 1], id) + [ts[|ts| - 1]]
  }

  /** Removal keeps exactly the toasts with another id. */
  lemma {:induction false} WithoutSelects<T>(ts: seq<Toast<T>>, id: string)
    ensures forall k :: 0 <= k < |Without(ts, id)| ==> Without(ts, id)[k].id != id && Without(ts, id)[k] in ts
    ensures forall k :: 0 <= k < |ts| && ts[k].id != id ==> ts[k] in Without(ts, id)
    decreases |ts|
  {
    if |ts| > 0 {
      var init, last := ts[..|ts| - 1], ts[|ts| - 1];
      WithoutSelects(init, id);
      assert forall k :: 0 <= k < |init| ==> init[k] == ts[k];
      assert forall x :: x in init ==> x in ts;
    }
  }

  /** `toastReducer`: add at the end, remove by id, clear, and ignore anything else. */
  function Reduce<T>(ts: seq<Toast<T>>, a: ToastAction<T>): (r: seq<Toast<T>>)
    ensures a.AddToast? ==> |r| == |ts| + 1 && r[..|ts|] == ts && r[|ts|] == a.toast
    ensures a.RemoveToast? ==> forall k :: 0 <= k < |r| ==> r[k] in ts && r[k].id != a.removeId
    ensures a.RemoveToast? ==> forall k :: 0 <= k < |ts| && ts[k].id != a.removeId ==> ts[k] in r
    ensures a.ClearAll? ==> r == []
    ensures a.UnknownAction? ==> r == ts
  {
    match a
    case AddToast(t) => ts + [t]
    case RemoveToast(id) =>
      WithoutSelects(ts, id);
      Without(ts, id)
    case ClearAll => []
    case UnknownAction => ts
  }

  /** Removal works piecewise: removing from two lists joined is joining the two removals. */
  lemma {:induction false} WithoutAppend<T>(a: seq<Toast<T>>, b: seq<Toast<T>>, id: string)
    ensures Without(a + b, id) == Without(a, id) + Without(b, id)
    decreases |b|
  {
    if |b| > 0 {
      var b' := b[..|b| - 1];
      assert (a + b)[..|a + b| - 1] == a + b';
      assert (a + b)[|a + b| - 1] == b[|b| - 1];
      WithoutAppend(a, b', id);
    } else {
      assert a + b == a;
    }
  }

  /** A list with no toast of that id is left alone. */
  lemma {:induction false} WithoutAbsent<T>(ts: seq<Toast<T>>, id: string)
    requires forall k :: 0 <= k < |ts| ==> ts[k].id != id
    ensures Without(ts, id) == ts
    decreases |ts|
  {
    if |ts| > 0 {
      var init, last := ts[..|ts| - 1], ts[|ts| - 1];
      assert Without(ts, id) == Without(init, id) + [last];
      WithoutAbsent(init, id);
      assert ts == init + [last];
    }
  }

  /** Adding a toast with a fresh id and then removing it restores the queue. */
  lemma AddThenRemove<T>(ts: seq<Toast<T>>, t: Toast<T>)
    requires forall k :: 0 <= k < |ts| ==> ts[k].id != t.id
    ensures Reduce(Reduce(ts, AddToast(t)), RemoveToast(t.id)) == ts
  {
    WithoutAbsent(ts, t.id);
    assert (ts + [t])[..|ts|] == ts;
  }

  /** Removing the same id twice is removing it once. */
  lemma RemoveIdempotent<T>(ts: seq<Toast<T>>, id: string)
    ensures Reduce(Reduce(ts, RemoveToast(id)), RemoveToast(id)) == Reduce(ts, RemoveToast(id))
  {
    var r := Without(ts, id);
    WithoutSelects(ts, id);
    WithoutAbsent(r, id);
  }

  /** `addToast`'s id: "toast_", the clock reading, "_", and nine base-36 random characters. */
  function ToastId(now: nat, random: string): (id: string)
    ensures StartsWith(id, "toast_")
    ensures |id| == 7 + |NatToString(now)| + |random|
  {
    "toast_" + NatToString(now) + "_" + random
  }

  /** Toasts made at different clock readings have different ids when the random parts have no underscore. */
  lemma ToastIdsDiffer(now1: nat, now2: nat, r1: string, r2: string)
    requires NoneIn(r1, {'_'}) && NoneIn(r2, {'_'}) && now1 != now2
    ensures ToastId(now1, r1) != ToastId(now2, r2)
  {
    IdParts(now1, r1);
    IdParts(now2, r2);
    ParseNatToString(now1);
    ParseNatToString(now2);
  }

  lemma IdParts(now: nat, random: string)
    requires NoneIn(random, {'_'})
    ensures Split(ToastId(now, random), {'_'}) == ["toast", NatToString(now), random]
  {
    var digits := NatToString(now);
    assert ToastId(now, random) == "toast" + ['_'] + digits + ['_'] + random;
    assert NoneIn("toast", {'_'});
    DigitsHaveNo(digits, '_');
    SplitThree("toast", digits, random, '_');
  }

  /** `addToast`: the content gets a fresh id and goes to the end of the queue. */
  function AddToastWithId<T>(ts: seq<Toast<T>>, content: T, now: nat, random: string): (r: seq<Toast<T>>)
    ensures |r| == |ts| + 1 && r[..|ts|] == ts
    ensures r[|ts|] == Toast(ToastId(now, random), content)
  {
    Reduce(ts, AddToast(Toast(ToastId(now, random), content)))
  }
}

=== FILE: types.dfy ===
/** The application's shared records and configuration constants. */
module Types {
  import opened Wrappers

  /** A `Date`, as milliseconds since the epoch. */
  type Time = int

  datatype ProjectStatus = Draft | ProjectGenerating | ProjectCompleted | ProjectError

  datatype Project = Project(
    id: string,
    createdAt: Time,
    updatedAt: Time,
    status: ProjectStatus,
    name: Option<string>)

  /**
   * The brand form. `imageDimensions` is one of "square", "portrait", "landscape" by
   * its type, but the validator still checks it for emptiness, so it is kept as text.
   */
  datatype BrandInfo = BrandInfo(
    brandName: string,
    productName: string,
    productDescription: string,
    brandValues: string,
    imageDimensions: string)

  datatype SceneStatus = ScenePending | SceneCompleted | SceneError

  datatype GeneratedScene = GeneratedScene(
    id: string,
    sceneNumber: int,
    imageUrl: string,
    prompt: string,
    status: SceneStatus,
    createdAt: Time,
    downloadedAt: Option<Time>)

  datatype Dimensions = Dimensions(width: int, height: int)

  /** The parts of a browser `File` the application reads. */
  datatype FileInfo = FileInfo(name: string, size: int, mimeType: string)

  datatype UploadedImage = UploadedImage(
    file: FileInfo,
    previewUrl: string,
    fileName: string,
    fileSize: int,
    mimeType: string,
    dimensions: Option<Dimensions>)

  datatype RequestStatus = RequestPending | RequestProcessing | RequestCompleted | RequestFailed

  datatype GenerationRequest = GenerationRequest(
    id: string,
    projectId: string,
    openaiRequestId: Option<string>,
    replicateRequestId: Option<string>,
    status: RequestStatus,
    progress: real,
    startedAt: Time,
    completedAt: Option<Time>,
    errorMessage: Option<string>,
    scenes: seq<GeneratedScene>)

  /**
   * The form state. `image` is not declared on the interface; the reducer's SET_IMAGE
   * adds it, and the initial form does not have it.
   */
  datatype FormData = FormData(
    brandInfo: BrandInfo,
    isSubmitting: bool,
    errors: map<string, string>,
    image: Option<UploadedImage>)

  datatype Page = CreatePage | ResultsPage

  datatype AppState = AppState(
    currentProject: Option<Project>,
    formData: FormData,
    generatedScenes: seq<GeneratedScene>,
    generationRequest: Option<GenerationRequest>,
    isLoading: bool,
    error: Option<string>,
    currentPage: Page)

  datatype ValidationError = ValidationError(field: string, message: string)

  datatype FileValidationResult = FileValidationResult(isValid: bool, errors: seq<string>)

  /** `APP_CONFIG.maxFileSize`: 15 MiB. */
  const MaxFileSize: int := 15 * 1024 * 1024

  /** `APP_CONFIG.allowedFileTypes`. */
  const AllowedFileTypes: seq<string> := ["image/jpeg", "image/jpg", "image/png", "image/webp"]

  /** `APP_CONFIG.maxScenesPerGeneration`. */
  const MaxScenesPerGeneration: nat := 4

  const FileSizeMessage := "File size must be less than 15MB"
  const FileTypeMessage := "File must be a JPEG, PNG, or WebP image"
}

=== FILE: use_export.dfy ===
/** The export hook: the status shown while single, batch and ZIP exports run and after they end. */
module UseExport {
  import opened Wrappers
  import opened Types
  import EU = ExportUtils

  datatype Operation = Single | Multiple | Zip

  datatype ExportState = ExportState(
    isExporting: bool,
    currentOperation: Option<Operation>,
    progress: real,
    currentScene: Option<string>,
    error: Option<string>,
    completedDownloads: seq<string>)

  const InitialExportState := ExportState(false, None, 0.0, None, None, [])

  /** The common opening of every export: busy, this operation, no progress and no error. */
  function Start(s: ExportState, op: Operation, scene: Option<string>): (r: ExportState)
    ensures r.isExporting && r.currentOperation == Some(op) && r.progress == 0.0 && r.error.None?
    ensures r.currentScene == scene && r.completedDownloads == s.completedDownloads
  {
    s.(isExporting := true, currentOperation := Some(op), progress := 0.0, currentScene := scene, error := None)
  }

  /** The common close on success: idle, full progress, the exported ids appended (repeats kept). */
  function Succeed(s: ExportState, ids: seq<string>): (r: ExportState)
    ensures !r.isExporting && r.currentOperation.None? && r.progress == 100.0
    ensures r.completedDownloads == s.completedDownloads + ids
    ensures r.error == s.error && r.currentScene == s.currentScene
  {
    s.(isExporting := false, currentOperation := None, progress := 100.0, completedDownloads := s.completedDownloads + ids)
  }

  /** The common close on failure: idle, the message (or `fallback`), and nothing else touched. */
  function Fail(s: ExportState, t: EU.Thrown, fallback: string): (r: ExportState)
    ensures !r.isExporting && r.currentOperation.None?
    ensures r.error == Some(EU.Describe(t, fallback))
    ensures r.completedDownloads == s.completedDownloads && r.progress == s.progress && r.currentScene == s.currentScene
  {
    s.(isExporting := false, currentOperation := None, error := Some(EU.Describe(t, fallback)))
  }

  /** `exportSingleScene`, with `thrown` the failure of either download of the scene, if any. */
  function ExportSingleScene(s: ExportState, scene: GeneratedScene, thrown: Option<EU.Thrown>): (r: ExportState)
    ensures !r.isExporting && r.currentOperation.None?
    ensures thrown.None? ==> (r.progress == 100.0 && r.currentScene.None? && r.error.None?
      && r.completedDownloads == s.completedDownloads + [scene.id])
    ensures thrown.Some? ==> (r.progress == 0.0 && r.currentScene == Some(scene.id)
      && r.error == Some(EU.Describe(thrown.value, "Export failed")) && r.completedDownloads == s.completedDownloads)
  {
    var started := Start(s, Single, Some(scene.id));
    match thrown
    case None => Succeed(started, [scene.id]).(currentScene := None)
    case Some(t) => Fail(started, t, "Export failed")
  }

  function Ids(scenes: seq<GeneratedScene>): (ids: seq<string>)
    ensures |ids| == |scenes| && forall k :: 0 <= k < |scenes| ==> ids[k] == scenes[k].id
  {
    seq(|scenes|, k requires 0 <= k < |scenes| => scenes[k].id)
  }

  /**
   * `exportMultipleScenes`: the manager's batch download, then the state and the manager's
   * queue afterwards. Saving each blob to disk is left to the browser.
   */
  method ExportMultipleScenes<B>(s: ExportState, q: EU.Queue, scenes: seq<GeneratedScene>, outcomes: seq<Result<B, EU.Thrown>>)
    returns (r: ExportState, q': EU.Queue)
    requires |outcomes| == |scenes|
    ensures !r.isExporting && r.currentOperation.None? && r.currentScene.None?
    ensures (forall k :: 0 <= k < |outcomes| ==> outcomes[k].Success?) ==>
      r.progress == 100.0 && r.error.None? && r.completedDownloads == s.completedDownloads + Ids(scenes)
    ensures (exists k :: 0 <= k < |outcomes| && outcomes[k].Failure?) ==>
      r.progress == 0.0 && r.completedDownloads == s.completedDownloads
      && r.error == Some(EU.Describe(outcomes[EU.FirstFailure(outcomes)].error, "Export failed"))
  {
    var started := Start(s, Multiple, None);
    var blobs, thrown;
    blobs, thrown, q' := EU.DownloadScenes(q, scenes, outcomes);
    match thrown
    case None =>
      r := Succeed(started, Ids(scenes));
    case Some(t) =>
      r := Fail(started, t, "Export failed");
  }

  /**
   * `exportAsZip`: the manager's `createSceneZip` placeholder, which downloads the first scene
   * (with outcome `first`) and throws `noSceneError` when there is none.
   */
  function ExportAsZip<B>(s: ExportState, scenes: seq<GeneratedScene>, first: Result<B, EU.Thrown>, noSceneError: EU.Thrown): (r: ExportState)
    ensures !r.isExporting && r.currentOperation.None? && r.currentScene.None?
    ensures |scenes| == 0 ==> (r.progress == 0.0 && r.completedDownloads == s.completedDownloads
      && r.error == Some(EU.Describe(noSceneError, "ZIP export failed")))
    ensures |scenes| > 0 && first.Success? ==>
      r.progress == 100.0 && r.error.None? && r.completedDownloads == s.completedDownloads + Ids(scenes)
    ensures |scenes| > 0 && first.Failure? ==> (r.progress == 0.0 && r.completedDownloads == s.completedDownloads
      && r.error == Some(EU.Describe(first.error, "ZIP export failed")))
  {
    var started := Start(s, Zip, None);
    match EU.CreateSceneZip(scenes, first, noSceneError)
    case Success(_) => Succeed(started, Ids(scenes))
    case Failure(t) => Fail(started, t, "ZIP export failed")
  }

  /** `clearExportState`: the initial state and an empty manager queue. */
  function ClearExportState(s: ExportState, q: EU.Queue): (r: (ExportState, EU.Queue))
    ensures r.0 == InitialExportState && forall id :: EU.GetDownloadProgress(r.1, id).None?
  {
    (InitialExportState, EU.ClearDownloadQueue(q))
  }

  /** `isSceneCompleted`. */
  predicate IsSceneCompleted(s: ExportState, id: string) {
    id in s.completedDownloads
  }

  /** A successful single export marks that scene, and only that one, as newly completed; a failed one marks nothing. */
  lemma SingleExportCompletes(s: ExportState, scene: GeneratedScene, thrown: Option<EU.Thrown>, id: string)
    ensures IsSceneCompleted(ExportSingleScene(s, scene, thrown), id) <==>
      IsSceneCompleted(s, id) || (thrown.None? && id == scene.id)
  {
  }

  /** After a successful ZIP export every exported scene counts as completed. */
  lemma ZipExportCompletesAll<B>(s: ExportState, scenes: seq<GeneratedScene>, blob: B, noSceneError: EU.Thrown, k: int)
    requires 0 <= k < |scenes|
    ensures IsSceneCompleted(ExportAsZip(s, scenes, Success(blob), noSceneError), scenes[k].id)
  {
    var r := ExportAsZip(s, scenes, Success(blob), noSceneError);
    assert r.completedDownloads[|s.completedDownloads| + k] == scenes[k].id;
  }

  /** Clearing forgets completion, even of scenes exported before. */
  lemma ClearForgets(s: ExportState, q: EU.Queue, id: string)
    ensures !IsSceneCompleted(ClearExportState(s, q).0, id)
  {
  }
}

=== FILE: use_form.dfy ===
/** The form hook: validation written into the shared state as one message per field. */
module UseForm {
  import opened Wrappers
  import opened Types
  import AC = AppContext
  import Validation
  import FormHelpers

  /** Dispatching SET_FORM_ERROR for each message in turn. */
  function SetErrors(s: AppState, es: seq<ValidationError>, now: Time): AppState
    decreases |es|
  {
    if |es| == 0 then s
    else
      var last := es[|es| - 1];
      AC.Reduce(SetErrors(s, es[..|es| - 1], now), AC.SetFormError(last.field, last.message), now)
  }

  /** The last message listed for a field, if any. */
  function LastMessage(es: seq<ValidationError>, field: string): (m: Option<string>)
    ensures m.None? <==> forall k :: 0 <= k < |es| ==> es[k].field != field
    decreases |es|
  {
    if |es| == 0 then None
    else if es[|es| - 1].field == field then Some(es[|es| - 1].message)
    else LastMessage(es[..|es| - 1], field)
  }

  /** Writing the messages one by one leaves each field holding its last message, and nothing else changed. */
  lemma {:induction false} SetErrorsLastWins(s: AppState, es: seq<ValidationError>, now: Time)
    ensures var r := SetErrors(s, es, now);
      && r.(formData := s.formData) == s
      && r.formData.(errors := s.formData.errors) == s.formData
      && (forall f :: f in r.formData.errors <==> f in s.formData.errors || LastMessage(es, f).Some?)
      && (forall f :: LastMessage(es, f).Some? ==> r.formData.errors[f] == LastMessage(es, f).value)
      && (forall f :: f in s.formData.errors && LastMessage(es, f).None? ==> r.formData.errors[f] == s.formData.errors[f])
    decreases |es|
  {
    if |es| > 0 {
      SetErrorsLastWins(s, es[..|es| - 1], now);
      var last := es[|es| - 1];
      AC.SetFormErrorOneKey(SetErrors(s, es[..|es| - 1], now), last.field, last.message, now);
    }
  }

  /**
   * `validateCurrentForm`: validate the brand info, clear the old messages, record the new
   * ones, and answer whether there were none.
   */
  function ValidateCurrentForm(s: AppState, now: Time): (r: (bool, AppState))
    ensures r.0 <==> Validation.Acceptable(s.formData.brandInfo)
  {
    var errors := Validation.ValidateForm(s.formData.brandInfo);
    (errors == [], SetErrors(AC.Reduce(s, AC.ClearFormErrors, now), errors, now))
  }

  /** `isFormValid`: the error record has no keys. */
  predicate IsFormValid(fd: FormData) {
    |fd.errors.Keys| == 0
  }

  /** `canSubmit`. */
  predicate CanSubmit(fd: FormData) {
    IsFormValid(fd) && !fd.isSubmitting
  }

  /**
   * After validating, the stored record lists exactly the fields that have a message, and
   * the brand info is untouched.
   */
  lemma ValidationRecorded(s: AppState, now: Time)
    ensures var r := ValidateCurrentForm(s, now).1;
      && r.formData.brandInfo == s.formData.brandInfo
      && r.formData.isSubmitting == s.formData.isSubmitting
      && (forall f :: f in r.formData.errors <==>
            exists k :: 0 <= k < |Validation.ValidateForm(s.formData.brandInfo)| &&
              Validation.ValidateForm(s.formData.brandInfo)[k].field == f)
  {
    var errors := Validation.ValidateForm(s.formData.brandInfo);
    var s0 := AC.Reduce(s, AC.ClearFormErrors, now);
    AC.FormActions(s, AC.ClearFormErrors, now);
    SetErrorsLastWins(s0, errors, now);
    var r := SetErrors(s0, errors, now);
    forall f ensures f in r.formData.errors <==> exists k :: 0 <= k < |errors| && errors[k].field == f {
      assert f !in s0.formData.errors;
    }
  }

  /** The form counts as valid, and can be submitted when not already submitting, exactly when the answer was yes. */
  lemma ValidityMatchesAnswer(s: AppState, now: Time)
    ensures var (ok, r) := ValidateCurrentForm(s, now);
      && (IsFormValid(r.formData) <==> ok)
      && (CanSubmit(r.formData) <==> ok && !s.formData.isSubmitting)
  {
    var errors := Validation.ValidateForm(s.formData.brandInfo);
    ValidationRecorded(s, now);
    var r := ValidateCurrentForm(s, now).1;
    if errors != [] {
      assert errors[0].field in r.formData.errors;
    } else {
      assert r.formData.errors.Keys == {};
    }
  }

  /** The brand-name message lands under "brandName" when, and only when, the name is too short. */
  lemma BrandNameMessageStored(s: AppState, now: Time)
    ensures var r := ValidateCurrentForm(s, now).1;
      "brandName" in r.formData.errors <==> Validation.TooShort(s.formData.brandInfo.brandName, 2)
  {
    var b := s.formData.brandInfo;
    var errors := Validation.ValidateForm(b);
    ValidationRecorded(s, now);
    if Validation.TooShort(b.brandName, 2) {
      var k :| 0 <= k < |errors| && errors[k] == Validation.BrandNameError;
    } else {
      forall k | 0 <= k < |errors| ensures errors[k].field != "brandName" {
        assert errors[k] in errors;
        assert errors[k] != Validation.BrandNameError;
      }
    }
  }

  /** Editing the brand info does not clear old messages: validity stays as it was until the next validation. */
  lemma EditsKeepMessages(s: AppState, u: AC.BrandPatch, now: Time)
    ensures var r := AC.Reduce(s, AC.UpdateBrandInfo(u), now);
      r.formData.errors == s.formData.errors && (IsFormValid(r.formData) <==> IsFormValid(s.formData))
  {
  }

  /** `resetForm` makes the form submittable again. */
  lemma ResetMakesSubmittable(s: AppState, now: Time)
    ensures CanSubmit(AC.Reduce(s, AC.ResetForm, now).formData)
  {
    assert AC.InitialFormData.errors.Keys == {};
  }

  /** `getPrompt` reads the prompt off the stored brand info, which validation leaves alone. */
  lemma PromptSurvivesValidation(s: AppState, now: Time)
    ensures FormHelpers.BuildPrompt(ValidateCurrentForm(s, now).1.formData.brandInfo) == FormHelpers.BuildPrompt(s.formData.brandInfo)
  {
    ValidationRecorded(s, now);
  }
}

=== FILE: use_performance.dfy ===
/**
 * The `usePerformance` hooks: render and interaction tracking against the performance
 * monitor, a component's statistics, timed operations, and the virtual-scroll range kept
 * in state and moved by scroll events.
 */
module UsePerformance {
  import opened Wrappers
  import opened JsStrings
  import P = Performance

  /** The hook's options; the debounce and throttle delays are not modelled. */
  datatype Options = Options(componentName: string, trackRenders: bool, trackInteractions: bool)

  function DefaultOptions(componentName: string): (o: Options)
    ensures o.componentName == componentName && o.trackRenders && o.trackInteractions
  {
    Options(componentName, true, true)
  }

  /** The hook's refs: renders counted so far and the clock reading of the last one. */
  datatype Refs = Refs(renderCount: nat, lastRenderTime: real)

  const InitialRefs := Refs(0, 0.0)

  /**
   * The render effect at clock reading `now` (`performance.now()`; `stamp` is the metric's
   * date): when renders are tracked, count the render and record the time since the last one.
   */
  function TrackRender(m: P.Monitor, refs: Refs, o: Options, now: real, stamp: P.Time): (r: (P.Monitor, Refs))
    ensures !o.trackRenders ==> r == (m, refs)
    ensures o.trackRenders ==> r.1 == Refs(refs.renderCount + 1, now)
    ensures o.trackRenders ==> r.0 == P.RecordMetric(m, o.componentName + "-render", now - refs.lastRenderTime, P.Render, stamp).monitor
  {
    if o.trackRenders then
      (P.RecordMetric(m, o.componentName + "-render", now - refs.lastRenderTime, P.Render, stamp).monitor, Refs(refs.renderCount + 1, now))
    else (m, refs)
  }

  /** `trackInteraction(action)`: a zero-duration interaction metric named after the component and action, only when interactions are tracked. */
  function TrackInteraction(m: P.Monitor, o: Options, action: string, stamp: P.Time): (r: P.Monitor)
    ensures !o.trackInteractions || !m.isEnabled ==> r == m
    ensures o.trackInteractions && m.isEnabled ==>
      |r.metrics| > 0 && r.metrics[|r.metrics| - 1] == P.Metric(o.componentName + "-" + action, 0.0, stamp, P.Interaction)
    ensures o.trackInteractions && m.isEnabled && |m.metrics| < P.MaxMetrics ==>
      r.metrics == m.metrics + [P.Metric(o.componentName + "-" + action, 0.0, stamp, P.Interaction)]
  {
    if o.trackInteractions then P.RecordMetric(m, o.componentName + "-" + action, 0.0, P.Interaction, stamp).monitor else m
  }

  /** An interaction is never slow enough to be passed to the error monitor. */
  lemma InteractionsNeverReported(m: P.Monitor, o: Options, action: string, stamp: P.Time)
    ensures !P.RecordMetric(m, o.componentName + "-" + action, 0.0, P.Interaction, stamp).reported
  {
  }

  /**
   * `trackOperation` and `trackAsyncOperation`: the operation's result, timed as
   * `<component>-<operation>` under render (synchronous) or network (asynchronous).
   */
  function TrackOperation<T>(m: P.Monitor, o: Options, operation: string, async: bool, result: T, start: real, end: real, stamp: P.Time): (r: (T, P.Monitor))
    ensures r.0 == result
    ensures m.isEnabled && |m.metrics| < P.MaxMetrics ==>
      r.1.metrics == m.metrics + [P.Metric(o.componentName + "-" + operation, end - start, stamp, if async then P.Network else P.Render)]
    ensures !m.isEnabled ==> r.1 == m
  {
    var measured := P.Measure(m, o.componentName + "-" + operation, result, start, end, if async then P.Network else P.Render, stamp);
    (measured.0, measured.1.monitor)
  }

  /**
   * One call of the function `useOptimizedCalculation` returns: the calculation's result,
   * timed under the operation name when the memoised wrapper is returned and tracking is on;
   * without `memoize` the bare calculation is returned and nothing is recorded.
   */
  function OptimizedCalculation<T>(m: P.Monitor, memoize: bool, trackPerformance: bool, operationName: string, result: T, start: real, end: real, stamp: P.Time): (r: (T, P.Monitor))
    ensures r.0 == result
    ensures !memoize || !trackPerformance || !m.isEnabled ==> r.1 == m
    ensures memoize && trackPerformance && m.isEnabled && |m.metrics| < P.MaxMetrics ==>
      r.1.metrics == m.metrics + [P.Metric(operationName, end - start, stamp, P.DefaultMeasureCategory)]
  {
    if memoize && trackPerformance then
      var measured := P.Measure(m, operationName, result, start, end, P.DefaultMeasureCategory, stamp);
      (measured.0, measured.1.monitor)
    else (result, m)
  }

  datatype Stats = Stats(
    renderCount: nat,
    totalRenderTime: real,
    avgRenderTime: real,
    interactionCount: nat,
    slowestOperation: Option<P.Metric>)

  /** A metric of the given category whose name contains the component's name. */
  predicate Belongs(x: P.Metric, category: P.Category, componentName: string) {
    x.category == category && Contains(x.name, componentName)
  }

  /**
   * The component's metrics of one category, in recording order: `getMetrics(category)`
   * filtered to the names containing the component's name.
   */
  function ComponentMetrics(m: P.Monitor, category: P.Category, componentName: string): (r: seq<P.Metric>)
    ensures forall x :: x in r <==> x in m.metrics && Belongs(x, category, componentName)
    ensures multiset(r) + multiset(P.Where(P.GetMetrics(m, Some(category)), (x: P.Metric) => !Contains(x.name, componentName)))
      == multiset(P.GetMetrics(m, Some(category)))
  {
    var byCategory := P.GetMetrics(m, Some(category));
    P.WherePartition(byCategory, (x: P.Metric) => Contains(x.name, componentName), (x: P.Metric) => !Contains(x.name, componentName));
    P.Where(byCategory, (x: P.Metric) => Contains(x.name, componentName))
  }

  /** `findIndex` on a list of metrics: the first position whose name contains `part`, or the length. */
  function FindNamed(ms: seq<P.Metric>, part: string): (i: nat)
    ensures i <= |ms|
    ensures i < |ms| ==> Contains(ms[i].name, part)
    ensures forall j :: 0 <= j < i ==> !Contains(ms[j].name, part)
    decreases |ms|
  {
    if |ms| == 0 then 0
    else if Contains(ms[0].name, part) then 0
    else
      var rest := FindNamed(ms[1..], part);
      assert forall j :: 1 <= j < |ms| ==> ms[j] == ms[1..][j - 1];
      1 + rest
  }

  /** `find`: the first metric whose name contains `part`. */
  function FirstNamed(ms: seq<P.Metric>, part: string): (r: Option<P.Metric>)
    ensures r.Some? <==> exists i :: 0 <= i < |ms| && Contains(ms[i].name, part)
    ensures r.Some? ==> r.value in ms && Contains(r.value.name, part)
  {
    var i := FindNamed(ms, part);
    if i < |ms| then Some(ms[i]) else None
  }

  /** The slowest metric as the hook looks for it: only the single slowest of the whole buffer is searched. */
  function SlowestOperationAsWritten(m: P.Monitor, componentName: string): (r: Option<P.Metric>)
    ensures r.Some? <==> |m.metrics| > 0 && Contains(P.SortSlowest(m.metrics)[0].name, componentName)
    ensures r.Some? ==> r.value == P.SortSlowest(m.metrics)[0]
  {
    var top := P.GetSlowestMetrics(m, 1);
    assert |m.metrics| > 0 ==> top == [P.SortSlowest(m.metrics)[0]];
    FirstNamed(top, componentName)
  }

  /** The component's slowest metric: the first in slowest-first order whose name contains the component's. */
  function SlowestOperation(m: P.Monitor, componentName: string): (r: Option<P.Metric>)
    ensures r.Some? ==> r.value in m.metrics && Contains(r.value.name, componentName)
  {
    var sorted := P.SortSlowest(m.metrics);
    assert forall x :: x in sorted ==> x in multiset(m.metrics);
    FirstNamed(sorted, componentName)
  }

  /** The corrected search finds a metric exactly when the component has one, and it is the slowest of them. */
  lemma SlowestOperationIsSlowest(m: P.Monitor, componentName: string)
    ensures SlowestOperation(m, componentName).Some? <==> exists x :: x in m.metrics && Contains(x.name, componentName)
    ensures var r := SlowestOperation(m, componentName);
      r.Some? ==> forall x :: x in m.metrics && Contains(x.name, componentName) ==> x.duration <= r.value.duration
  {
    var sorted := P.SortSlowest(m.metrics);
    assert forall x :: x in m.metrics <==> x in sorted by {
      assert forall x :: x in m.metrics <==> x in multiset(sorted);
    }
    var i := FindNamed(sorted, componentName);
    if i < |sorted| {
      forall x | x in m.metrics && Contains(x.name, componentName) ensures x.duration <= sorted[i].duration {
        var k :| 0 <= k < |sorted| && sorted[k] == x;
        assert Contains(sorted[k].name, componentName);
        if k != i {
          assert i < k;
          assert sorted[i].duration >= sorted[k].duration;
        }
      }
    } else {
      forall x | x in m.metrics ensures !Contains(x.name, componentName) {
        var k :| 0 <= k < |sorted| && sorted[k] == x;
      }
    }
  }

  /** `getStats`: render count, total and mean render time, interaction count, and the slowest operation. */
  function GetStats(m: P.Monitor, refs: Refs, componentName: string): (s: Stats)
    ensures s.renderCount == refs.renderCount
    ensures var renders := ComponentMetrics(m, P.Render, componentName);
      && s.totalRenderTime == P.TotalDuration(renders)
      && (|renders| == 0 ==> s.avgRenderTime == 0.0)
      && P.IsMean(s.avgRenderTime, renders)
    ensures s.interactionCount == |ComponentMetrics(m, P.Interaction, componentName)|
    ensures s.slowestOperation.Some? <==> |m.metrics| > 0 && Contains(P.SortSlowest(m.metrics)[0].name, componentName)
    ensures s.slowestOperation.Some? ==> s.slowestOperation.value == P.SortSlowest(m.metrics)[0]
  {
    var renders := ComponentMetrics(m, P.Render, componentName);
    var total := P.TotalDuration(renders);
    Stats(refs.renderCount, total, P.MeanDuration(renders),
          |ComponentMetrics(m, P.Interaction, componentName)|, SlowestOperationAsWritten(m, componentName))
  }

  /** `getStats` with the corrected search: the component's own slowest metric, whenever it has one. */
  function GetStatsCorrected(m: P.Monitor, refs: Refs, componentName: string): (s: Stats)
    ensures s.(slowestOperation := None) == GetStats(m, refs, componentName).(slowestOperation := None)
    ensures s.slowestOperation.Some? <==> exists x :: x in m.metrics && Contains(x.name, componentName)
    ensures s.slowestOperation.Some? ==> forall x :: x in m.metrics && Contains(x.name, componentName) ==>
      x.duration <= s.slowestOperation.value.duration
  {
    SlowestOperationIsSlowest(m, componentName);
    GetStats(m, refs, componentName).(slowestOperation := SlowestOperation(m, componentName))
  }

  /**
   * A component with metrics of its own gets no slowest operation from the hook as soon
   * as some other metric of the buffer is slower than all of them; the corrected search
   * still names the component's slowest.
   */
  lemma SlowestMissedWhenOtherIsSlower(m: P.Monitor, refs: Refs, componentName: string, own: P.Metric, other: P.Metric)
    requires own in m.metrics && Contains(own.name, componentName)
    requires other in m.metrics && !Contains(other.name, componentName)
    requires forall x :: x in m.metrics && x != other ==> x.duration < other.duration
    ensures GetStats(m, refs, componentName).slowestOperation.None?
    ensures GetStatsCorrected(m, refs, componentName).slowestOperation.Some?
  {
    SlowestOperationIsSlowest(m, componentName);
    var sorted := P.SortSlowest(m.metrics);
    assert other in multiset(sorted);
    assert sorted[0] in multiset(m.metrics);
    var k :| 0 <= k < |sorted| && sorted[k] == other;
    assert sorted[0].duration >= other.duration;
  }

  /** The mean render time lies between the component's fastest and slowest render. */
  lemma AverageRenderWithinRenders(m: P.Monitor, refs: Refs, componentName: string)
    requires |ComponentMetrics(m, P.Render, componentName)| > 0
    ensures var renders := ComponentMetrics(m, P.Render, componentName);
      P.Fastest(renders) <= GetStats(m, refs, componentName).avgRenderTime <= P.Largest(renders)
  {
    var renders := ComponentMetrics(m, P.Render, componentName);
    StatsAverage(m, refs, componentName);
    P.MeanBetweenExtremes(renders);
  }

  /** The mean render time reported is the mean of the component's render metrics. */
  lemma StatsAverage(m: P.Monitor, refs: Refs, componentName: string)
    ensures GetStats(m, refs, componentName).avgRenderTime == P.MeanDuration(ComponentMetrics(m, P.Render, componentName))
  {
  }

  // ---------------------------------------------------------------- virtual scroll

  /** `useVirtualScrollOptimization`'s state: the range last computed and the scroll offset. */
  datatype ScrollState = ScrollState(range: P.Range, scrollTop: real)

  const InitialScroll := ScrollState(P.Range(0, 0), 0.0)

  /** `handleScroll`: store the offset and recompute the range with the shared formulas. */
  function HandleScroll(st: ScrollState, newScrollTop: real, count: nat, itemHeight: real, containerHeight: real, overscan: int): (r: ScrollState)
    requires itemHeight > 0.0
    ensures r.scrollTop == newScrollTop
    ensures r.range.start >= 0 && r.range.end <= count - 1
    ensures r.range == P.VisibleRange(newScrollTop, itemHeight, containerHeight, overscan, count)
  {
    ScrollState(P.VisibleRange(newScrollTop, itemHeight, containerHeight, overscan, count), newScrollTop)
  }

  /** What the hook renders from its state. */
  function Render<T>(items: seq<T>, itemHeight: real, st: ScrollState): (v: P.VirtualScroll<T>)
    ensures v.totalHeight == |items| as real * itemHeight
    ensures v.offsetY == st.range.start as real * itemHeight
    ensures 0 <= st.range.start <= st.range.end < |items| ==> v.visibleItems == items[st.range.start..st.range.end + 1]
  {
    P.VirtualScroll(P.JsSlice(items, st.range.start, st.range.end + 1), |items| as real * itemHeight, st.range.start as real * itemHeight)
  }

  /** After a scroll the optimized hook renders exactly what the plain virtual-scroll hook renders at that offset. */
  lemma ScrolledAgreesWithVirtualScroll<T>(items: seq<T>, itemHeight: real, containerHeight: real, overscan: int, st: ScrollState, newScrollTop: real)
    requires itemHeight > 0.0
    ensures Render(items, itemHeight, HandleScroll(st, newScrollTop, |items|, itemHeight, containerHeight, overscan)) ==
      P.UseVirtualScroll(items, itemHeight, containerHeight, overscan, newScrollTop)
  {
  }

  /** Before the first scroll event only the first item is rendered, whatever the container's height. */
  lemma FirstItemOnlyBeforeScroll<T>(items: seq<T>, itemHeight: real)
    requires |items| > 0
    ensures Render(items, itemHeight, InitialScroll).visibleItems == items[..1]
  {
  }
}

=== FILE: validation.dfy ===
/** Checks on the uploaded file and on the brand form, each producing messages in a fixed order. */
module Validation {
  import opened Wrappers
  import opened JsStrings
  import opened Types

  /** `validateFile`: size first, then type; valid exactly when there is no message. */
  function ValidateFile(f: FileInfo): (r: FileValidationResult)
    ensures r.isValid <==> r.errors == []
    ensures FileSizeMessage in r.errors <==> f.size > MaxFileSize
    ensures FileTypeMessage in r.errors <==> f.mimeType !in AllowedFileTypes
    ensures forall e :: e in r.errors ==> e == FileSizeMessage || e == FileTypeMessage
    ensures |r.errors| == 2 ==> r.errors == [FileSizeMessage, FileTypeMessage]
  {
    var errors := (if f.size > MaxFileSize then [FileSizeMessage] else [])
                + (if f.mimeType !in AllowedFileTypes then [FileTypeMessage] else []);
    FileValidationResult(|errors| == 0, errors)
  }

  /** The size limit is inclusive: exactly 15 MiB of an allowed type passes, one byte more does not. */
  lemma SizeLimitInclusive(name: string, mimeType: string)
    requires mimeType in AllowedFileTypes
    ensures ValidateFile(FileInfo(name, MaxFileSize, mimeType)).isValid
    ensures !ValidateFile(FileInfo(name, MaxFileSize + 1, mimeType)).isValid
  {
  }

  const DimensionsError := ValidationError("imageDimensions", "Please select image dimensions")
  const BrandNameError := ValidationError("brandName", "Brand name must be at least 2 characters long")
  const ProductNameError := ValidationError("productName", "Product name must be at least 2 characters long")
  const DescriptionError := ValidationError("productDescription", "Product description must be at least 10 characters long")
  const NoValuesError := ValidationError("brandValues", "Please provide at least one brand value")
  const ShortValueError := ValidationError("brandValues", "Each brand value must be at least 2 characters long")

  /** An optional field that was filled in (not blank) but whose raw, untrimmed length is below `min`. */
  predicate TooShort(s: string, min: nat) {
    !IsBlank(s) && |s| < min
  }

  /** The brand values as the validator reads them: comma-separated, trimmed, empty ones dropped. */
  function BrandValueList(s: string): (vs: seq<string>)
    ensures forall i :: 0 <= i < |vs| ==> IsToken(vs[i], {','})
  {
    ListValues(s, {','})
  }

  predicate HasShortValue(vs: seq<string>) {
    exists i :: 0 <= i < |vs| && |vs[i]| < 2
  }

  function Check(cond: bool, e: ValidationError): (r: seq<ValidationError>)
    ensures e in r <==> cond
    ensures forall x :: x in r ==> x == e
  {
    if cond then [e] else []
  }

  /** Position of a field in the form; messages come out in this order. */
  function FieldRank(field: string): nat {
    match field
    case "imageDimensions" => 0
    case "brandName" => 1
    case "productName" => 2
    case "productDescription" => 3
    case _ => 4
  }

  predicate InFieldOrder(es: seq<ValidationError>) {
    forall i, j :: 0 <= i < j < |es| ==> FieldRank(es[i].field) <= FieldRank(es[j].field)
  }

  /** The messages whose conditions hold, in field order. */
  function Assemble(dims: bool, name: bool, product: bool, desc: bool, noValues: bool, shortValue: bool): (r: seq<ValidationError>)
    ensures |r| <= 6
    ensures r == [] <==> !dims && !name && !product && !desc && !noValues && !shortValue
    ensures forall e :: e in r ==> e in {DimensionsError, BrandNameError, ProductNameError, DescriptionError, NoValuesError, ShortValueError}
  {
    Check(dims, DimensionsError) + Check(name, BrandNameError) + Check(product, ProductNameError) +
    Check(desc, DescriptionError) + Check(noValues, NoValuesError) + Check(shortValue, ShortValueError)
  }

  /** Each of the first three messages is present exactly when its condition holds. */
  lemma AssembledFirstThree(dims: bool, name: bool, product: bool, desc: bool, noValues: bool, shortValue: bool)
    ensures var r := Assemble(dims, name, product, desc, noValues, shortValue);
      && (DimensionsError in r <==> dims)
      && (BrandNameError in r <==> name)
      && (ProductNameError in r <==> product)
  {
    MessagesDistinct();
  }

  /** Each of the last three messages is present exactly when its condition holds. */
  lemma AssembledLastThree(dims: bool, name: bool, product: bool, desc: bool, noValues: bool, shortValue: bool)
    ensures var r := Assemble(dims, name, product, desc, noValues, shortValue);
      && (DescriptionError in r <==> desc)
      && (NoValuesError in r <==> noValues)
      && (ShortValueError in r <==> shortValue)
  {
    MessagesDistinct();
  }

  /** The assembled messages come out in field order. */
  lemma AssembledInFieldOrder(dims: bool, name: bool, product: bool, desc: bool, noValues: bool, shortValue: bool)
    ensures InFieldOrder(Assemble(dims, name, product, desc, noValues, shortValue))
  {
    var r0 := Check(dims, DimensionsError);
    var r1 := r0 + Check(name, BrandNameError);
    var r2 := r1 + Check(product, ProductNameError);
    var r3 := r2 + Check(desc, DescriptionError);
    var r4 := r3 + Check(noValues, NoValuesError);
    AppendInOrder(r0, Check(name, BrandNameError), 0);
    AppendInOrder(r1, Check(product, ProductNameError), 1);
    AppendInOrder(r2, Check(desc, DescriptionError), 2);
    AppendInOrder(r3, Check(noValues, NoValuesError), 3);
    AppendInOrder(r4, Check(shortValue, ShortValueError), 4);
  }

  /** `validateBrandInfo`. */
  function ValidateBrandInfo(b: BrandInfo): (r: seq<ValidationError>)
    ensures DimensionsError in r <==> b.imageDimensions == ""
    ensures BrandNameError in r <==> TooShort(b.brandName, 2)
    ensures ProductNameError in r <==> TooShort(b.productName, 2)
    ensures DescriptionError in r <==> TooShort(b.productDescription, 10)
    ensures NoValuesError in r <==> !IsBlank(b.brandValues) && BrandValueList(b.brandValues) == []
    ensures ShortValueError in r <==> !IsBlank(b.brandValues) && HasShortValue(BrandValueList(b.brandValues))
    ensures forall e :: e in r ==> e in {DimensionsError, BrandNameError, ProductNameError, DescriptionError, NoValuesError, ShortValueError}
    ensures InFieldOrder(r)
    ensures r == [] <==> (
      && b.imageDimensions != "" && !TooShort(b.brandName, 2) && !TooShort(b.productName, 2) && !TooShort(b.productDescription, 10)
      && (IsBlank(b.brandValues) || (BrandValueList(b.brandValues) != [] && !HasShortValue(BrandValueList(b.brandValues)))))
  {
    var vs := BrandValueList(b.brandValues);
    var filled := !IsBlank(b.brandValues);
    var c0, c1, c2 := b.imageDimensions == "", TooShort(b.brandName, 2), TooShort(b.productName, 2);
    var c3, c4, c5 := TooShort(b.productDescription, 10), filled && vs == [], filled && HasShortValue(vs);
    AssembledInFieldOrder(c0, c1, c2, c3, c4, c5);
    AssembledFirstThree(c0, c1, c2, c3, c4, c5);
    AssembledLastThree(c0, c1, c2, c3, c4, c5);
    Assemble(c0, c1, c2, c3, c4, c5)
  }

  /** The six messages are different (their texts even differ in length). */
  lemma MessagesDistinct()
    ensures |[DimensionsError, BrandNameError, ProductNameError, DescriptionError, NoValuesError, ShortValueError]| == 6
    ensures forall i, j :: 0 <= i < j < 6 ==>
      [DimensionsError, BrandNameError, ProductNameError, DescriptionError, NoValuesError, ShortValueError][i] !=
      [DimensionsError, BrandNameError, ProductNameError, DescriptionError, NoValuesError, ShortValueError][j]
  {
    var ms := [DimensionsError, BrandNameError, ProductNameError, DescriptionError, NoValuesError, ShortValueError];
    assert |ms[0].message| == 30 && |ms[1].message| == 45 && |ms[2].message| == 47;
    assert |ms[3].message| == 55 && |ms[4].message| == 39 && |ms[5].message| == 51;
  }

  predicate RanksAtMost(es: seq<ValidationError>, k: nat) {
    forall i :: 0 <= i < |es| ==> FieldRank(es[i].field) <= k
  }

  /** Appending messages of one rank no lower than everything before keeps the order. */
  lemma AppendInOrder(a: seq<ValidationError>, c: seq<ValidationError>, k: nat)
    requires InFieldOrder(a) && RanksAtMost(a, k)
    requires forall x :: x in c ==> FieldRank(x.field) == if k < 4 then k + 1 else 4
    requires |c| <= 1
    ensures InFieldOrder(a + c) && RanksAtMost(a + c, if k < 4 then k + 1 else 4)
  {
    var r := a + c;
    forall i, j | 0 <= i < j < |r| ensures FieldRank(r[i].field) <= FieldRank(r[j].field) {
      if j >= |a| {
        assert r[j] in c;
      }
    }
    forall i | 0 <= i < |r| ensures FieldRank(r[i].field) <= if k < 4 then k + 1 else 4 {
      if i >= |a| {
        assert r[i] in c;
      }
    }
  }

  /** The form as a reader of the messages would describe an acceptable one. */
  predicate Acceptable(b: BrandInfo) {
    && b.imageDimensions != ""
    && (IsBlank(b.brandName) || |b.brandName| >= 2)
    && (IsBlank(b.productName) || |b.productName| >= 2)
    && (IsBlank(b.productDescription) || |b.productDescription| >= 10)
    && (IsBlank(b.brandValues) ||
        (BrandValueList(b.brandValues) != [] && forall v :: v in BrandValueList(b.brandValues) ==> |v| >= 2))
  }

  /** `validateForm`: the brand-info messages, and nothing else. */
  function ValidateForm(b: BrandInfo): (r: seq<ValidationError>)
    ensures r == ValidateBrandInfo(b)
    ensures r == [] <==> Acceptable(b)
  {
    var vs := BrandValueList(b.brandValues);
    assert HasShortValue(vs) <==> !(forall v :: v in vs ==> |v| >= 2) by {
      if HasShortValue(vs) {
        var i :| 0 <= i < |vs| && |vs[i]| < 2;
        assert vs[i] in vs;
      }
    }
    ValidateBrandInfo(b)
  }

  /** An example: the length test is on the raw text, so a one-letter name padded with a space passes. */
  lemma UntrimmedLengthCounts()
    ensures |Trim(" a")| == 1
    ensures BrandNameError !in ValidateBrandInfo(BrandInfo(" a", "", "", "", "square"))
  {
    assert !IsSpace('a');
    assert Trim(" a") == "a" by {
      assert TrimStart(" a") == "a";
      TrimOfTrimmed("a");
    }
  }

  /** `formatFileSize` for zero; every other size goes through floating-point rounding. */
  function FormatZeroFileSize(bytes: int): (r: Option<string>)
    ensures r.Some? <==> bytes == 0
    ensures r.Some? ==> r.value == "0 Bytes"
  {
    if bytes == 0 then Some("0 Bytes") else None
  }
}

=== FILE: wrappers.dfy ===
/** Failure-compatible wrappers shared by every module of the model. */
module Wrappers {

  /** An optional value: an absent object key, a `null` field, an `undefined` argument. */
  datatype Option<+T> = None | Some(value: T) {

    predicate IsFailure() {
      None?
    }

    function PropagateFailure<U>(): Option<U>
      requires None?
    {
      None
    }

    function Extract(): T
      requires Some?
    {
      value
    }

    /** The value, or `default` when absent (JavaScript's `x ?? default`). */
    function GetOr(default: T): T {
      match this
      case Some(v) => v
      case None => default
    }
  }

  /** The outcome of an operation that may throw or reject. */
  datatype Result<+R, +E> = Success(value: R) | Failure(error: E) {

    predicate IsFailure() {
      Failure?
    }

    function PropagateFailure<U>(): Result<U, E>
      requires Failure?
    {
      Failure(error)
    }

    function Extract(): R
      requires Success?
    {
      value
    }
  }
}
